=== FILE: README.md ===
# hqrecorder core, modelled in Dafny

hqrecorder is an Android app that records several mono or stereo tracks from one multi-channel
input device into WAV files. This project models the integer and byte-level logic beneath its
Android plumbing, as immutable datatypes and pure functions, and proves properties of it:

- **Channels and masks** (`channel.dfy`, `channel_mask.dfy`, `unique_masks.dfy`,
  `device_mask.dfy`):
  - `Channel` numbering, ordering and `next`;
  - `ChannelMask` membership, subset and channel listing, and its text;
  - the `getUniqueMasksFor` filter over a device's offered masks;
  - the `combinedId` packing and ordering of a device and one of its masks.
- **WAV codec** (`little_endian.dfy`, `wav_format.dfy`, `wav_writer.dfy`, `audio.dfy`):
  - the 44-byte RIFF/WAVE header as both writer revisions emit it (format tag 1 for integer
    PCM, 3 for IEEE float);
  - the reader's header checks and verdicts;
  - the writer's 4096-byte buffer, its flushing and the back-patching of the size fields on close;
  - little-endian `Int`/`UShort` encoding;
  - extraction of one sample's bytes from an interleaved frame;
  - the integer and bit-pattern part of sample decoding;
  - the reading of a whole frame.
- **Capture loop** (`take_recorder.dfy`, `take_runner.dfy`), from `TakeRecorderRunnable`:
  - tracks located in the mask's frame;
  - the walk over the whole frames of a read;
  - each track's peak accumulators and the bytes it appends to its open take;
  - the `NEXT_TAKE` / `FINISH_TAKE` / `STOP_LISTENING` command step, taken from a
    first-in-first-out queue.
- **Session and retention** (`recording_service.dfy`, `take_mover.dfy`):
  - the `Initial` → `Configured` → `ListeningAndPossiblyRecording` state machine as a total
    function `Handle(service, command) → (service, response)`;
  - configuration validation and the choice of the smallest offered mask holding the tracks'
    channels;
  - retention ids, `tryRetainTake` and one sweep of the collecting thread;
  - the `TakeToMediaStoreMover` lifecycle MOVABLE → MOVED | DISCARDED over an abstract file
    system and media store.
- **Utilities** (`collections.dfy`, `spliterator.dfy`): `Map.inverse` and the index-range
  `FloatBufferSpliterator` over abstract elements.

Support modules:

- `int_types.dfy` models Kotlin's wrapping `Int`/`Long` arithmetic and the `UInt`/`Int`
  reinterpretations.
- `bit_strings.dfy` holds bit sequences and their unsigned reading.
- `text.dfy` renders decimals for the `toString`s.
- `wrappers.dfy` defines `Option` and `Result`; thrown exceptions become `Failure` values.

The model takes the operating system's answers as inputs:

- the input devices and whether the record permission is granted;
- the device the audio record was routed to;
- whether the listening thread is alive and recording;
- which files exist, and the media store's contents;
- the monotonic clock reading.

Kotlin `assert` and `check` are modelled as checked: a failed one is an error result.

Several members are not defined in the source files this model follows. Each is modelled under a
stated assumption:

- `Channel.maskForChannel` is `1 shl (number - 1)`. Kotlin's `shl` uses only the low five bits
  of the distance.
- `Channel.all` is channels 1..32, ascending.
- `ChannelMask.forChannels` is the `or` of the channels' bits.
- `contains(ChannelMask)` is the superset test.
- `minOrNull` over masks compares the signed `Int`.
- `RecordingConfig.channelMask` exists.
- A device id is an `Int`, compared as an integer.
- The service's `FinishTake(startNext)`, `executeCommandSync` and `UnsavedTakeResponse` come
  from a revision of `TakeRecorderRunnable.kt` other than the one modelled, and
  `StartNewTakeCommand.Response.Result.ALREADY_RECORDING` from a revision of
  `StartNewTakeCommand.kt` other than the one whose results are only `RECORDING` and
  `INVALID_STATE`. They appear as:
  - the abstract alive/recording flags of the listening state;
  - the mover the runnable hands back for a finished take, given with the command.
  - `ALREADY_RECORDING` as the `AlreadyRecording` answer to a new take.

## Model

All source paths are under `app/src/main/java/io/github/tmarsteel/hqrecorder/`; the table repeats the prefix so each cell is a complete path.

| member | source | states |
|---|---|---|
| Channels.NewChannel | app/src/main/java/io/github/tmarsteel/hqrecorder/recording/Channel.kt:4-9 | every `UInt` except 0 constructs a channel with that number; 0 fails the constructor's assertion |
| Channels.Compare | app/src/main/java/io/github/tmarsteel/hqrecorder/recording/Channel.kt:11-13 | the comparison is -1, 0 or 1; it is 0 exactly for equal channels and negative exactly when the first number is smaller |
| Channels.CompareIsTotalOrder | app/src/main/java/io/github/tmarsteel/hqrecorder/recording/Channel.kt:11-13 | `compareTo` is reflexive, antisymmetric, transitive and total |
| Channels.CoerceAtLeast | app/src/main/java/io/github/tmarsteel/hqrecorder/recording/Channel.kt:15-17 | the result is this channel or the other, numbered at least as high as both; a null other gives this channel |
| Channels.Next | app/src/main/java/io/github/tmarsteel/hqrecorder/recording/Channel.kt:19-21 | succeeds exactly below the `UInt` maximum, with number + 1 and comparing greater; at the maximum the wrapped 0 fails the assertion |
| Channels.FirstBeforeSecond | app/src/main/java/io/github/tmarsteel/hqrecorder/recording/Channel.kt:23-26 | `FIRST` is channel 1, `SECOND` is channel 2, and `FIRST < SECOND` |
| Channels.ChannelTextInjective | app/src/main/java/io/github/tmarsteel/hqrecorder/recording/Channel.kt:4 | the value class's generated text `Channel(number=n)` identifies the channel |
| ChannelMasks.Distance | app/src/main/java/io/github/tmarsteel/hqrecorder/recording/ChannelMask.kt:8 | the shift distance of a channel's bit lies in 0..31, and is number - 1 for channels 1..32 |
| ChannelMasks.ContainsIffBit | app/src/main/java/io/github/tmarsteel/hqrecorder/recording/ChannelMask.kt:8 | `contains(channel)` holds exactly when the mask's bit at the channel's distance is set |
| ChannelMasks.DistinctChannelBits | app/src/main/java/io/github/tmarsteel/hqrecorder/recording/ChannelMask.kt:8 | channels 1..32 have pairwise distinct bits |
| ChannelMasks.SubsetIffBits | app/src/main/java/io/github/tmarsteel/hqrecorder/recording/ChannelMask.kt:7 | `a isSubsetOf b` exactly when every bit set in `a` is set in `b` |
| ChannelMasks.SubsetIsPartialOrder | app/src/main/java/io/github/tmarsteel/hqrecorder/recording/ChannelMask.kt:7 | `isSubsetOf` is reflexive, transitive and antisymmetric, and mask 0 is a subset of every mask |
| ChannelMasks.SubsetIffChannelInclusion | app/src/main/java/io/github/tmarsteel/hqrecorder/recording/ChannelMask.kt:7-8 | `a isSubsetOf b` exactly when every channel of 1..32 that `a` contains, `b` contains too |
| ChannelMasks.Membership | app/src/main/java/io/github/tmarsteel/hqrecorder/recording/ChannelMask.kt:10 | for each channel of `Channel.all`, in order, whether the mask contains it |
| ChannelMasks.ChannelListSpec | app/src/main/java/io/github/tmarsteel/hqrecorder/recording/ChannelMask.kt:10 | `channels` yields exactly the channels whose bit is set, each once, in ascending order |
| ChannelMasks.ForChannelsExact | app/src/main/java/io/github/tmarsteel/hqrecorder/recording/RecordingService.kt:229 | a channel of 1..32 is in `forChannels(cs)` exactly when it is one of `cs` |
| ChannelMasks.ForChannelsThenChannels | app/src/main/java/io/github/tmarsteel/hqrecorder/recording/ChannelMask.kt:10 | `channels` inverts `forChannels`: the channels of the mask built from channels of 1..32 are exactly those channels |
| ChannelMasks.ToString | app/src/main/java/io/github/tmarsteel/hqrecorder/recording/ChannelMask.kt:12-19 | no contract of its own; its text is stated exactly by `ChannelMasks.ToStringListsChannels`, with `ChannelMasks.ToStringNamesChannel` and `ChannelMasks.ToStringSingular` |
| ChannelMasks.ToStringNamesChannel | app/src/main/java/io/github/tmarsteel/hqrecorder/recording/ChannelMask.kt:12-19 | the text names every channel of the mask |
| ChannelMasks.ToStringSingular | app/src/main/java/io/github/tmarsteel/hqrecorder/recording/ChannelMask.kt:14-17 | the text says "hardware channel" rather than "hardware channels" exactly when the mask holds one channel |
| ChannelMasks.ToStringListsChannels | app/src/main/java/io/github/tmarsteel/hqrecorder/recording/ChannelMask.kt:12-19 | for the ascending listing of exactly the mask's channels, one channel gives "hardware channel" and its text, two give "hardware channels a + b", and any other number gives "hardware channels" followed by all of them separated by ", " |
| UniqueMasks.SortDescending | app/src/main/java/io/github/tmarsteel/hqrecorder/recording/ChannelMask.kt:27 | `sortedByDescending` returns a permutation of its input, sorted largest key first |
| UniqueMasks.ProcessCovers | app/src/main/java/io/github/tmarsteel/hqrecorder/recording/ChannelMask.kt:27-32 | in any order, the loop keeps what it kept, adds only offered masks, and every mask it drops lies inside a kept one |
| UniqueMasks.StrictSubsetSmaller | app/src/main/java/io/github/tmarsteel/hqrecorder/recording/ChannelMask.kt:27-29 | a strict subset has the smaller unsigned bit pattern |
| UniqueMasks.ProcessIsMaximal | app/src/main/java/io/github/tmarsteel/hqrecorder/recording/ChannelMask.kt:27-32 | with supersets met first, the loop keeps exactly the masks that are no strict subset of another |
| UniqueMasks.UniqueMasksAsWritten | app/src/main/java/io/github/tmarsteel/hqrecorder/recording/ChannelMask.kt:25-35 | no contract of its own; `getUniqueMasksFor` as written, sorted by the signed value; stated by `UniqueMasks.LargestMaskKept`, `UniqueMasks.UniqueMasksAsWrittenCover`, `UniqueMasks.UniqueMasksAsWrittenWithoutSignBit` and `UniqueMasks.UniqueMasksAsWrittenKeepsSubset` |
| UniqueMasks.LargestMaskKept | app/src/main/java/io/github/tmarsteel/hqrecorder/recording/ChannelMask.kt:27-31 | as written, the offered mask with the largest `Int` is always returned |
| UniqueMasks.UniqueMasksAsWrittenCover | app/src/main/java/io/github/tmarsteel/hqrecorder/recording/ChannelMask.kt:25-35 | as written, only offered masks are returned, and every offered mask lies inside a returned one |
| UniqueMasks.UniqueMasksAsWrittenWithoutSignBit | app/src/main/java/io/github/tmarsteel/hqrecorder/recording/ChannelMask.kt:27-31 | as written, with no mask using bit 31 the result is exactly the maximal offered masks |
| UniqueMasks.UniqueMasksAsWrittenKeepsSubset | app/src/main/java/io/github/tmarsteel/hqrecorder/recording/ChannelMask.kt:27-31 | as written, for masks {1} and {1, 32} both are returned, although the first is a strict subset of the second |
| UniqueMasks.UniqueMasks | app/src/main/java/io/github/tmarsteel/hqrecorder/recording/ChannelMask.kt:25-35 | no contract of its own; `getUniqueMasksFor` sorted by the unsigned pattern; `UniqueMasks.UniqueMasksAreMaximal` states that it returns exactly the maximal offered masks |
| UniqueMasks.UniqueMasksAreMaximal | app/src/main/java/io/github/tmarsteel/hqrecorder/recording/ChannelMask.kt:25-35 | sorted by the unsigned bit pattern, the filter returns exactly the maximal offered masks |
| DeviceMasks.CombinedId | app/src/main/java/io/github/tmarsteel/hqrecorder/ui/settings/AudioDeviceWithChannelMask.kt:14 | no contract of its own; stated by `DeviceMasks.CombinedIdValue`, `DeviceMasks.CombinedIdRecoversParts`, `DeviceMasks.CombinedIdInjective` and `DeviceMasks.CombinedIdIgnoresDeviceForNegativeMask` |
| DeviceMasks.CombinedIdValue | app/src/main/java/io/github/tmarsteel/hqrecorder/ui/settings/AudioDeviceWithChannelMask.kt:14 | `combinedId` is id * 2^31 + mask when bit 31 of the mask is clear; a negative mask's sign extension covers the id, leaving just the mask |
| DeviceMasks.CombinedIdRecoversParts | app/src/main/java/io/github/tmarsteel/hqrecorder/ui/settings/AudioDeviceWithChannelMask.kt:14 | for a mask without bit 31, the low 31 bits of `combinedId` are the mask and the rest is the id's shifted part |
| DeviceMasks.CombinedIdInjective | app/src/main/java/io/github/tmarsteel/hqrecorder/ui/settings/AudioDeviceWithChannelMask.kt:14 | two entries whose masks lack bit 31 share a `combinedId` exactly when they are equal |
| DeviceMasks.CombinedIdIgnoresDeviceForNegativeMask | app/src/main/java/io/github/tmarsteel/hqrecorder/ui/settings/AudioDeviceWithChannelMask.kt:14 | with bit 31 set, every device gets the same `combinedId` for that mask |
| DeviceMasks.CompareInt | app/src/main/java/io/github/tmarsteel/hqrecorder/ui/settings/AudioDeviceWithChannelMask.kt:21 | `Int.compareTo` is -1, 0 or 1, negative exactly when the first is smaller, 0 exactly on equality |
| DeviceMasks.CompareTo | app/src/main/java/io/github/tmarsteel/hqrecorder/ui/settings/AudioDeviceWithChannelMask.kt:20-25 | no contract of its own; stated by `DeviceMasks.CompareByDeviceFirst`, `DeviceMasks.CompareOnSameDevice`, `DeviceMasks.CompareAntisymmetric` and `DeviceMasks.CompareIgnoresHigherChannels` |
| DeviceMasks.CompareByDeviceFirst | app/src/main/java/io/github/tmarsteel/hqrecorder/ui/settings/AudioDeviceWithChannelMask.kt:21-24 | different devices are ordered by id, whatever their masks |
| DeviceMasks.LowestChannelIsMinimum | app/src/main/java/io/github/tmarsteel/hqrecorder/ui/settings/AudioDeviceWithChannelMask.kt:25 | `channels.min()` is the mask's lowest channel, and fails exactly on the empty mask |
| DeviceMasks.CompareOnSameDevice | app/src/main/java/io/github/tmarsteel/hqrecorder/ui/settings/AudioDeviceWithChannelMask.kt:25 | on one device, the lowest channels decide the order; the comparison fails when either mask is empty |
| DeviceMasks.CompareAntisymmetric | app/src/main/java/io/github/tmarsteel/hqrecorder/ui/settings/AudioDeviceWithChannelMask.kt:20-26 | where both comparisons succeed they have opposite signs |
| DeviceMasks.CompareIgnoresHigherChannels | app/src/main/java/io/github/tmarsteel/hqrecorder/ui/settings/AudioDeviceWithChannelMask.kt:25 | channel 1 alone and channels 1 and 2 on one device compare as 0 although they differ |
| LittleEndian.EncodeUShort | app/src/main/java/io/github/tmarsteel/hqrecorder/recording/wav_files.kt:312-315 | `writeLEUShort` emits two bytes, the low one first, whose base-256 value is the input |
| LittleEndian.EncodeIntUnsigned | app/src/main/java/io/github/tmarsteel/hqrecorder/recording/wav_files.kt:317-322 | the four bytes `writeLEInt` emits, read least significant first, are the value's 32-bit pattern |
| LittleEndian.DecodeUShort | app/src/main/java/io/github/tmarsteel/hqrecorder/recording/wav_files.kt:324-328 | `readLEUShort` has the first byte as its low digit and the second as its high digit |
| LittleEndian.DecodeInt | app/src/main/java/io/github/tmarsteel/hqrecorder/recording/wav_files.kt:330-337 | `readLEInt` is non-negative exactly when the fourth byte is below 0x80 |
| LittleEndian.UShortRoundTrip | app/src/main/java/io/github/tmarsteel/hqrecorder/recording/wav_files.kt:312-328 | writing a `UShort` and reading it back gives the value |
| LittleEndian.UShortBytesRoundTrip | app/src/main/java/io/github/tmarsteel/hqrecorder/recording/wav_files.kt:312-328 | every two bytes are the encoding of the value they read as |
| LittleEndian.IntRoundTrip | app/src/main/java/io/github/tmarsteel/hqrecorder/recording/wav_files.kt:317-337 | writing an `Int` and reading it back gives the value; the older writer's `writeLE(Int)` emits the same bytes |
| LittleEndian.IntBytesRoundTrip | app/src/main/java/io/github/tmarsteel/hqrecorder/recording/wav_files.kt:317-337 | every four bytes are the encoding of the value they read as |
| WavFormat.FormatTag | app/src/main/java/io/github/tmarsteel/hqrecorder/recording/wav_files.kt:23-29 | the tag is 1 or 3, and 3 exactly for float |
| WavFormat.BitsPerSample | app/src/main/java/io/github/tmarsteel/hqrecorder/recording/wav_files.kt:31-37 | bit depths are among 8, 16, 24 and 32 |
| WavFormat.TablesAgree | app/src/main/java/io/github/tmarsteel/hqrecorder/recording/WavFileWriter.kt:92-106 | both tables have the same five encodings as keys |
| WavFormat.FrameSizeIsWholeBytes | app/src/main/java/io/github/tmarsteel/hqrecorder/recording/wav_files.kt:44-46 | `computeFrameSize` is the channel count times the fewest whole bytes holding the bits, with no wrap-around |
| WavFormat.SigilsAreAscii | app/src/main/java/io/github/tmarsteel/hqrecorder/recording/wav_files.kt:39-42 | the sigils are the ASCII bytes of `RIFF`, `WAVE`, `fmt ` and `data` |
| WavFormat.HeaderLayout | app/src/main/java/io/github/tmarsteel/hqrecorder/recording/wav_files.kt:74-85 | each header field sits at its offset and reads back as written, whatever follows the header |
| WavFormat.LegacyLiteralsAreFields | app/src/main/java/io/github/tmarsteel/hqrecorder/recording/WavFileWriter.kt:35-42 | the older writer's literals spell the bytes the current writer writes field by field |
| WavFormat.CurrentFormat | app/src/main/java/io/github/tmarsteel/hqrecorder/recording/wav_files.kt:70-82 | the current writer's block align is `computeFrameSize(bits, channels)`, with 2 channels exactly for stereo |
| WavFormat.LegacyFormat | app/src/main/java/io/github/tmarsteel/hqrecorder/recording/WavFileWriter.kt:32-40 | the older writer's block align is one sample's whole bytes, whatever the channel count |
| WavFormat.RevisionsDifferOnlyForStereo | app/src/main/java/io/github/tmarsteel/hqrecorder/recording/WavFileWriter.kt:33 | the revisions emit the same mono headers and different stereo headers |
| WavFormat.CheckSigil | app/src/main/java/io/github/tmarsteel/hqrecorder/recording/wav_files.kt:339-354 | `readAndCheckSigil` succeeds exactly when the sigil's bytes come next; otherwise the file is invalid |
| WavFormat.Skip | app/src/main/java/io/github/tmarsteel/hqrecorder/recording/wav_files.kt:363-382 | `forceSkip(n)` succeeds exactly when n bytes remain (a non-positive n skips nothing); otherwise the file is invalid |
| WavFormat.ReadInt | app/src/main/java/io/github/tmarsteel/hqrecorder/recording/wav_files.kt:330-361 | `readLEInt` succeeds exactly when four bytes remain; otherwise the file is invalid |
| WavFormat.ReadUShort | app/src/main/java/io/github/tmarsteel/hqrecorder/recording/wav_files.kt:324-328 | `readLEUShort` succeeds exactly when two bytes remain; otherwise the file is invalid |
| WavFormat.EncodingOf | app/src/main/java/io/github/tmarsteel/hqrecorder/recording/wav_files.kt:199-205 | a depth is supported exactly when it is 8, 16, 24 or 32 and integer, or 32 and float |
| WavFormat.ReadHeader | app/src/main/java/io/github/tmarsteel/hqrecorder/recording/wav_files.kt:173-212 | no contract of its own; the `init` block of the WAV reader; stated by `WavFormat.ReadHeaderVerdict`, `WavFormat.ReadHeaderIgnoresSizeFields`, `WavFormat.CurrentHeaderRoundTrip` and `WavFormat.LegacyStereoHeaderRejected` |
| WavFormat.ReadHeaderVerdict | app/src/main/java/io/github/tmarsteel/hqrecorder/recording/wav_files.kt:173-212 | the reader's verdict, in order: a bad sigil, early end or header size below 16 is invalid; a tag or depth outside the table is unsupported; a block align other than `computeFrameSize` is invalid; otherwise it accepts |
| WavFormat.EncodingRoundTrip | app/src/main/java/io/github/tmarsteel/hqrecorder/recording/wav_files.kt:193-206 | the reader maps each supported encoding's tag and depth back to that encoding and its sample size |
| WavFormat.ReadHeaderIgnoresSizeFields | app/src/main/java/io/github/tmarsteel/hqrecorder/recording/wav_files.kt:176-191 | files that differ only in the two size fields read the same |
| WavFormat.WrittenHeaderVerdict | app/src/main/java/io/github/tmarsteel/hqrecorder/recording/wav_files.kt:208-211 | a header written from a supported chunk is accepted exactly when its block align is `computeFrameSize`'s |
| WavFormat.CurrentHeaderRoundTrip | app/src/main/java/io/github/tmarsteel/hqrecorder/recording/wav_files.kt:173-212 | the reader accepts every header the current writer emits, recovering channels, encoding, rate and frame size |
| WavFormat.LegacyStereoHeaderRejected | app/src/main/java/io/github/tmarsteel/hqrecorder/recording/WavFileWriter.kt:33 | the reader rejects every stereo header of the older writer as invalid |
| WavFormat.LegacyMonoHeaderAccepted | app/src/main/java/io/github/tmarsteel/hqrecorder/recording/WavFileWriter.kt:25-43 | mono headers of the older writer are the current writer's and are accepted |
| WavWriter.NewWriter | app/src/main/java/io/github/tmarsteel/hqrecorder/recording/wav_files.kt:54-58 | the constructor succeeds exactly for the five encodings with a format tag, giving an open, empty writer |
| WavWriter.AssurePreamble | app/src/main/java/io/github/tmarsteel/hqrecorder/recording/wav_files.kt:63-86 | fails exactly once closed; otherwise the writer holds the header, written only the first time |
| WavWriter.Put | app/src/main/java/io/github/tmarsteel/hqrecorder/recording/wav_files.kt:88-98 | appends the data to what the writer holds, flushing exactly when no more than capacity/80 bytes stay free |
| WavWriter.WriteBuffered | app/src/main/java/io/github/tmarsteel/hqrecorder/recording/wav_files.kt:104-119 | the overflow split appends exactly the data, in order |
| WavWriter.WriteSampleData | app/src/main/java/io/github/tmarsteel/hqrecorder/recording/wav_files.kt:104-119 | fails exactly once closed; otherwise the writer holds the header followed by all data passed so far |
| WavWriter.WritesConcatenate | app/src/main/java/io/github/tmarsteel/hqrecorder/recording/wav_files.kt:104-119 | two writes hold the same bytes as one write of the concatenated data |
| WavWriter.FileLagsByLessThanABuffer | app/src/main/java/io/github/tmarsteel/hqrecorder/recording/wav_files.kt:88-98 | after every write, the file is a prefix of what the writer holds, short of it by less than capacity minus capacity/80 bytes |
| WavWriter.WriteAt | app/src/main/java/io/github/tmarsteel/hqrecorder/recording/wav_files.kt:127-130 | `seek` then `write` overwrites in place and extends the file with zeros over any gap |
| WavWriter.Close | app/src/main/java/io/github/tmarsteel/hqrecorder/recording/wav_files.kt:121-132 | fails exactly once closed; otherwise the writer is closed |
| WavWriter.CloseTwiceFails | app/src/main/java/io/github/tmarsteel/hqrecorder/recording/wav_files.kt:122-124 | a second `close` fails its check |
| WavWriter.CloseBackpatches | app/src/main/java/io/github/tmarsteel/hqrecorder/recording/wav_files.kt:121-132 | closing keeps the length and every byte except the size fields, which read back as the file size minus 8 and minus 44, modulo 2^32 |
| WavWriter.CloseWithoutDataIsUnreadable | app/src/main/java/io/github/tmarsteel/hqrecorder/recording/wav_files.kt:121-132 | as written, a writer closed without data leaves a file with no header, which the reader rejects |
| WavWriter.CloseWithHeader | app/src/main/java/io/github/tmarsteel/hqrecorder/recording/wav_files.kt:121-132 | closing after `assurePreamble` fails exactly once closed, and the closed writer has its header |
| WavWriter.ClosedHeaderReadsAsWritten | app/src/main/java/io/github/tmarsteel/hqrecorder/recording/wav_files.kt:126-130 | after back-patching the reader sees the header it saw before |
| WavWriter.ClosedDataAndSizes | app/src/main/java/io/github/tmarsteel/hqrecorder/recording/wav_files.kt:126-130 | after `close` the data follows the header unchanged, and the size fields count the bytes after offset 8 and the data bytes |
| WavWriter.ClosedRecordingIsReadable | app/src/main/java/io/github/tmarsteel/hqrecorder/recording/wav_files.kt:63-132 | every closed recording of the current writer is accepted by the reader with the writer's settings, and its samples follow the header unchanged |
| WavWriter.LegacyStereoRecordingIsRejected | app/src/main/java/io/github/tmarsteel/hqrecorder/recording/WavFileWriter.kt:25-43 | every stereo recording of the older writer is rejected by the reader, whatever it holds |
| Audio.BytesPerSecond | app/src/main/java/io/github/tmarsteel/hqrecorder/util/audio.kt:23 | `bytesPerSecond` agrees with frame size times rate modulo 2^32 |
| Audio.BytesPerSecondExact | app/src/main/java/io/github/tmarsteel/hqrecorder/util/audio.kt:23 | for frames of at most two 4-byte samples and rates below 2^28, `bytesPerSecond` is the exact product |
| Audio.HeaderByteRateIsBytesPerSecond | app/src/main/java/io/github/tmarsteel/hqrecorder/recording/wav_files.kt:82 | the byte rate in the current writer's header is the format's `bytesPerSecond` |
| Audio.SampleSizeInBytes | app/src/main/java/io/github/tmarsteel/hqrecorder/recording/TakeRecorderRunnable.kt:356-362 | the sample size is defined exactly for the five supported encodings, and lies between 1 and 4 |
| Audio.SampleSizeMatchesBits | app/src/main/java/io/github/tmarsteel/hqrecorder/recording/TakeRecorderRunnable.kt:356-362 | the sample size table is the WAV bit depth in whole bytes (1/2/3/4/4), and a mono frame is one sample |
| Audio.CopyBytes | app/src/main/java/io/github/tmarsteel/hqrecorder/util/audio.kt:188-190 | the copy loop fails only on an index outside the buffer or the destination, and keeps the destination's length |
| Audio.CopyBytesSpec | app/src/main/java/io/github/tmarsteel/hqrecorder/util/audio.kt:188-190 | the copy succeeds exactly when every byte can be read and stored, and then puts the sample's bytes at the destination offset, leaving the rest |
| Audio.ExtractSampleBytesAsWritten | app/src/main/java/io/github/tmarsteel/hqrecorder/util/audio.kt:182-186 | as written, underflow is reported exactly when `remaining()` is below the index of the sample's last byte |
| Audio.ExtractAsWrittenGuard | app/src/main/java/io/github/tmarsteel/hqrecorder/util/audio.kt:182-190 | as written, a sample one byte short passes the guard and fails on the absolute get instead |
| Audio.ExtractAsWrittenOffByOne | app/src/main/java/io/github/tmarsteel/hqrecorder/util/audio.kt:183-184 | a concrete request the as-written guard admits although its sample is one byte short |
| Audio.ExtractSampleBytes | app/src/main/java/io/github/tmarsteel/hqrecorder/util/audio.kt:175-191 | with the corrected guard, underflow is reported exactly when the sample does not end within the remaining bytes |
| Audio.ExtractCopiesSample | app/src/main/java/io/github/tmarsteel/hqrecorder/util/audio.kt:175-191 | a request underflows exactly when the sample does not fit; otherwise exactly its bytes go to the destination offset and the rest is unchanged |
| Audio.ExtractWithinLimit | app/src/main/java/io/github/tmarsteel/hqrecorder/util/audio.kt:188-190 | a sample inside the limit is copied to the destination |
| Audio.ExtractPastLimit | app/src/main/java/io/github/tmarsteel/hqrecorder/util/audio.kt:182-186 | a sample reaching past the limit underflows |
| Audio.DecodeSampleAsWritten | app/src/main/java/io/github/tmarsteel/hqrecorder/util/audio.kt:140-148 | as written, a 24-bit sample of size 3 fails the branch's assertion |
| Audio.DecodeSample | app/src/main/java/io/github/tmarsteel/hqrecorder/util/audio.kt:126-167 | no contract of its own; the corrected `convertSampleToFloat32`; stated by `Audio.DecodeSampleSpec`, `Audio.DecodeReadsOnlyItsBytes` and the per-width round-trip lemmas |
| Audio.DecodeSampleSpec | app/src/main/java/io/github/tmarsteel/hqrecorder/util/audio.kt:126-167 | decoding fails exactly on an unsupported encoding or on an integer sample of the wrong size; a float keeps its bit pattern; each integer sample lies in its width's range |
| Audio.SampleTableAgreesWithDecoder | app/src/main/java/io/github/tmarsteel/hqrecorder/util/audio.kt:126-167 | every size the table gives is accepted by the corrected decoder and rejected for 24 bits by the as-written one |
| Audio.DecodeReadsOnlyItsBytes | app/src/main/java/io/github/tmarsteel/hqrecorder/util/audio.kt:126-167 | a sample's decoding depends only on its own bytes |
| Audio.Sample8IsSigned | app/src/main/java/io/github/tmarsteel/hqrecorder/util/audio.kt:128-131 | an 8-bit sample reads as the signed byte |
| Audio.Sample16RoundTrip | app/src/main/java/io/github/tmarsteel/hqrecorder/util/audio.kt:132-139 | the little-endian bytes of a 16-bit value decode back to it |
| Audio.Sample24RoundTrip | app/src/main/java/io/github/tmarsteel/hqrecorder/util/audio.kt:140-148 | the three low bytes of a 24-bit pattern decode back to it |
| Audio.Sample24NotSignExtended | app/src/main/java/io/github/tmarsteel/hqrecorder/util/audio.kt:140-148 | a 24-bit sample is never negative: -1 reads as 2^24 - 1 |
| Audio.Sample32RoundTrip | app/src/main/java/io/github/tmarsteel/hqrecorder/util/audio.kt:149-157 | the little-endian bytes of a 32-bit value decode back to it |
| Audio.ReadFrame | app/src/main/java/io/github/tmarsteel/hqrecorder/recording/wav_files.kt:286-302 | a frame that reads has one sample per channel |
| Audio.ReadChannelsSpec | app/src/main/java/io/github/tmarsteel/hqrecorder/recording/wav_files.kt:294-298 | the channel loop fails exactly when a channel fails, with the first failure; otherwise entry k is channel k's reading |
| Audio.ReadFrameSpec | app/src/main/java/io/github/tmarsteel/hqrecorder/recording/wav_files.kt:286-302 | a frame reads exactly when each of its channels does, and then entry c is channel c's |
| Audio.ReadFrameDecodesEachSlice | app/src/main/java/io/github/tmarsteel/hqrecorder/recording/wav_files.kt:286-302 | with the corrected 24-bit decode and underflow guard, a whole frame of a supported encoding always reads, channel c being the decoding of the frame's c-th sample slice |
| Audio.AsWrittenReaderAgreesOffPacked24 | app/src/main/java/io/github/tmarsteel/hqrecorder/recording/wav_files.kt:286-302 | the reader as written, with its own guard and decode, reads a whole frame exactly as the corrected reader does for every encoding other than packed 24-bit |
| Audio.AsWrittenReaderRejectsPacked24 | app/src/main/java/io/github/tmarsteel/hqrecorder/util/audio.kt:141 | the reader as written fails its assertion on every whole frame of a packed 24-bit file |
| Audio.TryAdvanceFrame | app/src/main/java/io/github/tmarsteel/hqrecorder/recording/wav_files.kt:286-302 | no contract of its own; the reader's `tryAdvance` as written; stated by `Audio.TryAdvanceFrameSpec` |
| Audio.TryAdvanceFrameSpec | app/src/main/java/io/github/tmarsteel/hqrecorder/recording/wav_files.kt:286-302 | one step of the stream reader ends the stream exactly when less than a frame remains; otherwise it yields each channel's decoded sample and consumes exactly one frame, except that packed 24-bit fails the decoder's assertion |
| TakeRecorder.IndexOf | app/src/main/java/io/github/tmarsteel/hqrecorder/recording/TakeRecorderRunnable.kt:51-52 | `indexOf` is the first position holding the channel, or -1 exactly when none does |
| TakeRecorder.InitTrackLocatesChannels | app/src/main/java/io/github/tmarsteel/hqrecorder/recording/TakeRecorderRunnable.kt:44-55 | a track's sample index is its channel's position among the mask's channels (-1 if absent); the right index exists exactly for stereo tracks |
| TakeRecorder.AppendToTake | app/src/main/java/io/github/tmarsteel/hqrecorder/recording/TakeRecorderRunnable.kt:204 | appending changes only the take, keeps the track valid, and never opens or closes a take |
| TakeRecorder.ExtractFrame | app/src/main/java/io/github/tmarsteel/hqrecorder/recording/TakeRecorderRunnable.kt:193-203 | extracting a frame keeps the copy buffer's size |
| TakeRecorder.UseDataFromFrame | app/src/main/java/io/github/tmarsteel/hqrecorder/recording/TakeRecorderRunnable.kt:193-205 | a successful frame keeps the track valid, its channels' indices and copy buffer size, and whether a take is open |
| TakeRecorder.UseFrameForAll | app/src/main/java/io/github/tmarsteel/hqrecorder/recording/TakeRecorderRunnable.kt:80-82 | a successful frame keeps every track valid and the same track |
| TakeRecorder.FramesFrom | app/src/main/java/io/github/tmarsteel/hqrecorder/recording/TakeRecorderRunnable.kt:78-88 | a successful walk keeps every track valid and the same track |
| TakeRecorder.FramesFromMisaligned | app/src/main/java/io/github/tmarsteel/hqrecorder/recording/TakeRecorderRunnable.kt:79 | a remainder that is not a whole number of frames ends the loop with the alignment error |
| TakeRecorder.FramesFromFails | app/src/main/java/io/github/tmarsteel/hqrecorder/recording/TakeRecorderRunnable.kt:80-82 | a failed sample access ends the loop with that error |
| TakeRecorder.FramesFromContinues | app/src/main/java/io/github/tmarsteel/hqrecorder/recording/TakeRecorderRunnable.kt:83-84 | a whole frame that is not the last is followed by the next |
| TakeRecorder.FramesFromEnds | app/src/main/java/io/github/tmarsteel/hqrecorder/recording/TakeRecorderRunnable.kt:85-86 | the last whole frame ends the loop |
| TakeRecorder.ProcessBuffer | app/src/main/java/io/github/tmarsteel/hqrecorder/recording/TakeRecorderRunnable.kt:72-88 | the imperative buffer loop computes the recursive frame walk from position 0 to the read count |
| TakeRecorder.WholeFrameExtracted | app/src/main/java/io/github/tmarsteel/hqrecorder/recording/TakeRecorderRunnable.kt:193-203 | for a whole frame, the copy buffer starts with the track's samples, and each peak takes in its channel's sample |
| TakeRecorder.UseWholeFrame | app/src/main/java/io/github/tmarsteel/hqrecorder/recording/TakeRecorderRunnable.kt:193-205 | a track takes in a whole frame: peaks updated, and an open take grows by the track's samples |
| TakeRecorder.UseWholeFrameForAll | app/src/main/java/io/github/tmarsteel/hqrecorder/recording/TakeRecorderRunnable.kt:80-82 | every track takes in a whole frame, in order |
| TakeRecorder.SamplesFitCopyBuffer | app/src/main/java/io/github/tmarsteel/hqrecorder/recording/TakeRecorderRunnable.kt:187 | a frame's samples for a track fit its 4- or 8-byte copy buffer, and fill it only for 4-byte samples |
| TakeRecorder.WholeCopyBufferAppendsStaleBytes | app/src/main/java/io/github/tmarsteel/hqrecorder/recording/TakeRecorderRunnable.kt:187-205 | as written, a frame appends the whole copy buffer (4 or 8 bytes), more than the track's samples unless they are 4 bytes wide |
| TakeRecorder.SucceedsFrom | app/src/main/java/io/github/tmarsteel/hqrecorder/recording/TakeRecorderRunnable.kt:78-88 | an aligned buffer of whole frames is processed without error |
| TakeRecorder.PeaksFrom | app/src/main/java/io/github/tmarsteel/hqrecorder/recording/TakeRecorderRunnable.kt:78-88 | from a frame on, a track's peaks take in every remaining frame |
| TakeRecorder.TakesFrom | app/src/main/java/io/github/tmarsteel/hqrecorder/recording/TakeRecorderRunnable.kt:78-88 | from a frame on, a track's open take records every remaining frame |
| TakeRecorder.WholeFramesProcessed | app/src/main/java/io/github/tmarsteel/hqrecorder/recording/TakeRecorderRunnable.kt:72-88 | for a read of n ≥ 1 whole frames, every track takes in each frame once, in order: peaks are the maxima, and an open take grows by the track's samples of every frame |
| TakeRecorder.MisalignedReadFails | app/src/main/java/io/github/tmarsteel/hqrecorder/recording/TakeRecorderRunnable.kt:79 | a read that is not a whole number of frames fails the `check` at once |
| TakeRecorder.EmptyReadChangesNothing | app/src/main/java/io/github/tmarsteel/hqrecorder/recording/TakeRecorderRunnable.kt:78 | an empty read changes nothing |
| TakeRunner.FinishAllValid | app/src/main/java/io/github/tmarsteel/hqrecorder/recording/TakeRecorderRunnable.kt:282-285 | finishing keeps every track valid and leaves none with a take |
| TakeRunner.StartAllValid | app/src/main/java/io/github/tmarsteel/hqrecorder/recording/TakeRecorderRunnable.kt:287-293 | starting keeps every track valid and gives each a take |
| TakeRunner.NoOpenTakesNoFiles | app/src/main/java/io/github/tmarsteel/hqrecorder/recording/TakeRecorderRunnable.kt:282-285 | finishing tracks without takes hands on no files |
| TakeRunner.FinishedFileCount | app/src/main/java/io/github/tmarsteel/hqrecorder/recording/TakeRecorderRunnable.kt:282-285 | one file is handed on per open take |
| TakeRunner.FreshTakeIsEmpty | app/src/main/java/io/github/tmarsteel/hqrecorder/recording/TakeRecorderRunnable.kt:287-293 | a fresh take holds no sample data and has not yet written its header, so its file is just the header space |
| TakeRunner.FinishedTakeIsReadable | app/src/main/java/io/github/tmarsteel/hqrecorder/recording/TakeRecorderRunnable.kt:282-285 | a finished take that has written its header is a file the reader accepts, describing the track's layout, and its data follows the header |
| TakeRunner.UnfedTakeIsUnreadable | app/src/main/java/io/github/tmarsteel/hqrecorder/recording/TakeRecorderRunnable.kt:325-326 | a take closed before any sample reached it is only the header space, and the reader rejects it as not a WAV file |
| TakeRunner.TakeFinishedBeforeAnyFrameIsUnreadable | app/src/main/java/io/github/tmarsteel/hqrecorder/recording/TakeRecorderRunnable.kt:93-106 | `NEXT_TAKE` followed at once by `FINISH_TAKE` hands on one file per track, and the reader rejects every one of them |
| TakeRunner.Step | app/src/main/java/io/github/tmarsteel/hqrecorder/recording/TakeRecorderRunnable.kt:93-113 | no contract of its own; the command handling after each read; stated by `TakeRunner.StepKeepsTracks`, `TakeRunner.StepTakesIffRecording`, `TakeRunner.StepTakes`, `TakeRunner.StepStops` and `TakeRunner.TakeFinishedBeforeAnyFrameIsUnreadable` |
| TakeRunner.StepKeepsTracks | app/src/main/java/io/github/tmarsteel/hqrecorder/recording/TakeRecorderRunnable.kt:93-113 | every command keeps the tracks valid and changes nothing but their takes |
| TakeRunner.StepTakesIffRecording | app/src/main/java/io/github/tmarsteel/hqrecorder/recording/TakeRecorderRunnable.kt:93-106 | after `FINISH_TAKE` or `NEXT_TAKE` every track has a take exactly while recording; the other commands keep that invariant |
| TakeRunner.StepTakes | app/src/main/java/io/github/tmarsteel/hqrecorder/recording/TakeRecorderRunnable.kt:93-106 | `FINISH_TAKE` stops recording and hands on every open take's file as the writer's `close` leaves it, with no header written in passing; `NEXT_TAKE` does the same and then records on fresh takes; other commands hand on nothing |
| TakeRunner.StepStops | app/src/main/java/io/github/tmarsteel/hqrecorder/recording/TakeRecorderRunnable.kt:107-113 | `STOP_LISTENING` ends the loop exactly when not recording, changing nothing; no command changes nothing; no other command ends the loop |
| TakeRunner.ResetPeaksValid | app/src/main/java/io/github/tmarsteel/hqrecorder/recording/TakeRecorderRunnable.kt:76 | resetting zeroes the peaks, keeps every track valid and changes nothing else |
| TakeRunner.SendCommandQueues | app/src/main/java/io/github/tmarsteel/hqrecorder/recording/TakeRecorderRunnable.kt:143-146 | `sendCommand` fails exactly once the loop has stopped, and otherwise queues the command last |
| TakeRunner.StartLocatesTracks | app/src/main/java/io/github/tmarsteel/hqrecorder/recording/TakeRecorderRunnable.kt:57-60 | an encoding outside the size table stops `run` before the loop, unchanged; otherwise every track is located in the mask's frame |
| TakeRunner.NegativeReadFails | app/src/main/java/io/github/tmarsteel/hqrecorder/recording/TakeRecorderRunnable.kt:66-71 | a negative read ends the loop with `ERROR`, tracks and takes unchanged |
| TakeRunner.MisalignedReadEndsLoop | app/src/main/java/io/github/tmarsteel/hqrecorder/recording/TakeRecorderRunnable.kt:79 | a read that is not a whole number of frames ends the loop with `ERROR`, takes left open |
| TakeRunner.Iterate | app/src/main/java/io/github/tmarsteel/hqrecorder/recording/TakeRecorderRunnable.kt:64-113 | one pass of the listen loop keeps every track valid; what the pass does is stated by `TakeRunner.NegativeReadFails`, `TakeRunner.MisalignedReadEndsLoop`, `TakeRunner.IterateTakesOldestCommand`, `TakeRunner.IteratePeaksAreThisRead`, `TakeRunner.IterateRecordsRead` and `TakeRunner.RecordedTakeIsReadable` |
| TakeRunner.IterateTakesOldestCommand | app/src/main/java/io/github/tmarsteel/hqrecorder/recording/TakeRecorderRunnable.kt:93 | commands are handled first in, first out |
| TakeRunner.SentCommandWaitsItsTurn | app/src/main/java/io/github/tmarsteel/hqrecorder/recording/TakeRecorderRunnable.kt:143-146 | a command sent to a waiting queue stays behind the others after the next iteration |
| TakeRunner.IteratePeaksAreThisRead | app/src/main/java/io/github/tmarsteel/hqrecorder/recording/TakeRecorderRunnable.kt:76-88 | after a read of whole frames, each peak is the largest sample magnitude of its channel in that read alone |
| TakeRunner.ProcessedRead | app/src/main/java/io/github/tmarsteel/hqrecorder/recording/TakeRecorderRunnable.kt:76-88 | after a read of n whole frames, peaks reset first, every track has taken in every frame |
| TakeRunner.IterateRecordsRead | app/src/main/java/io/github/tmarsteel/hqrecorder/recording/TakeRecorderRunnable.kt:78-88 | while recording with no command waiting, every open take grows by the track's samples of the read, in frame order |
| TakeRunner.RecordedTakeIsReadable | app/src/main/java/io/github/tmarsteel/hqrecorder/recording/TakeRecorderRunnable.kt:93-106 | a take opened by `NEXT_TAKE`, fed a read of whole frames and finished by the next command is a readable WAV file holding exactly the track's samples |
| TakeMover.Existing | app/src/main/java/io/github/tmarsteel/hqrecorder/recording/TakeToMediaStoreMover.kt:34-35 | the filter keeps exactly the take's files that exist, in order |
| TakeMover.Entries | app/src/main/java/io/github/tmarsteel/hqrecorder/recording/TakeToMediaStoreMover.kt:56-68 | one completed media store entry per moved file, with its display name and the file it was copied from, in order |
| TakeMover.ExistingDistinct | app/src/main/java/io/github/tmarsteel/hqrecorder/recording/TakeToMediaStoreMover.kt:34-35 | filtering keeps paths distinct |
| TakeMover.MoveEachMoves | app/src/main/java/io/github/tmarsteel/hqrecorder/recording/TakeToMediaStoreMover.kt:55-71 | moving distinct, existing files copies each one completely and then deletes it |
| TakeMover.AssureFilesAreInMediaStore | app/src/main/java/io/github/tmarsteel/hqrecorder/recording/TakeToMediaStoreMover.kt:27-37 | no contract of its own; stated by `TakeMover.AssureRefusedOnlyWhenDiscarded`, `TakeMover.AssureMovesExistingFiles` and `TakeMover.AssureIsIdempotent` |
| TakeMover.AssureRefusedOnlyWhenDiscarded | app/src/main/java/io/github/tmarsteel/hqrecorder/recording/TakeToMediaStoreMover.kt:28-30 | `assureFilesAreInMediaStore` throws exactly on a discarded take, and then changes nothing |
| TakeMover.AssureMovesExistingFiles | app/src/main/java/io/github/tmarsteel/hqrecorder/recording/TakeToMediaStoreMover.kt:27-37 | otherwise the take becomes MOVED, every existing file is copied in order and deleted, and missing files are skipped |
| TakeMover.AssureIsIdempotent | app/src/main/java/io/github/tmarsteel/hqrecorder/recording/TakeToMediaStoreMover.kt:32-36 | a second call after a completed one changes nothing |
| TakeMover.MoveEachOnlyDeletes | app/src/main/java/io/github/tmarsteel/hqrecorder/recording/TakeToMediaStoreMover.kt:55-71 | moving only ever removes files |
| TakeMover.MovedFilesAreGone | app/src/main/java/io/github/tmarsteel/hqrecorder/recording/TakeToMediaStoreMover.kt:70 | after moving without an exception none of the files exists |
| TakeMover.Discard | app/src/main/java/io/github/tmarsteel/hqrecorder/recording/TakeToMediaStoreMover.kt:42-49 | no contract of its own; stated by `TakeMover.DiscardRefusedOnlyWhenMoved` and `TakeMover.DiscardDeletesEveryFile` |
| TakeMover.DiscardRefusedOnlyWhenMoved | app/src/main/java/io/github/tmarsteel/hqrecorder/recording/TakeToMediaStoreMover.kt:43-45 | `discard` throws exactly on a moved take, and then changes nothing |
| TakeMover.DiscardDeletesEveryFile | app/src/main/java/io/github/tmarsteel/hqrecorder/recording/TakeToMediaStoreMover.kt:42-49 | otherwise the take becomes DISCARDED and exactly its files are deleted; the media store is untouched, and repeating changes nothing more |
| TakeMover.FinalStates | app/src/main/java/io/github/tmarsteel/hqrecorder/recording/TakeToMediaStoreMover.kt:81-86 | MOVED and DISCARDED are final, and nothing returns to MOVABLE |
| TakeMover.ShouldDiscardIffExpired | app/src/main/java/io/github/tmarsteel/hqrecorder/recording/TakeToMediaStoreMover.kt:51-53 | a take is due exactly when more than its lifetime has passed since it was finished |
| TakeMover.ShouldDiscardAsWritten | app/src/main/java/io/github/tmarsteel/hqrecorder/recording/TakeToMediaStoreMover.kt:51-53 | no contract of its own; `shouldDiscard` as written, the sum wrapping as a `Long`; stated by `TakeMover.AsWrittenAgreesWithoutOverflow` and `TakeMover.AsWrittenDiscardsFreshTakeNearWrap` |
| TakeMover.AsWrittenAgreesWithoutOverflow | app/src/main/java/io/github/tmarsteel/hqrecorder/recording/TakeToMediaStoreMover.kt:52 | without `Long` overflow the source's sum comparison agrees with the elapsed-time one |
| TakeMover.AsWrittenDiscardsFreshTakeNearWrap | app/src/main/java/io/github/tmarsteel/hqrecorder/recording/TakeToMediaStoreMover.kt:52 | as written, a take finished near the largest clock reading is discarded a nanosecond later |
| RecordingService.FindDevice | app/src/main/java/io/github/tmarsteel/hqrecorder/recording/RecordingService.kt:223-224 | the device found is the first one in the list that satisfies `isConfigValidFor`; none is found exactly when no device does |
| RecordingService.TrackChannels | app/src/main/java/io/github/tmarsteel/hqrecorder/recording/RecordingService.kt:229 | every track's left and right channels are among the desired channels |
| RecordingService.ChooseMaskIsSmallestSuperset | app/src/main/java/io/github/tmarsteel/hqrecorder/recording/RecordingService.kt:230-233 | the chosen mask is offered, contains the desired mask and is not larger than any other that does; none exactly when no offered mask does |
| RecordingService.ConfigureChoosesSmallestMask | app/src/main/java/io/github/tmarsteel/hqrecorder/recording/RecordingService.kt:222-244 | with no valid device or no fitting mask the answer is INVALID and the service is initial; otherwise OK, configured with the smallest fitting mask |
| RecordingService.Handle | app/src/main/java/io/github/tmarsteel/hqrecorder/recording/RecordingService.kt:172-209 | no contract of its own; `handleMessage` dispatching to the current state; stated per state by the `RecordingService` lemmas below, and across all commands by `RecordingService.HandleKeepsIdsAscending` and `RecordingService.HandleKeepsNoneMoved` |
| RecordingService.InitialRefusesSession | app/src/main/java/io/github/tmarsteel/hqrecorder/recording/RecordingService.kt:246-260 | before configuration, listening answers NOT_CONFIGURED and take commands INVALID_STATE, unchanged |
| RecordingService.ConfiguredRefusesTakes | app/src/main/java/io/github/tmarsteel/hqrecorder/recording/RecordingService.kt:342-350 | a configured service answers INVALID_STATE to take commands, unchanged |
| RecordingService.ConfiguredListenOutcomes | app/src/main/java/io/github/tmarsteel/hqrecorder/recording/RecordingService.kt:292-340 | STOP answers NOT_LISTENING, a missing permission NO_PERMISSION, a record routed elsewhere DEVICE_NOT_AVAILABLE (released), each staying configured; otherwise LISTENING |
| RecordingService.RecordingRefusesInterruptions | app/src/main/java/io/github/tmarsteel/hqrecorder/recording/RecordingService.kt:398-492 | while recording, reconfiguring, stopping and starting a take are refused, unchanged |
| RecordingService.ListeningIdleOutcomes | app/src/main/java/io/github/tmarsteel/hqrecorder/recording/RecordingService.kt:439-507 | listening without recording: finish answers INVALID_STATE and START answers LISTENING, unchanged; STOP returns to configured; a new take starts recording while the listening thread is alive, and fails with the thread-dead error, state unchanged, once it has ended |
| RecordingService.NewTakeNeedsLiveThread | app/src/main/java/io/github/tmarsteel/hqrecorder/recording/RecordingService.kt:482-491 | a new take answers RECORDING exactly when the listening thread is alive and not recording; an ended thread gives the thread-dead error; any other answer leaves the state unchanged |
| RecordingService.ListeningReconfigures | app/src/main/java/io/github/tmarsteel/hqrecorder/recording/RecordingService.kt:398-413 | listening without recording, a new configuration answers as configuring does, leaving the service initial on failure and listening again only when the platform allows |
| RecordingService.FinishTakeRetainsHandedBack | app/src/main/java/io/github/tmarsteel/hqrecorder/recording/RecordingService.kt:494-507 | finishing a recorded take stops recording and retains the handed-back take under a fresh id, which the response carries |
| RecordingService.StopRequests | app/src/main/java/io/github/tmarsteel/hqrecorder/recording/RecordingService.kt:509-526 | unbinding is ignored while recording, otherwise stops and asks to stop the service; a forced stop first moves the handed-back take, and only an exception from that keeps listening |
| RecordingService.Lookup | app/src/main/java/io/github/tmarsteel/hqrecorder/recording/RecordingService.kt:157 | a retained mover is found exactly for a retained id |
| RecordingService.RemoveForgetsOnlyId | app/src/main/java/io/github/tmarsteel/hqrecorder/recording/RecordingService.kt:157 | removing an id forgets it and nothing else, keeping ids ascending |
| RecordingService.Insert | app/src/main/java/io/github/tmarsteel/hqrecorder/recording/RecordingService.kt:468 | `putIfAbsent` adds exactly the new id |
| RecordingService.AddRetainableTake | app/src/main/java/io/github/tmarsteel/hqrecorder/recording/RecordingService.kt:465-472 | no contract of its own; stated by `RecordingService.AddRetainableTakeAllocatesFreshId` and `RecordingService.AddRetainableTakeStallsAfterWrap` |
| RecordingService.AddRetainableTakeAllocatesFreshId | app/src/main/java/io/github/tmarsteel/hqrecorder/recording/RecordingService.kt:465-472 | until ids wrap, the new id is one above the largest retained (0 when none), was free, and now leads to the mover, other ids unchanged |
| RecordingService.AddRetainableTakeStallsAfterWrap | app/src/main/java/io/github/tmarsteel/hqrecorder/recording/RecordingService.kt:465-472 | once `Int.MAX_VALUE` is retained, the candidate wraps to `Int.MIN_VALUE`, which is taken, so no id is found |
| RecordingService.TryRetainTake | app/src/main/java/io/github/tmarsteel/hqrecorder/recording/RecordingService.kt:156-167 | no contract of its own; stated by `RecordingService.TryRetainTakeRetainsOnce` |
| RecordingService.TryRetainTakeRetainsOnce | app/src/main/java/io/github/tmarsteel/hqrecorder/recording/RecordingService.kt:156-167 | an unknown id answers false, unchanged; a known one is removed, and a take not discarded is moved and answers true |
| RecordingService.Unexpired | app/src/main/java/io/github/tmarsteel/hqrecorder/recording/RecordingService.kt:138-145 | the kept takes are exactly the retained ones that the mover's own `finishedAt + lifetime < now` test, in wrapping `Long` arithmetic, does not declare due |
| RecordingService.Sweep | app/src/main/java/io/github/tmarsteel/hqrecorder/recording/RecordingService.kt:136-154 | no contract of its own; one pass of the sweeping thread; stated by `RecordingService.SweepDiscardsExactlyExpired` and `RecordingService.SweepDiscardsFreshTakeNearWrap` |
| RecordingService.SweepDiscardsExactlyExpired | app/src/main/java/io/github/tmarsteel/hqrecorder/recording/RecordingService.kt:136-154 | a sweep keeps exactly the takes the mover's wrapping test does not declare due, in order, and deletes exactly the files of the others |
| RecordingService.SweepKeepsIdsAscending | app/src/main/java/io/github/tmarsteel/hqrecorder/recording/RecordingService.kt:136-154 | the sweeping thread, the map's other writer, keeps only ids that were retained and keeps them ascending, as the skip-list map's ordered keys require |
| RecordingService.SweepKeepsNoneMoved | app/src/main/java/io/github/tmarsteel/hqrecorder/recording/RecordingService.kt:136-154 | a sweep keeps only retained takes, so it never leaves a MOVED take retained |
| RecordingService.ExpiredIffLifetimeElapsed | app/src/main/java/io/github/tmarsteel/hqrecorder/recording/TakeToMediaStoreMover.kt:51-53 | while `finishedAt + lifetime` does not overflow, the sweep's test declares a take due exactly when more than its lifetime has elapsed |
| RecordingService.SweepDiscardsFreshTakeNearWrap | app/src/main/java/io/github/tmarsteel/hqrecorder/recording/RecordingService.kt:138-145 | a take finished 10 ns before `Long.MAX_VALUE` is deleted by a sweep only 1 ns later, because the sum wraps |
| RecordingService.HandleKeepsIdsAscending | app/src/main/java/io/github/tmarsteel/hqrecorder/recording/RecordingService.kt:135 | every command keeps the retained takes in ascending id order, as the skip-list map does |
| RecordingService.HandleKeepsNoneMoved | app/src/main/java/io/github/tmarsteel/hqrecorder/recording/RecordingService.kt:156-167 | no retained take is ever in the MOVED state after any command, given that a finished take is handed back MOVABLE: retaining removes a take before moving it |
| Collections.Inverse | app/src/main/java/io/github/tmarsteel/hqrecorder/util/collections.kt:3-19 | no contract of its own; stated by `Collections.InverseKeys`, `Collections.InverseOfInjective`, `Collections.DefaultHandlerRefusesDuplicates` and `Collections.ConflictKeepsHandlersChoice` |
| Collections.InverseKeys | app/src/main/java/io/github/tmarsteel/hqrecorder/util/collections.kt:7-17 | when every step succeeds, the result's keys are those of `into` plus every value of the source |
| Collections.InverseOfInjective | app/src/main/java/io/github/tmarsteel/hqrecorder/util/collections.kt:9-17 | for distinct values not yet in `into`, each value maps to its key and `into`'s entries are kept |
| Collections.DefaultHandlerRefusesDuplicates | app/src/main/java/io/github/tmarsteel/hqrecorder/util/collections.kt:4-6 | with the default handler the inversion completes exactly when the values are distinct and new to `into`; otherwise it throws for a repeated value |
| Collections.ConflictKeepsHandlersChoice | app/src/main/java/io/github/tmarsteel/hqrecorder/util/collections.kt:10-16 | a repeated value stores the key the handler chooses from the earlier and the later key |
| Spliterators.Half | app/src/main/java/io/github/tmarsteel/hqrecorder/util/FloatBufferSpliterator.kt:37 | `Int` division by 2 leaves a remainder of magnitude at most 1 that takes the sign of the dividend, i.e. it truncates toward zero |
| Spliterators.HalfIsSymmetric | app/src/main/java/io/github/tmarsteel/hqrecorder/util/FloatBufferSpliterator.kt:37 | halving commutes with negation, agrees with floor division for non-negative values and rounds odd negative values up rather than down |
| Spliterators.EstimateSize | app/src/main/java/io/github/tmarsteel/hqrecorder/util/FloatBufferSpliterator.kt:16-18 | `estimateSize` is limit - position, wrapped as an `Int`: unchanged within the `Int` range, less 2^32 above it and plus 2^32 below it |
| Spliterators.TryAdvance | app/src/main/java/io/github/tmarsteel/hqrecorder/util/FloatBufferSpliterator.kt:20-29 | no contract of its own; stated by `Spliterators.TryAdvanceTakesFirst` and `Spliterators.DrainYieldsRemaining` |
| Spliterators.TryAdvanceTakesFirst | app/src/main/java/io/github/tmarsteel/hqrecorder/util/FloatBufferSpliterator.kt:20-29 | `tryAdvance` returns false and changes nothing exactly when nothing remains; otherwise it yields the first remaining element and one fewer remains |
| Spliterators.DrainYieldsRemaining | app/src/main/java/io/github/tmarsteel/hqrecorder/util/FloatBufferSpliterator.kt:20-29 | advancing until false yields exactly the covered elements, in order |
| Spliterators.TrySplitAsWritten | app/src/main/java/io/github/tmarsteel/hqrecorder/util/FloatBufferSpliterator.kt:31-40 | no contract of its own; `trySplit` as written; stated by `Spliterators.AsWrittenPartitionsEarly` and `Spliterators.AsWrittenSplitRepeatsElements` |
| Spliterators.AsWrittenPartitionsEarly | app/src/main/java/io/github/tmarsteel/hqrecorder/util/FloatBufferSpliterator.kt:31-40 | as written, while position ≤ limit/2 the split partitions the remaining range |
| Spliterators.AsWrittenSplitRepeatsElements | app/src/main/java/io/github/tmarsteel/hqrecorder/util/FloatBufferSpliterator.kt:36-39 | as written, at position 6 of limit 8 the new spliterator covers 4..8 and the old one reports -2 elements |
| Spliterators.TrySplit | app/src/main/java/io/github/tmarsteel/hqrecorder/util/FloatBufferSpliterator.kt:31-40 | no contract of its own; `trySplit` at the remaining range's midpoint; `Spliterators.SplitPartitions` states that it partitions the range |
| Spliterators.SplitPartitions | app/src/main/java/io/github/tmarsteel/hqrecorder/util/FloatBufferSpliterator.kt:31-40 | splitting at the midpoint refuses exactly below two elements, and otherwise yields two non-empty halves that cover the range in order, without overlap, sizes differing by at most one |

## Left out

- User interface, the Parcelable/`Message` marshalling of commands and responses, status
  subscribers and status messages, notifications, and the foreground-service lifecycle
  (`onCreate`, `onStartCommand`, `onDestroy`). The response enums are re-declared as datatypes.
- Float arithmetic: the scaling of samples to `Float.MAX_VALUE`, decibel text and
  `loadPercentage`. A sample's peak is modelled as the magnitude of its integer or bit-pattern
  value. A float sample's magnitude is its raw pattern, not the IEEE value.
- Thread mechanics: the collecting thread's start, sleep, interrupt and join; the 50 ms sleep
  of the listen loop; the blocking queue's synchronisation. One sweep is a pure function, and
  the listen loop is one iteration at a time.
- `NonBlockingThreadRemoteControl.kt`, the coroutine communicators, `FloatCollectors`, Gson
  and database helpers: they are cross-thread, IPC or storage plumbing.
- Media store URIs, content values and file descriptors. Existing files are a set of
  paths, and the media store is a sequence of entries naming the display name and source file. Temp file names
  and `TIMESTAMP_FORMAT` are left out.
- The private copies of `convertSampleToFloat32` and `extractSampleBytes` in
  `TakeRecorderRunnable.kt` (lines 211-252 and 264-280). They repeat the guard and the 24-bit
  assertion of `util/audio.kt`, so the capture loop uses the shared `Audio` definitions,
  corrected as under Findings.
- Only the FloatNormalizedSampleSpliterator's `tryAdvance` is modelled from the reader's
  stream; its `trySplit` and `InputStream` buffering are left out.
- RecordingService.AddRetainableTakeStallsAfterWrap: `addRetainableTake` spins for ever once
  the ids have wrapped. The model returns no id instead of diverging.
- TakeRunner.Iterate: its own contract states only that tracks stay valid. What one iteration
  does is stated by the `TakeRunner` lemmas about it. When a sample access fails part-way
  through a buffer, the model returns the tracks as they were before the buffer, peaks reset. The source has already written the
  earlier frames to each open take. Nothing can observe them, because the loop ends with
  `ERROR` and those takes are never closed.
- TakeRecorder.ExtractFrame: its own contract states only the copy buffer's size. The samples
  it extracts are stated by `TakeRecorder.WholeFrameExtracted`.
- Audio.ReadFrame: its own contract states only the number of samples. Their values are stated
  by `Audio.ReadFrameSpec` and `Audio.ReadFrameDecodesEachSlice`. It uses the corrected 24-bit
  decode and underflow guard; the reader's stream step as written is `Audio.TryAdvanceFrame`.
- TakeRunner.FinishedTakeIsReadable: promises a readable file only for a take that has written
  its header. A take closed before its first frame is not readable, as
  `TakeRunner.UnfedTakeIsUnreadable` states.
- RecordingService.Unexpired: the kept takes are those the source's wrapping test keeps. They are
  exactly the takes whose lifetime has not elapsed only while `finishedAt + lifetime` does not
  overflow (`RecordingService.ExpiredIffLifetimeElapsed`).
- RecordingService.SweepDiscardsExactlyExpired: "expired" is the source's wrapping test, so near
  `Long.MAX_VALUE` a fresh take is deleted (`RecordingService.SweepDiscardsFreshTakeNearWrap`).
- Kotlin's `assert` runs only when JVM assertions are enabled. The model always checks it,
  which is what the source's authors wrote it for.
- The capture loop appends the track's samples per frame, as the corrected
  `TakeRecorder.UseWholeFrame` states. The as-written append of the whole copy buffer is kept
  only in `TakeRecorder.WholeCopyBufferAppendsStaleBytes`.

## Findings

The runner's close and the service's sweep follow the source as written, so the `close` and
`shouldDiscard` findings below are reachable in the model (`TakeRunner.TakeFinishedBeforeAnyFrameIsUnreadable`,
`RecordingService.SweepDiscardsFreshTakeNearWrap`); the corrected members state what the authors
intended. The stream reader as written (`Audio.TryAdvanceFrame`) fails on packed 24-bit files.

| source | as written | input that shows it | evidently intended | confidence | as-written member | corrected member |
|---|---|---|---|---|---|---|
| app/src/main/java/io/github/tmarsteel/hqrecorder/recording/WavFileWriter.kt:33 | the older writer's block align is `(bits + 7) / 8`, one sample | any stereo recording, e.g. 16-bit stereo: block align 2 where `computeFrameSize` gives 4 | block align of a whole frame, `channels * bytes per sample`, as wav_files.kt:72 computes | high; not executed | WavFormat.LegacyStereoHeaderRejected | WavFormat.CurrentHeaderRoundTrip |
| app/src/main/java/io/github/tmarsteel/hqrecorder/recording/TakeRecorderRunnable.kt:187 | each frame appends the whole copy buffer, 4 bytes mono or 8 bytes stereo | a 16-bit mono track: 4 bytes per frame where the header announces 2 | append `sampleSize` bytes per channel of the track | high; not executed | TakeRecorder.WholeCopyBufferAppendsStaleBytes | TakeRecorder.WholeFramesProcessed |
| app/src/main/java/io/github/tmarsteel/hqrecorder/recording/ChannelMask.kt:27 | masks sorted by signed `Int`, so a mask with channel 32 comes last | masks `1` and `0x8000_0001`: both are returned although `1` is a strict subset | sort by the unsigned bit pattern, so supersets come first | high; not executed | UniqueMasks.UniqueMasksAsWrittenKeepsSubset | UniqueMasks.UniqueMasksAreMaximal |
| app/src/main/java/io/github/tmarsteel/hqrecorder/util/FloatBufferSpliterator.kt:37 | the split point is `limit / 2`, ignoring the position | position 6, limit 8: the new spliterator covers 4..8 and the old one reports -2 elements | split at `position + (limit - position) / 2` | high; not executed | Spliterators.AsWrittenSplitRepeatsElements | Spliterators.SplitPartitions |
| app/src/main/java/io/github/tmarsteel/hqrecorder/recording/wav_files.kt:121-132 | `close` back-patches without calling `assurePreamble` | a writer closed with no data: the file is zeros and two size fields, and the reader rejects it | an empty recording is still a valid WAV file with its header | medium; not executed | WavWriter.CloseWithoutDataIsUnreadable | WavWriter.ClosedRecordingIsReadable |
| app/src/main/java/io/github/tmarsteel/hqrecorder/util/audio.kt:141 | the 24-bit branch asserts a sample size of 2 | any 24-bit sample, whose size in the table is 3 | assert a sample size of 3 | medium (the assertion runs only when JVM assertions are enabled); not executed | Audio.SampleTableAgreesWithDecoder | Audio.DecodeSampleSpec |
| app/src/main/java/io/github/tmarsteel/hqrecorder/util/audio.kt:183-184 | underflow when `remaining() < indexOfLast` | a 3-byte frame and sample 0 of size 4: `remaining()` 3 is not below `indexOfLast` 3, so the guard passes and the get of byte 3 fails | underflow when `remaining() < indexOfFirst + size` | high; not executed | Audio.ExtractAsWrittenOffByOne | Audio.ExtractCopiesSample |
| app/src/main/java/io/github/tmarsteel/hqrecorder/recording/TakeToMediaStoreMover.kt:52 | `finishedAt + lifetime < now` in wrapping `Long` arithmetic | `finishedAt` within 15 s of `Long.MAX_VALUE`: the sum wraps negative and a fresh take is due a nanosecond later | compare the elapsed time, `now - finishedAt > lifetime` | low (the monotonic clock starts near boot); not executed | TakeMover.AsWrittenDiscardsFreshTakeNearWrap | TakeMover.ShouldDiscardIffExpired |

=== FILE: audio.dfy ===
/**
 * The sample helpers of util/audio.kt (duplicated privately in TakeRecorderRunnable.kt):
 * `bytesPerSecond`, `extractSampleBytes`, which copies one sample out of an interleaved frame,
 * and the integer/bit-pattern part of `convertSampleToFloat32`. The scaling of a sample to a
 * `Float` is floating point and is not modelled; a decoded sample is the integer the scaling
 * starts from (or the bit pattern of a float sample).
 */
module Audio {
  import opened IntTypes
  import opened Wrappers
  import opened LittleEndian
  import opened WavFormat

  /** The JVM exceptions these helpers can end in. */
  datatype AudioError =
    | BufferUnderflow         // the explicit `BufferUnderflowException`
    | IndexOutOfBounds        // an absolute `ByteBuffer.get` outside [0, limit)
    | ArrayIndexOutOfBounds   // a `ByteArray` access outside the array
    | AssertionFailed         // a failed Kotlin `assert`
    | UnsupportedFormat       // the `else` branch's `RuntimeException`

  /** `AudioFormat.bytesPerSecond`: the frame size times the sample rate, as an `Int` product. */
  function BytesPerSecond(frameSize: i32, sampleRate: i32): (r: i32)
    ensures (r - frameSize * sampleRate) % TWO_32 == 0
  {
    WrapI32(frameSize * sampleRate)
  }

  /** The byte rate the current writer puts into the header is the format's `bytesPerSecond`. */
  lemma HeaderByteRateIsBytesPerSecond(stereo: bool, encoding: int, sampleRate: i32)
    requires Supported(encoding)
    ensures var f := CurrentFormat(stereo, encoding, sampleRate);
      f.byteRate == BytesPerSecond(f.blockAlign, sampleRate)
  {
    var f := CurrentFormat(stereo, encoding, sampleRate);
    assert f.byteRate == WrapI32(sampleRate * f.blockAlign);
    assert sampleRate * f.blockAlign == f.blockAlign * sampleRate;
  }

  /** For every real format (at most 2 channels of 4 bytes, a rate below 2^28) nothing wraps. */
  lemma BytesPerSecondExact(frameSize: i32, sampleRate: i32)
    requires 0 <= frameSize <= 8 && 0 <= sampleRate < 0x1000_0000
    ensures BytesPerSecond(frameSize, sampleRate) == frameSize * sampleRate
  {
  }

  /** `SAMPLE_SIZE_IN_BYTES_BY_ENCODING`. */
  function SampleSizeInBytes(encoding: int): (r: Option<int>)
    ensures r.Some? <==> Supported(encoding)
    ensures r.Some? ==> 1 <= r.value <= 4
  {
    if encoding == ENCODING_PCM_8BIT then Some(1)
    else if encoding == ENCODING_PCM_16BIT then Some(2)
    else if encoding == ENCODING_PCM_24BIT_PACKED then Some(3)
    else if encoding == ENCODING_PCM_32BIT || encoding == ENCODING_PCM_FLOAT then Some(4)
    else None
  }

  /** The sample size table is the WAV bit depth in whole bytes, and a mono frame is one sample. */
  lemma SampleSizeMatchesBits(encoding: int)
    ensures SampleSizeInBytes(encoding).Some? <==> BitsPerSample(encoding).Some?
    ensures SampleSizeInBytes(encoding).Some? ==>
      && 8 * SampleSizeInBytes(encoding).value == BitsPerSample(encoding).value
      && SampleSizeInBytes(encoding).value == ComputeFrameSize(BitsPerSample(encoding).value, 1)
  {
    TablesAgree(encoding);
  }

  /**
   * A `java.nio.ByteBuffer` over `data`: the absolute `get(i)` reads `data[i]` for
   * `0 <= i < limit`; `remaining()` is `limit - position`.
   */
  datatype ByteBuffer = ByteBuffer(data: seq<u8>, position: int, limit: int)
  {
    predicate Valid() {
      0 <= position <= limit <= |data| < TWO_31
    }

    function Remaining(): int {
      limit - position
    }
  }

  /** `sampleIndexInFrame * sampleSizeInBytes`. */
  function IndexOfFirst(index: i32, size: i32): i32 {
    WrapI32(index * size)
  }

  /** `indexOfFirst + sampleSizeInBytes - 1`, evaluated left to right in `Int`. */
  function IndexOfLast(index: i32, size: i32): i32 {
    WrapI32(WrapI32(IndexOfFirst(index, size) + size) - 1)
  }

  /** `compoundFrame.position() + indexOfFirst + byteIndex`, evaluated left to right in `Int`. */
  function SourceIndex(frame: ByteBuffer, first: i32, j: int): i32 {
    WrapI32(WrapI32(frame.position + first) + j)
  }

  /** Byte `j` of the sample can be read from the frame and stored into an array of `dstLength`. */
  predicate Copyable(frame: ByteBuffer, first: i32, dstLength: int, dstOff: i32, j: int) {
    && 0 <= SourceIndex(frame, first, j) < frame.limit
    && DestinationFits(dstLength, dstOff, j)
  }

  /** `dstOff + j`, as an `Int`, is an index of an array of `dstLength`. */
  predicate DestinationFits(dstLength: int, dstOff: i32, j: int) {
    0 <= WrapI32(dstOff + j) < dstLength
  }

  /** The byte an absolute `get` of sample byte `j` returns (0 when the get would fail). */
  function SourceByte(frame: ByteBuffer, first: i32, j: int): u8
    requires frame.Valid()
  {
    var i := SourceIndex(frame, first, j);
    if 0 <= i < frame.limit then frame.data[i] else 0
  }

  /** An `Int` index computed from a sum below 2^32 is in range exactly when the sum itself is. */
  lemma WrappedIndex(x: int, n: int)
    requires -TWO_31 <= x < TWO_32 && n <= TWO_31
    ensures (0 <= WrapI32(x) < n) <==> (0 <= x < n)
    ensures 0 <= x < n ==> WrapI32(x) == x
  {
    if x >= TWO_31 {
      assert x % TWO_32 == x;
    }
  }

  /**
   * The `for (byteIndex in j until sampleSizeInBytes)` copy loop: each byte is fetched with an
   * absolute `get` and stored into `dst`; the first out-of-range access ends it.
   */
  function CopyBytes(frame: ByteBuffer, first: i32, size: i32, dst: seq<u8>, dstOff: i32, j: nat)
    : (r: Result<seq<u8>, AudioError>)
    requires frame.Valid() && |dst| < TWO_31
    decreases size - j
    ensures r.Failure? ==> r.error == IndexOutOfBounds || r.error == ArrayIndexOutOfBounds
    ensures r.Success? ==> |r.value| == |dst|
  {
    if j >= size then Success(dst)
    else
      var s := SourceIndex(frame, first, j);
      var d := WrapI32(dstOff + j);
      if !(0 <= s < frame.limit) then Failure(IndexOutOfBounds)
      else if !(0 <= d < |dst|) then Failure(ArrayIndexOutOfBounds)
      else
        WrappedIndex(dstOff + j, |dst|);
        CopyBytes(frame, first, size, dst[d := frame.data[s]], dstOff, j + 1)
  }

  /**
   * The copy loop succeeds exactly when every remaining byte can be read and stored, and then
   * holds the sample's bytes at `dstOff + j..` and `dst` elsewhere.
   */
  lemma {:induction false} CopyBytesSpec(frame: ByteBuffer, first: i32, size: i32, dst: seq<u8>, dstOff: i32, j: nat)
    requires frame.Valid() && |dst| < TWO_31
    decreases size - j
    ensures var r := CopyBytes(frame, first, size, dst, dstOff, j);
      && (r.Success? <==> forall k :: j <= k < size ==> Copyable(frame, first, |dst|, dstOff, k))
      && (r.Success? ==> forall d :: 0 <= d < |dst| ==>
            r.value[d] == if j <= d - dstOff < size then SourceByte(frame, first, d - dstOff) else dst[d])
  {
    if j < size {
      var s := SourceIndex(frame, first, j);
      var d := WrapI32(dstOff + j);
      if !(0 <= s < frame.limit) || !(0 <= d < |dst|) {
        assert !Copyable(frame, first, |dst|, dstOff, j);
      } else {
        WrappedIndex(dstOff + j, |dst|);
        CopyBytesSpec(frame, first, size, dst[d := frame.data[s]], dstOff, j + 1);
      }
    }
  }

  /**
   * `extractSampleBytes` as written: the underflow guard compares `remaining()` with the index of
   * the sample's LAST byte, then the bytes are copied. The frame itself is not changed: the
   * copy uses absolute gets, so the buffer's position stays where it was.
   */
  function ExtractSampleBytesAsWritten(frame: ByteBuffer, size: i32, index: i32, dst: seq<u8>, dstOff: i32)
    : (r: Result<seq<u8>, AudioError>)
    requires frame.Valid() && |dst| < TWO_31
    ensures r == Failure(BufferUnderflow) <==> frame.Remaining() < IndexOfLast(index, size)
  {
    if frame.Remaining() < IndexOfLast(index, size) then Failure(BufferUnderflow)
    else CopyBytes(frame, IndexOfFirst(index, size), size, dst, dstOff, 0)
  }

  /**
   * `extractSampleBytes` with the guard the documentation describes: underflow exactly when the
   * sample does not end within the remaining bytes (`remaining() < indexOfFirst + size`).
   */
  function ExtractSampleBytes(frame: ByteBuffer, size: i32, index: i32, dst: seq<u8>, dstOff: i32)
    : (r: Result<seq<u8>, AudioError>)
    requires frame.Valid() && |dst| < TWO_31
    ensures r == Failure(BufferUnderflow) <==> frame.Remaining() < WrapI32(IndexOfFirst(index, size) + size)
  {
    if frame.Remaining() < WrapI32(IndexOfFirst(index, size) + size) then Failure(BufferUnderflow)
    else CopyBytes(frame, IndexOfFirst(index, size), size, dst, dstOff, 0)
  }

  /** The ordinary case: a sample index and size whose byte offsets stay well inside `Int`. */
  predicate PlainRequest(frame: ByteBuffer, size: i32, index: i32, dst: seq<u8>, dstOff: i32) {
    && frame.Valid()
    && 0 <= index && 0 < size
    && frame.position + (index + 1) * size < TWO_31
    && 0 <= dstOff && dstOff + size <= |dst| < TWO_31
  }

  /** A byte range `[first, first + size)` past the position that stays inside `Int`. */
  predicate PlainRange(frame: ByteBuffer, first: i32, size: i32, dst: seq<u8>, dstOff: i32) {
    && frame.Valid()
    && 0 <= first && 0 < size
    && frame.position + first + size < TWO_31
    && 0 <= dstOff && dstOff + size <= |dst| < TWO_31
  }

  /** In a plain range every index is computed without wrapping. */
  lemma PlainIndices(frame: ByteBuffer, first: i32, size: i32, dst: seq<u8>, dstOff: i32, k: int)
    requires PlainRange(frame, first, size, dst, dstOff) && 0 <= k < size
    ensures SourceIndex(frame, first, k) == frame.position + first + k
    ensures WrapI32(dstOff + k) == dstOff + k
  {
  }

  /** A plain range inside the limit is copied into `dst[dstOff..dstOff + size]`. */
  lemma CopyWithinLimit(frame: ByteBuffer, first: i32, size: i32, dst: seq<u8>, dstOff: i32)
    requires PlainRange(frame, first, size, dst, dstOff)
    requires frame.position + first + size <= frame.limit
    ensures var start := frame.position + first;
      var r := CopyBytes(frame, first, size, dst, dstOff, 0);
      r.Success? && r.value == dst[..dstOff] + frame.data[start..start + size] + dst[dstOff + size..]
  {
    var start := frame.position + first;
    forall k | 0 <= k < size
      ensures Copyable(frame, first, |dst|, dstOff, k)
    {
      PlainIndices(frame, first, size, dst, dstOff, k);
    }
    CopyBytesSpec(frame, first, size, dst, dstOff, 0);
    var r := CopyBytes(frame, first, size, dst, dstOff, 0);
    var want := dst[..dstOff] + frame.data[start..start + size] + dst[dstOff + size..];
    assert |r.value| == |want|;
    forall d | 0 <= d < |dst|
      ensures r.value[d] == want[d]
    {
      if dstOff <= d < dstOff + size {
        PlainIndices(frame, first, size, dst, dstOff, d - dstOff);
      }
    }
  }

  /** A plain range reaching past the limit fails on the frame side. */
  lemma CopyPastLimit(frame: ByteBuffer, first: i32, size: i32, dst: seq<u8>, dstOff: i32)
    requires PlainRange(frame, first, size, dst, dstOff)
    requires frame.position + first + size > frame.limit
    ensures CopyBytes(frame, first, size, dst, dstOff, 0) == Failure(IndexOutOfBounds)
  {
    PlainIndices(frame, first, size, dst, dstOff, size - 1);
    assert !Copyable(frame, first, |dst|, dstOff, size - 1);
    forall k | 0 <= k < size
      ensures DestinationFits(|dst|, dstOff, k)
    {
      PlainIndices(frame, first, size, dst, dstOff, k);
    }
    CopyBytesSpec(frame, first, size, dst, dstOff, 0);
    CopyFailsOnSource(frame, first, size, dst, dstOff, 0);
  }

  /** When the destination has room for every byte, a failing copy fails on the frame side. */
  lemma {:induction false} CopyFailsOnSource(frame: ByteBuffer, first: i32, size: i32, dst: seq<u8>, dstOff: i32, j: nat)
    requires frame.Valid() && |dst| < TWO_31
    requires forall k :: j <= k < size ==> DestinationFits(|dst|, dstOff, k)
    ensures CopyBytes(frame, first, size, dst, dstOff, j).Failure? ==>
      CopyBytes(frame, first, size, dst, dstOff, j).error == IndexOutOfBounds
    decreases size - j
  {
    if j < size {
      var s := SourceIndex(frame, first, j);
      var d := WrapI32(dstOff + j);
      assert DestinationFits(|dst|, dstOff, j);
      if 0 <= s < frame.limit {
        CopyFailsOnSource(frame, first, size, dst[d := frame.data[s]], dstOff, j + 1);
      }
    }
  }

  /** A plain request's first byte is `index * size` and its byte range is plain. */
  lemma PlainRequestRange(frame: ByteBuffer, size: i32, index: i32, dst: seq<u8>, dstOff: i32)
    requires PlainRequest(frame, size, index, dst, dstOff)
    ensures IndexOfFirst(index, size) == index * size
    ensures PlainRange(frame, index * size, size, dst, dstOff)
  {
    var p := index * size;
    assert (index + 1) * size == p + size;
    MulNonNegative(index, size);
  }

  lemma MulNonNegative(a: int, b: int)
    requires 0 <= a && 0 <= b
    ensures 0 <= a * b
  {
  }

  /**
   * The guard as written, in the ordinary case: underflow is reported iff
   * `remaining < index*size + size - 1`. When `remaining` is exactly one byte short of the
   * sample the guard lets the request through and the absolute `get` of the last byte fails.
   */
  lemma ExtractAsWrittenGuard(frame: ByteBuffer, size: i32, index: i32, dst: seq<u8>, dstOff: i32)
    requires PlainRequest(frame, size, index, dst, dstOff)
    ensures var r := ExtractSampleBytesAsWritten(frame, size, index, dst, dstOff);
      && (r == Failure(BufferUnderflow) <==> frame.Remaining() < index * size + size - 1)
      && (frame.Remaining() == index * size + size - 1 ==> r == Failure(IndexOutOfBounds))
      && (frame.Remaining() >= index * size + size ==> r.Success?)
  {
    PlainRequestRange(frame, size, index, dst, dstOff);
    var first := index * size;
    if frame.position + first + size <= frame.limit {
      CopyWithinLimit(frame, first, size, dst, dstOff);
    } else {
      CopyPastLimit(frame, first, size, dst, dstOff);
    }
  }

  /** A concrete request the as-written guard admits although its sample is one byte short. */
  lemma ExtractAsWrittenOffByOne()
    ensures ExtractSampleBytesAsWritten(ByteBuffer([1, 2, 3], 0, 3), 4, 0, [0, 0, 0, 0], 0)
      == Failure(IndexOutOfBounds)
  {
    ExtractAsWrittenGuard(ByteBuffer([1, 2, 3], 0, 3), 4, 0, [0, 0, 0, 0], 0);
  }

  /**
   * The corrected guard, in the ordinary case: the request underflows exactly when the sample
   * does not fit in the remaining bytes, and otherwise copies exactly the sample's bytes into
   * `dst[dstOff..dstOff + size]`, leaving the rest of `dst` as it was.
   */
  lemma ExtractCopiesSample(frame: ByteBuffer, size: i32, index: i32, dst: seq<u8>, dstOff: i32)
    requires PlainRequest(frame, size, index, dst, dstOff)
    ensures var start := frame.position + index * size;
      var r := ExtractSampleBytes(frame, size, index, dst, dstOff);
      && (r == Failure(BufferUnderflow) <==> frame.limit < start + size)
      && (r.Success? <==> start + size <= frame.limit)
      && (r.Success? ==>
            0 <= start && start + size <= frame.limit
            && r.value == dst[..dstOff] + frame.data[start..start + size] + dst[dstOff + size..])
  {
    if frame.position + index * size + size <= frame.limit {
      ExtractWithinLimit(frame, size, index, dst, dstOff);
    } else {
      ExtractPastLimit(frame, size, index, dst, dstOff);
    }
  }

  /** A sample inside the limit is copied into the destination. */
  lemma ExtractWithinLimit(frame: ByteBuffer, size: i32, index: i32, dst: seq<u8>, dstOff: i32)
    requires PlainRequest(frame, size, index, dst, dstOff)
    requires frame.position + index * size + size <= frame.limit
    ensures var start := frame.position + index * size;
      && 0 <= start
      && ExtractSampleBytes(frame, size, index, dst, dstOff)
         == Success(dst[..dstOff] + frame.data[start..start + size] + dst[dstOff + size..])
  {
    PlainRequestRange(frame, size, index, dst, dstOff);
    CopyWithinLimit(frame, index * size, size, dst, dstOff);
  }

  /** A sample reaching past the limit underflows. */
  lemma ExtractPastLimit(frame: ByteBuffer, size: i32, index: i32, dst: seq<u8>, dstOff: i32)
    requires PlainRequest(frame, size, index, dst, dstOff)
    requires frame.limit < frame.position + index * size + size
    ensures ExtractSampleBytes(frame, size, index, dst, dstOff) == Failure(BufferUnderflow)
  {
    PlainRequestRange(frame, size, index, dst, dstOff);
  }

  /** One decoded sample: the integer the `Float` scaling starts from, or the bits of a float. */
  datatype Sample = Level(value: int) | FloatBits(bits: i32)

  /** `src[off + k]`, with the `Int` index wrapping and the array bounds checked. */
  function ByteAt(src: seq<u8>, off: i32, k: int): (r: Result<u8, AudioError>)
    ensures r.Success? <==> 0 <= WrapI32(off + k) < |src|
    ensures r.Failure? ==> r.error == ArrayIndexOutOfBounds
    ensures r.Success? ==> r.value == src[WrapI32(off + k)]
  {
    var i := WrapI32(off + k);
    if 0 <= i < |src| then Success(src[i]) else Failure(ArrayIndexOutOfBounds)
  }

  /** `Byte` as a signed value (`src[off].toFloat()` reads the byte signed). */
  function SignedByte(b: u8): (r: int)
    ensures -0x80 <= r < 0x80 && (r - b) % TWO_8 == 0
  {
    if b < 0x80 then b else b - TWO_8
  }

  /** `toShort()` of a 16-bit pattern. */
  function SignedShort(v: u16): (r: int)
    ensures -0x8000 <= r < 0x8000 && (r - v) % TWO_16 == 0
  {
    if v < 0x8000 then v else v - TWO_16
  }

  /**
   * The `when (encoding)` of `convertSampleToFloat32`, up to the scaling. The 24-bit branch
   * asserts that the sample size is `asserted24`; the source writes 2.
   */
  function DecodeWith(asserted24: int, src: seq<u8>, off: i32, size: i32, encoding: int)
    : Result<Sample, AudioError>
  {
    if encoding == ENCODING_PCM_8BIT then
      if size != 1 then Failure(AssertionFailed)
      else
        var b0 :- ByteAt(src, off, 0);
        Success(Level(SignedByte(b0)))
    else if encoding == ENCODING_PCM_16BIT then
      if size != 2 then Failure(AssertionFailed)
      else
        var b0 :- ByteAt(src, off, 0);
        var b1 :- ByteAt(src, off, 1);
        Success(Level(SignedShort(DecodeUShort(b0, b1))))
    else if encoding == ENCODING_PCM_24BIT_PACKED then
      if size != asserted24 then Failure(AssertionFailed)
      else
        var b0 :- ByteAt(src, off, 0);
        var b1 :- ByteAt(src, off, 1);
        var b2 :- ByteAt(src, off, 2);
        Success(Level(Unsigned32(b0, b1, b2, 0)))
    else if encoding == ENCODING_PCM_32BIT || encoding == ENCODING_PCM_FLOAT then
      var b0 :- ByteAt(src, off, 0);
      var b1 :- ByteAt(src, off, 1);
      var b2 :- ByteAt(src, off, 2);
      var b3 :- ByteAt(src, off, 3);
      var v := DecodeInt(b0, b1, b2, b3);
      Success(if encoding == ENCODING_PCM_32BIT then Level(v) else FloatBits(v))
    else Failure(UnsupportedFormat)
  }

  /** `convertSampleToFloat32` as written: its 24-bit branch asserts a sample size of 2. */
  function DecodeSampleAsWritten(src: seq<u8>, off: i32, size: i32, encoding: int): (r: Result<Sample, AudioError>)
    ensures encoding == ENCODING_PCM_24BIT_PACKED && size == 3 ==> r == Failure(AssertionFailed)
  {
    DecodeWith(2, src, off, size, encoding)
  }

  /**
   * `convertSampleToFloat32` with the 24-bit branch asserting the size the sample table gives
   * packed 24-bit samples (3). Integer samples are signed little-endian values, except that
   * 24-bit samples are read without sign extension; float samples keep their bit pattern.
   */
  function DecodeSample(src: seq<u8>, off: i32, size: i32, encoding: int): Result<Sample, AudioError> {
    DecodeWith(3, src, off, size, encoding)
  }

  /**
   * The corrected decoder fails with `UnsupportedFormat` exactly on unsupported encodings and
   * with `AssertionFailed` exactly on an integer encoding of the wrong size; a float sample keeps
   * its bit pattern, and each integer sample lies in its width's range (24-bit ones unsigned).
   */
  lemma DecodeSampleSpec(src: seq<u8>, off: i32, size: i32, encoding: int)
    ensures var r := DecodeSample(src, off, size, encoding);
      && (r == Failure(UnsupportedFormat) <==> !Supported(encoding))
      && (r == Failure(AssertionFailed) <==>
          (encoding in {ENCODING_PCM_8BIT, ENCODING_PCM_16BIT, ENCODING_PCM_24BIT_PACKED}
           && SampleSizeInBytes(encoding) != Some(size)))
      && (r.Success? ==> (r.value.FloatBits? <==> encoding == ENCODING_PCM_FLOAT))
      && (r.Success? && encoding == ENCODING_PCM_8BIT ==> -0x80 <= r.value.value < 0x80)
      && (r.Success? && encoding == ENCODING_PCM_16BIT ==> -0x8000 <= r.value.value < 0x8000)
      && (r.Success? && encoding == ENCODING_PCM_24BIT_PACKED ==> 0 <= r.value.value < 0x100_0000)
      && (r.Success? && encoding == ENCODING_PCM_32BIT ==> -TWO_31 <= r.value.value < TWO_31)
  {
  }

  /** Whenever the sample table gives a size, the corrected decoder accepts that size and the
   * reading fails only on array bounds; the as-written decoder rejects every 24-bit sample. */
  lemma SampleTableAgreesWithDecoder(src: seq<u8>, off: i32, encoding: int)
    requires SampleSizeInBytes(encoding).Some? && |src| < TWO_31
    ensures var size := SampleSizeInBytes(encoding).value;
      var r := DecodeSample(src, off, size, encoding);
      && (r.Failure? ==> r.error == ArrayIndexOutOfBounds)
      && (0 <= off && off + size <= |src| ==> r.Success?)
      && (encoding == ENCODING_PCM_24BIT_PACKED <==>
          DecodeSampleAsWritten(src, off, size, encoding) == Failure(AssertionFailed))
  {
  }

  /** A sample's decoding depends only on its own `size` bytes. */
  lemma DecodeReadsOnlyItsBytes(src: seq<u8>, off: int, size: int, encoding: int)
    requires 0 <= off && off + size <= |src| < TWO_31
    requires SampleSizeInBytes(encoding) == Some(size)
    ensures DecodeSample(src, off, size, encoding) == DecodeSample(src[off..off + size], 0, size, encoding)
  {
    var part := src[off..off + size];
    forall k | 0 <= k < size
      ensures ByteAt(src, off, k) == ByteAt(part, 0, k)
    {
      assert part[k] == src[off + k];
    }
  }

  /** The bytes a 16-bit sample `v` is stored as decode back to `v`. */
  lemma Sample16RoundTrip(v: int)
    requires -0x8000 <= v < 0x8000
    ensures DecodeSample(EncodeUShort(ToU16(v)), 0, 2, ENCODING_PCM_16BIT) == Success(Level(v))
  {
    var bs := EncodeUShort(ToU16(v));
    assert DecodeUShort(bs[0], bs[1]) == ToU16(v);
  }

  /** The bytes a 32-bit integer sample `v` is stored as decode back to `v`. */
  lemma Sample32RoundTrip(v: i32)
    ensures DecodeSample(EncodeInt(v), 0, 4, ENCODING_PCM_32BIT) == Success(Level(v))
    ensures DecodeSample(EncodeInt(v), 0, 4, ENCODING_PCM_FLOAT) == Success(FloatBits(v))
  {
    IntRoundTrip(v);
  }

  /** The three low bytes of a 24-bit pattern `u` decode back to `u`. */
  lemma Sample24RoundTrip(u: int)
    requires 0 <= u < 0x100_0000
    ensures DecodeSample([u % 0x100, (u / 0x100) % 0x100, u / 0x1_0000], 0, 3, ENCODING_PCM_24BIT_PACKED)
      == Success(Level(u))
  {
    var b0, b1, b2 := u % 0x100, (u / 0x100) % 0x100, u / 0x1_0000;
    assert u / 0x100 == b1 + 0x100 * b2;
    assert Unsigned32(b0, b1, b2, 0) == u;
    var bs: seq<u8> := [b0, b1, b2];
    assert ByteAt(bs, 0, 0) == Success(b0) && ByteAt(bs, 0, 1) == Success(b1) && ByteAt(bs, 0, 2) == Success(b2);
  }

  /** An 8-bit sample reads as the signed byte. */
  lemma Sample8IsSigned(b: u8)
    ensures DecodeSample([b], 0, 1, ENCODING_PCM_8BIT) == Success(Level(if b < 0x80 then b as int else b - 0x100))
  {
  }

  /** A 24-bit sample is never negative: the top byte is not sign-extended, so -1 reads as 2^24 - 1. */
  lemma Sample24NotSignExtended()
    ensures DecodeSample([0xFF, 0xFF, 0xFF], 0, 3, ENCODING_PCM_24BIT_PACKED) == Success(Level(0xFF_FFFF))
  {
  }

  /**
   * The size of a frame of `channels` samples of `s` bytes each, written as a sum so that the
   * verifier need not reason about the product.
   */
  function FrameSizeOf(channels: nat, s: int): int {
    if channels == 0 then 0 else FrameSizeOf(channels - 1, s) + s
  }

  lemma {:induction false} FrameSizeIsProduct(channels: nat, s: int)
    ensures FrameSizeOf(channels, s) == channels * s
  {
    if channels > 0 {
      FrameSizeIsProduct(channels - 1, s);
      assert channels * s == (channels - 1) * s + s;
    }
  }

  /** Frames of at most 4-byte samples and a `UShort` channel count stay far below 2^31 bytes. */
  lemma {:induction false} FrameSizeBound(channels: nat, s: int)
    requires 0 < s <= 4
    ensures 0 <= FrameSizeOf(channels, s) <= 4 * channels
  {
    if channels > 0 {
      FrameSizeBound(channels - 1, s);
    }
  }

  /**
   * `FloatNormalizedSampleSpliterator.tryAdvance` for one frame of a WAV stream: each channel's
   * sample is extracted from the frame (wrapped in a `ByteBuffer` at position 0) into a buffer of
   * one sample and decoded. The result has one entry per channel.
   */
  function ReadFrame(info: WavInfo, frame: seq<u8>): (r: Result<seq<Sample>, AudioError>)
    requires |frame| == info.frameSizeInBytes < TWO_31
    requires 0 < info.sampleSizeInBytes <= 4
    ensures r.Success? ==> |r.value| == info.nChannels
  {
    var buf := ByteBuffer(frame, 0, |frame|);
    ReadChannels((k: nat) requires k < info.nChannels => ReadChannel(info, buf, k), 0, info.nChannels)
  }

  /** One pass of the channel loop: extract channel `c`'s bytes into the sample buffer, decode them. */
  function ReadChannel(info: WavInfo, frame: ByteBuffer, c: nat): Result<Sample, AudioError>
    requires frame.Valid() && 0 < info.sampleSizeInBytes <= 4 && c < info.nChannels
  {
    var sample :- ExtractSampleBytes(frame, info.sampleSizeInBytes, c, Zeros(info.sampleSizeInBytes), 0);
    DecodeSample(sample, 0, info.sampleSizeInBytes, info.encoding)
  }

  /** A fresh buffer of `n` zero bytes, as `ByteArray(n)` allocates. */
  function Zeros(n: nat): (r: seq<u8>)
    ensures |r| == n
  {
    seq(n, _ => 0)
  }

  /** The loop over channels `c..n-1`, reading each with `read`; the first failure ends it. */
  function ReadChannels(read: nat --> Result<Sample, AudioError>, c: nat, n: nat): (r: Result<seq<Sample>, AudioError>)
    requires forall k :: c <= k < n ==> read.requires(k)
    decreases n - c
    ensures r.Success? ==> |r.value| == if c <= n then n - c else 0
  {
    if c >= n then Success([])
    else
      var value :- read(c);
      var rest :- ReadChannels(read, c + 1, n);
      Success([value] + rest)
  }

  /**
   * The channel loop fails exactly when some channel's read fails, and then with the first such
   * failure; otherwise entry `k - c` is channel `k`'s reading.
   */
  lemma {:induction false} ReadChannelsSpec(read: nat --> Result<Sample, AudioError>, c: nat, n: nat)
    requires forall k :: c <= k < n ==> read.requires(k)
    decreases n - c
    ensures var r := ReadChannels(read, c, n);
      && (r.Success? <==> forall k :: c <= k < n ==> read(k).Success?)
      && (r.Success? ==> forall k :: c <= k < n ==> r.value[k - c] == read(k).value)
      && (r.Failure? ==> exists k :: c <= k < n && read(k) == Failure(r.error)
                                    && forall j :: c <= j < k ==> read(j).Success?)
  {
    if c < n {
      ReadChannelsSpec(read, c + 1, n);
      var r := ReadChannels(read, c, n);
      if read(c).Failure? {
        assert read(c) == Failure(r.error);
      } else if r.Success? {
        var rest := ReadChannels(read, c + 1, n);
        assert r.value == [read(c).value] + rest.value;
        forall k | c < k < n
          ensures r.value[k - c] == read(k).value
        {
          assert r.value[k - c] == rest.value[k - (c + 1)];
        }
      }
    }
  }

  /** A frame reads exactly when each of its channels does, and then entry `c` is channel `c`'s. */
  lemma ReadFrameSpec(info: WavInfo, frame: seq<u8>)
    requires |frame| == info.frameSizeInBytes < TWO_31
    requires 0 < info.sampleSizeInBytes <= 4
    ensures var buf := ByteBuffer(frame, 0, |frame|);
      var r := ReadFrame(info, frame);
      && (r.Success? <==> forall c :: 0 <= c < info.nChannels ==> ReadChannel(info, buf, c).Success?)
      && (r.Success? ==> forall c :: 0 <= c < info.nChannels ==> r.value[c] == ReadChannel(info, buf, c).value)
  {
    var buf := ByteBuffer(frame, 0, |frame|);
    var read := (k: nat) requires k < info.nChannels => ReadChannel(info, buf, k);
    forall c | 0 <= c < info.nChannels
      ensures read(c) == ReadChannel(info, buf, c)
    {
    }
    ReadChannelsSpec(read, 0, info.nChannels);
    assert ReadFrame(info, frame) == ReadChannels(read, 0, info.nChannels);
  }

  /**
   * A whole frame of a stream with a supported encoding always reads: channel `c`'s sample is
   * the decoding of the frame's `c`-th slice of `sampleSizeInBytes` bytes.
   */
  lemma ReadFrameDecodesEachSlice(info: WavInfo, frame: seq<u8>)
    requires |frame| == info.frameSizeInBytes == info.nChannels * info.sampleSizeInBytes
    requires SampleSizeInBytes(info.encoding) == Some(info.sampleSizeInBytes)
    ensures ReadFrame(info, frame).Success?
    ensures var r := ReadFrame(info, frame).value;
      forall c :: 0 <= c < info.nChannels ==>
        Success(r[c]) == DecodeSample(ChannelBytes(frame, info.sampleSizeInBytes, c), 0, info.sampleSizeInBytes, info.encoding)
  {
    FrameSizeIsProduct(info.nChannels, info.sampleSizeInBytes);
    FrameSizeBound(info.nChannels, info.sampleSizeInBytes);
    EachChannelIsSlice(info, frame);
    ReadFrameSpec(info, frame);
  }

  /** Every channel of a whole frame reads as its slice decodes. */
  lemma EachChannelIsSlice(info: WavInfo, frame: seq<u8>)
    requires |frame| == info.frameSizeInBytes == FrameSizeOf(info.nChannels, info.sampleSizeInBytes) < TWO_31
    requires SampleSizeInBytes(info.encoding) == Some(info.sampleSizeInBytes)
    ensures forall c :: 0 <= c < info.nChannels ==>
      var s := info.sampleSizeInBytes;
      var d := DecodeSample(ChannelBytes(frame, s, c), 0, s, info.encoding);
      d.Success? && ReadChannel(info, ByteBuffer(frame, 0, |frame|), c) == d
  {
    forall c | 0 <= c < info.nChannels
      ensures var s := info.sampleSizeInBytes;
        var d := DecodeSample(ChannelBytes(frame, s, c), 0, s, info.encoding);
        d.Success? && ReadChannel(info, ByteBuffer(frame, 0, |frame|), c) == d
    {
      ReadChannelIsSlice(info, frame, c);
    }
  }

  /** Reading channel `c` of a whole frame decodes its slice, and that decoding succeeds. */
  lemma ReadChannelIsSlice(info: WavInfo, frame: seq<u8>, c: nat)
    requires |frame| == info.frameSizeInBytes == FrameSizeOf(info.nChannels, info.sampleSizeInBytes) < TWO_31
    requires SampleSizeInBytes(info.encoding) == Some(info.sampleSizeInBytes)
    requires c < info.nChannels
    ensures var s := info.sampleSizeInBytes;
      var d := DecodeSample(ChannelBytes(frame, s, c), 0, s, info.encoding);
      d.Success? && ReadChannel(info, ByteBuffer(frame, 0, |frame|), c) == d
  {
    var s := info.sampleSizeInBytes;
    ExtractChannelSlice(frame, s, c, info.nChannels);
    SampleTableAgreesWithDecoder(ChannelBytes(frame, s, c), 0, info.encoding);
  }

  /** Extracting channel `c` of a whole frame at position 0 yields its `c`-th slice. */
  lemma ExtractChannelSlice(frame: seq<u8>, s: int, c: int, n: u16)
    requires 0 < s <= 4 && 0 <= c < n && |frame| == FrameSizeOf(n, s) < TWO_31
    ensures var buf := ByteBuffer(frame, 0, |frame|);
      ExtractSampleBytes(buf, s, c, Zeros(s), 0) == Success(ChannelBytes(frame, s, c))
  {
    FrameSizeIsProduct(n, s);
    var buf := ByteBuffer(frame, 0, |frame|);
    var zeros := Zeros(s);
    var p := c * s;
    assert (c + 1) * s == p + s;
    assert p + s <= n * s by {
      assert (c + 1) * s <= n * s;
    }
    ExtractCopiesSample(buf, s, c, zeros, 0);
    assert zeros[..0] + frame[p..p + s] + zeros[s..] == frame[p..p + s];
    ChannelBytesAt(frame, s, c);
  }

  /** The channel loop as the source writes it: its underflow guard and its 24-bit assertion. */
  function ReadChannelAsWritten(info: WavInfo, frame: ByteBuffer, c: nat): Result<Sample, AudioError>
    requires frame.Valid() && 0 < info.sampleSizeInBytes <= 4 && c < info.nChannels
  {
    var sample :- ExtractSampleBytesAsWritten(frame, info.sampleSizeInBytes, c, Zeros(info.sampleSizeInBytes), 0);
    DecodeSampleAsWritten(sample, 0, info.sampleSizeInBytes, info.encoding)
  }

  /** The body of `tryAdvance` after a full read, as written. */
  function ReadFrameAsWritten(info: WavInfo, frame: seq<u8>): (r: Result<seq<Sample>, AudioError>)
    requires |frame| == info.frameSizeInBytes < TWO_31
    requires 0 < info.sampleSizeInBytes <= 4
    ensures r.Success? ==> |r.value| == info.nChannels
  {
    var buf := ByteBuffer(frame, 0, |frame|);
    ReadChannels((k: nat) requires k < info.nChannels => ReadChannelAsWritten(info, buf, k), 0, info.nChannels)
  }

  /** Channel loops whose reads agree give the same result. */
  lemma {:induction false} ReadChannelsAgree(a: nat --> Result<Sample, AudioError>, b: nat --> Result<Sample, AudioError>, c: nat, n: nat)
    requires forall k :: c <= k < n ==> a.requires(k) && b.requires(k) && a(k) == b(k)
    decreases n - c
    ensures ReadChannels(a, c, n) == ReadChannels(b, c, n)
  {
    if c < n {
      ReadChannelsAgree(a, b, c + 1, n);
    }
  }

  /** In a whole frame the two guards both let every channel through, to the same copy. */
  lemma ExtractAgreesInWholeFrame(frame: seq<u8>, s: int, c: int, n: u16)
    requires 0 < s <= 4 && 0 <= c < n && |frame| == FrameSizeOf(n, s) < TWO_31
    ensures var buf := ByteBuffer(frame, 0, |frame|);
      ExtractSampleBytesAsWritten(buf, s, c, Zeros(s), 0) == ExtractSampleBytes(buf, s, c, Zeros(s), 0)
  {
    FrameSizeIsProduct(n, s);
    var p := c * s;
    assert (c + 1) * s == p + s;
    assert p + s <= n * s by {
      assert (c + 1) * s <= n * s;
    }
    MulNonNegative(c, s);
    assert IndexOfFirst(c, s) == p;
    assert IndexOfLast(c, s) == p + s - 1;
  }

  /** Off the packed 24-bit encoding both decoders are the same. */
  lemma DecodersAgreeOffPacked24(src: seq<u8>, off: i32, size: i32, encoding: int)
    requires encoding != ENCODING_PCM_24BIT_PACKED
    ensures DecodeSampleAsWritten(src, off, size, encoding) == DecodeSample(src, off, size, encoding)
  {
  }

  /**
   * The reader as written agrees with the corrected one on every whole frame whose encoding is
   * not packed 24-bit: the guard's off-by-one never shows inside a whole frame.
   */
  lemma AsWrittenReaderAgreesOffPacked24(info: WavInfo, frame: seq<u8>)
    requires |frame| == info.frameSizeInBytes == FrameSizeOf(info.nChannels, info.sampleSizeInBytes) < TWO_31
    requires 0 < info.sampleSizeInBytes <= 4 && info.encoding != ENCODING_PCM_24BIT_PACKED
    ensures ReadFrameAsWritten(info, frame) == ReadFrame(info, frame)
  {
    var buf := ByteBuffer(frame, 0, |frame|);
    var a := (k: nat) requires k < info.nChannels => ReadChannelAsWritten(info, buf, k);
    var b := (k: nat) requires k < info.nChannels => ReadChannel(info, buf, k);
    forall k | 0 <= k < info.nChannels
      ensures a(k) == b(k)
    {
      var s := info.sampleSizeInBytes;
      ExtractAgreesInWholeFrame(frame, s, k, info.nChannels);
      var e := ExtractSampleBytes(buf, s, k, Zeros(s), 0);
      if e.Success? {
        DecodersAgreeOffPacked24(e.value, 0, s, info.encoding);
      }
    }
    ReadChannelsAgree(a, b, 0, info.nChannels);
  }

  /**
   * The reader as written fails every whole frame of packed 24-bit samples: the first channel's
   * bytes are extracted, and decoding them fails the assertion that the sample size is 2.
   */
  lemma AsWrittenReaderRejectsPacked24(info: WavInfo, frame: seq<u8>)
    requires |frame| == info.frameSizeInBytes == FrameSizeOf(info.nChannels, 3) && 1 <= info.nChannels
    requires info.encoding == ENCODING_PCM_24BIT_PACKED && info.sampleSizeInBytes == 3
    ensures |frame| < TWO_31
    ensures ReadFrameAsWritten(info, frame) == Failure(AssertionFailed)
  {
    FrameSizeBound(info.nChannels, 3);
    var buf := ByteBuffer(frame, 0, |frame|);
    ExtractAgreesInWholeFrame(frame, 3, 0, info.nChannels);
    ExtractChannelSlice(frame, 3, 0, info.nChannels);
    assert ReadChannelAsWritten(info, buf, 0) == Failure(AssertionFailed);
    var read := (k: nat) requires k < info.nChannels => ReadChannelAsWritten(info, buf, k);
    assert read(0) == Failure(AssertionFailed);
    assert ReadFrameAsWritten(info, frame) == ReadChannels(read, 0, info.nChannels);
  }

  /**
   * `FloatNormalizedSampleSpliterator.tryAdvance` on what is left of the sample data:
   * `readNBytes` fills the frame buffer as far as the stream allows; a short read is the end of
   * the stream (`false`), and otherwise the frame is read as written and the stream moves on by
   * one frame.
   */
  function TryAdvanceFrame(info: WavInfo, stream: seq<u8>): (r: Result<Option<(seq<Sample>, seq<u8>)>, AudioError>)
    requires 0 <= info.frameSizeInBytes < TWO_31 && 0 < info.sampleSizeInBytes <= 4
  {
    if |stream| < info.frameSizeInBytes then Success(None)
    else
      var samples :- ReadFrameAsWritten(info, stream[..info.frameSizeInBytes]);
      Success(Some((samples, stream[info.frameSizeInBytes..])))
  }

  /**
   * `tryAdvance` ends the stream exactly when less than a frame is left. Otherwise, for a
   * supported encoding other than packed 24-bit, it yields channel `c`'s decoded `c`-th slice of
   * the next frame and moves past that frame; for packed 24-bit it throws the assertion failure.
   */
  lemma TryAdvanceFrameSpec(info: WavInfo, stream: seq<u8>)
    requires info.frameSizeInBytes == info.nChannels * info.sampleSizeInBytes
    requires SampleSizeInBytes(info.encoding) == Some(info.sampleSizeInBytes)
    ensures 0 <= info.frameSizeInBytes < TWO_31
    ensures var r := TryAdvanceFrame(info, stream);
      && (r == Success(None) <==> |stream| < info.frameSizeInBytes)
      && (|stream| >= info.frameSizeInBytes && info.encoding != ENCODING_PCM_24BIT_PACKED ==>
            && r.Success? && r.value.Some?
            && r.value.value.1 == stream[info.frameSizeInBytes..]
            && |r.value.value.0| == info.nChannels
            && forall c :: 0 <= c < info.nChannels ==>
                 Success(r.value.value.0[c]) == DecodeSample(ChannelBytes(stream[..info.frameSizeInBytes], info.sampleSizeInBytes, c),
                                                             0, info.sampleSizeInBytes, info.encoding))
      && (|stream| >= info.frameSizeInBytes && info.encoding == ENCODING_PCM_24BIT_PACKED && 1 <= info.nChannels ==>
            r == Failure(AssertionFailed))
  {
    var s := info.sampleSizeInBytes;
    FrameSizeIsProduct(info.nChannels, s);
    FrameSizeBound(info.nChannels, s);
    if |stream| >= info.frameSizeInBytes {
      var frame := stream[..info.frameSizeInBytes];
      if info.encoding != ENCODING_PCM_24BIT_PACKED {
        AsWrittenReaderAgreesOffPacked24(info, frame);
        ReadFrameDecodesEachSlice(info, frame);
      } else if 1 <= info.nChannels {
        AsWrittenReaderRejectsPacked24(info, frame);
      }
    }
  }

  /**
   * The bytes of channel `c` in a frame of `s`-byte samples, found by skipping `c` samples
   * (nothing when the frame is too short); `ChannelBytesAt` gives the byte offset `c * s`.
   */
  function ChannelBytes(frame: seq<u8>, s: int, c: int): seq<u8>
    decreases c
  {
    if c < 0 || s <= 0 || |frame| < s then []
    else if c == 0 then frame[..s]
    else ChannelBytes(frame[s..], s, c - 1)
  }

  /** Channel `c`'s bytes are the `s` bytes at offset `c * s`, whenever they lie in the frame. */
  lemma {:induction false} ChannelBytesAt(frame: seq<u8>, s: int, c: int)
    requires 0 < s && 0 <= c && c * s + s <= |frame|
    ensures 0 <= c * s && ChannelBytes(frame, s, c) == frame[c * s..c * s + s]
    decreases c
  {
    MulNonNegative(c, s);
    if 0 < c {
      assert (c - 1) * s + s == c * s;
      ChannelBytesAt(frame[s..], s, c - 1);
      assert frame[s..][(c - 1) * s..(c - 1) * s + s] == frame[c * s..c * s + s];
    }
  }
}

=== FILE: bit_strings.dfy ===
/**
 * Fixed-width binary numerals: a non-negative number as a string of bits, least significant
 * first, and back.
 */
module BitStrings {
  import opened IntTypes

  /** The unsigned number a bit string spells, its last element being the most significant. */
  function Unsigned(s: seq<bool>): (r: nat)
    ensures r < Pow2(|s|)
  {
    if s == [] then 0
    else Unsigned(s[..|s| - 1]) + (if s[|s| - 1] then Pow2(|s| - 1) else 0)
  }

  /** The `n` low bits of `u`. */
  function ToBits(u: nat, n: nat): (r: seq<bool>)
    requires u < Pow2(n)
    ensures |r| == n
  {
    if n == 0 then []
    else if u >= Pow2(n - 1) then ToBits(u - Pow2(n - 1), n - 1) + [true]
    else ToBits(u, n - 1) + [false]
  }

  lemma {:induction false} UnsignedOfBits(u: nat, n: nat)
    requires u < Pow2(n)
    ensures Unsigned(ToBits(u, n)) == u
    decreases n
  {
    if n > 0 {
      var p := Pow2(n - 1);
      var r := ToBits(u, n);
      var low := if u >= p then u - p else u;
      assert r[..|r| - 1] == ToBits(low, n - 1);
      UnsignedOfBits(low, n - 1);
    }
  }

  lemma {:induction false} BitsOfUnsigned(s: seq<bool>)
    ensures ToBits(Unsigned(s), |s|) == s
    decreases |s|
  {
    if s != [] {
      var init := s[..|s| - 1];
      var p := Pow2(|s| - 1);
      var u := Unsigned(s);
      assert u == Unsigned(init) + (if s[|s| - 1] then p else 0);
      assert (u >= p) == s[|s| - 1];
      BitsOfUnsigned(init);
      assert s == init + [s[|s| - 1]];
    }
  }

  /** Two numbers below 2^n with the same n bits are equal. */
  lemma BitsInjective(u: nat, v: nat, n: nat)
    requires u < Pow2(n) && v < Pow2(n)
    ensures ToBits(u, n) == ToBits(v, n) <==> u == v
  {
    UnsignedOfBits(u, n);
    UnsignedOfBits(v, n);
  }

  /** The top bit is set exactly when the number reaches 2^(n-1). */
  lemma TopBit(u: nat, n: nat)
    requires 0 < n && u < Pow2(n)
    ensures ToBits(u, n)[n - 1] <==> u >= Pow2(n - 1)
  {
  }

  /** Bit `i` of 2^k is set exactly when `i == k`. */
  lemma {:induction false} UnsignedOfSingleBit(k: nat, n: nat)
    requires k < n
    ensures Unsigned(seq(n, i => i == k)) == Pow2(k)
    decreases n
  {
    var s := seq(n, i => i == k);
    if n - 1 == k {
      assert s[..n - 1] == seq(n - 1, i => false);
      NoBitsIsZero(n - 1);
    } else {
      assert s[..n - 1] == seq(n - 1, i => i == k);
      UnsignedOfSingleBit(k, n - 1);
    }
  }

  lemma {:induction false} NoBitsIsZero(n: nat)
    ensures Unsigned(seq(n, i => false)) == 0
    decreases n
  {
    if n > 0 {
      assert seq(n, i => false)[..n - 1] == seq(n - 1, i => false);
      NoBitsIsZero(n - 1);
    }
  }

  /** Setting more bits never makes the number smaller, and setting any extra bit makes it larger. */
  lemma {:induction false} UnsignedMonotone(a: seq<bool>, b: seq<bool>)
    requires |a| == |b|
    requires forall i :: 0 <= i < |a| ==> (a[i] ==> b[i])
    ensures Unsigned(a) <= Unsigned(b)
    ensures a != b ==> Unsigned(a) < Unsigned(b)
    decreases |a|
  {
    if a != [] {
      var n := |a| - 1;
      UnsignedMonotone(a[..n], b[..n]);
      if a != b && a[..n] == b[..n] {
        assert a == a[..n] + [a[n]] && b == b[..n] + [b[n]];
      }
    }
  }

  /** Appending bits above the top of `s` adds them scaled by 2^|s|. */
  lemma {:induction false} UnsignedConcat(s: seq<bool>, t: seq<bool>)
    ensures Unsigned(s + t) == Unsigned(s) + Pow2(|s|) * Unsigned(t)
    decreases |t|
  {
    if t != [] {
      var n := |t| - 1;
      assert (s + t)[..|s + t| - 1] == s + t[..n];
      UnsignedConcat(s, t[..n]);
      Pow2Add(|s|, n);
      var st := s + t;
      assert st[|st| - 1] == t[n];
      assert Unsigned(st) == Unsigned(s + t[..n]) + (if t[n] then Pow2(|s| + n) else 0);
      var top := if t[n] then Pow2(n) else 0;
      assert Unsigned(t) == Unsigned(t[..n]) + top;
      assert Pow2(|s|) * (Unsigned(t[..n]) + top) == Pow2(|s|) * Unsigned(t[..n]) + Pow2(|s|) * top;
    } else {
      assert s + t == s;
    }
  }

  /** n set bits spell 2^n - 1. */
  lemma {:induction false} AllBitsIsMax(n: nat)
    ensures Unsigned(seq(n, i => true)) == Pow2(n) - 1
    decreases n
  {
    if n > 0 {
      assert seq(n, i => true)[..n - 1] == seq(n - 1, i => true);
      AllBitsIsMax(n - 1);
    }
  }
}

=== FILE: channel.dfy ===
/**
 * Channel.kt: a hardware channel of the input device, numbered from 1 (a `UInt` value class).
 */
module Channels {
  import opened IntTypes
  import opened Wrappers
  import opened Text

  /** The numbers the constructor accepts: a `UInt` that is not 0. */
  type ChannelNumber = n: int | 1 <= n < TWO_32 witness 1

  datatype Channel = Channel(number: ChannelNumber)

  /** The constructor's `assert(number > 0u)` failing. */
  datatype ChannelError = ChannelsStartAtOne

  const MAX_UINT: u32 := TWO_32 - 1

  /** `Channel(n)`: every `UInt` except 0 makes a channel; 0 fails the constructor's assertion. */
  function NewChannel(n: u32): (r: Result<Channel, ChannelError>)
    ensures r.Success? <==> n > 0
    ensures r.Success? ==> r.value.number == n
  {
    if n > 0 then Success(Channel(n)) else Failure(ChannelsStartAtOne)
  }

  /** `compareTo`: the sign of the comparison of the two numbers, as `UInt.compareTo` returns it. */
  function Compare(a: Channel, b: Channel): (r: int)
    ensures r == -1 || r == 0 || r == 1
    ensures r == 0 <==> a == b
    ensures r < 0 <==> a.number < b.number
  {
    if a.number < b.number then -1 else if a.number == b.number then 0 else 1
  }

  /** `compareTo` is a total order: reflexive, antisymmetric, transitive and total. */
  lemma CompareIsTotalOrder(a: Channel, b: Channel, c: Channel)
    ensures Compare(a, a) == 0
    ensures Compare(a, b) == -Compare(b, a)
    ensures Compare(a, b) <= 0 && Compare(b, c) <= 0 ==> Compare(a, c) <= 0
    ensures Compare(a, b) <= 0 || Compare(b, a) <= 0
  {
  }

  /** `coerceAtLeast(other)`: the channel with the larger number; a missing `other` counts as 0. */
  function CoerceAtLeast(c: Channel, other: Option<Channel>): (r: Channel)
    ensures r.number >= c.number
    ensures other.Some? ==> r.number >= other.value.number
    ensures r == c || other == Some(r)
    ensures other.None? ==> r == c
  {
    var o := if other.Some? then other.value.number else 0;
    Channel(if c.number >= o then c.number else o)
  }

  /**
   * `next()`: `number + 1u` wraps to 0 at the `UInt` maximum, which the constructor's assertion
   * then rejects.
   */
  function Next(c: Channel): (r: Result<Channel, ChannelError>)
    ensures r.Success? <==> c.number < MAX_UINT
    ensures r.Success? ==> r.value.number == c.number + 1 && Compare(c, r.value) < 0
  {
    NewChannel((c.number + 1) % TWO_32)
  }

  const FIRST: Channel := Channel(1)
  const SECOND: Channel := Channel(2)

  /** The two named channels are numbered 1 and 2, in that order. */
  lemma FirstBeforeSecond()
    ensures FIRST.number == 1 && SECOND.number == 2
    ensures Compare(FIRST, SECOND) < 0 && Next(FIRST) == Success(SECOND)
  {
  }

  /** The highest channel a 32-bit mask can address. */
  const MAX_MASK_CHANNEL: int := 32

  /** `Channel.all` (not part of this model; assumed to be channels 1..32 ascending). */
  function AllFrom(n: int): (r: seq<Channel>)
    requires 1 <= n <= MAX_MASK_CHANNEL + 1
    ensures |r| == MAX_MASK_CHANNEL + 1 - n
    ensures forall i :: 0 <= i < |r| ==> r[i].number == n + i
    decreases MAX_MASK_CHANNEL + 1 - n
  {
    if n > MAX_MASK_CHANNEL then [] else [Channel(n)] + AllFrom(n + 1)
  }

  const ALL: seq<Channel> := AllFrom(1)

  /** The value class's generated `toString()`: `Channel(number=<n>)`. */
  function ChannelText(c: Channel): (r: string)
    ensures |r| > 16 && r[..15] == "Channel(number=" && r[|r| - 1] == ')'
  {
    "Channel(number=" + Decimal(c.number) + ")"
  }

  /** The printed number identifies the channel. */
  lemma ChannelTextInjective(c: Channel, d: Channel)
    ensures ChannelText(c) == ChannelText(d) <==> c == d
  {
    if ChannelText(c) == ChannelText(d) {
      var a := ChannelText(c);
      var b := ChannelText(d);
      assert a[15..|a| - 1] == Decimal(c.number);
      assert b[15..|b| - 1] == Decimal(d.number);
      DecimalInjective(c.number, d.number);
    }
  }
}

=== FILE: channel_mask.dfy ===
/**
 * ChannelMask.kt: a value class around a 32-bit `Int` whose set bits select hardware channels;
 * channel n is bit n - 1.
 *
 * `Bits` reads the `Int` as its 32 two's-complement bits, least significant first, so that
 * Kotlin's `and`/`or`/`shl` can be stated bit by bit.
 */
module ChannelMasks {
  import opened IntTypes
  import opened BitStrings
  import opened Channels
  import opened Text

  const WIDTH: nat := 32

  datatype ChannelMask = ChannelMask(mask: i32)

  /** The 32 bits of `mask`, bit 0 first. */
  function Bits(m: ChannelMask): (r: seq<bool>)
    ensures |r| == WIDTH
  {
    Pow2Widths();
    ToBits(ToU32(m.mask), WIDTH)
  }

  function Bit(m: ChannelMask, k: int): bool
    requires 0 <= k < WIDTH
  {
    Bits(m)[k]
  }

  /** The mask whose bits are `s`. */
  function FromBits(s: seq<bool>): (m: ChannelMask)
    requires |s| == WIDTH
  {
    Pow2Widths();
    ChannelMask(ToI32(Unsigned(s)))
  }

  /** Building a mask from bits and reading them back gives the same bits. */
  lemma FromBitsRoundTrip(s: seq<bool>)
    requires |s| == WIDTH
    ensures Bits(FromBits(s)) == s
  {
    Pow2Widths();
    BitsOfUnsigned(s);
  }

  /** A mask is determined by its bits. */
  lemma BitsDetermineMask(a: ChannelMask, b: ChannelMask)
    ensures Bits(a) == Bits(b) <==> a == b
  {
    Pow2Widths();
    BitsInjective(ToU32(a.mask), ToU32(b.mask), WIDTH);
  }

  /** Masks that agree on every bit are equal. */
  lemma SameBits(a: ChannelMask, b: ChannelMask)
    requires forall i :: 0 <= i < WIDTH ==> Bit(a, i) == Bit(b, i)
    ensures a == b
  {
    forall i | 0 <= i < WIDTH
      ensures Bits(a)[i] == Bits(b)[i]
    {
      assert Bit(a, i) == Bit(b, i);
    }
    BitsDetermineMask(a, b);
  }

  /** The reading of the bits is the `Int` itself: the bits lose nothing. */
  lemma BitsRoundTrip(m: ChannelMask)
    ensures FromBits(Bits(m)) == m
    ensures Unsigned(Bits(m)) == ToU32(m.mask)
  {
    Pow2Widths();
    UnsignedOfBits(ToU32(m.mask), WIDTH);
    FromBitsRoundTrip(Bits(m));
    BitsDetermineMask(FromBits(Bits(m)), m);
  }

  /** Bit 31 is the sign bit. */
  lemma SignBit(m: ChannelMask)
    ensures Bit(m, WIDTH - 1) <==> m.mask < 0
  {
    Pow2Widths();
    TopBit(ToU32(m.mask), WIDTH);
  }

  /** `and` on `Int`. */
  function And(a: ChannelMask, b: ChannelMask): ChannelMask {
    FromBits(seq(WIDTH, i requires 0 <= i < WIDTH => Bit(a, i) && Bit(b, i)))
  }

  /** `or` on `Int`. */
  function Or(a: ChannelMask, b: ChannelMask): ChannelMask {
    FromBits(seq(WIDTH, i requires 0 <= i < WIDTH => Bit(a, i) || Bit(b, i)))
  }

  /** `1 shl k` for a distance `0 <= k < 32`. */
  function Shl1(k: int): ChannelMask
    requires 0 <= k < WIDTH
  {
    FromBits(seq(WIDTH, i => i == k))
  }

  /** `and` sets the bits set in both operands. */
  lemma AndBits(a: ChannelMask, b: ChannelMask)
    ensures forall i :: 0 <= i < WIDTH ==> (Bit(And(a, b), i) <==> Bit(a, i) && Bit(b, i))
  {
    FromBitsRoundTrip(seq(WIDTH, i requires 0 <= i < WIDTH => Bit(a, i) && Bit(b, i)));
  }

  /** `or` sets the bits set in either operand. */
  lemma OrBits(a: ChannelMask, b: ChannelMask)
    ensures forall i :: 0 <= i < WIDTH ==> (Bit(Or(a, b), i) <==> Bit(a, i) || Bit(b, i))
  {
    FromBitsRoundTrip(seq(WIDTH, i requires 0 <= i < WIDTH => Bit(a, i) || Bit(b, i)));
  }

  /** `1 shl k` sets bit `k` and no other. */
  lemma Shl1Bits(k: int)
    requires 0 <= k < WIDTH
    ensures forall i :: 0 <= i < WIDTH ==> (Bit(Shl1(k), i) <==> i == k)
  {
    FromBitsRoundTrip(seq(WIDTH, i => i == k));
  }

  /** `1 shl k` is 2^k, which for k = 31 wraps to `Int.MIN_VALUE`. */
  lemma Shl1Value(k: int)
    requires 0 <= k < WIDTH
    ensures Shl1(k).mask == WrapI32(Pow2(k))
  {
    UnsignedOfSingleBit(k, WIDTH);
    Pow2Widths();
    if k < WIDTH - 1 {
      Pow2Add(k, WIDTH - 1 - k);
    }
  }

  /** `ChannelMask(0)` holds no channel. */
  const EMPTY: ChannelMask := ChannelMask(0)

  lemma EmptyHasNoBits()
    ensures forall i :: 0 <= i < WIDTH ==> !Bit(EMPTY, i)
  {
    NoBitsIsZero(WIDTH);
    Pow2Widths();
    assert FromBits(seq(WIDTH, i => false)) == EMPTY;
    FromBitsRoundTrip(seq(WIDTH, i => false));
  }

  /**
   * The shift distance of `Channel.maskForChannel`, assumed `1 shl (number - 1)`: Kotlin's `shl`
   * on `Int` uses only the low five bits of the distance.
   */
  function Distance(c: Channel): (r: int)
    ensures 0 <= r < WIDTH
    ensures c.number <= MAX_MASK_CHANNEL ==> r == c.number - 1
  {
    (c.number - 1) % 32
  }

  /** `Channel.maskForChannel`. */
  function MaskForChannel(c: Channel): ChannelMask {
    Shl1(Distance(c))
  }

  /** `isSubsetOf`: `(other.mask and this.mask) == this.mask`. */
  predicate IsSubsetOf(a: ChannelMask, b: ChannelMask) {
    And(b, a) == a
  }

  /** `contains(channel)`: `(mask and channel.maskForChannel) == channel.maskForChannel`. */
  predicate Contains(m: ChannelMask, c: Channel) {
    And(m, MaskForChannel(c)) == MaskForChannel(c)
  }

  /** `contains(ChannelMask)`, assumed to be the superset test. */
  predicate ContainsMask(outer: ChannelMask, inner: ChannelMask) {
    IsSubsetOf(inner, outer)
  }

  /** A channel is in a mask exactly when the mask's bit at the channel's shift distance is set. */
  lemma ContainsIffBit(m: ChannelMask, c: Channel)
    ensures Contains(m, c) <==> Bit(m, Distance(c))
  {
    var d := Distance(c);
    var both := And(m, MaskForChannel(c));
    AndBits(m, MaskForChannel(c));
    Shl1Bits(d);
    if Bit(m, d) {
      SameBits(both, MaskForChannel(c));
    } else {
      assert Bit(both, d) != Bit(MaskForChannel(c), d);
    }
  }

  /** `a isSubsetOf b` exactly when every bit set in `a` is set in `b`. */
  lemma SubsetIffBits(a: ChannelMask, b: ChannelMask)
    ensures IsSubsetOf(a, b) <==> forall i :: 0 <= i < WIDTH ==> (Bit(a, i) ==> Bit(b, i))
  {
    AndBits(b, a);
    if forall i :: 0 <= i < WIDTH ==> (Bit(a, i) ==> Bit(b, i)) {
      SameBits(And(b, a), a);
    }
  }

  /** `isSubsetOf` is reflexive, transitive and antisymmetric, and the empty mask is a subset of every mask. */
  lemma SubsetIsPartialOrder(a: ChannelMask, b: ChannelMask, c: ChannelMask)
    ensures IsSubsetOf(a, a)
    ensures IsSubsetOf(a, b) && IsSubsetOf(b, c) ==> IsSubsetOf(a, c)
    ensures IsSubsetOf(a, b) && IsSubsetOf(b, a) ==> a == b
    ensures IsSubsetOf(EMPTY, a)
  {
    SubsetIffBits(a, a);
    SubsetIffBits(a, b);
    SubsetIffBits(b, c);
    SubsetIffBits(a, c);
    SubsetIffBits(b, a);
    SubsetIffBits(EMPTY, a);
    EmptyHasNoBits();
    if IsSubsetOf(a, b) && IsSubsetOf(b, a) {
      SameBits(a, b);
    }
  }

  /** Channel k + 1 is bit k. */
  lemma ChannelOfBit(m: ChannelMask, k: int)
    requires 0 <= k < WIDTH
    ensures Contains(m, Channel(k + 1)) <==> Bit(m, k)
  {
    ContainsIffBit(m, Channel(k + 1));
  }

  /**
   * `isSubsetOf` is inclusion of the channel sets: `a` is a subset of `b` exactly when every
   * channel of 1..32 that `a` contains, `b` contains too.
   */
  lemma SubsetIffChannelInclusion(a: ChannelMask, b: ChannelMask)
    ensures IsSubsetOf(a, b) <==>
      forall c: Channel | c.number <= MAX_MASK_CHANNEL :: Contains(a, c) ==> Contains(b, c)
  {
    SubsetIffBits(a, b);
    if forall c: Channel | c.number <= MAX_MASK_CHANNEL :: Contains(a, c) ==> Contains(b, c) {
      forall i | 0 <= i < WIDTH && Bit(a, i)
        ensures Bit(b, i)
      {
        ChannelOfBit(a, i);
        ChannelOfBit(b, i);
      }
    }
    if IsSubsetOf(a, b) {
      forall c: Channel | c.number <= MAX_MASK_CHANNEL && Contains(a, c)
        ensures Contains(b, c)
      {
        ContainsIffBit(a, c);
        ContainsIffBit(b, c);
      }
    }
  }

  /** Channels 1..32 have pairwise distinct bits. */
  lemma DistinctChannelBits(c: Channel, d: Channel)
    requires c.number <= MAX_MASK_CHANNEL && d.number <= MAX_MASK_CHANNEL
    ensures MaskForChannel(c) == MaskForChannel(d) <==> c == d
  {
    Shl1Bits(Distance(c));
    Shl1Bits(Distance(d));
    if MaskForChannel(c) == MaskForChannel(d) {
      assert Bit(MaskForChannel(c), Distance(c));
    }
  }

  /** `ChannelMask.forChannels`, assumed to OR together each channel's bit. */
  function ForChannels(cs: seq<Channel>): ChannelMask {
    if cs == [] then EMPTY
    else Or(ForChannels(cs[..|cs| - 1]), MaskForChannel(cs[|cs| - 1]))
  }

  /**
   * A channel of 1..32 is in `forChannels(cs)` exactly when it is one of `cs`: the mask holds
   * the given channels and no other.
   */
  lemma {:induction false} ForChannelsExact(cs: seq<Channel>, c: Channel)
    requires c.number <= MAX_MASK_CHANNEL
    requires forall i :: 0 <= i < |cs| ==> cs[i].number <= MAX_MASK_CHANNEL
    ensures Contains(ForChannels(cs), c) <==> c in cs
  {
    ContainsIffBit(ForChannels(cs), c);
    if cs == [] {
      EmptyHasNoBits();
    } else {
      var init := cs[..|cs| - 1];
      var last := cs[|cs| - 1];
      assert cs == init + [last];
      ForChannelsExact(init, c);
      ContainsIffBit(ForChannels(init), c);
      var d := Distance(c);
      OrBits(ForChannels(init), MaskForChannel(last));
      Shl1Bits(Distance(last));
      assert Bit(ForChannels(cs), d) <==> Bit(ForChannels(init), d) || Bit(MaskForChannel(last), d);
      assert Bit(MaskForChannel(last), d) <==> c == last;
    }
  }

  /** For each of `Channel.all`, whether the mask contains it: entry i is channel i + 1. */
  function Membership(m: ChannelMask): (r: seq<bool>)
    ensures |r| == MAX_MASK_CHANNEL
    ensures forall i :: 0 <= i < MAX_MASK_CHANNEL ==> r[i] == Contains(m, Channel(i + 1))
  {
    seq(MAX_MASK_CHANNEL, i requires 0 <= i < MAX_MASK_CHANNEL => Contains(m, Channel(i + 1)))
  }

  /** The channels from `n` on whose entry in `keep` is set, in the order of `Channel.all`. */
  function Selected(keep: seq<bool>, n: int): (r: seq<Channel>)
    requires |keep| == MAX_MASK_CHANNEL && 1 <= n <= MAX_MASK_CHANNEL + 1
    decreases MAX_MASK_CHANNEL + 1 - n
  {
    if n > MAX_MASK_CHANNEL then []
    else if keep[n - 1] then [Channel(n)] + Selected(keep, n + 1)
    else Selected(keep, n + 1)
  }

  /** `channels`: `Channel.all.filter { it in this }`. */
  function ChannelList(m: ChannelMask): seq<Channel> {
    Selected(Membership(m), 1)
  }

  predicate StrictlyAscending(cs: seq<Channel>) {
    forall i, j :: 0 <= i < j < |cs| ==> cs[i].number < cs[j].number
  }

  lemma {:induction false} SelectedMembers(keep: seq<bool>, n: int)
    requires |keep| == MAX_MASK_CHANNEL && 1 <= n <= MAX_MASK_CHANNEL + 1
    ensures forall c: Channel :: c in Selected(keep, n) <==> n <= c.number <= MAX_MASK_CHANNEL && keep[c.number - 1]
    decreases MAX_MASK_CHANNEL + 1 - n
  {
    if n <= MAX_MASK_CHANNEL {
      SelectedMembers(keep, n + 1);
    }
  }

  lemma {:induction false} SelectedAscending(keep: seq<bool>, n: int)
    requires |keep| == MAX_MASK_CHANNEL && 1 <= n <= MAX_MASK_CHANNEL + 1
    ensures var r := Selected(keep, n);
      && StrictlyAscending(r)
      && (forall i :: 0 <= i < |r| ==> n <= r[i].number <= MAX_MASK_CHANNEL)
    decreases MAX_MASK_CHANNEL + 1 - n
  {
    if n <= MAX_MASK_CHANNEL {
      var rest := Selected(keep, n + 1);
      SelectedAscending(keep, n + 1);
      var r := [Channel(n)] + rest;
      assert forall i :: 1 <= i < |r| ==> r[i] == rest[i - 1];
    }
  }

  /**
   * `channels` yields exactly the channels whose bit is set, each once, in ascending order.
   */
  lemma ChannelListSpec(m: ChannelMask)
    ensures StrictlyAscending(ChannelList(m))
    ensures forall c: Channel :: c in ChannelList(m) <==> c.number <= MAX_MASK_CHANNEL && Contains(m, c)
    ensures forall i :: 0 <= i < |ChannelList(m)| ==> ChannelList(m)[i].number <= MAX_MASK_CHANNEL
  {
    SelectedMembers(Membership(m), 1);
    SelectedAscending(Membership(m), 1);
  }

  /** A strictly ascending list holds each channel once. */
  lemma AscendingHasNoDuplicates(cs: seq<Channel>)
    requires StrictlyAscending(cs)
    ensures forall i, j :: 0 <= i < |cs| && 0 <= j < |cs| && cs[i] == cs[j] ==> i == j
  {
  }

  /** `forChannels` and `channels` are inverse: the channels of the mask built from `cs` are `cs`, sorted. */
  lemma ForChannelsThenChannels(cs: seq<Channel>)
    requires forall i :: 0 <= i < |cs| ==> cs[i].number <= MAX_MASK_CHANNEL
    ensures forall c: Channel :: c in ChannelList(ForChannels(cs)) <==> c in cs
  {
    ChannelListSpec(ForChannels(cs));
    forall c: Channel
      ensures c in ChannelList(ForChannels(cs)) <==> c in cs
    {
      if c.number <= MAX_MASK_CHANNEL {
        ForChannelsExact(cs, c);
      }
    }
  }

  const SINGULAR_PREFIX: string := "hardware channel "
  const PLURAL_PREFIX: string := "hardware channels "

  /**
   * `toString()`. `channels` is already ascending (`ChannelListSpec`), so the `sorted()` of the
   * source leaves it as it is.
   */
  function ToString(m: ChannelMask): (r: string) {
    var cs := ChannelList(m);
    if |cs| == 1 then SINGULAR_PREFIX + ChannelText(cs[0])
    else if |cs| == 2 then PLURAL_PREFIX + ChannelText(cs[0]) + " + " + ChannelText(cs[1])
    else PLURAL_PREFIX + Join(seq(|cs|, i requires 0 <= i < |cs| => ChannelText(cs[i])), ", ")
  }

  /** The text names every channel of the mask. */
  lemma ToStringNamesChannel(m: ChannelMask, c: Channel)
    requires c.number <= MAX_MASK_CHANNEL && Contains(m, c)
    ensures Occurs(ChannelText(c), ToString(m))
  {
    var cs := ChannelList(m);
    ChannelListSpec(m);
    var i :| 0 <= i < |cs| && cs[i] == c;
    NamesListed(cs, i);
  }

  lemma NamesListed(cs: seq<Channel>, i: int)
    requires 0 <= i < |cs|
    ensures |cs| == 1 ==> Occurs(ChannelText(cs[i]), SINGULAR_PREFIX + ChannelText(cs[0]))
    ensures |cs| == 2 ==> Occurs(ChannelText(cs[i]), PLURAL_PREFIX + ChannelText(cs[0]) + " + " + ChannelText(cs[1]))
    ensures |cs| > 2 ==>
      Occurs(ChannelText(cs[i]), PLURAL_PREFIX + Join(seq(|cs|, i requires 0 <= i < |cs| => ChannelText(cs[i])), ", "))
  {
    var t := ChannelText(cs[i]);
    OccursSelf(t);
    if |cs| == 1 {
      OccursInConcat(t, SINGULAR_PREFIX, t);
    } else if |cs| == 2 {
      var t0 := ChannelText(cs[0]);
      var t1 := ChannelText(cs[1]);
      if i == 0 {
        OccursInConcat(t, PLURAL_PREFIX, t);
        OccursInConcat(t, PLURAL_PREFIX + t, " + ");
        OccursInConcat(t, PLURAL_PREFIX + t + " + ", t1);
      } else {
        OccursInConcat(t, PLURAL_PREFIX + t0 + " + ", t);
      }
    } else {
      var texts := seq(|cs|, j requires 0 <= j < |cs| => ChannelText(cs[j]));
      JoinContainsParts(texts, ", ", i);
      OccursInConcat(t, PLURAL_PREFIX, Join(texts, ", "));
    }
  }

  /** In an ascending listing, the channels after the first are exactly the larger ones listed. */
  lemma AscendingTail(a: seq<Channel>, c: Channel)
    requires StrictlyAscending(a) && a != []
    ensures c in a ==> a[0].number <= c.number
    ensures c in a[1..] <==> c in a && a[0].number < c.number
  {
    if c in a {
      var k :| 0 <= k < |a| && a[k] == c;
      if k > 0 {
        assert a[1..][k - 1] == c;
      }
    }
  }

  /** A listing is empty exactly when no channel is listed in it. */
  lemma NoMembersIsEmpty(a: seq<Channel>)
    ensures a == [] <==> forall c: Channel :: c !in a
  {
    if a != [] {
      assert a[0] in a;
    }
  }

  /** Two ascending listings of the same channels are the same listing. */
  lemma {:induction false} AscendingListingUnique(a: seq<Channel>, b: seq<Channel>)
    requires StrictlyAscending(a) && StrictlyAscending(b)
    requires forall c: Channel :: c in a <==> c in b
    ensures a == b
    decreases |a|
  {
    if a != [] && b != [] {
      AscendingTail(a, b[0]);
      AscendingTail(b, a[0]);
      assert a[0] == b[0];
      forall c: Channel
        ensures c in a[1..] <==> c in b[1..]
      {
        AscendingTail(a, c);
        AscendingTail(b, c);
      }
      AscendingListingUnique(a[1..], b[1..]);
      assert a == [a[0]] + a[1..] && b == [b[0]] + b[1..];
    } else {
      NoMembersIsEmpty(a);
      NoMembersIsEmpty(b);
    }
  }

  /**
   * The text of a mask depends on its channels alone: for any ascending listing `cs` of exactly
   * the mask's channels, a single channel reads "hardware channel c", two read
   * "hardware channels a + b", and any other number lists them all, separated by ", ".
   */
  lemma ToStringListsChannels(m: ChannelMask, cs: seq<Channel>)
    requires StrictlyAscending(cs)
    requires forall c: Channel :: c in cs <==> c.number <= MAX_MASK_CHANNEL && Contains(m, c)
    ensures |cs| == 1 ==> ToString(m) == SINGULAR_PREFIX + ChannelText(cs[0])
    ensures |cs| == 2 ==> ToString(m) == PLURAL_PREFIX + ChannelText(cs[0]) + " + " + ChannelText(cs[1])
    ensures |cs| != 1 && |cs| != 2 ==>
      ToString(m) == PLURAL_PREFIX + Join(seq(|cs|, i requires 0 <= i < |cs| => ChannelText(cs[i])), ", ")
  {
    ChannelListSpec(m);
    AscendingListingUnique(ChannelList(m), cs);
  }

  /** The text says "channel" rather than "channels" exactly when the mask holds a single channel. */
  lemma ToStringSingular(m: ChannelMask)
    ensures |ToString(m)| >= |PLURAL_PREFIX|
    ensures |ChannelList(m)| == 1 <==> ToString(m)[..|PLURAL_PREFIX|] != PLURAL_PREFIX
  {
    var r := ToString(m);
    if |ChannelList(m)| == 1 {
      assert r[|SINGULAR_PREFIX| - 1] != PLURAL_PREFIX[|SINGULAR_PREFIX| - 1];
    } else {
      assert r[..|PLURAL_PREFIX|] == PLURAL_PREFIX;
    }
  }
}

=== FILE: collections.dfy ===
/**
 * `Map.inverse` of collections.kt: every (key, value) entry of a map becomes (value, key) in the
 * destination map `into`, which is returned. When a value is already a key of `into`, the
 * conflict handler chooses the key to keep; the default handler throws. The source map is
 * given as its entries in iteration order.
 */
module Collections {
  import opened Wrappers

  /** The `RuntimeException("Duplicate key $key")` of the default handler. */
  datatype DuplicateKey<V> = DuplicateKey(key: V)

  /**
   * `into.compute(value) { ... }` for each entry in turn: a new value maps to the entry's key; a
   * value already present maps to what the handler makes of the value, the key it had and the
   * entry's key. An exception from the handler ends the loop, leaving `into` as far as it got,
   * and is returned beside it.
   */
  function Inverse<K, V(==), E>(entries: seq<(K, V)>, handler: (V, K, K) -> Result<K, E>, into: map<V, K>)
    : (r: (map<V, K>, Option<E>))
  {
    if entries == [] then (into, None)
    else
      var k := entries[0].0;
      var v := entries[0].1;
      var stored := if v in into then handler(v, into[v], k) else Success(k);
      if stored.Failure? then (into, Some(stored.error))
      else Inverse(entries[1..], handler, into[v := stored.value])
  }

  /** The default `handleDuplicateKeyConflict`, which throws. */
  function ThrowOnDuplicate<K, V>(v: V, existing: K, newKey: K): Result<K, DuplicateKey<V>> {
    Failure(DuplicateKey(v))
  }

  /** The values of the entries. */
  function Values<K, V>(entries: seq<(K, V)>): set<V> {
    set i | 0 <= i < |entries| :: entries[i].1
  }

  /** No two entries share a value. */
  predicate DistinctValues<K, V(==)>(entries: seq<(K, V)>) {
    forall i, j :: 0 <= i < j < |entries| ==> entries[i].1 != entries[j].1
  }

  lemma ValuesCons<K, V>(entries: seq<(K, V)>)
    requires entries != []
    ensures Values(entries) == {entries[0].1} + Values(entries[1..])
  {
    forall v | v in Values(entries) ensures v in {entries[0].1} + Values(entries[1..]) {
      var i :| 0 <= i < |entries| && entries[i].1 == v;
      if i > 0 { assert entries[1..][i - 1].1 == v; }
    }
  }

  lemma DistinctCons<K, V>(entries: seq<(K, V)>)
    requires entries != []
    ensures DistinctValues(entries) <==> DistinctValues(entries[1..]) && entries[0].1 !in Values(entries[1..])
  {
    var rest := entries[1..];
    assert forall i :: 0 <= i < |rest| ==> rest[i] == entries[i + 1];
    if DistinctValues(rest) && entries[0].1 !in Values(rest) {
      forall i, j | 0 <= i < j < |entries| ensures entries[i].1 != entries[j].1 {
        if i == 0 { assert entries[j].1 == rest[j - 1].1 && rest[j - 1].1 in Values(rest); }
      }
    }
    if DistinctValues(entries) {
      forall v | v in Values(rest) ensures v != entries[0].1 {
        var i :| 0 <= i < |rest| && rest[i].1 == v;
        assert entries[i + 1].1 == v;
      }
    }
  }

  /**
   * When every step succeeds, the result's keys are those `into` had plus every value of the
   * source map.
   */
  lemma {:induction false} InverseKeys<K, V, E>(entries: seq<(K, V)>, handler: (V, K, K) -> Result<K, E>, into: map<V, K>)
    ensures var r := Inverse(entries, handler, into);
      r.1.None? ==> r.0.Keys == into.Keys + Values(entries)
  {
    if entries != [] {
      ValuesCons(entries);
      var v := entries[0].1;
      var stored := if v in into then handler(v, into[v], entries[0].0) else Success(entries[0].0);
      if stored.Success? {
        InverseKeys(entries[1..], handler, into[v := stored.value]);
      }
    }
  }

  /**
   * For a source map whose values are distinct and not yet keys of `into`, the result maps each
   * value to its key and keeps what `into` held; no handler is consulted.
   */
  lemma {:induction false} InverseOfInjective<K, V, E>(entries: seq<(K, V)>, handler: (V, K, K) -> Result<K, E>, into: map<V, K>)
    requires DistinctValues(entries) && Values(entries) !! into.Keys
    ensures var r := Inverse(entries, handler, into);
      && r.1.None?
      && (forall i :: 0 <= i < |entries| ==> entries[i].1 in r.0 && r.0[entries[i].1] == entries[i].0)
      && (forall v :: v in into ==> v in r.0 && r.0[v] == into[v])
  {
    if entries != [] {
      var k := entries[0].0;
      var v := entries[0].1;
      ValuesCons(entries);
      DistinctCons(entries);
      var rest := entries[1..];
      InverseOfInjective(rest, handler, into[v := k]);
      var r := Inverse(entries, handler, into);
      assert r == Inverse(rest, handler, into[v := k]);
      forall i | 0 <= i < |entries| ensures entries[i].1 in r.0 && r.0[entries[i].1] == entries[i].0 {
        if i > 0 { assert entries[i] == rest[i - 1]; }
      }
    }
  }

  /**
   * With the default handler the inversion completes exactly when the source's values are
   * distinct and none is already a key of `into`; otherwise it throws for a repeated value.
   */
  lemma {:induction false} DefaultHandlerRefusesDuplicates<K, V>(entries: seq<(K, V)>, into: map<V, K>)
    ensures var r := Inverse(entries, ThrowOnDuplicate, into);
      && (r.1.None? <==> DistinctValues(entries) && Values(entries) !! into.Keys)
      && (r.1.Some? ==> r.1.value.key in Values(entries))
  {
    if entries != [] {
      var k := entries[0].0;
      var v := entries[0].1;
      ValuesCons(entries);
      DistinctCons(entries);
      if v !in into {
        DefaultHandlerRefusesDuplicates(entries[1..], into[v := k]);
      }
    }
  }

  /** A value met again keeps the key the handler chooses from the key stored before and the entry's key. */
  lemma ConflictKeepsHandlersChoice<K, V, E>(k1: K, k2: K, v: V, handler: (V, K, K) -> Result<K, E>, into: map<V, K>)
    requires v !in into && handler(v, k1, k2).Success?
    ensures var r := Inverse([(k1, v), (k2, v)], handler, into);
      r.1.None? && r.0 == into[v := handler(v, k1, k2).value]
  {
    var entries := [(k1, v), (k2, v)];
    var first := into[v := k1];
    assert entries[1..] == [(k2, v)];
    assert Inverse(entries, handler, into) == Inverse([(k2, v)], handler, first);
    assert [(k2, v)][1..] == [];
    assert Inverse([(k2, v)], handler, first) == Inverse([], handler, first[v := handler(v, k1, k2).value]);
    assert first[v := handler(v, k1, k2).value] == into[v := handler(v, k1, k2).value];
  }
}

=== FILE: device_mask.dfy ===
/**
 * AudioDeviceWithChannelMask.kt: one input device together with one of the channel masks it
 * offers, as the settings screen lists them. The device is reduced to its `Int` id.
 */
module DeviceMasks {
  import opened IntTypes
  import opened BitStrings
  import opened Wrappers
  import opened Channels
  import opened ChannelMasks

  datatype DeviceWithMask = DeviceWithMask(deviceId: i32, channelMask: ChannelMask)

  const LONG_WIDTH: nat := 64

  /** The 64 bits of a `Long`, bit 0 first. */
  function LongBits(v: i64): (r: seq<bool>)
    ensures |r| == LONG_WIDTH
  {
    Pow2LongWidths();
    ToBits(ToU64(v), LONG_WIDTH)
  }

  /** `or` on `Long`. */
  function OrLong(a: i64, b: i64): i64 {
    Pow2LongWidths();
    ToI64(OrBitsValue(a, b))
  }

  /** The `or` of the bits of two values, read as an unsigned number. */
  function OrBitsValue(a: i64, b: i64): (r: nat)
    ensures r < Pow2(LONG_WIDTH)
  {
    var x := LongBits(a);
    var y := LongBits(b);
    Unsigned(seq(LONG_WIDTH, i requires 0 <= i < LONG_WIDTH => x[i] || y[i]))
  }

  /** `shl` on `Long`: only the low six bits of the distance count, and the product wraps. */
  function ShlLong(v: i64, k: int): i64 {
    WrapI64(v * Pow2(k % 64))
  }

  /** `combinedId`: `(device.id.toLong() shl 31) or channelMask.mask.toLong()`. */
  function CombinedId(d: DeviceWithMask): i64 {
    OrLong(ShlLong(d.deviceId, 31), d.channelMask.mask)
  }

  /** The id's low 33 bits: what is left of it in bits 31..63 of `id shl 31`. */
  function HighPart(id: i32): (h: nat)
    ensures h < 2 * TWO_32
    ensures (h - id) % (2 * TWO_32) == 0
  {
    if id >= 0 then id else id + 2 * TWO_32
  }

  /** The bits of `id shl 31`: 31 zeros below the low 33 bits of the id. */
  lemma ShiftedIdBits(id: i32)
    ensures Pow2(33) == 2 * TWO_32
    ensures ShlLong(id, 31) == id * TWO_31
    ensures LongBits(ShlLong(id, 31)) == seq(31, i => false) + ToBits(HighPart(id), 33)
  {
    Pow2LongWidths();
    var h := HighPart(id);
    var a := seq(31, i => false) + ToBits(h, 33);
    UnsignedConcat(seq(31, i => false), ToBits(h, 33));
    NoBitsIsZero(31);
    UnsignedOfBits(h, 33);
    assert Unsigned(a) == TWO_31 * h;
    ShiftedIdPattern(id);
    BitsOfUnsigned(a);
  }

  /** `id shl 31` does not wrap, and its bit pattern is the id's low 33 bits times 2^31. */
  lemma ShiftedIdPattern(id: i32)
    ensures ShlLong(id, 31) == id * TWO_31
    ensures ToU64(ShlLong(id, 31)) == TWO_31 * HighPart(id)
  {
    Pow2LongWidths();
    assert 31 % 64 == 31;
    var x := id * TWO_31;
    assert -TWO_63 <= x < TWO_63;
    assert ShlLong(id, 31) == WrapI64(x) == x;
    if id < 0 {
      assert TWO_31 * (id + 2 * TWO_32) == x + TWO_64;
    }
  }

  /** The bits of a mask widened to `Long`: the sign bit is copied into bits 31..63. */
  lemma WidenedMaskBits(m: i32)
    ensures Pow2(31) == TWO_31
    ensures m >= 0 ==> LongBits(m) == ToBits(m, 31) + seq(33, i => false)
    ensures m < 0 ==> LongBits(m) == ToBits(m + TWO_31, 31) + seq(33, i => true)
  {
    Pow2LongWidths();
    var low := if m >= 0 then m else m + TWO_31;
    var b := ToBits(low, 31) + seq(33, i => m < 0);
    UnsignedConcat(ToBits(low, 31), seq(33, i => m < 0));
    UnsignedOfBits(low, 31);
    if m >= 0 {
      assert seq(33, i => m < 0) == seq(33, i => false);
      NoBitsIsZero(33);
      assert Unsigned(b) == m;
    } else {
      assert seq(33, i => m < 0) == seq(33, i => true);
      AllBitsIsMax(33);
      assert Unsigned(b) == m + TWO_64;
    }
    BitsOfUnsigned(b);
  }

  /**
   * The value of `combinedId`: for a mask without the sign bit the two parts occupy disjoint bits
   * and add up; a negative mask's sign extension covers the id entirely, leaving the mask alone.
   */
  lemma CombinedIdValue(d: DeviceWithMask)
    ensures d.channelMask.mask >= 0 ==> CombinedId(d) == d.deviceId * TWO_31 + d.channelMask.mask
    ensures d.channelMask.mask < 0 ==> CombinedId(d) == d.channelMask.mask
  {
    if d.channelMask.mask >= 0 {
      DisjointParts(d.deviceId, d.channelMask.mask);
    } else {
      SignExtensionCovers(d.deviceId, d.channelMask.mask);
    }
  }

  lemma DisjointParts(id: i32, m: i32)
    requires m >= 0
    ensures OrLong(ShlLong(id, 31), m) == id * TWO_31 + m
  {
    DisjointBits(id, m);
    Pow2LongWidths();
  }

  lemma DisjointBits(id: i32, m: i32)
    requires m >= 0
    ensures OrBitsValue(ShlLong(id, 31), m) == m + TWO_31 * HighPart(id)
  {
    var h := HighPart(id);
    ShiftedIdBits(id);
    WidenedMaskBits(m);
    var x := LongBits(ShlLong(id, 31));
    var y := LongBits(m);
    var c := ToBits(m, 31) + ToBits(h, 33);
    assert seq(LONG_WIDTH, i requires 0 <= i < LONG_WIDTH => x[i] || y[i]) == c;
    UnsignedConcat(ToBits(m, 31), ToBits(h, 33));
    UnsignedOfBits(m, 31);
    UnsignedOfBits(h, 33);
  }

  lemma SignExtensionCovers(id: i32, m: i32)
    requires m < 0
    ensures OrLong(ShlLong(id, 31), m) == m
  {
    Pow2LongWidths();
    ShiftedIdBits(id);
    WidenedMaskBits(m);
    var x := LongBits(ShlLong(id, 31));
    var y := LongBits(m);
    assert seq(LONG_WIDTH, i requires 0 <= i < LONG_WIDTH => x[i] || y[i]) == y;
    UnsignedOfBits(ToU64(m), LONG_WIDTH);
  }

  /** For a mask without the sign bit, `combinedId` keeps both parts: the low 31 bits are the mask. */
  lemma CombinedIdRecoversParts(d: DeviceWithMask)
    requires d.channelMask.mask >= 0
    ensures CombinedId(d) % TWO_31 == d.channelMask.mask
    ensures CombinedId(d) / TWO_31 == d.deviceId
  {
    CombinedIdValue(d);
    SplitAt31(d.deviceId, d.channelMask.mask);
  }

  lemma SplitAt31(q: int, r: int)
    requires 0 <= r < TWO_31
    ensures (q * TWO_31 + r) % TWO_31 == r && (q * TWO_31 + r) / TWO_31 == q
  {
    var x := q * TWO_31 + r;
    var k := x / TWO_31;
    assert x == k * TWO_31 + x % TWO_31;
    assert (k - q) * TWO_31 == r - x % TWO_31;
  }

  /** Hence `combinedId` tells apart any two entries whose masks lack the sign bit. */
  lemma CombinedIdInjective(a: DeviceWithMask, b: DeviceWithMask)
    requires a.channelMask.mask >= 0 && b.channelMask.mask >= 0
    ensures CombinedId(a) == CombinedId(b) <==> a == b
  {
    CombinedIdRecoversParts(a);
    CombinedIdRecoversParts(b);
  }

  /** With the sign bit set the device id is lost: every device gets the same id for that mask. */
  lemma CombinedIdIgnoresDeviceForNegativeMask(a: DeviceWithMask, b: DeviceWithMask)
    requires a.channelMask == b.channelMask && a.channelMask.mask < 0
    ensures CombinedId(a) == CombinedId(b) == a.channelMask.mask
  {
    CombinedIdValue(a);
    CombinedIdValue(b);
  }

  /** `channels.min()` fails on a mask with no channel (`NoSuchElementException`). */
  datatype CompareError = NoChannelInMask

  /** `channels.min()`: the first of the ascending channel list. */
  function LowestChannel(m: ChannelMask): Result<Channel, CompareError> {
    var cs := ChannelList(m);
    if cs == [] then Failure(NoChannelInMask) else Success(cs[0])
  }

  /** `min()` finds the mask's channel with the smallest number, and fails only on the empty mask. */
  lemma LowestChannelIsMinimum(m: ChannelMask)
    ensures LowestChannel(m).Failure? <==> m == EMPTY
    ensures LowestChannel(m).Success? ==>
      var low := LowestChannel(m).value;
      && low.number <= MAX_MASK_CHANNEL && Contains(m, low)
      && forall c: Channel | c.number <= MAX_MASK_CHANNEL && Contains(m, c) :: low.number <= c.number
  {
    ChannelListSpec(m);
    var cs := ChannelList(m);
    if cs == [] {
      NoChannelsMeansEmpty(m);
    } else {
      forall c: Channel | c.number <= MAX_MASK_CHANNEL && Contains(m, c)
        ensures cs[0].number <= c.number
      {
        assert c in cs;
      }
      if m == EMPTY {
        EmptyHasNoBits();
        ContainsIffBit(m, cs[0]);
      }
    }
  }

  /** A mask whose channel list is empty has no bit set. */
  lemma NoChannelsMeansEmpty(m: ChannelMask)
    requires ChannelList(m) == []
    ensures m == EMPTY
  {
    ChannelListSpec(m);
    forall i | 0 <= i < WIDTH
      ensures Bit(m, i) == Bit(EMPTY, i)
    {
      ChannelOfBit(m, i);
      EmptyHasNoBits();
      assert Channel(i + 1) !in ChannelList(m);
    }
    SameBits(m, EMPTY);
  }

  /** `Int.compareTo`: the sign of the difference. */
  function CompareInt(a: int, b: int): (r: int)
    ensures r == -1 || r == 0 || r == 1
    ensures r < 0 <==> a < b
    ensures r == 0 <==> a == b
  {
    if a < b then -1 else if a == b then 0 else 1
  }

  /** `compareTo`: by device id, then by the lowest channel of each mask. */
  function CompareTo(a: DeviceWithMask, b: DeviceWithMask): Result<int, CompareError> {
    var c := CompareInt(a.deviceId, b.deviceId);
    if c != 0 then Success(c)
    else
      var x :- LowestChannel(a.channelMask);
      var y :- LowestChannel(b.channelMask);
      Success(Compare(x, y))
  }

  /** Different devices are ordered by id, whatever their masks. */
  lemma CompareByDeviceFirst(a: DeviceWithMask, b: DeviceWithMask)
    requires a.deviceId != b.deviceId
    ensures CompareTo(a, b).Success?
    ensures CompareTo(a, b).value < 0 <==> a.deviceId < b.deviceId
    ensures CompareTo(a, b).value != 0
  {
  }

  /**
   * On one device the order is that of the lowest channels; it fails when either mask is empty,
   * and two entries whose masks differ but share the lowest channel compare as equal.
   */
  lemma CompareOnSameDevice(a: DeviceWithMask, b: DeviceWithMask)
    requires a.deviceId == b.deviceId
    ensures CompareTo(a, b).Failure? <==> a.channelMask == EMPTY || b.channelMask == EMPTY
    ensures CompareTo(a, b).Success? ==>
      var lowA := LowestChannel(a.channelMask).value;
      var lowB := LowestChannel(b.channelMask).value;
      && (CompareTo(a, b).value < 0 <==> lowA.number < lowB.number)
      && (CompareTo(a, b).value == 0 <==> lowA == lowB)
  {
    LowestChannelIsMinimum(a.channelMask);
    LowestChannelIsMinimum(b.channelMask);
  }

  /** Where both comparisons succeed they are antisymmetric. */
  lemma CompareAntisymmetric(a: DeviceWithMask, b: DeviceWithMask)
    requires CompareTo(a, b).Success? && CompareTo(b, a).Success?
    ensures CompareTo(a, b).value == -CompareTo(b, a).value
  {
  }

  /** Channel 1 alone and channels 1 and 2 on one device compare as equal although they differ. */
  lemma CompareIgnoresHigherChannels()
    ensures var a := DeviceWithMask(7, ForChannels([FIRST]));
      var b := DeviceWithMask(7, ForChannels([FIRST, SECOND]));
      a != b && CompareTo(a, b) == Success(0)
  {
    var a := DeviceWithMask(7, ForChannels([FIRST]));
    var b := DeviceWithMask(7, ForChannels([FIRST, SECOND]));
    ForChannelsExact([FIRST], SECOND);
    ForChannelsExact([FIRST, SECOND], SECOND);
    LowestIsFirst([FIRST]);
    LowestIsFirst([FIRST, SECOND]);
  }

  /** A mask built from a list that starts with channel 1 has channel 1 as its lowest. */
  lemma LowestIsFirst(cs: seq<Channel>)
    requires |cs| > 0 && cs[0] == FIRST && forall i :: 0 <= i < |cs| ==> cs[i].number <= MAX_MASK_CHANNEL
    ensures LowestChannel(ForChannels(cs)) == Success(FIRST)
  {
    var m := ForChannels(cs);
    ForChannelsExact(cs, FIRST);
    LowestChannelIsMinimum(m);
  }
}

=== FILE: int_types.dfy ===
/**
 * The JVM's fixed-width integers as ranges of Dafny's unbounded `int`,
 * with the two's-complement wrap-around of Kotlin's `Int`/`Long` arithmetic written out.
 */
module IntTypes {

  const TWO_8: int := 0x100
  const TWO_16: int := 0x1_0000
  const TWO_31: int := 0x8000_0000
  const TWO_32: int := 0x1_0000_0000
  const TWO_63: int := 0x8000_0000_0000_0000
  const TWO_64: int := 0x1_0000_0000_0000_0000

  /** A byte as the unsigned value 0..255 that `and 0xFF` yields. */
  type u8 = x: int | 0 <= x < 0x100
  /** Kotlin `UShort`. */
  type u16 = x: int | 0 <= x < 0x1_0000
  /** Kotlin `UInt`. */
  type u32 = x: int | 0 <= x < 0x1_0000_0000
  /** Kotlin `Int`. */
  type i32 = x: int | -0x8000_0000 <= x < 0x8000_0000
  /** Kotlin `Long`. */
  type i64 = x: int | -0x8000_0000_0000_0000 <= x < 0x8000_0000_0000_0000
  /** Kotlin `ULong`. */
  type u64 = x: int | 0 <= x < 0x1_0000_0000_0000_0000

  /** The `Int` that an unbounded integer result becomes after 32-bit two's-complement wrap-around. */
  function WrapI32(x: int): (r: i32)
    ensures (r - x) % TWO_32 == 0
    ensures -TWO_31 <= x < TWO_31 ==> r == x
  {
    var u := x % TWO_32;
    if u < TWO_31 then u else u - TWO_32
  }

  /** Numbers congruent modulo 2^32 wrap to the same `Int`. */
  lemma WrapCongruent(x: int, y: int)
    requires (x - y) % TWO_32 == 0
    ensures WrapI32(x) == WrapI32(y)
  {
    var q := (x - y) / TWO_32;
    assert x == y + q * TWO_32;
    assert x % TWO_32 == y % TWO_32;
  }

  /** The `UInt` of the same bit pattern as an `Int` (`toUInt()`). */
  function ToU32(x: i32): (r: u32)
    ensures (r - x) % TWO_32 == 0
    ensures x >= 0 ==> r == x
  {
    if x >= 0 then x else x + TWO_32
  }

  /** The `Int` of the same bit pattern as a `UInt` (`toInt()`). */
  function ToI32(x: u32): (r: i32)
    ensures (r - x) % TWO_32 == 0
    ensures x < TWO_31 ==> r == x
  {
    if x < TWO_31 then x else x - TWO_32
  }

  /** The `Long` that an unbounded integer result becomes after 64-bit two's-complement wrap-around. */
  function WrapI64(x: int): (r: i64)
    ensures (r - x) % TWO_64 == 0
    ensures -TWO_63 <= x < TWO_63 ==> r == x
  {
    var u := x % TWO_64;
    if u < TWO_63 then u else u - TWO_64
  }

  /** The `ULong` of the same bit pattern as a `Long`. */
  function ToU64(x: i64): (r: u64)
    ensures (r - x) % TWO_64 == 0
    ensures x >= 0 ==> r == x
  {
    if x >= 0 then x else x + TWO_64
  }

  /** The `Long` of the same bit pattern as a `ULong`. */
  function ToI64(x: u64): (r: i64)
    ensures (r - x) % TWO_64 == 0
    ensures x < TWO_63 ==> r == x
  {
    if x < TWO_63 then x else x - TWO_64
  }

  /** `toUInt`/`toInt` are inverse bit reinterpretations. */
  lemma ReinterpretRoundTrip(x: i32, u: u32)
    ensures ToI32(ToU32(x)) == x
    ensures ToU32(ToI32(u)) == u
  {
  }

  function Pow2(n: nat): (r: nat)
    ensures r >= 1
  {
    if n == 0 then 1 else 2 * Pow2(n - 1)
  }

  lemma {:induction false} Pow2Add(a: nat, b: nat)
    ensures Pow2(a + b) == Pow2(a) * Pow2(b)
    decreases a
  {
    if a > 0 {
      Pow2Add(a - 1, b);
    }
  }

  /** The powers of two that name the JVM widths. */
  lemma Pow2Widths()
    ensures Pow2(8) == TWO_8 && Pow2(16) == TWO_16
    ensures Pow2(31) == TWO_31 && Pow2(32) == TWO_32
  {
    assert Pow2(4) == 16;
    Pow2Add(4, 4);
    Pow2Add(8, 8);
    Pow2Add(16, 15);
    Pow2Add(16, 16);
  }

  /** The powers of two that a 64-bit `Long` split at bit 31 needs. */
  lemma Pow2LongWidths()
    ensures Pow2(31) == TWO_31 && Pow2(33) == 2 * TWO_32
    ensures Pow2(63) == TWO_63 && Pow2(64) == TWO_64
  {
    Pow2Widths();
    Pow2Add(32, 1);
    Pow2Add(32, 31);
    Pow2Add(32, 32);
  }
}

=== FILE: little_endian.dfy ===
/**
 * The little-endian byte helpers of the WAV code: `writeLEInt`/`writeLEUShort` (and the older
 * writer's `writeLE` overloads) and `readLEInt`/`readLEUShort`, as functions between values
 * and byte sequences.
 */
module LittleEndian {
  import opened IntTypes

  /** The 2 bytes `writeLEUShort` emits: the low byte, then the high byte. */
  function EncodeUShort(v: u16): (bs: seq<u8>)
    ensures |bs| == 2
    ensures (bs[0] as int) + TWO_8 * bs[1] == v
  {
    [v % 0x100, v / 0x100]
  }

  /**
   * The 4 bytes `writeLEInt` emits: `(value shr 8k) and 0xFF` for k = 0..3. Dafny's `/` by a
   * positive constant rounds down like `shr`, and `%` is never negative like `and 0xFF`.
   */
  function EncodeInt(v: i32): (bs: seq<u8>)
    ensures |bs| == 4
  {
    [v % 0x100, (v / 0x100) % 0x100, (v / 0x1_0000) % 0x100, (v / 0x100_0000) % 0x100]
  }

  /** The unsigned value of four bytes, least significant first. */
  function Unsigned32(b0: u8, b1: u8, b2: u8, b3: u8): int {
    (b0 as int) + 0x100 * (b1 as int) + 0x1_0000 * (b2 as int) + 0x100_0000 * (b3 as int)
  }

  /** The value `readLEUShort` assembles from its two bytes. */
  function DecodeUShort(b0: u8, b1: u8): (v: u16)
    ensures v % 0x100 == b0 && v / 0x100 == b1
  {
    (b1 as int) * 0x100 + b0
  }

  /**
   * The value `readLEInt` assembles from its four bytes: the fourth byte lands in the sign
   * position, so the result is the `Int` of the unsigned 32-bit little-endian reading.
   */
  function DecodeInt(b0: u8, b1: u8, b2: u8, b3: u8): (v: i32)
    ensures (b3 < 0x80) <==> v >= 0
  {
    ToI32(Unsigned32(b0, b1, b2, b3))
  }

  function DecodeIntAt(bs: seq<u8>, at: nat): i32
    requires at + 4 <= |bs|
  {
    DecodeInt(bs[at], bs[at + 1], bs[at + 2], bs[at + 3])
  }

  function DecodeUShortAt(bs: seq<u8>, at: nat): u16
    requires at + 2 <= |bs|
  {
    DecodeUShort(bs[at], bs[at + 1])
  }

  /** Writing an `UShort` and reading it back yields the same value. */
  lemma UShortRoundTrip(v: u16)
    ensures DecodeUShortAt(EncodeUShort(v), 0) == v
  {
  }

  /** Every two bytes are the encoding of the value they decode to. */
  lemma UShortBytesRoundTrip(b0: u8, b1: u8)
    ensures EncodeUShort(DecodeUShort(b0, b1)) == [b0, b1]
  {
  }

  /** The unsigned reading of the bytes `writeLEInt` emits is the bit pattern of the value. */
  lemma EncodeIntUnsigned(v: i32)
    ensures var bs := EncodeInt(v);
      Unsigned32(bs[0], bs[1], bs[2], bs[3]) == ToU32(v)
  {
    var u := ToU32(v);
    assert u % TWO_32 == v % TWO_32;
    var q1 := v / 0x100;
    var q2 := v / 0x1_0000;
    var q3 := v / 0x100_0000;
    assert q2 == q1 / 0x100;
    assert q3 == q2 / 0x100;
    assert v == q1 * 0x100 + v % 0x100;
    assert q1 == q2 * 0x100 + q1 % 0x100;
    assert q2 == q3 * 0x100 + q2 % 0x100;
    assert -0x80 <= q3 < 0x80;
  }

  /** Writing an `Int` with `writeLEInt` and reading it back with `readLEInt` yields the same value. */
  lemma IntRoundTrip(v: i32)
    ensures DecodeIntAt(EncodeInt(v), 0) == v
  {
    EncodeIntUnsigned(v);
    ReinterpretRoundTrip(v, 0);
  }

  /** Every four bytes are the encoding of the value they decode to. */
  lemma IntBytesRoundTrip(b0: u8, b1: u8, b2: u8, b3: u8)
    ensures EncodeInt(DecodeInt(b0, b1, b2, b3)) == [b0, b1, b2, b3]
  {
    var u := Unsigned32(b0, b1, b2, b3);
    var v := DecodeInt(b0, b1, b2, b3);
    EncodeIntUnsigned(v);
    ReinterpretRoundTrip(v, u);
    var bs := EncodeInt(v);
    assert Unsigned32(bs[0], bs[1], bs[2], bs[3]) == u;
    DigitsUnique(bs[0], bs[1], bs[2], bs[3], b0, b1, b2, b3);
  }

  /** Base-256 digits are unique. */
  lemma DigitsUnique(a0: u8, a1: u8, a2: u8, a3: u8, c0: u8, c1: u8, c2: u8, c3: u8)
    requires Unsigned32(a0, a1, a2, a3) == Unsigned32(c0, c1, c2, c3)
    ensures a0 == c0 && a1 == c1 && a2 == c2 && a3 == c3
  {
    assert a0 == c0;
    assert (a1 as int) + 0x100 * a2 + 0x1_0000 * a3 == (c1 as int) + 0x100 * c2 + 0x1_0000 * c3;
    assert a1 == c1;
    assert (a2 as int) + 0x100 * a3 == (c2 as int) + 0x100 * c3;
  }
}

=== FILE: recording_service.dfy ===
/**
 * `RecordingService`: the session state machine (`Initial`, `Configured`,
 * `ListeningAndPossiblyRecording`) answering the client's commands with typed responses, and the
 * retention of finished takes (`addRetainableTake`, `tryRetainTake`, the sweep of the
 * garbage-collecting thread). The Android calls it makes become inputs: the input devices, whether
 * the record permission is granted, the device the audio record was routed to, whether the
 * listening thread is alive and recording, the mover the runnable hands back for a finished take,
 * and the clock.
 */
module RecordingService {
  import opened IntTypes
  import opened Wrappers
  import opened Channels
  import opened ChannelMasks
  import TakeMover

  /** The parts of an `AudioDeviceInfo` the service looks at. */
  datatype Device = Device(id: int, address: string, encodings: seq<int>, sampleRates: seq<int>, channelMasks: seq<i32>)

  /** `RecordingConfig.InputTrackConfig`: the device channels of a track. */
  datatype TrackConfig = TrackConfig(id: i64, left: Channel, right: Option<Channel>)

  /** `RecordingConfig`, with the channel mask the service compares against the device's. */
  datatype RecordingConfig = RecordingConfig(
    deviceAddress: string, deviceId: int, samplingRate: int, encoding: int,
    tracks: seq<TrackConfig>, channelMask: ChannelMask)

  /** `isConfigValidFor`: the device is the configured one and offers its encoding, rate and mask. */
  predicate IsConfigValidFor(config: RecordingConfig, device: Device) {
    && device.id == config.deviceId && config.deviceAddress == device.address
    && config.encoding in device.encodings
    && config.samplingRate in device.sampleRates
    && config.channelMask.mask in device.channelMasks
  }

  /** `find { isConfigValidFor(config, it) }` over the input devices. */
  function FindDevice(devices: seq<Device>, config: RecordingConfig): (r: Option<Device>)
    ensures r.Some? ==> r.value in devices && IsConfigValidFor(config, r.value)
    ensures r.None? <==> forall d :: d in devices ==> !IsConfigValidFor(config, d)
    ensures r.Some? ==> exists i :: 0 <= i < |devices| && devices[i] == r.value
                                    && forall j :: 0 <= j < i ==> !IsConfigValidFor(config, devices[j])
  {
    if devices == [] then None
    else if IsConfigValidFor(config, devices[0]) then Some(devices[0])
    else FindDevice(devices[1..], config)
  }

  /** The device channels of the tracks, left before right, in track order (`flatMap { listOfNotNull(left, right) }`). */
  function TrackChannels(tracks: seq<TrackConfig>): (r: seq<Channel>)
    ensures forall t :: t in tracks ==> t.left in r && (t.right.Some? ==> t.right.value in r)
  {
    if tracks == [] then []
    else [tracks[0].left] + (if tracks[0].right.Some? then [tracks[0].right.value] else []) + TrackChannels(tracks[1..])
  }

  /** `ChannelMask.forChannels` of every channel the tracks use. */
  function DesiredMask(config: RecordingConfig): ChannelMask {
    ForChannels(TrackChannels(config.tracks))
  }

  /**
   * `channelMasks.map(::ChannelMask).filter { desired in it }.minOrNull()`: the smallest offered
   * mask, compared as the signed `Int` it holds, that contains the desired mask.
   */
  function ChooseMask(offered: seq<i32>, desired: ChannelMask): (r: Option<ChannelMask>)
  {
    if offered == [] then None
    else
      var rest := ChooseMask(offered[1..], desired);
      if !ContainsMask(ChannelMask(offered[0]), desired) then rest
      else if rest.None? || offered[0] <= rest.value.mask then Some(ChannelMask(offered[0]))
      else rest
  }

  /**
   * The chosen mask is an offered one that contains the desired mask and is not larger than any
   * other such mask; there is none exactly when no offered mask contains the desired one.
   */
  lemma {:induction false} ChooseMaskIsSmallestSuperset(offered: seq<i32>, desired: ChannelMask)
    ensures var r := ChooseMask(offered, desired);
      && (r.None? <==> forall m :: m in offered ==> !ContainsMask(ChannelMask(m), desired))
      && (r.Some? ==>
          && r.value.mask in offered && ContainsMask(r.value, desired)
          && forall m :: m in offered && ContainsMask(ChannelMask(m), desired) ==> r.value.mask <= m)
  {
    if offered != [] {
      ChooseMaskIsSmallestSuperset(offered[1..], desired);
      assert forall m :: m in offered ==> m == offered[0] || m in offered[1..];
    }
  }

  /** What a configured service holds: the device, the configuration and the chosen mask. */
  datatype Setup = Setup(device: Device, config: RecordingConfig, mask: ChannelMask)

  /**
   * The service's state. `hasRecord` says whether `Configured` holds an `AudioRecord`; the
   * listening state keeps its configured state (which holds the record it listens on), and
   * whether the listening thread is alive and recording.
   */
  datatype State =
    | Initial
    | Configured(setup: Setup, hasRecord: bool)
    | Listening(setup: Setup, alive: bool, recording: bool)

  /** A retained take: its id and its mover. */
  datatype Entry = Entry(id: i32, mover: TakeMover.Mover)

  /** The service: its state, the retained takes in ascending id order (a `ConcurrentSkipListMap`), the storage, and whether it asked to be stopped. */
  datatype Service = Service(state: State, retained: seq<Entry>, storage: TakeMover.Storage, stopRequested: bool)

  /** `UpdateRecordingConfigCommand.Response.Result`. */
  datatype ConfigResult = Ok | Invalid | StopRecordingFirst

  /** `StartOrStopListeningCommand.Response.Result`. */
  datatype ListenResult = NowListening | NotListening | DeviceNotAvailable | NoPermission | NotConfigured | StillRecording

  /** `StartNewTakeCommand.Response.Result`. */
  datatype NewTakeResult = NowRecording | TakeInvalidState | AlreadyRecording

  /** `FinishTakeCommand.Response`: the finished take's retention id, when it left one, or `INVALID_STATE`. */
  datatype FinishResult = TakeFinished(wasRecording: bool, retainId: Option<i32>) | FinishInvalidState

  datatype Response =
    | ConfigResponse(config: ConfigResult)
    | ListenResponse(listen: ListenResult)
    | NewTakeResponse(newTake: NewTakeResult)
    | FinishResponse(finish: FinishResult)
    | RetainResponse(retainId: i32, success: bool)
    | NoResponse
    | Thrown(error: TakeMover.MoverError)
    | ListeningThreadDead  // `ControlledThreadIsDeadException`: a synchronous command found the listening thread ended

  datatype ListenAction = Start | Stop

  /** The answers of the platform a listen request depends on: the permission, and where the record was routed. */
  datatype Platform = Platform(permissionGranted: bool, routedDeviceId: Option<int>)

  /** The commands of `IncomingHandler`, plus the service's `onUnbind` and `forceStop`. */
  datatype Command =
    | UpdateConfig(config: RecordingConfig, devices: seq<Device>, platform: Platform)
    | StartOrStopListening(listen: ListenAction, platform: Platform)
    | StartNewTake
    | FinishTake(handedBack: Option<TakeMover.Mover>)  // the runnable hands back a fresh, MOVABLE mover (`HandleKeepsNoneMoved`)
    | RetainTake(id: i32)
    | Unbind
    | ForceStop(handedBack: Option<TakeMover.Mover>)

  /** `Initial.updateRecordingConfig`: the first valid device and its smallest offered mask containing the tracks' channels. */
  function Configure(config: RecordingConfig, devices: seq<Device>): (r: (State, ConfigResult)) {
    var device := FindDevice(devices, config);
    if device.None? then (Initial, Invalid)
    else
      var chosen := ChooseMask(device.value.channelMasks, DesiredMask(config));
      if chosen.None? then (Initial, Invalid)
      else (Configured(Setup(device.value, config, chosen.value), false), Ok)
  }

  /**
   * `Configured.startOrStopListening` (subscriptions left out): STOP and a missing permission
   * answer without a change; otherwise the record is created if needed and started, and released
   * again when it was routed to another device.
   */
  function ConfiguredListen(setup: Setup, hasRecord: bool, listen: ListenAction, platform: Platform): (r: (State, ListenResult)) {
    if listen == Stop then (Configured(setup, hasRecord), NotListening)
    else if !platform.permissionGranted then (Configured(setup, hasRecord), NoPermission)
    else if platform.routedDeviceId != Some(setup.device.id) then (Configured(setup, false), DeviceNotAvailable)
    else (Listening(setup, true, false), NowListening)
  }

  /** `internalStopListening`: the loop is stopped, and the service is back in its configured state, record kept. */
  function StopListening(setup: Setup): State {
    Configured(setup, true)
  }

  /** The largest id retained, or -1 (`keys.maxOrNull() ?: -1`), for ids in ascending order. */
  function MaxIdOrMinusOne(retained: seq<Entry>): int {
    if retained == [] then -1 else retained[|retained| - 1].id
  }

  predicate Ascending(retained: seq<Entry>) {
    forall i, j :: 0 <= i < j < |retained| ==> retained[i].id < retained[j].id
  }

  function Ids(retained: seq<Entry>): set<i32> {
    set i | 0 <= i < |retained| :: retained[i].id
  }

  /** The mover retained under `id`. */
  function Lookup(retained: seq<Entry>, id: i32): (r: Option<TakeMover.Mover>)
    ensures r.Some? <==> id in Ids(retained)
  {
    if retained == [] then None
    else
      IdsCons(retained);
      if retained[0].id == id then Some(retained[0].mover) else Lookup(retained[1..], id)
  }

  /** `remove(id)`. */
  function Remove(retained: seq<Entry>, id: i32): seq<Entry> {
    if retained == [] then []
    else if retained[0].id == id then Remove(retained[1..], id)
    else [retained[0]] + Remove(retained[1..], id)
  }

  /** Removing an id forgets it and nothing else, and keeps the ids ascending. */
  lemma {:induction false} RemoveForgetsOnlyId(retained: seq<Entry>, id: i32)
    ensures var r := Remove(retained, id);
      && Ids(r) == Ids(retained) - {id}
      && (Ascending(retained) ==> Ascending(r))
      && (forall k :: k != id ==> Lookup(r, k) == Lookup(retained, k))
      && Lookup(r, id).None?
  {
    if retained != [] {
      var rest := Remove(retained[1..], id);
      RemoveForgetsOnlyId(retained[1..], id);
      IdsCons(retained);
      AscendingTail(retained);
      if retained[0].id != id {
        var r := [retained[0]] + rest;
        IdsCons(r);
        assert r[1..] == rest;
        if Ascending(retained) {
          forall k | k in Ids(rest) ensures retained[0].id < k {
            var i :| 0 <= i < |retained[1..]| && retained[1..][i].id == k;
            assert retained[i + 1].id == k;
          }
          AscendingCons(retained[0], rest);
        }
      }
    }
  }

  /** `putIfAbsent(id, mover)` on ids in ascending order: inserted at its place, or nothing when present. */
  function Insert(retained: seq<Entry>, e: Entry): (r: seq<Entry>)
    ensures Ids(r) == Ids(retained) + {e.id}
  {
    if retained == [] then
      IdsCons([e]); assert Ids([e][1..]) == {};
      [e]
    else if e.id < retained[0].id then
      IdsCons([e] + retained); assert ([e] + retained)[1..] == retained;
      [e] + retained
    else if e.id == retained[0].id then retained
    else
      var rest := Insert(retained[1..], e);
      IdsCons(retained); IdsCons([retained[0]] + rest); assert ([retained[0]] + rest)[1..] == rest;
      [retained[0]] + rest
  }

  lemma IdsCons(retained: seq<Entry>)
    requires retained != []
    ensures Ids(retained) == {retained[0].id} + Ids(retained[1..])
  {
    forall k | k in Ids(retained) ensures k in {retained[0].id} + Ids(retained[1..]) {
      var i :| 0 <= i < |retained| && retained[i].id == k;
      if i > 0 { assert retained[1..][i - 1].id == k; }
    }
  }

  lemma AscendingTail(retained: seq<Entry>)
    requires retained != []
    ensures Ascending(retained) ==> Ascending(retained[1..]) && retained[0].id !in Ids(retained[1..])
  {
    if Ascending(retained) {
      forall k | k in Ids(retained[1..]) ensures k != retained[0].id {
        var i :| 0 <= i < |retained[1..]| && retained[1..][i].id == k;
        assert retained[i + 1].id == k;
      }
    }
  }

  lemma AscendingCons(e: Entry, rest: seq<Entry>)
    requires Ascending(rest) && forall k :: k in Ids(rest) ==> e.id < k
    ensures Ascending([e] + rest)
  {
    forall i, j | 0 <= i < j < |[e] + rest| ensures ([e] + rest)[i].id < ([e] + rest)[j].id {
      if i == 0 { assert ([e] + rest)[j].id == rest[j - 1].id && rest[j - 1].id in Ids(rest); }
    }
  }

  lemma LookupAbsent(retained: seq<Entry>, id: i32)
    requires id !in Ids(retained)
    ensures Lookup(retained, id).None?
  {
  }

  /**
   * `addRetainableTake`: the candidate id is one more than the largest retained id (0 when none is
   * retained), wrapping as an `Int`; `putIfAbsent` stores the mover under it. Only after the wrap
   * can the candidate be taken, and then the loop recomputes the same candidate without end
   * (unless the sweeping thread removes it): `None`.
   */
  function AddRetainableTake(retained: seq<Entry>, mover: TakeMover.Mover): (r: Option<(seq<Entry>, i32)>)
  {
    var candidate := WrapI32(MaxIdOrMinusOne(retained) + 1);
    if candidate in Ids(retained) then None
    else Some((Insert(retained, Entry(candidate, mover)), candidate))
  }

  /** The largest id of an ascending list is its last one. */
  lemma LastIsLargest(retained: seq<Entry>)
    requires Ascending(retained)
    ensures forall k :: k in Ids(retained) ==> k <= MaxIdOrMinusOne(retained)
  {
    forall k | k in Ids(retained) ensures k <= MaxIdOrMinusOne(retained) {
      var i :| 0 <= i < |retained| && retained[i].id == k;
    }
  }

  /** Inserting above every retained id appends. */
  lemma {:induction false} InsertAboveAppends(retained: seq<Entry>, e: Entry)
    requires Ascending(retained) && forall k :: k in Ids(retained) ==> k < e.id
    ensures Insert(retained, e) == retained + [e]
  {
    if retained != [] {
      IdsCons(retained);
      AscendingTail(retained);
      InsertAboveAppends(retained[1..], e);
      assert [retained[0]] + (retained[1..] + [e]) == retained + [e];
    }
  }

  /** A list of ascending ids with an entry above all of them appended stays ascending. */
  lemma AppendAscending(retained: seq<Entry>, e: Entry)
    requires Ascending(retained) && forall k :: k in Ids(retained) ==> k < e.id
    ensures Ascending(retained + [e])
  {
    var r := retained + [e];
    forall i, j | 0 <= i < j < |r| ensures r[i].id < r[j].id {
      if j == |retained| { assert r[i].id in Ids(retained); }
    }
  }

  /**
   * Until the ids wrap, a new take's id is one more than the largest retained id, or 0 when none
   * is retained: an id that was free, which now leads to the mover, every other id unchanged.
   */
  lemma AddRetainableTakeAllocatesFreshId(retained: seq<Entry>, mover: TakeMover.Mover)
    requires Ascending(retained) && MaxIdOrMinusOne(retained) < TWO_31 - 1
    ensures var r := AddRetainableTake(retained, mover);
      && r.Some?
      && r.value.1 == MaxIdOrMinusOne(retained) + 1
      && (retained == [] ==> r.value.1 == 0)
      && r.value.1 !in Ids(retained)
      && Ascending(r.value.0) && r.value.0 == retained + [Entry(r.value.1, mover)]
      && Lookup(r.value.0, r.value.1) == Some(mover)
      && Ids(r.value.0) == Ids(retained) + {r.value.1}
  {
    var candidate := MaxIdOrMinusOne(retained) + 1;
    LastIsLargest(retained);
    InsertAboveAppends(retained, Entry(candidate, mover));
    AppendAscending(retained, Entry(candidate, mover));
    LookupLast(retained, Entry(candidate, mover));
  }

  lemma {:induction false} LookupLast(retained: seq<Entry>, e: Entry)
    requires e.id !in Ids(retained)
    ensures Lookup(retained + [e], e.id) == Some(e.mover)
  {
    if retained != [] {
      IdsCons(retained);
      assert (retained + [e])[1..] == retained[1..] + [e];
      LookupLast(retained[1..], e);
    }
  }

  /** Once the ids have reached `Int.MAX_VALUE` and wrapped to `Int.MIN_VALUE`, which is taken, no id is found. */
  lemma AddRetainableTakeStallsAfterWrap(mover: TakeMover.Mover)
    ensures var retained := [Entry(-TWO_31 as i32, mover), Entry((TWO_31 - 1) as i32, mover)];
      AddRetainableTake(retained, mover).None?
  {
    var retained := [Entry(-TWO_31 as i32, mover), Entry((TWO_31 - 1) as i32, mover)];
    assert retained[0].id in Ids(retained);
  }

  /**
   * `tryRetainTake`: an unknown id answers false; a known one is removed and its files moved to
   * the media store, answering false only when the take was already discarded. A file that
   * vanished while being moved throws.
   */
  function TryRetainTake(s: Service, id: i32): (r: (Service, Response)) {
    var take := Lookup(s.retained, id);
    if take.None? then (s, RetainResponse(id, false))
    else
      var removed := s.(retained := Remove(s.retained, id));
      var o := TakeMover.AssureFilesAreInMediaStore(take.value, s.storage);
      if o.thrown == Some(TakeMover.TakeDiscarded) then (removed, RetainResponse(id, false))
      else if o.thrown.Some? then (removed.(storage := o.storage), Thrown(o.thrown.value))
      else (removed.(storage := o.storage), RetainResponse(id, true))
  }

  /**
   * An unknown id changes nothing and answers false. A known one is no longer retained; a take
   * that was not discarded and whose files have distinct paths is moved to the media store and
   * answers true.
   */
  lemma TryRetainTakeRetainsOnce(s: Service, id: i32)
    ensures var r := TryRetainTake(s, id);
      && (id !in Ids(s.retained) ==> r == (s, RetainResponse(id, false)))
      && (id in Ids(s.retained) ==>
          && Ids(r.0.retained) == Ids(s.retained) - {id}
          && (forall k :: k != id ==> Lookup(r.0.retained, k) == Lookup(s.retained, k))
          && var m := Lookup(s.retained, id).value;
             (m.state != TakeMover.Discarded && TakeMover.DistinctPaths(m.takeFiles) ==>
              && r.1 == RetainResponse(id, true)
              && r.0.storage == TakeMover.AssureFilesAreInMediaStore(m, s.storage).storage)
             && (m.state == TakeMover.Discarded ==> r.1 == RetainResponse(id, false) && r.0.storage == s.storage))
      && Lookup(r.0.retained, id).None?
  {
    RemoveForgetsOnlyId(s.retained, id);
    if id in Ids(s.retained) {
      var m := Lookup(s.retained, id).value;
      TakeMover.AssureRefusedOnlyWhenDiscarded(m, s.storage);
      if m.state != TakeMover.Discarded && TakeMover.DistinctPaths(m.takeFiles) {
        TakeMover.AssureMovesExistingFiles(m, s.storage);
      }
    }
  }

  /**
   * One pass of the sweeping thread over the retained takes in ascending id order: a take whose
   * lifetime is over is removed and discarded. Discarding a take that was moved throws and ends
   * the thread, the takes after it unvisited.
   */
  function Sweep(retained: seq<Entry>, storage: TakeMover.Storage, now: i64): (r: (seq<Entry>, TakeMover.Storage, Option<TakeMover.MoverError>))
  {
    if retained == [] then ([], storage, None)
    else
      var e := retained[0];
      if !Expired(e, now) then
        var rest := Sweep(retained[1..], storage, now);
        ([e] + rest.0, rest.1, rest.2)
      else
        var o := TakeMover.Discard(e.mover, storage);
        if o.thrown.Some? then (retained[1..], storage, o.thrown)
        else Sweep(retained[1..], o.storage, now)
  }

  /**
   * The sweeping thread is the map's other writer: a sweep keeps only takes that were retained,
   * so the ids stay ascending.
   */
  lemma {:induction false} SweepKeepsIdsAscending(retained: seq<Entry>, storage: TakeMover.Storage, now: i64)
    requires Ascending(retained)
    ensures Ascending(Sweep(retained, storage, now).0)
    ensures Ids(Sweep(retained, storage, now).0) <= Ids(retained)
    decreases |retained|
  {
    if retained != [] {
      var e := retained[0];
      IdsCons(retained);
      AscendingTail(retained);
      if !Expired(e, now) {
        var rest := Sweep(retained[1..], storage, now);
        SweepKeepsIdsAscending(retained[1..], storage, now);
        forall k | k in Ids(rest.0) ensures e.id < k {
          var j :| 0 <= j < |retained[1..]| && retained[1..][j].id == k;
          assert retained[j + 1].id == k;
        }
        AscendingCons(e, rest.0);
        IdsCons([e] + rest.0);
        assert ([e] + rest.0)[1..] == rest.0;
      } else {
        var o := TakeMover.Discard(e.mover, storage);
        if o.thrown.None? {
          SweepKeepsIdsAscending(retained[1..], o.storage, now);
        }
      }
    }
  }

  /** A sweep keeps only takes that were retained, so none of them has been moved. */
  lemma {:induction false} SweepKeepsNoneMoved(retained: seq<Entry>, storage: TakeMover.Storage, now: i64)
    requires NoneMoved(retained)
    ensures NoneMoved(Sweep(retained, storage, now).0)
    decreases |retained|
  {
    if retained != [] {
      var e := retained[0];
      assert NoneMoved(retained[1..]) by {
        forall i | 0 <= i < |retained| - 1 ensures retained[1..][i].mover.state != TakeMover.Moved {
          assert retained[1..][i] == retained[i + 1];
        }
      }
      if !Expired(e, now) {
        var rest := Sweep(retained[1..], storage, now);
        SweepKeepsNoneMoved(retained[1..], storage, now);
        forall i | 0 <= i < |[e] + rest.0| ensures ([e] + rest.0)[i].mover.state != TakeMover.Moved {
          if i > 0 {
            assert ([e] + rest.0)[i] == rest.0[i - 1];
          }
        }
      } else {
        var o := TakeMover.Discard(e.mover, storage);
        if o.thrown.None? {
          SweepKeepsNoneMoved(retained[1..], o.storage, now);
        }
      }
    }
  }

  /** `take.shouldDiscard(TAKE_LIFETIME)`, with the source's `finishedAt + lifetime < now` comparison. */
  predicate Expired(e: Entry, now: i64) {
    TakeMover.ShouldDiscardAsWritten(e.mover, TakeMover.TAKE_LIFETIME_NANOS, now)
  }

  /**
   * While neither the deadline `finishedAt + 15 s` nor the elapsed time leaves the `Long` range,
   * a take has expired exactly when more than its lifetime has passed since it was finished.
   */
  lemma ExpiredIffLifetimeElapsed(e: Entry, now: i64)
    requires -TWO_63 <= e.mover.finishedAt + TakeMover.TAKE_LIFETIME_NANOS < TWO_63
    requires -TWO_63 <= now - e.mover.finishedAt < TWO_63
    ensures Expired(e, now) <==> now - e.mover.finishedAt > TakeMover.TAKE_LIFETIME_NANOS
  {
    TakeMover.AsWrittenAgreesWithoutOverflow(e.mover, TakeMover.TAKE_LIFETIME_NANOS, now);
    TakeMover.ShouldDiscardIffExpired(e.mover, TakeMover.TAKE_LIFETIME_NANOS, now);
  }

  /**
   * Near the end of the clock's range the sweep discards a take finished one nanosecond before:
   * its deadline wraps to a negative `Long`.
   */
  lemma SweepDiscardsFreshTakeNearWrap(storage: TakeMover.Storage)
    ensures var e := Entry(0, TakeMover.Mover([], (TWO_63 - 10) as i64, TakeMover.Movable));
      var now := (TWO_63 - 9) as i64;
      && now - e.mover.finishedAt == 1
      && Sweep([e], storage, now) == ([], storage, None)
  {
    var e := Entry(0, TakeMover.Mover([], (TWO_63 - 10) as i64, TakeMover.Movable));
    TakeMover.AsWrittenDiscardsFreshTakeNearWrap();
    assert Expired(e, (TWO_63 - 9) as i64);
    assert TakeMover.Paths([]) == {};
    assert storage.(files := storage.files - {}) == storage;
  }

  /** No retained take has been moved: movers are retained fresh and removed before they are moved. */
  predicate NoneMoved(retained: seq<Entry>) {
    forall i :: 0 <= i < |retained| ==> retained[i].mover.state != TakeMover.Moved
  }

  /** The files of the takes whose lifetime is over. */
  function ExpiredFiles(retained: seq<Entry>, now: i64): set<string> {
    if retained == [] then {}
    else (if Expired(retained[0], now) then TakeMover.Paths(retained[0].mover.takeFiles) else {}) + ExpiredFiles(retained[1..], now)
  }

  /** The takes whose lifetime is not over, in order. */
  function Unexpired(retained: seq<Entry>, now: i64): (r: seq<Entry>)
    ensures forall i :: 0 <= i < |r| ==> r[i] in retained && !Expired(r[i], now)
    ensures forall e :: e in retained && !Expired(e, now) ==> e in r
  {
    if retained == [] then []
    else (if Expired(retained[0], now) then [] else [retained[0]]) + Unexpired(retained[1..], now)
  }

  /**
   * When no retained take has been moved, a sweep keeps exactly the takes whose lifetime is not
   * over, in order, and deletes exactly the files of the others.
   */
  lemma {:induction false} SweepDiscardsExactlyExpired(retained: seq<Entry>, storage: TakeMover.Storage, now: i64)
    requires NoneMoved(retained)
    ensures var r := Sweep(retained, storage, now);
      && r.2 == None && r.0 == Unexpired(retained, now)
      && r.1 == storage.(files := storage.files - ExpiredFiles(retained, now))
  {
    if retained != [] {
      var e := retained[0];
      assert NoneMoved(retained[1..]) by {
        forall i | 0 <= i < |retained[1..]| ensures retained[1..][i].mover.state != TakeMover.Moved {
          assert retained[1..][i] == retained[i + 1];
        }
      }
      if !Expired(e, now) {
        SweepDiscardsExactlyExpired(retained[1..], storage, now);
      } else {
        var o := TakeMover.Discard(e.mover, storage);
        SweepDiscardsExactlyExpired(retained[1..], o.storage, now);
        assert storage.files - TakeMover.Paths(e.mover.takeFiles) - ExpiredFiles(retained[1..], now)
            == storage.files - ExpiredFiles(retained, now);
      }
    }
  }

  /**
   * The service's answer to a command. Rejected commands leave the state as it was; listening
   * while recording refuses to reconfigure, stop or start another take.
   */
  function Handle(s: Service, c: Command): (r: (Service, Response))
  {
    match c
    case RetainTake(id) => TryRetainTake(s, id)
    case _ =>
      match s.state
      case Initial => HandleInitial(s, c)
      case Configured(setup, hasRecord) => HandleConfigured(s, setup, hasRecord, c)
      case Listening(setup, alive, recording) => HandleListening(s, setup, alive, recording, c)
  }

  function HandleInitial(s: Service, c: Command): (r: (Service, Response))
  {
    match c
    case UpdateConfig(config, devices, _) =>
      var (state, result) := Configure(config, devices);
      (s.(state := state), ConfigResponse(result))
    case StartOrStopListening(_, _) => (s, ListenResponse(NotConfigured))
    case StartNewTake => (s, NewTakeResponse(TakeInvalidState))
    case FinishTake(_) => (s, FinishResponse(FinishInvalidState))
    case RetainTake(id) => TryRetainTake(s, id)
    case Unbind => (s.(stopRequested := true), NoResponse)
    case ForceStop(_) => (s.(stopRequested := true), NoResponse)
  }

  function HandleConfigured(s: Service, setup: Setup, hasRecord: bool, c: Command): (r: (Service, Response))
  {
    match c
    case UpdateConfig(config, devices, _) =>
      // back to Initial, the record disposed, then configured from there
      var (state, result) := Configure(config, devices);
      (s.(state := state), ConfigResponse(result))
    case StartOrStopListening(listen, platform) =>
      var (state, result) := ConfiguredListen(setup, hasRecord, listen, platform);
      (s.(state := state), ListenResponse(result))
    case StartNewTake => (s, NewTakeResponse(TakeInvalidState))
    case FinishTake(_) => (s, FinishResponse(FinishInvalidState))
    case RetainTake(id) => TryRetainTake(s, id)
    case Unbind => (s.(state := Configured(setup, false), stopRequested := true), NoResponse)
    case ForceStop(_) => (s.(state := Configured(setup, false), stopRequested := true), NoResponse)
  }

  function HandleListening(s: Service, setup: Setup, alive: bool, recording: bool, c: Command): (r: (Service, Response))
  {
    match c
    case UpdateConfig(config, devices, platform) =>
      if alive && recording then (s, ConfigResponse(StopRecordingFirst))
      else
        // stop listening, reconfigure from the configured state, then listen again when that worked
        var (state, result) := Configure(config, devices);
        if result == Ok then
          var (listening, _) := ConfiguredListen(state.setup, state.hasRecord, Start, platform);
          (s.(state := listening), ConfigResponse(result))
        else (s.(state := state), ConfigResponse(result))
    case StartOrStopListening(listen, _) =>
      if listen == Start then (s, ListenResponse(NowListening))
      else if recording then (s, ListenResponse(StillRecording))
      else (s.(state := StopListening(setup)), ListenResponse(NotListening))
    case StartNewTake =>
      if alive && recording then (s, NewTakeResponse(AlreadyRecording))
      else if !alive then (s, ListeningThreadDead)  // `executeCommandSync` is not guarded by `isAlive` here
      else (s.(state := Listening(setup, alive, true)), NewTakeResponse(NowRecording))
    case FinishTake(handedBack) =>
      if !alive || !recording then (s, FinishResponse(FinishInvalidState))
      else
        var finished := s.(state := Listening(setup, alive, false));
        if handedBack.None? then (finished, FinishResponse(TakeFinished(true, None)))
        else
          var added := AddRetainableTake(s.retained, handedBack.value);
          if added.None? then (finished, NoResponse)  // the id search does not end
          else (finished.(retained := added.value.0), FinishResponse(TakeFinished(true, Some(added.value.1))))
    case RetainTake(id) => TryRetainTake(s, id)
    case Unbind =>
      if alive && recording then (s, NoResponse)
      else (s.(state := Configured(setup, false), stopRequested := true), NoResponse)
    case ForceStop(handedBack) =>
      var storage :=
        if alive && recording && handedBack.Some? then TakeMover.AssureFilesAreInMediaStore(handedBack.value, s.storage)
        else TakeMover.Outcome(TakeMover.Mover([], 0, TakeMover.Movable), s.storage, None);
      if storage.thrown.Some? then (s.(state := Listening(setup, alive, false), storage := storage.storage), Thrown(storage.thrown.value))
      else (s.(state := Configured(setup, false), storage := storage.storage, stopRequested := true), NoResponse)
  }

  /**
   * With no valid device, or no offered mask holding the tracks' channels, configuring answers
   * INVALID and leaves the service initial (so a failed reconfiguration from `Configured` also
   * ends there); otherwise it answers OK, configured with the smallest offered mask holding them.
   */
  lemma ConfigureChoosesSmallestMask(config: RecordingConfig, devices: seq<Device>)
    ensures var (state, result) := Configure(config, devices);
      && (result == Invalid <==>
          FindDevice(devices, config).None? ||
          forall m :: m in FindDevice(devices, config).value.channelMasks ==> !ContainsMask(ChannelMask(m), DesiredMask(config)))
      && (result == Invalid ==> state == Initial)
      && (result != Invalid ==>
          && result == Ok && state.Configured? && !state.hasRecord
          && IsConfigValidFor(config, state.setup.device) && state.setup.device in devices
          && state.setup.config == config
          && state.setup.mask.mask in state.setup.device.channelMasks
          && ContainsMask(state.setup.mask, DesiredMask(config))
          && forall m :: m in state.setup.device.channelMasks && ContainsMask(ChannelMask(m), DesiredMask(config)) ==>
               state.setup.mask.mask <= m)
  {
    var device := FindDevice(devices, config);
    if device.Some? {
      ChooseMaskIsSmallestSuperset(device.value.channelMasks, DesiredMask(config));
    }
  }

  /** Before configuration, listening answers NOT_CONFIGURED and takes answer INVALID_STATE; none of them changes anything. */
  lemma InitialRefusesSession(s: Service, c: Command)
    requires s.state.Initial? && (c.StartOrStopListening? || c.StartNewTake? || c.FinishTake?)
    ensures var r := Handle(s, c);
      && r.0 == s
      && r.1 == (if c.StartOrStopListening? then ListenResponse(NotConfigured)
                 else if c.StartNewTake? then NewTakeResponse(TakeInvalidState)
                 else FinishResponse(FinishInvalidState))
  {
  }

  /** A configured service that is not listening answers INVALID_STATE to take commands, unchanged. */
  lemma ConfiguredRefusesTakes(s: Service, c: Command)
    requires s.state.Configured? && (c.StartNewTake? || c.FinishTake?)
    ensures var r := Handle(s, c);
      && r.0 == s
      && r.1 == (if c.StartNewTake? then NewTakeResponse(TakeInvalidState) else FinishResponse(FinishInvalidState))
  {
  }

  /**
   * A configured service asked to listen: STOP answers NOT_LISTENING, a missing permission
   * NO_PERMISSION, a record routed elsewhere DEVICE_NOT_AVAILABLE (and is released), each staying
   * configured; otherwise it listens, not recording, and answers LISTENING.
   */
  lemma ConfiguredListenOutcomes(s: Service, listen: ListenAction, platform: Platform)
    requires s.state.Configured?
    ensures var r := Handle(s, StartOrStopListening(listen, platform));
      var setup := s.state.setup;
      && (r.1 == ListenResponse(NowListening) <==>
          listen == Start && platform.permissionGranted && platform.routedDeviceId == Some(setup.device.id))
      && (r.1 == ListenResponse(NowListening) ==> r.0 == s.(state := Listening(setup, true, false)))
      && (r.1 != ListenResponse(NowListening) ==> r.0.state.Configured? && r.0.state.setup == setup && r.0.retained == s.retained)
      && (listen == Stop ==> r == (s, ListenResponse(NotListening)))
      && (listen == Start && !platform.permissionGranted ==> r == (s, ListenResponse(NoPermission)))
      && (listen == Start && platform.permissionGranted && platform.routedDeviceId != Some(setup.device.id) ==>
          r == (s.(state := Configured(setup, false)), ListenResponse(DeviceNotAvailable)))
  {
  }

  /** While the listening thread records, reconfiguring, stopping and starting another take are refused, unchanged. */
  lemma RecordingRefusesInterruptions(s: Service, c: Command)
    requires s.state.Listening? && s.state.alive && s.state.recording
    requires c.UpdateConfig? || (c.StartOrStopListening? && c.listen == Stop) || c.StartNewTake?
    ensures var r := Handle(s, c);
      && r.0 == s
      && r.1 == (if c.UpdateConfig? then ConfigResponse(StopRecordingFirst)
                 else if c.StartOrStopListening? then ListenResponse(StillRecording)
                 else NewTakeResponse(AlreadyRecording))
  {
  }

  /**
   * Listening without recording: finishing a take answers INVALID_STATE and START answers
   * LISTENING, both unchanged; STOP goes back to the configured state and answers NOT_LISTENING;
   * a new take starts recording on a live listening thread, and on one that has ended the
   * command throws, changing nothing.
   */
  lemma ListeningIdleOutcomes(s: Service, c: Command)
    requires s.state.Listening? && !s.state.recording
    requires c.FinishTake? || c.StartOrStopListening? || c.StartNewTake?
    ensures var r := Handle(s, c);
      && (c.FinishTake? ==> r == (s, FinishResponse(FinishInvalidState)))
      && (c.StartOrStopListening? && c.listen == Start ==> r == (s, ListenResponse(NowListening)))
      && (c.StartOrStopListening? && c.listen == Stop ==>
          r == (s.(state := Configured(s.state.setup, true)), ListenResponse(NotListening)))
      && (c.StartNewTake? && s.state.alive ==>
          r == (s.(state := Listening(s.state.setup, true, true)), NewTakeResponse(NowRecording)))
      && (c.StartNewTake? && !s.state.alive ==> r == (s, ListeningThreadDead))
  {
  }

  /**
   * A new take is refused whenever the listening thread has ended, recording or not: the
   * synchronous command throws and nothing changes. Only a live thread that is not recording
   * starts one.
   */
  lemma NewTakeNeedsLiveThread(s: Service)
    requires s.state.Listening?
    ensures var r := Handle(s, StartNewTake);
      && (r.1 == NewTakeResponse(NowRecording) <==> s.state.alive && !s.state.recording)
      && (!s.state.alive ==> r == (s, ListeningThreadDead))
      && (r.1 != NewTakeResponse(NowRecording) ==> r.0 == s)
  {
  }

  /**
   * Finishing a recorded take stops recording; a take the runnable hands back is retained under a
   * fresh id, one above the largest retained, which the response carries.
   */
  lemma FinishTakeRetainsHandedBack(s: Service, mover: TakeMover.Mover)
    requires s.state.Listening? && s.state.alive && s.state.recording
    requires Ascending(s.retained) && MaxIdOrMinusOne(s.retained) < TWO_31 - 1
    ensures var r := Handle(s, FinishTake(Some(mover)));
      var id := MaxIdOrMinusOne(s.retained) + 1;
      && r.0.state == Listening(s.state.setup, true, false)
      && r.1 == FinishResponse(TakeFinished(true, Some(id as i32)))
      && id !in Ids(s.retained) && Lookup(r.0.retained, id as i32) == Some(mover)
      && r.0.retained == s.retained + [Entry(id as i32, mover)] && Ascending(r.0.retained)
  {
    assert Handle(s, FinishTake(Some(mover))) == HandleListening(s, s.state.setup, true, true, FinishTake(Some(mover)));
    AddRetainableTakeAllocatesFreshId(s.retained, mover);
  }

  /** Every command keeps the retained takes in ascending id order. */
  lemma HandleKeepsIdsAscending(s: Service, c: Command)
    requires Ascending(s.retained)
    ensures Ascending(Handle(s, c).0.retained)
  {
    if c.RetainTake? {
      RemoveForgetsOnlyId(s.retained, c.id);
    }
    if c.FinishTake? && s.state.Listening? && s.state.alive && s.state.recording && c.handedBack.Some? {
      var added := AddRetainableTake(s.retained, c.handedBack.value);
      if added.Some? {
        InsertAscending(s.retained, Entry(added.value.1, c.handedBack.value));
      }
    }
  }

  /**
   * No retained take is ever moved while retained: a finished take is retained with the fresh
   * mover the runnable hands back, and retaining a take removes it before moving it.
   */
  lemma HandleKeepsNoneMoved(s: Service, c: Command)
    requires NoneMoved(s.retained)
    requires c.FinishTake? && c.handedBack.Some? ==> c.handedBack.value.state == TakeMover.Movable
    ensures NoneMoved(Handle(s, c).0.retained)
  {
    if c.RetainTake? {
      RemoveKeepsNoneMoved(s.retained, c.id);
    }
    if c.FinishTake? && s.state.Listening? && s.state.alive && s.state.recording && c.handedBack.Some? {
      var added := AddRetainableTake(s.retained, c.handedBack.value);
      if added.Some? {
        InsertKeepsNoneMoved(s.retained, Entry(added.value.1, c.handedBack.value));
      }
    }
  }

  /** Removing an id keeps only entries that were there. */
  lemma {:induction false} RemoveKeepsNoneMoved(retained: seq<Entry>, id: i32)
    requires NoneMoved(retained)
    ensures NoneMoved(Remove(retained, id))
  {
    if retained != [] {
      assert NoneMoved(retained[1..]) by {
        forall i | 0 <= i < |retained| - 1 ensures retained[1..][i].mover.state != TakeMover.Moved {
          assert retained[1..][i] == retained[i + 1];
        }
      }
      RemoveKeepsNoneMoved(retained[1..], id);
    }
  }

  /** Inserting an entry that was not moved keeps every retained take unmoved. */
  lemma {:induction false} InsertKeepsNoneMoved(retained: seq<Entry>, e: Entry)
    requires NoneMoved(retained) && e.mover.state != TakeMover.Moved
    ensures NoneMoved(Insert(retained, e))
  {
    if retained != [] && e.id > retained[0].id {
      assert NoneMoved(retained[1..]) by {
        forall i | 0 <= i < |retained| - 1 ensures retained[1..][i].mover.state != TakeMover.Moved {
          assert retained[1..][i] == retained[i + 1];
        }
      }
      InsertKeepsNoneMoved(retained[1..], e);
    }
  }

  /** Inserting keeps ids ascending. */
  lemma {:induction false} InsertAscending(retained: seq<Entry>, e: Entry)
    requires Ascending(retained)
    ensures Ascending(Insert(retained, e))
  {
    if retained != [] && e.id > retained[0].id {
      AscendingTail(retained);
      InsertAscending(retained[1..], e);
      IdsCons(retained);
      AscendingCons(retained[0], Insert(retained[1..], e));
    } else if retained != [] && e.id < retained[0].id {
      IdsCons(retained);
      forall k | k in Ids(retained) ensures e.id < k {
        var i :| 0 <= i < |retained| && retained[i].id == k;
      }
      AscendingCons(e, retained);
    }
  }

  /**
   * Listening without recording, a new configuration stops listening and configures from the
   * configured state: the answer is the configuration's. A configuration that fails leaves the
   * service initial; one that succeeds listens again on the new setup when the platform lets it,
   * and otherwise stays configured with it.
   */
  lemma ListeningReconfigures(s: Service, config: RecordingConfig, devices: seq<Device>, platform: Platform)
    requires s.state.Listening? && !(s.state.alive && s.state.recording)
    ensures var r := Handle(s, UpdateConfig(config, devices, platform));
      var (state, result) := Configure(config, devices);
      && r.1 == ConfigResponse(result)
      && r.0.retained == s.retained && r.0.storage == s.storage
      && (result != Ok ==> r.0.state == Initial)
      && (result == Ok ==>
          && state.Configured?
          && (r.0.state == Listening(state.setup, true, false) <==>
              platform.permissionGranted && platform.routedDeviceId == Some(state.setup.device.id))
          && (r.0.state != Listening(state.setup, true, false) ==> r.0.state == Configured(state.setup, false)))
  {
    var (state, result) := Configure(config, devices);
    assert Handle(s, UpdateConfig(config, devices, platform))
        == HandleListening(s, s.state.setup, s.state.alive, s.state.recording, UpdateConfig(config, devices, platform));
  }

  /**
   * Unbinding is ignored while the listening thread records; otherwise it stops listening,
   * releases the record and asks for the service to stop. Forcing a stop first moves the take the
   * runnable hands back into the media store, then does the same; only an exception from that
   * move keeps the service listening. Neither touches the retained takes.
   */
  lemma StopRequests(s: Service, c: Command)
    requires c.Unbind? || c.ForceStop?
    ensures var r := Handle(s, c);
      var recording := s.state.Listening? && s.state.alive && s.state.recording;
      var stopped := if s.state.Initial? then Initial else Configured(s.state.setup, false);
      && r.0.retained == s.retained
      && (c.Unbind? && recording ==> r == (s, NoResponse))
      && (c.Unbind? && !recording ==> r == (s.(state := stopped, stopRequested := true), NoResponse))
      && (c.ForceStop? && !(recording && c.handedBack.Some?) ==>
          r == (s.(state := stopped, stopRequested := true), NoResponse))
      && (c.ForceStop? && recording && c.handedBack.Some? ==>
          var o := TakeMover.AssureFilesAreInMediaStore(c.handedBack.value, s.storage);
          && r.0.storage == o.storage
          && (o.thrown.None? <==> r.1 == NoResponse)
          && (o.thrown.None? ==> r.0.state == stopped && r.0.stopRequested)
          && (o.thrown.Some? ==> r.1 == Thrown(o.thrown.value) && r.0.state == Listening(s.state.setup, true, false)))
  {
  }
}

=== FILE: spliterator.dfy ===
/**
 * `FloatBufferSpliterator`: a spliterator over the index range [position, limit) of a buffer,
 * whose elements are left abstract. Positions and limits are Kotlin `Int`s.
 */
module Spliterators {
  import opened IntTypes
  import opened Wrappers

  datatype Spliterator = Spliterator(position: i32, limit: i32)

  /** `IndexOutOfBoundsException` from `buffer.get(position)`. */
  datatype IndexOutOfBounds = IndexOutOfBounds(index: int)

  /** Kotlin's `Int` division by 2, which truncates toward zero: the remainder takes the sign of `x`. */
  function Half(x: i32): (r: i32)
    ensures -1 <= x - 2 * r <= 1
    ensures x >= 0 ==> 0 <= x - 2 * r
    ensures x < 0 ==> x - 2 * r <= 0
  {
    if x >= 0 then x / 2 else -((-(x as int)) / 2)
  }

  /**
   * Truncation is symmetric about zero, unlike Dafny's Euclidean division: halving `-x` gives
   * `-Half(x)`, and a non-negative `x` halves as Euclidean division does.
   */
  lemma HalfIsSymmetric(x: i32)
    requires x > -TWO_31
    ensures Half(-x as i32) == -Half(x)
    ensures x >= 0 ==> Half(x) == x / 2
    ensures x < 0 && x % 2 != 0 ==> Half(x) == x / 2 + 1
  {
  }

  /** `estimateSize`: `(limit - position).toLong()`, the difference wrapping as an `Int`. */
  function EstimateSize(s: Spliterator): (r: i64)
    ensures -0x8000_0000 <= s.limit - s.position < 0x8000_0000 ==> r == s.limit - s.position
    ensures s.limit - s.position >= 0x8000_0000 ==> r == s.limit - s.position - 0x1_0000_0000
    ensures s.limit - s.position < -0x8000_0000 ==> r == s.limit - s.position + 0x1_0000_0000
  {
    WrapI32(s.limit - s.position)
  }

  /**
   * `tryAdvance`: at or past the limit it returns false and changes nothing; otherwise it hands
   * the element at `position` to the action, as the returned value, and moves on by one.
   */
  function TryAdvance<T>(s: Spliterator, buffer: seq<T>): (r: Result<(Spliterator, Option<T>), IndexOutOfBounds>)
  {
    if s.position >= s.limit then Success((s, None))
    else if s.position < 0 || s.position >= |buffer| then Failure(IndexOutOfBounds(s.position))
    else Success((s.(position := s.position + 1), Some(buffer[s.position])))
  }

  /** The elements a spliterator still covers. */
  function Remaining<T>(s: Spliterator, buffer: seq<T>): seq<T>
    requires 0 <= s.position && s.limit <= |buffer|
  {
    if s.position >= s.limit then [] else buffer[s.position..s.limit]
  }

  /**
   * `tryAdvance` returns false exactly when nothing remains, and then changes nothing; otherwise
   * it yields the first remaining element and exactly one fewer remains.
   */
  lemma TryAdvanceTakesFirst<T>(s: Spliterator, buffer: seq<T>)
    requires 0 <= s.position && s.limit <= |buffer|
    ensures var r := TryAdvance(s, buffer);
      && r.Success?
      && (r.value.1.None? <==> Remaining(s, buffer) == [])
      && (r.value.1.None? ==> r.value.0 == s)
      && (r.value.1.Some? ==>
          && r.value.0.position == s.position + 1 && r.value.0.limit == s.limit
          && [r.value.1.value] + Remaining(r.value.0, buffer) == Remaining(s, buffer)
          && EstimateSize(r.value.0) == EstimateSize(s) - 1)
  {
  }

  /** The elements `tryAdvance` yields until it returns false (`forEachRemaining`). */
  function Drain<T>(s: Spliterator, buffer: seq<T>): (r: Result<seq<T>, IndexOutOfBounds>)
    decreases s.limit - s.position
  {
    match TryAdvance(s, buffer)
    case Failure(e) => Failure(e)
    case Success((next, element)) =>
      if element.None? then Success([])
      else
        var rest :- Drain(next, buffer);
        Success([element.value] + rest)
  }

  /** Advancing until false yields exactly the covered elements, in index order. */
  lemma {:induction false} DrainYieldsRemaining<T>(s: Spliterator, buffer: seq<T>)
    requires 0 <= s.position && s.limit <= |buffer|
    ensures Drain(s, buffer) == Success(Remaining(s, buffer))
    decreases s.limit - s.position
  {
    TryAdvanceTakesFirst(s, buffer);
    if s.position < s.limit {
      DrainYieldsRemaining(s.(position := s.position + 1), buffer);
    }
  }

  /**
   * `trySplit` as written: with fewer than two elements it returns null; otherwise this
   * spliterator keeps [position, limit / 2) and the new one covers [limit / 2, limit).
   */
  function TrySplitAsWritten(s: Spliterator): (r: (Spliterator, Option<Spliterator>)) {
    if EstimateSize(s) < 2 then (s, None)
    else (s.(limit := Half(s.limit)), Some(Spliterator(Half(s.limit), s.limit)))
  }

  /**
   * `trySplit` splitting the remaining range at its midpoint: this spliterator keeps the first
   * half and the new one covers the rest.
   */
  function TrySplit(s: Spliterator): (r: (Spliterator, Option<Spliterator>)) {
    if EstimateSize(s) < 2 then (s, None)
    else
      var middle := WrapI32(s.position + EstimateSize(s) / 2);
      (s.(limit := middle), Some(Spliterator(middle, s.limit)))
  }

  /**
   * The split refuses exactly when fewer than two elements remain; otherwise both halves are
   * non-empty, they cover the remaining elements in order without overlap, and their sizes differ
   * by at most one.
   */
  lemma SplitPartitions<T>(s: Spliterator, buffer: seq<T>)
    requires 0 <= s.position && 0 <= s.limit <= |buffer|
    ensures var (kept, split) := TrySplit(s);
      && (split.None? <==> s.limit - s.position < 2)
      && (split.None? ==> kept == s)
      && (split.Some? ==>
          && kept.position == s.position && split.value.limit == s.limit && kept.limit == split.value.position
          && Remaining(kept, buffer) + Remaining(split.value, buffer) == Remaining(s, buffer)
          && 1 <= EstimateSize(kept) <= EstimateSize(split.value) <= EstimateSize(kept) + 1
          && EstimateSize(kept) + EstimateSize(split.value) == EstimateSize(s))
  {
    var (kept, split) := TrySplit(s);
    if split.Some? {
      assert buffer[s.position..kept.limit] + buffer[kept.limit..s.limit] == buffer[s.position..s.limit];
    }
  }

  /** While the position is at most half the limit, the split as written also partitions the remaining range. */
  lemma AsWrittenPartitionsEarly<T>(s: Spliterator, buffer: seq<T>)
    requires 0 <= s.position <= s.limit / 2 && s.limit <= |buffer|
    ensures var (kept, split) := TrySplitAsWritten(s);
      split.Some? ==> Remaining(kept, buffer) + Remaining(split.value, buffer) == Remaining(s, buffer)
  {
    var (kept, split) := TrySplitAsWritten(s);
    if split.Some? {
      assert buffer[s.position..kept.limit] + buffer[kept.limit..s.limit] == buffer[s.position..s.limit];
    }
  }

  /**
   * Past half the limit the split as written hands out elements before the position again: at
   * position 6 of limit 8 the new spliterator covers 4..8, and the old one reports -2 elements.
   */
  lemma AsWrittenSplitRepeatsElements<T>(buffer: seq<T>)
    requires |buffer| == 8
    ensures var s := Spliterator(6, 8);
      var (kept, split) := TrySplitAsWritten(s);
      && split == Some(Spliterator(4, 8))
      && EstimateSize(kept) == -2
      && Remaining(split.value, buffer) == buffer[4..6] + Remaining(s, buffer)
  {
  }
}

=== FILE: take_mover.dfy ===
/**
 * `TakeToMediaStoreMover`: a finished take's temporary files, which are either moved into the
 * media store (when the user keeps the take) or deleted (when the user discards it or its
 * lifetime runs out). The device's storage is modelled as the set of existing file paths and the
 * media store's entries in insertion order; the clock is an input.
 */
module TakeMover {
  import opened IntTypes
  import opened Wrappers

  /** The mover's `State`. */
  datatype State = Movable | Moved | Discarded

  /** `TakeFile`: a temporary data file and the name it gets in the media store. */
  datatype TakeFile = TakeFile(dataFile: string, displayName: string)

  datatype Mover = Mover(takeFiles: seq<TakeFile>, finishedAt: i64, state: State)

  /** A media store entry: its display name, the file it was copied from, and whether the copy completed. */
  datatype MediaEntry = MediaEntry(displayName: string, copiedFrom: string, complete: bool)

  datatype Storage = Storage(files: set<string>, media: seq<MediaEntry>)

  /** `TakeDiscardedException`, `TakeMovedException`, and the `FileNotFoundException` of opening a missing file. */
  datatype MoverError = TakeDiscarded | TakeMoved | FileNotFound(path: string)

  /** The mover and the storage after an operation, and the exception it threw, if any. */
  datatype Outcome = Outcome(mover: Mover, storage: Storage, thrown: Option<MoverError>)

  /** `takeFiles.filter { it.dataFile.exists() }`, evaluated before any file is moved. */
  function Existing(fs: seq<TakeFile>, files: set<string>): (r: seq<TakeFile>)
    ensures forall i :: 0 <= i < |r| ==> r[i] in fs && r[i].dataFile in files
    ensures forall f :: f in fs && f.dataFile in files ==> f in r
  {
    if fs == [] then []
    else (if fs[0].dataFile in files then [fs[0]] else []) + Existing(fs[1..], files)
  }

  /**
   * `moveFileToMediaStore` on each file in turn: a media store entry is inserted, the file is
   * copied into it and then deleted. A file that no longer exists fails the copy after its entry
   * was inserted.
   */
  function MoveEach(fs: seq<TakeFile>, st: Storage): (r: (Storage, Option<MoverError>))
  {
    if fs == [] then (st, None)
    else if fs[0].dataFile !in st.files then
      (st.(media := st.media + [MediaEntry(fs[0].displayName, fs[0].dataFile, false)]), Some(FileNotFound(fs[0].dataFile)))
    else
      MoveEach(fs[1..], Storage(st.files - {fs[0].dataFile}, st.media + [MediaEntry(fs[0].displayName, fs[0].dataFile, true)]))
  }

  /** `assureFilesAreInMediaStore`: refused once discarded; otherwise MOVED, and every existing file moved. */
  function AssureFilesAreInMediaStore(m: Mover, st: Storage): Outcome {
    if m.state == Discarded then Outcome(m, st, Some(TakeDiscarded))
    else
      var moved := MoveEach(Existing(m.takeFiles, st.files), st);
      Outcome(m.(state := Moved), moved.0, moved.1)
  }

  /** The paths of the take's files. */
  function Paths(fs: seq<TakeFile>): set<string> {
    set i | 0 <= i < |fs| :: fs[i].dataFile
  }

  /** `discard`: refused once moved; otherwise DISCARDED, and every file deleted (deleting a missing file does nothing). */
  function Discard(m: Mover, st: Storage): Outcome {
    if m.state == Moved then Outcome(m, st, Some(TakeMoved))
    else Outcome(m.(state := Discarded), st.(files := st.files - Paths(m.takeFiles)), None)
  }

  /** The complete media store entries of moving files `fs`, in order. */
  function Entries(fs: seq<TakeFile>): (r: seq<MediaEntry>)
    ensures |r| == |fs|
    ensures forall i :: 0 <= i < |fs| ==> r[i] == MediaEntry(fs[i].displayName, fs[i].dataFile, true)
  {
    if fs == [] then [] else [MediaEntry(fs[0].displayName, fs[0].dataFile, true)] + Entries(fs[1..])
  }

  /** No two files share a path. */
  predicate DistinctPaths(fs: seq<TakeFile>) {
    forall i, j :: 0 <= i < j < |fs| ==> fs[i].dataFile != fs[j].dataFile
  }

  /** The paths of a sequence are its first path and the paths of the rest. */
  lemma PathsCons(fs: seq<TakeFile>)
    requires fs != []
    ensures Paths(fs) == {fs[0].dataFile} + Paths(fs[1..])
  {
    forall p | p in Paths(fs) ensures p in {fs[0].dataFile} + Paths(fs[1..]) {
      var i :| 0 <= i < |fs| && fs[i].dataFile == p;
      if i > 0 { assert fs[1..][i - 1].dataFile == p; }
    }
  }

  /** The rest of a sequence of distinct paths is distinct and does not hold the first path. */
  lemma DistinctTail(fs: seq<TakeFile>)
    requires fs != [] && DistinctPaths(fs)
    ensures DistinctPaths(fs[1..]) && fs[0].dataFile !in Paths(fs[1..])
  {
    assert forall i, j :: 0 <= i < j < |fs| - 1 ==> fs[1..][i] == fs[i + 1] && fs[1..][j] == fs[j + 1];
  }

  /** The files that still exist are those of the take whose paths exist. */
  lemma {:induction false} ExistingPaths(fs: seq<TakeFile>, files: set<string>)
    ensures Paths(Existing(fs, files)) == Paths(fs) * files
  {
    if fs != [] {
      ExistingPaths(fs[1..], files);
      PathsCons(fs);
      var rest := Existing(fs[1..], files);
      if fs[0].dataFile in files {
        PathsCons([fs[0]] + rest);
        assert ([fs[0]] + rest)[1..] == rest;
      }
    }
  }

  /** A file put in front of files with distinct paths, none of them its own, keeps the paths distinct. */
  lemma ConsDistinct(f: TakeFile, rest: seq<TakeFile>)
    requires DistinctPaths(rest) && f.dataFile !in Paths(rest)
    ensures DistinctPaths([f] + rest)
  {
    var r := [f] + rest;
    forall i, j | 0 <= i < j < |r| ensures r[i].dataFile != r[j].dataFile {
      assert r[j] == rest[j - 1];
      if i == 0 {
        assert rest[j - 1].dataFile in Paths(rest);
      } else {
        assert r[i] == rest[i - 1];
      }
    }
  }

  /** Files of distinct paths still have distinct paths once the missing ones are filtered out. */
  lemma {:induction false} ExistingDistinct(fs: seq<TakeFile>, files: set<string>)
    requires DistinctPaths(fs)
    ensures DistinctPaths(Existing(fs, files))
  {
    if fs != [] {
      DistinctTail(fs);
      ExistingDistinct(fs[1..], files);
      var rest := Existing(fs[1..], files);
      if fs[0].dataFile in files {
        ExistingPaths(fs[1..], files);
        ConsDistinct(fs[0], rest);
        assert Existing(fs, files) == [fs[0]] + rest;
      } else {
        assert Existing(fs, files) == rest;
      }
    }
  }

  /** Moving files with distinct, existing paths copies each one completely and deletes it. */
  lemma {:induction false} MoveEachMoves(fs: seq<TakeFile>, st: Storage)
    requires DistinctPaths(fs) && Paths(fs) <= st.files
    ensures var r := MoveEach(fs, st);
      r.1 == None && r.0 == Storage(st.files - Paths(fs), st.media + Entries(fs))
  {
    if fs != [] {
      var next := Storage(st.files - {fs[0].dataFile}, st.media + [MediaEntry(fs[0].displayName, fs[0].dataFile, true)]);
      DistinctTail(fs);
      PathsCons(fs);
      MoveEachMoves(fs[1..], next);
      assert Entries(fs) == [MediaEntry(fs[0].displayName, fs[0].dataFile, true)] + Entries(fs[1..]);
    }
  }

  /** `assureFilesAreInMediaStore` throws exactly on a discarded take, and then changes nothing. */
  lemma AssureRefusedOnlyWhenDiscarded(m: Mover, st: Storage)
    ensures var o := AssureFilesAreInMediaStore(m, st);
      && (o.thrown == Some(TakeDiscarded) <==> m.state == Discarded)
      && (m.state == Discarded ==> o.mover == m && o.storage == st)
  {
    if m.state != Discarded {
      MoveEachNeverRefuses(Existing(m.takeFiles, st.files), st);
    }
  }

  lemma {:induction false} MoveEachNeverRefuses(fs: seq<TakeFile>, st: Storage)
    ensures MoveEach(fs, st).1 != Some(TakeDiscarded) && MoveEach(fs, st).1 != Some(TakeMoved)
  {
    if fs != [] && fs[0].dataFile in st.files {
      MoveEachNeverRefuses(fs[1..], Storage(st.files - {fs[0].dataFile}, st.media + [MediaEntry(fs[0].displayName, fs[0].dataFile, true)]));
    }
  }

  /**
   * On a take that is not discarded, whose files have distinct paths, `assureFilesAreInMediaStore`
   * marks it MOVED, copies every file that still exists into the media store, in the take's order,
   * and deletes it; files already gone are skipped and nothing else changes.
   */
  lemma AssureMovesExistingFiles(m: Mover, st: Storage)
    requires m.state != Discarded && DistinctPaths(m.takeFiles)
    ensures var o := AssureFilesAreInMediaStore(m, st);
      && o.thrown == None && o.mover == m.(state := Moved)
      && o.storage.files == st.files - Paths(m.takeFiles)
      && o.storage.media == st.media + Entries(Existing(m.takeFiles, st.files))
  {
    var ex := Existing(m.takeFiles, st.files);
    ExistingDistinct(m.takeFiles, st.files);
    ExistingPaths(m.takeFiles, st.files);
    MoveEachMoves(ex, st);
    assert st.files - Paths(ex) == st.files - Paths(m.takeFiles);
  }

  /** A second `assureFilesAreInMediaStore` after one that completed finds nothing left to move. */
  lemma AssureIsIdempotent(m: Mover, st: Storage)
    requires AssureFilesAreInMediaStore(m, st).thrown == None
    ensures var o := AssureFilesAreInMediaStore(m, st);
      AssureFilesAreInMediaStore(o.mover, o.storage) == Outcome(o.mover, o.storage, None)
  {
    var o := AssureFilesAreInMediaStore(m, st);
    MovedFilesAreGone(Existing(m.takeFiles, st.files), st);
    forall f | f in m.takeFiles ensures f.dataFile !in o.storage.files {
      if f.dataFile in st.files {
        assert f in Existing(m.takeFiles, st.files);
      } else {
        MoveEachOnlyDeletes(Existing(m.takeFiles, st.files), st);
      }
    }
    NothingExisting(m.takeFiles, o.storage.files);
  }

  /** Moving only ever removes files. */
  lemma {:induction false} MoveEachOnlyDeletes(fs: seq<TakeFile>, st: Storage)
    ensures MoveEach(fs, st).0.files <= st.files
  {
    if fs != [] && fs[0].dataFile in st.files {
      MoveEachOnlyDeletes(fs[1..], Storage(st.files - {fs[0].dataFile}, st.media + [MediaEntry(fs[0].displayName, fs[0].dataFile, true)]));
    }
  }

  /** After moving files without an exception, none of them exists any more. */
  lemma {:induction false} MovedFilesAreGone(fs: seq<TakeFile>, st: Storage)
    requires MoveEach(fs, st).1 == None
    ensures forall f :: f in fs ==> f.dataFile !in MoveEach(fs, st).0.files
  {
    if fs != [] {
      var next := Storage(st.files - {fs[0].dataFile}, st.media + [MediaEntry(fs[0].displayName, fs[0].dataFile, true)]);
      MovedFilesAreGone(fs[1..], next);
      MoveEachOnlyDeletes(fs[1..], next);
    }
  }

  lemma {:induction false} NothingExisting(fs: seq<TakeFile>, files: set<string>)
    requires forall f :: f in fs ==> f.dataFile !in files
    ensures Existing(fs, files) == []
  {
    if fs != [] {
      NothingExisting(fs[1..], files);
    }
  }

  /** `discard` throws exactly on a moved take, and then leaves the take and its files alone. */
  lemma DiscardRefusedOnlyWhenMoved(m: Mover, st: Storage)
    ensures var o := Discard(m, st);
      && (o.thrown.Some? <==> m.state == Moved)
      && (m.state == Moved ==> o == Outcome(m, st, Some(TakeMoved)))
  {
  }

  /**
   * `discard` on a take that is not moved marks it DISCARDED and deletes all of its files and no
   * others; the media store is untouched, and discarding again changes nothing more.
   */
  lemma DiscardDeletesEveryFile(m: Mover, st: Storage)
    requires m.state != Moved
    ensures var o := Discard(m, st);
      && o.thrown == None && o.mover == m.(state := Discarded) && o.storage.media == st.media
      && (forall f :: f in m.takeFiles ==> f.dataFile !in o.storage.files)
      && (forall p :: p in st.files && p !in Paths(m.takeFiles) ==> p in o.storage.files)
      && Discard(o.mover, o.storage) == o
  {
    var o := Discard(m, st);
    forall f | f in m.takeFiles ensures f.dataFile in Paths(m.takeFiles) {
      var i :| 0 <= i < |m.takeFiles| && m.takeFiles[i] == f;
    }
  }

  /** MOVED and DISCARDED are final: no operation leaves them, and none returns to MOVABLE. */
  lemma FinalStates(m: Mover, st: Storage)
    ensures var a := AssureFilesAreInMediaStore(m, st).mover.state;
      var d := Discard(m, st).mover.state;
      && a != Movable && d != Movable
      && (m.state != Movable ==> a == m.state && d == m.state)
  {
  }

  /** `TAKE_LIFETIME`, 15 seconds, in nanoseconds. */
  const TAKE_LIFETIME_NANOS: i64 := 15_000_000_000

  /** `shouldDiscard` as written: `finishedAt + lifetime < now`, the sum wrapping as a `Long`. */
  function ShouldDiscardAsWritten(m: Mover, lifetimeNanos: i64, now: i64): bool {
    WrapI64(m.finishedAt + lifetimeNanos) < now
  }

  /** `shouldDiscard` comparing the elapsed time, `now - finishedAt > lifetime`, as monotonic clock readings must be compared. */
  function ShouldDiscard(m: Mover, lifetimeNanos: i64, now: i64): bool {
    WrapI64(now - m.finishedAt) > lifetimeNanos
  }

  /**
   * A take is due for discarding exactly when more than its lifetime has elapsed since it was
   * finished, for any two clock readings less than 2^63 ns apart.
   */
  lemma ShouldDiscardIffExpired(m: Mover, lifetimeNanos: i64, now: i64)
    requires -TWO_63 <= now - m.finishedAt < TWO_63
    ensures ShouldDiscard(m, lifetimeNanos, now) <==> now - m.finishedAt > lifetimeNanos
  {
  }

  /** Without overflow the source's comparison agrees with the elapsed-time one. */
  lemma AsWrittenAgreesWithoutOverflow(m: Mover, lifetimeNanos: i64, now: i64)
    requires -TWO_63 <= m.finishedAt + lifetimeNanos < TWO_63
    requires -TWO_63 <= now - m.finishedAt < TWO_63
    ensures ShouldDiscardAsWritten(m, lifetimeNanos, now) == ShouldDiscard(m, lifetimeNanos, now)
  {
  }

  /**
   * A take finished within 15 s of the largest clock reading is discarded as written one
   * nanosecond later: the sum wraps to a negative value.
   */
  lemma AsWrittenDiscardsFreshTakeNearWrap()
    ensures var m := Mover([], (TWO_63 - 10) as i64, Movable);
      var now := (TWO_63 - 9) as i64;
      && ShouldDiscardAsWritten(m, TAKE_LIFETIME_NANOS, now)
      && !ShouldDiscard(m, TAKE_LIFETIME_NANOS, now)
      && now - m.finishedAt == 1
  {
    var m := Mover([], (TWO_63 - 10) as i64, Movable);
    assert WrapI64(m.finishedAt + TAKE_LIFETIME_NANOS) == TWO_63 - 10 + 15_000_000_000 - TWO_64;
  }
}

=== FILE: take_recorder.dfy ===
/**
 * `TakeRecorderRunnable`: the capture loop that walks the interleaved frames the `AudioRecord`
 * delivers, hands each frame to every track (which extracts its one or two samples, keeps a
 * peak per channel and, while a take is open, appends the samples to the take's WAV writer),
 * and the take commands polled between buffers.
 */
module TakeRecorder {
  import opened IntTypes
  import opened Wrappers
  import opened Channels
  import opened ChannelMasks
  import WavFormat
  import WavWriter
  import Audio

  /**
   * A track of the recording configuration (`RecordingConfig.InputTrackConfig`): its id and the
   * device channel of its left (or only) and right side.
   */
  datatype Track = Track(id: i64, left: Channel, right: Option<Channel>)

  /** `List.indexOf`: the position of the first occurrence, or -1. */
  function IndexOf(cs: seq<Channel>, c: Channel): (r: int)
    ensures -1 <= r < |cs|
    ensures r == -1 <==> c !in cs
    ensures r >= 0 ==> cs[r] == c && c !in cs[..r]
  {
    if cs == [] then -1
    else if cs[0] == c then 0
    else
      var k := IndexOf(cs[1..], c);
      assert cs == [cs[0]] + cs[1..];
      if k == -1 then -1
      else
        assert cs[..k + 1] == [cs[0]] + cs[1..][..k];
        k + 1
  }

  /** A mask names at most 32 channels. */
  lemma {:induction false} SelectedLength(keep: seq<bool>, n: int)
    requires |keep| == MAX_MASK_CHANNEL && 1 <= n <= MAX_MASK_CHANNEL + 1
    ensures |Selected(keep, n)| <= MAX_MASK_CHANNEL + 1 - n
    decreases MAX_MASK_CHANNEL + 1 - n
  {
    if n <= MAX_MASK_CHANNEL {
      SelectedLength(keep, n + 1);
    }
  }

  /** The state `TrackInListening` keeps for one track. */
  datatype TrackState = TrackState(
    track: Track,
    leftIndex: int,              // `leftOrMonoChannelSampleIndexInFrame`
    rightIndex: Option<int>,     // `rightChannelSampleIndexInFrame`
    copyBuffer: seq<u8>,         // 8 bytes for a stereo track, 4 for a mono one
    take: Option<WavWriter.Writer>,
    leftPeak: nat,               // `leftStatusSample`, as the magnitude it is scaled from
    rightPeak: nat)

  function CopyBufferSize(track: Track): nat {
    if track.right.Some? then 8 else 4
  }

  /** `initializeTrackListeningStates` for one track: the sample indices of its channels in the mask's frame. */
  function InitTrack(track: Track, mask: ChannelMask): TrackState {
    var cs := ChannelList(mask);
    TrackState(
      track,
      IndexOf(cs, track.left),
      if track.right.Some? then Some(IndexOf(cs, track.right.value)) else None,
      seq(CopyBufferSize(track), _ => 0),
      None, 0, 0)
  }

  function InitTracks(tracks: seq<Track>, mask: ChannelMask): (r: seq<TrackState>)
    ensures |r| == |tracks| && forall i :: 0 <= i < |r| ==> r[i] == InitTrack(tracks[i], mask)
  {
    seq(|tracks|, i requires 0 <= i < |tracks| => InitTrack(tracks[i], mask))
  }

  /**
   * A track's sample index is where its channel sits among the mask's channels, which is the
   * frame position of that channel's sample; -1 when the mask does not include the channel.
   * The right index exists exactly for stereo tracks.
   */
  lemma InitTrackLocatesChannels(track: Track, mask: ChannelMask)
    ensures var t := InitTrack(track, mask); var cs := ChannelList(mask);
      && -1 <= t.leftIndex < MAX_MASK_CHANNEL
      && (t.leftIndex >= 0 <==> track.left.number <= MAX_MASK_CHANNEL && Contains(mask, track.left))
      && (t.leftIndex >= 0 ==> cs[t.leftIndex] == track.left)
      && (t.rightIndex.Some? <==> track.right.Some?)
      && (t.rightIndex.Some? ==>
          && -1 <= t.rightIndex.value < MAX_MASK_CHANNEL
          && (t.rightIndex.value >= 0 <==>
              track.right.value.number <= MAX_MASK_CHANNEL && Contains(mask, track.right.value))
          && (t.rightIndex.value >= 0 ==> cs[t.rightIndex.value] == track.right.value))
      && t.take.None? && t.leftPeak == 0 && t.rightPeak == 0
  {
    ChannelListSpec(mask);
    SelectedLength(Membership(mask), 1);
  }

  /** The configuration of the writer a take opens for a track. */
  function TakeConfig(track: Track, encoding: int, sampleRate: i32): WavWriter.Config {
    WavWriter.Config(WavFormat.Current, track.right.Some?, encoding, sampleRate)
  }

  /** The file a take's writer will hold once its header is written. */
  function TakeBytes(w: WavWriter.Writer): seq<u8>
    requires WavFormat.Supported(w.config.encoding)
  {
    if w.preambleWritten then WavWriter.Contents(w) else WavWriter.HeaderOf(w.config)
  }

  /** A track state as the loop keeps it, for takes of the given format. */
  predicate TrackValid(t: TrackState, encoding: int, sampleRate: i32) {
    && WavFormat.Supported(encoding)
    && Shaped(t)
    && (t.take.Some? ==>
        && WavWriter.Valid(t.take.value) && !t.take.value.closed
        && t.take.value.config == TakeConfig(t.track, encoding, sampleRate))
  }

  /** Sample indices as `initializeTrackListeningStates` computes them, and a copy buffer of the track's size. */
  predicate Shaped(t: TrackState) {
    && -1 <= t.leftIndex < MAX_MASK_CHANNEL
    && (t.rightIndex.Some? <==> t.track.right.Some?)
    && (t.rightIndex.Some? ==> -1 <= t.rightIndex.value < MAX_MASK_CHANNEL)
    && |t.copyBuffer| == CopyBufferSize(t.track)
  }

  predicate AllValid(ts: seq<TrackState>, encoding: int, sampleRate: i32) {
    forall i :: 0 <= i < |ts| ==> TrackValid(ts[i], encoding, sampleRate)
  }

  lemma InitTracksValid(tracks: seq<Track>, mask: ChannelMask, encoding: int, sampleRate: i32)
    requires WavFormat.Supported(encoding)
    ensures AllValid(InitTracks(tracks, mask), encoding, sampleRate)
  {
    forall i | 0 <= i < |tracks|
      ensures TrackValid(InitTracks(tracks, mask)[i], encoding, sampleRate)
    {
      InitTrackLocatesChannels(tracks[i], mask);
    }
  }

  /**
   * How many bytes of the copy buffer a frame appends to the take: the source writes the whole
   * buffer (`copyBuffer.size`); the samples the frame put there are one per channel.
   */
  datatype AppendRule = WholeCopyBuffer | SamplesOnly

  /** The peak accumulator's view of a sample: its magnitude (the float scaling is monotone in it). */
  function Magnitude(x: Audio.Sample): nat {
    match x
    case Level(v) => if v < 0 then -v else v
    case FloatBits(b) => if b > 0 then b else 0
  }

  function Max(a: nat, b: nat): nat {
    if a >= b then a else b
  }

  /** The copy-buffer bytes a frame appends to an open take. */
  function AppendLength(rule: AppendRule, t: TrackState, sampleSize: int): int {
    match rule
    case WholeCopyBuffer => |t.copyBuffer|
    case SamplesOnly => (if t.rightIndex.Some? then 2 else 1) * sampleSize
  }

  /** `currentTake?.writeSampleData(copyBuffer, 0, n)`. */
  function AppendToTake(rule: AppendRule, t: TrackState, sampleSize: int, encoding: int, sampleRate: i32): (r: TrackState)
    requires TrackValid(t, encoding, sampleRate) && 1 <= sampleSize <= 4
    ensures TrackValid(r, encoding, sampleRate)
    ensures r.(take := t.take) == t && (r.take.Some? <==> t.take.Some?)
  {
    var n := AppendLength(rule, t, sampleSize);
    if t.take.None? then t
    else t.(take := Some(WavWriter.WriteSampleData(t.take.value, t.copyBuffer[..n]).value))
  }

  /** What a frame leaves in a track before the append: the copy buffer and the two peaks. */
  datatype Extracted = Extracted(copyBuffer: seq<u8>, leftPeak: nat, rightPeak: nat)

  /**
   * The sample part of `useDataFromFrame`: the left sample is copied to the start of the copy
   * buffer, decoded and folded into the left peak; a stereo track does the same with its right
   * sample after it. The first failure ends the frame.
   */
  function ExtractFrame(t: TrackState, frame: Audio.ByteBuffer, sampleSize: int, encoding: int)
    : (r: Result<Extracted, Audio.AudioError>)
    requires Shaped(t) && frame.Valid() && 1 <= sampleSize <= 4
    ensures r.Success? ==> |r.value.copyBuffer| == |t.copyBuffer|
  {
    var withLeft :- Audio.ExtractSampleBytes(frame, sampleSize, t.leftIndex, t.copyBuffer, 0);
    var left :- Audio.DecodeSample(withLeft, 0, sampleSize, encoding);
    var leftPeak := Max(t.leftPeak, Magnitude(left));
    if t.rightIndex.None? then Success(Extracted(withLeft, leftPeak, t.rightPeak))
    else
      var withBoth :- Audio.ExtractSampleBytes(frame, sampleSize, t.rightIndex.value, withLeft, sampleSize);
      var right :- Audio.DecodeSample(withBoth, sampleSize, sampleSize, encoding);
      Success(Extracted(withBoth, leftPeak, Max(t.rightPeak, Magnitude(right))))
  }

  /**
   * `useDataFromFrame`: the track's samples are extracted and folded into its peaks, then the
   * copy buffer goes to the open take, if any.
   */
  function UseDataFromFrame(rule: AppendRule, t: TrackState, frame: Audio.ByteBuffer, sampleSize: int, encoding: int, sampleRate: i32)
    : (r: Result<TrackState, Audio.AudioError>)
    requires TrackValid(t, encoding, sampleRate) && frame.Valid() && 1 <= sampleSize <= 4
    ensures r.Success? ==> TrackValid(r.value, encoding, sampleRate) && SameTrack(t, r.value)
  {
    var e :- ExtractFrame(t, frame, sampleSize, encoding);
    Success(AppendToTake(rule, t.(copyBuffer := e.copyBuffer, leftPeak := e.leftPeak, rightPeak := e.rightPeak), sampleSize, encoding, sampleRate))
  }

  /** The parts of a track state a frame does not change. */
  predicate SameTrack(a: TrackState, b: TrackState) {
    && a.track == b.track && a.leftIndex == b.leftIndex && a.rightIndex == b.rightIndex
    && |a.copyBuffer| == |b.copyBuffer| && (a.take.Some? <==> b.take.Some?)
  }

  predicate SameTracks(a: seq<TrackState>, b: seq<TrackState>) {
    |a| == |b| && forall i :: 0 <= i < |a| ==> SameTrack(a[i], b[i])
  }

  /** `for (trackState in trackStates) trackState.useDataFromFrame(buffer, sampleSizeInBytes)`. */
  function UseFrameForAll(rule: AppendRule, ts: seq<TrackState>, frame: Audio.ByteBuffer, sampleSize: int, encoding: int, sampleRate: i32)
    : (r: Result<seq<TrackState>, Audio.AudioError>)
    requires AllValid(ts, encoding, sampleRate) && frame.Valid() && 1 <= sampleSize <= 4
    ensures r.Success? ==> AllValid(r.value, encoding, sampleRate) && SameTracks(ts, r.value)
  {
    if ts == [] then Success([])
    else
      var head :- UseDataFromFrame(rule, ts[0], frame, sampleSize, encoding, sampleRate);
      var tail :- UseFrameForAll(rule, ts[1..], frame, sampleSize, encoding, sampleRate);
      Success([head] + tail)
  }

  /** How processing a buffer ends early: a failed sample access or the frame-alignment `check`. */
  datatype LoopError = SampleAccess(cause: Audio.AudioError) | MisalignedBuffer

  /** The format the loop works with: the frame size, the sample size and the encoding. */
  datatype Format = Format(frameSize: int, sampleSize: i32, encoding: int, sampleRate: i32)
  {
    predicate Valid() {
      && 0 < frameSize < TWO_31 && 1 <= sampleSize <= 4 && WavFormat.Supported(encoding)
    }
  }

  /**
   * The buffer-processing loop from the frame at `position` on, as a recursive definition: the
   * alignment check, every track on the frame, then the next frame if one starts before the limit.
   */
  function FramesFrom(rule: AppendRule, ts: seq<TrackState>, data: seq<u8>, limit: int, position: int, f: Format)
    : (r: Result<seq<TrackState>, LoopError>)
    requires f.Valid() && AllValid(ts, f.encoding, f.sampleRate)
    requires 0 <= position <= limit <= |data| < TWO_31
    ensures r.Success? ==> AllValid(r.value, f.encoding, f.sampleRate) && SameTracks(ts, r.value)
    decreases limit - position
  {
    if limit - position <= 0 then Success(ts)
    else if (limit - position) % f.frameSize != 0 then Failure(MisalignedBuffer)
    else
      var next := UseFrameForAll(rule, ts, Audio.ByteBuffer(data, position, limit), f.sampleSize, f.encoding, f.sampleRate);
      if next.Failure? then Failure(SampleAccess(next.error))
      else if position + f.frameSize < limit then
        FramesFrom(rule, next.value, data, limit, position + f.frameSize, f)
      else Success(next.value)
  }

  /** A remainder that is not a whole number of frames ends the loop with the alignment error. */
  lemma FramesFromMisaligned(rule: AppendRule, ts: seq<TrackState>, data: seq<u8>, limit: int, position: int, f: Format)
    requires f.Valid() && AllValid(ts, f.encoding, f.sampleRate)
    requires 0 <= position < limit <= |data| < TWO_31 && (limit - position) % f.frameSize != 0
    ensures FramesFrom(rule, ts, data, limit, position, f) == Failure(MisalignedBuffer)
  {
  }

  /** A failed sample access ends the loop with that error. */
  lemma FramesFromFails(rule: AppendRule, ts: seq<TrackState>, data: seq<u8>, limit: int, position: int, f: Format)
    requires f.Valid() && AllValid(ts, f.encoding, f.sampleRate)
    requires 0 <= position < limit <= |data| < TWO_31 && (limit - position) % f.frameSize == 0
    ensures var next := UseFrameForAll(rule, ts, Audio.ByteBuffer(data, position, limit), f.sampleSize, f.encoding, f.sampleRate);
      next.Failure? ==> FramesFrom(rule, ts, data, limit, position, f) == Failure(SampleAccess(next.error))
  {
  }

  /** A whole frame that is not the last, by the alignment `check` itself. */
  lemma FramesFromGoesOn(rule: AppendRule, ts: seq<TrackState>, data: seq<u8>, limit: int, position: int, f: Format,
                         next: seq<TrackState>)
    requires f.Valid() && AllValid(ts, f.encoding, f.sampleRate)
    requires 0 <= position && position + f.frameSize < limit <= |data| < TWO_31
    requires (limit - position) % f.frameSize == 0
    requires UseFrameForAll(rule, ts, Audio.ByteBuffer(data, position, limit), f.sampleSize, f.encoding, f.sampleRate) == Success(next)
    ensures AllValid(next, f.encoding, f.sampleRate)
    ensures FramesFrom(rule, ts, data, limit, position, f) == FramesFrom(rule, next, data, limit, position + f.frameSize, f)
  {
  }

  /** A whole frame that is not the last: the loop goes on with the updated tracks. */
  lemma FramesFromContinues(rule: AppendRule, ts: seq<TrackState>, data: seq<u8>, limit: int, position: int, f: Format,
                            next: seq<TrackState>)
    requires f.Valid() && AllValid(ts, f.encoding, f.sampleRate)
    requires 0 <= position && position + f.frameSize < limit <= |data| < TWO_31
    requires Aligned(position, limit, f.frameSize)
    requires UseFrameForAll(rule, ts, Audio.ByteBuffer(data, position, limit), f.sampleSize, f.encoding, f.sampleRate) == Success(next)
    ensures AllValid(next, f.encoding, f.sampleRate)
    ensures FramesFrom(rule, ts, data, limit, position, f) == FramesFrom(rule, next, data, limit, position + f.frameSize, f)
  {
    AlignedMod(position, limit, f.frameSize);
    FramesFromGoesOn(rule, ts, data, limit, position, f, next);
  }

  /** The last whole frame: the loop ends with the updated tracks. */
  lemma FramesFromEnds(rule: AppendRule, ts: seq<TrackState>, data: seq<u8>, limit: int, position: int, f: Format,
                       next: seq<TrackState>)
    requires f.Valid() && AllValid(ts, f.encoding, f.sampleRate)
    requires 0 <= position && position + f.frameSize == limit <= |data| < TWO_31
    requires UseFrameForAll(rule, ts, Audio.ByteBuffer(data, position, limit), f.sampleSize, f.encoding, f.sampleRate) == Success(next)
    ensures FramesFrom(rule, ts, data, limit, position, f) == Success(next)
  {
  }

  /**
   * The `bufferProcessingLoop` over a buffer filled with `readResult` bytes: the buffer's limit
   * is set to the read count and its position walks from 0 one frame at a time.
   */
  method ProcessBuffer(rule: AppendRule, ts: seq<TrackState>, data: seq<u8>, readResult: int, f: Format)
    returns (r: Result<seq<TrackState>, LoopError>)
    requires f.Valid() && AllValid(ts, f.encoding, f.sampleRate)
    requires 0 <= readResult <= |data| < TWO_31
    ensures r == FramesFrom(rule, ts, data, readResult, 0, f)
  {
    var position := 0;
    var states := ts;
    while readResult - position > 0
      invariant 0 <= position <= readResult
      invariant AllValid(states, f.encoding, f.sampleRate)
      invariant FramesFrom(rule, states, data, readResult, position, f) == FramesFrom(rule, ts, data, readResult, 0, f)
      decreases readResult - position
    {
      if (readResult - position) % f.frameSize != 0 {
        FramesFromMisaligned(rule, states, data, readResult, position, f);
        return Failure(MisalignedBuffer);
      }
      var next := UseFrameForAll(rule, states, Audio.ByteBuffer(data, position, readResult), f.sampleSize, f.encoding, f.sampleRate);
      if next.Failure? {
        FramesFromFails(rule, states, data, readResult, position, f);
        return Failure(SampleAccess(next.error));
      }
      if position + f.frameSize < readResult {
        FramesFromGoesOn(rule, states, data, readResult, position, f, next.value);
        states := next.value;
        position := position + f.frameSize;
      } else {
        WholeRemainder(readResult - position, f.frameSize);
        FramesFromEnds(rule, states, data, readResult, position, f, next.value);
        return Success(next.value);
      }
    }
    return Success(states);
  }

  /** The `fs` bytes of the frame at `p`, or nothing when no whole frame starts there. */
  function FrameAt(data: seq<u8>, p: int, fs: int): seq<u8> {
    if 0 <= p && 0 <= fs && p + fs <= |data| then data[p..p + fs] else []
  }

  /** The bytes of a track's own samples in a frame: the left sample, then the right one. */
  function SamplesOf(frame: seq<u8>, s: int, left: int, right: Option<int>): seq<u8> {
    Audio.ChannelBytes(frame, s, left) + (if right.Some? then Audio.ChannelBytes(frame, s, right.value) else [])
  }

  /** The peak contribution of a sample's bytes (0 if they do not decode). */
  function SampleMagnitude(bytes: seq<u8>, s: i32, encoding: int): nat {
    var d := Audio.DecodeSample(bytes, 0, s, encoding);
    if d.Success? then Magnitude(d.value) else 0
  }

  /** The peak contribution of channel `c`'s sample in a frame. */
  function ChannelMagnitude(frame: seq<u8>, f: Format, c: int): nat {
    SampleMagnitude(Audio.ChannelBytes(frame, f.sampleSize, c), f.sampleSize, f.encoding)
  }

  /** `u`'s peaks have taken in the track's samples of one frame. */
  predicate FramePeaks(t: TrackState, u: TrackState, frame: seq<u8>, f: Format) {
    && SameTrack(t, u)
    && u.leftPeak == Max(t.leftPeak, ChannelMagnitude(frame, f, t.leftIndex))
    && u.rightPeak == (if t.rightIndex.Some? then Max(t.rightPeak, ChannelMagnitude(frame, f, t.rightIndex.value)) else t.rightPeak)
  }

  /** `u`'s open take has grown by exactly the track's samples of one frame. */
  predicate FrameTake(t: TrackState, u: TrackState, frame: seq<u8>, f: Format) {
    && TrackValid(t, f.encoding, f.sampleRate) && TrackValid(u, f.encoding, f.sampleRate) && SameTrack(t, u)
    && (t.take.Some? ==> TakeBytes(u.take.value) == TakeBytes(t.take.value) + SamplesOf(frame, f.sampleSize, t.leftIndex, t.rightIndex))
  }

  /**
   * `u` is `t` after one frame: both peaks have taken in the frame's samples and an open take
   * has grown by exactly the track's samples of the frame.
   */
  predicate FrameApplied(t: TrackState, u: TrackState, frame: seq<u8>, f: Format) {
    && TrackValid(t, f.encoding, f.sampleRate) && TrackValid(u, f.encoding, f.sampleRate)
    && FramePeaks(t, u, frame, f) && FrameTake(t, u, frame, f)
  }

  /** A format the frames are made of: `channels` samples of the encoding's size per frame. */
  predicate FramesOf(f: Format, channels: int) {
    && f.Valid() && 0 < channels <= f.frameSize
    && Audio.SampleSizeInBytes(f.encoding) == Some(f.sampleSize)
    && f.frameSize == Audio.FrameSizeOf(channels, f.sampleSize)
  }

  /** Both of the track's channels are among the frame's. */
  predicate InFrame(t: TrackState, channels: int) {
    && 0 <= t.leftIndex < channels
    && (t.rightIndex.Some? ==> 0 <= t.rightIndex.value < channels)
  }

  /** Sample `index` of a frame of `channels` samples lies inside the frame. */
  lemma SampleInFrame(index: int, channels: nat, s: int)
    requires 0 <= index < channels && 0 < s
    ensures 0 <= index * s && index * s + s <= Audio.FrameSizeOf(channels, s) && (index + 1) * s == index * s + s
  {
    Audio.FrameSizeIsProduct(channels, s);
    Audio.MulNonNegative(index, s);
    Audio.MulNonNegative(channels - index - 1, s);
    assert channels * s - (index * s + s) == (channels - index - 1) * s;
  }

  /** A sample that lies inside a whole frame is extracted into the copy buffer. */
  lemma ExtractFromWholeFrame(data: seq<u8>, p: int, limit: int, f: Format, channels: int, index: int, dst: seq<u8>, dstOff: int)
    requires FramesOf(f, channels) && 0 <= index < channels
    requires 0 <= p && p + f.frameSize <= limit <= |data| < TWO_31
    requires 0 <= dstOff && dstOff + f.sampleSize <= |dst| <= 8
    ensures var s := f.sampleSize;
      var bytes := Audio.ChannelBytes(data[p..p + f.frameSize], s, index);
      && |bytes| == s
      && Audio.ExtractSampleBytes(Audio.ByteBuffer(data, p, limit), s, index, dst, dstOff)
         == Success(dst[..dstOff] + bytes + dst[dstOff + s..])
  {
    WholeFrameRequest(data, p, limit, f, channels, index, dst, dstOff);
    Audio.ExtractWithinLimit(Audio.ByteBuffer(data, p, limit), f.sampleSize, index, dst, dstOff);
  }

  /** The request for a sample inside a whole frame is an ordinary one, and its bytes are the channel's. */
  lemma WholeFrameRequest(data: seq<u8>, p: int, limit: int, f: Format, channels: int, index: int, dst: seq<u8>, dstOff: int)
    requires FramesOf(f, channels) && 0 <= index < channels
    requires 0 <= p && p + f.frameSize <= limit <= |data| < TWO_31
    requires 0 <= dstOff && dstOff + f.sampleSize <= |dst| <= 8
    ensures var s := f.sampleSize;
      && Audio.PlainRequest(Audio.ByteBuffer(data, p, limit), s, index, dst, dstOff)
      && 0 <= index * s && p + index * s + s <= limit
      && Audio.ChannelBytes(data[p..p + f.frameSize], s, index) == data[p + index * s..p + index * s + s]
  {
    var s := f.sampleSize;
    SampleInFrame(index, channels, s);
    ChannelOfFrame(data, p, f.frameSize, s, index);
  }

  /** Channel `index`'s bytes of the frame at `p` are the buffer's bytes at that channel's offset. */
  lemma ChannelOfFrame(data: seq<u8>, p: int, n: int, s: int, index: int)
    requires 0 <= p && p + n <= |data| && 0 < s && 0 <= index * s && index * s + s <= n
    ensures Audio.ChannelBytes(data[p..p + n], s, index) == data[p + index * s..p + index * s + s]
  {
    var first := index * s;
    SliceOfSlice(data, p, n, first, s);
    Audio.ChannelBytesAt(data[p..p + n], s, index);
  }

  lemma SliceOfSlice(data: seq<u8>, p: int, n: int, first: int, s: int)
    requires 0 <= p && p + n <= |data| && 0 <= first && 0 <= s && first + s <= n
    ensures data[p..p + n][first..first + s] == data[p + first..p + first + s]
  {
    var a := data[p..p + n][first..first + s];
    var b := data[p + first..p + first + s];
    forall k | 0 <= k < s
      ensures a[k] == b[k]
    {
    }
  }

  /** A sample copied into a buffer decodes there as it does on its own, and it decodes. */
  lemma DecodeInPlace(buffer: seq<u8>, bytes: seq<u8>, off: int, f: Format)
    requires f.Valid() && Audio.SampleSizeInBytes(f.encoding) == Some(f.sampleSize as int)
    requires 0 <= off && off + f.sampleSize <= |buffer| <= 8 && buffer[off..off + f.sampleSize] == bytes
    ensures Audio.DecodeSample(buffer, off, f.sampleSize, f.encoding) == Audio.DecodeSample(bytes, 0, f.sampleSize, f.encoding)
    ensures Audio.DecodeSample(bytes, 0, f.sampleSize, f.encoding).Success?
  {
    Audio.DecodeReadsOnlyItsBytes(buffer, off, f.sampleSize, f.encoding);
    Audio.SampleTableAgreesWithDecoder(bytes, 0, f.encoding);
  }

  /** Appending `bytes` to an open take grows its file by exactly those bytes. */
  lemma AppendGrowsTake(w: WavWriter.Writer, bytes: seq<u8>)
    requires WavWriter.Valid(w) && !w.closed
    ensures var r := WavWriter.WriteSampleData(w, bytes).value;
      TakeBytes(r) == TakeBytes(w) + bytes
  {
  }

  /**
   * A track whose channels are in a whole frame extracts them: the copy buffer starts with the
   * track's samples of the frame, and each peak takes in its channel's sample.
   */
  lemma WholeFrameExtracted(t: TrackState, data: seq<u8>, p: int, limit: int, f: Format, channels: int)
    requires FramesOf(f, channels) && TrackValid(t, f.encoding, f.sampleRate) && InFrame(t, channels)
    requires 0 <= p && p + f.frameSize <= limit <= |data| < TWO_31
    ensures var frame := data[p..p + f.frameSize];
      var e := ExtractFrame(t, Audio.ByteBuffer(data, p, limit), f.sampleSize, f.encoding);
      && e.Success?
      && AppendLength(SamplesOnly, t, f.sampleSize) <= |e.value.copyBuffer|
      && e.value.copyBuffer[..AppendLength(SamplesOnly, t, f.sampleSize)] == SamplesOf(frame, f.sampleSize, t.leftIndex, t.rightIndex)
      && e.value.leftPeak == Max(t.leftPeak, ChannelMagnitude(frame, f, t.leftIndex))
      && e.value.rightPeak == (if t.rightIndex.Some? then Max(t.rightPeak, ChannelMagnitude(frame, f, t.rightIndex.value)) else t.rightPeak)
  {
    var s := f.sampleSize;
    var frame := data[p..p + f.frameSize];
    var buf := Audio.ByteBuffer(data, p, limit);
    ExtractFromWholeFrame(data, p, limit, f, channels, t.leftIndex, t.copyBuffer, 0);
    var withLeft := Audio.ExtractSampleBytes(buf, s, t.leftIndex, t.copyBuffer, 0).value;
    var leftBytes := Audio.ChannelBytes(frame, s, t.leftIndex);
    assert withLeft[..s] == leftBytes && withLeft[0..0 + s] == leftBytes;
    DecodeInPlace(withLeft, leftBytes, 0, f);
    if t.rightIndex.Some? {
      ExtractFromWholeFrame(data, p, limit, f, channels, t.rightIndex.value, withLeft, s);
      var withBoth := Audio.ExtractSampleBytes(buf, s, t.rightIndex.value, withLeft, s).value;
      var rightBytes := Audio.ChannelBytes(frame, s, t.rightIndex.value);
      assert withBoth[s..s + s] == rightBytes;
      DecodeInPlace(withBoth, rightBytes, s, f);
      assert withBoth[..2 * s] == leftBytes + rightBytes;
    }
  }

  /** A track whose channels are in the frame takes in one whole frame as `FrameApplied` says. */
  lemma UseWholeFrame(t: TrackState, data: seq<u8>, p: int, limit: int, f: Format, channels: int)
    requires FramesOf(f, channels) && TrackValid(t, f.encoding, f.sampleRate) && InFrame(t, channels)
    requires 0 <= p && p + f.frameSize <= limit <= |data| < TWO_31
    ensures var r := UseDataFromFrame(SamplesOnly, t, Audio.ByteBuffer(data, p, limit), f.sampleSize, f.encoding, f.sampleRate);
      r.Success? && FrameApplied(t, r.value, data[p..p + f.frameSize], f)
  {
    WholeFrameExtracted(t, data, p, limit, f, channels);
    var e := ExtractFrame(t, Audio.ByteBuffer(data, p, limit), f.sampleSize, f.encoding).value;
    if t.take.Some? {
      AppendGrowsTake(t.take.value, e.copyBuffer[..AppendLength(SamplesOnly, t, f.sampleSize)]);
    }
  }

  /**
   * As written, a frame appends the whole copy buffer (4 bytes for a mono track, 8 for a stereo
   * one): the track's samples followed by bytes no sample of this frame put there. Unless samples
   * are 4 bytes wide that tail is not empty, so the take holds more bytes per frame than its
   * header's block align announces.
   */
  lemma WholeCopyBufferAppendsStaleBytes(t: TrackState, data: seq<u8>, p: int, limit: int, f: Format, channels: int)
    requires FramesOf(f, channels) && TrackValid(t, f.encoding, f.sampleRate) && InFrame(t, channels)
    requires 0 <= p && p + f.frameSize <= limit <= |data| < TWO_31 && t.take.Some?
    ensures var r := UseDataFromFrame(WholeCopyBuffer, t, Audio.ByteBuffer(data, p, limit), f.sampleSize, f.encoding, f.sampleRate);
      var samples := SamplesOf(data[p..p + f.frameSize], f.sampleSize, t.leftIndex, t.rightIndex);
      && r.Success? && r.value.take.Some?
      && TakeBytes(r.value.take.value) == TakeBytes(t.take.value) + r.value.copyBuffer
      && |r.value.copyBuffer| == CopyBufferSize(t.track)
      && (f.sampleSize < 4 <==> |samples| < CopyBufferSize(t.track))
      && |samples| <= CopyBufferSize(t.track)
      && r.value.copyBuffer[..|samples|] == samples
  {
    WholeFrameExtracted(t, data, p, limit, f, channels);
    var e := ExtractFrame(t, Audio.ByteBuffer(data, p, limit), f.sampleSize, f.encoding).value;
    SamplesFitCopyBuffer(t, f.sampleSize);
    AppendGrowsTake(t.take.value, e.copyBuffer);
    assert e.copyBuffer[..|e.copyBuffer|] == e.copyBuffer;
  }

  /** A frame's samples for a track fit its copy buffer, and fill it only when samples are 4 bytes wide. */
  lemma SamplesFitCopyBuffer(t: TrackState, s: int)
    requires Shaped(t) && 1 <= s <= 4
    ensures AppendLength(SamplesOnly, t, s) <= CopyBufferSize(t.track)
    ensures s < 4 <==> AppendLength(SamplesOnly, t, s) < CopyBufferSize(t.track)
  {
  }

  predicate AllInFrame(ts: seq<TrackState>, channels: int) {
    forall i :: 0 <= i < |ts| ==> InFrame(ts[i], channels)
  }

  /** Every track takes in a whole frame, in order, each as `FrameApplied` says. */
  lemma {:induction false} UseWholeFrameForAll(ts: seq<TrackState>, data: seq<u8>, p: int, limit: int, f: Format, channels: int)
    requires FramesOf(f, channels) && AllValid(ts, f.encoding, f.sampleRate) && AllInFrame(ts, channels)
    requires 0 <= p && p + f.frameSize <= limit <= |data| < TWO_31
    ensures var r := UseFrameForAll(SamplesOnly, ts, Audio.ByteBuffer(data, p, limit), f.sampleSize, f.encoding, f.sampleRate);
      && r.Success? && |r.value| == |ts|
      && forall i :: 0 <= i < |ts| ==> FrameApplied(ts[i], r.value[i], data[p..p + f.frameSize], f)
    decreases |ts|
  {
    if ts != [] {
      var buf := Audio.ByteBuffer(data, p, limit);
      UseWholeFrame(ts[0], data, p, limit, f, channels);
      UseWholeFrameForAll(ts[1..], data, p, limit, f, channels);
      var head := UseDataFromFrame(SamplesOnly, ts[0], buf, f.sampleSize, f.encoding, f.sampleRate).value;
      var tail := UseFrameForAll(SamplesOnly, ts[1..], buf, f.sampleSize, f.encoding, f.sampleRate).value;
      var r := UseFrameForAll(SamplesOnly, ts, buf, f.sampleSize, f.encoding, f.sampleRate);
      assert r == Success([head] + tail);
      forall i | 0 <= i < |ts|
        ensures FrameApplied(ts[i], r.value[i], data[p..p + f.frameSize], f)
      {
        if i > 0 {
          assert ts[i] == ts[1..][i - 1];
        }
      }
    }
  }

  /** The largest magnitude of channel `c`'s samples over the frames from `p` up to `limit`, or 0. */
  function PeakOver(c: int, data: seq<u8>, f: Format, p: int, limit: int): nat
    decreases limit - p
  {
    if f.frameSize <= 0 || limit < p + f.frameSize then 0
    else Max(ChannelMagnitude(FrameAt(data, p, f.frameSize), f, c), PeakOver(c, data, f, p + f.frameSize, limit))
  }

  /** A track's samples of the frames from `p` up to `limit`, in frame order. */
  function Recorded(left: int, right: Option<int>, data: seq<u8>, f: Format, p: int, limit: int): seq<u8>
    decreases limit - p
  {
    if f.frameSize <= 0 || limit < p + f.frameSize then []
    else SamplesOf(FrameAt(data, p, f.frameSize), f.sampleSize, left, right) + Recorded(left, right, data, f, p + f.frameSize, limit)
  }

  /** `u`'s peaks are the larger of `t`'s and the track's samples in the frames from `p` up to `limit`. */
  predicate PeaksApplied(t: TrackState, u: TrackState, data: seq<u8>, f: Format, p: int, limit: int) {
    && SameTrack(t, u)
    && u.leftPeak == Max(t.leftPeak, PeakOver(t.leftIndex, data, f, p, limit))
    && u.rightPeak == (if t.rightIndex.Some? then Max(t.rightPeak, PeakOver(t.rightIndex.value, data, f, p, limit)) else t.rightPeak)
  }

  /** `u`'s open take has grown by the track's samples of the frames from `p` up to `limit`, in order. */
  predicate TakeApplied(t: TrackState, u: TrackState, data: seq<u8>, f: Format, p: int, limit: int) {
    && TrackValid(t, f.encoding, f.sampleRate) && TrackValid(u, f.encoding, f.sampleRate) && SameTrack(t, u)
    && (t.take.Some? ==> TakeBytes(u.take.value) == TakeBytes(t.take.value) + Recorded(t.leftIndex, t.rightIndex, data, f, p, limit))
  }

  /**
   * `u` is `t` after the frames from `p` up to `limit`: each peak is the larger of its old value
   * and the frames' samples, and an open take has grown by the track's samples of those frames,
   * in order.
   */
  predicate FramesApplied(t: TrackState, u: TrackState, data: seq<u8>, f: Format, p: int, limit: int) {
    && TrackValid(t, f.encoding, f.sampleRate) && TrackValid(u, f.encoding, f.sampleRate)
    && PeaksApplied(t, u, data, f, p, limit) && TakeApplied(t, u, data, f, p, limit)
  }

  lemma ComposePeaks(t: TrackState, u: TrackState, w: TrackState, data: seq<u8>, f: Format, p: int, limit: int)
    requires 0 < f.frameSize && p + f.frameSize <= limit
    requires FramePeaks(t, u, FrameAt(data, p, f.frameSize), f) && PeaksApplied(u, w, data, f, p + f.frameSize, limit)
    ensures PeaksApplied(t, w, data, f, p, limit)
  {
  }

  lemma ComposeTake(t: TrackState, u: TrackState, w: TrackState, data: seq<u8>, f: Format, p: int, limit: int)
    requires 0 < f.frameSize && p + f.frameSize <= limit
    requires FrameTake(t, u, FrameAt(data, p, f.frameSize), f) && TakeApplied(u, w, data, f, p + f.frameSize, limit)
    ensures TakeApplied(t, w, data, f, p, limit)
  {
    var here := SamplesOf(FrameAt(data, p, f.frameSize), f.sampleSize, t.leftIndex, t.rightIndex);
    var rest := Recorded(t.leftIndex, t.rightIndex, data, f, p + f.frameSize, limit);
    assert Recorded(t.leftIndex, t.rightIndex, data, f, p, limit) == here + rest;
    if t.take.Some? {
      var a, b, c := TakeBytes(t.take.value), TakeBytes(u.take.value), TakeBytes(w.take.value);
      assert b == a + here && c == b + rest;
      assert c == a + (here + rest);
    }
  }

  lemma LastPeaks(t: TrackState, u: TrackState, data: seq<u8>, f: Format, p: int)
    requires 0 < f.frameSize && FramePeaks(t, u, FrameAt(data, p, f.frameSize), f)
    ensures PeaksApplied(t, u, data, f, p, p + f.frameSize)
  {
  }

  lemma LastTake(t: TrackState, u: TrackState, data: seq<u8>, f: Format, p: int)
    requires 0 < f.frameSize && FrameTake(t, u, FrameAt(data, p, f.frameSize), f)
    ensures TakeApplied(t, u, data, f, p, p + f.frameSize)
  {
    assert Recorded(t.leftIndex, t.rightIndex, data, f, p, p + f.frameSize)
        == SamplesOf(FrameAt(data, p, f.frameSize), f.sampleSize, t.leftIndex, t.rightIndex);
  }

  /** `p` and `limit` are a whole number of frames of `fs` bytes apart. */
  predicate Aligned(p: int, limit: int, fs: int)
    decreases limit - p
  {
    0 < fs && p <= limit && (p == limit || Aligned(p + fs, limit, fs))
  }

  lemma {:induction false} MulAtLeast(a: int, fs: int)
    requires 1 <= a && 0 < fs
    ensures a * fs >= fs
    decreases a
  {
    if a > 1 {
      MulAtLeast(a - 1, fs);
      assert a * fs == (a - 1) * fs + fs;
    }
  }

  lemma MultipleMod(m: int, fs: int)
    requires 0 < fs
    ensures (m * fs) % fs == 0
  {
    var q := m * fs;
    var d := q / fs;
    var r := q % fs;
    assert q == d * fs + r;
    assert (m - d) * fs == r;
    if m - d >= 1 {
      MulAtLeast(m - d, fs);
    } else if m - d <= -1 {
      MulAtLeast(d - m, fs);
    }
  }

  /** A positive whole number of frames is at least one frame. */
  lemma WholeRemainder(x: int, fs: int)
    requires 0 < fs && 0 < x && x % fs == 0
    ensures fs <= x
  {
    var q := x / fs;
    assert x == q * fs;
    if q < 1 {
      Audio.MulNonNegative(-q, fs);
    } else {
      MulAtLeast(q, fs);
    }
  }

  /** Aligned positions pass the loop's alignment `check`. */
  lemma {:induction false} AlignedMod(p: int, limit: int, fs: int)
    requires Aligned(p, limit, fs)
    ensures (limit - p) % fs == 0
    decreases limit - p
  {
    if p < limit {
      AlignedMod(p + fs, limit, fs);
      var x := limit - p - fs;
      var q := x / fs;
      assert x == q * fs;
      assert limit - p == (q + 1) * fs;
      MultipleMod(q + 1, fs);
    }
  }

  lemma {:induction false} AlignedExtend(p: int, limit: int, fs: int)
    requires Aligned(p, limit, fs)
    ensures Aligned(p, limit + fs, fs)
    decreases limit - p
  {
    if p < limit {
      AlignedExtend(p + fs, limit, fs);
    } else {
      assert Aligned(p + fs, p + fs, fs);
    }
  }

  /** `n` frames from the start of the buffer are aligned. */
  lemma {:induction false} AlignedWhole(n: nat, fs: int)
    requires 0 < fs
    ensures Aligned(0, n * fs, fs)
  {
    if n > 0 {
      AlignedWhole(n - 1, fs);
      AlignedExtend(0, (n - 1) * fs, fs);
      assert (n - 1) * fs + fs == n * fs;
    } else {
      assert Aligned(0, 0, fs);
    }
  }

  /** Every track of `ts` became the track at the same place in `rs` after the frames from `p` up to `limit`. */
  predicate AllFramesApplied(ts: seq<TrackState>, rs: seq<TrackState>, data: seq<u8>, f: Format, p: int, limit: int) {
    |ts| == |rs| && forall i :: 0 <= i < |ts| ==> FramesApplied(ts[i], rs[i], data, f, p, limit)
  }

  /** The tracks after the frame at `p` (unchanged when a sample access fails). */
  function NextStates(ts: seq<TrackState>, data: seq<u8>, f: Format, p: int, limit: int): seq<TrackState>
    requires f.Valid() && AllValid(ts, f.encoding, f.sampleRate) && 0 <= p <= limit <= |data| < TWO_31
  {
    var r := UseFrameForAll(SamplesOnly, ts, Audio.ByteBuffer(data, p, limit), f.sampleSize, f.encoding, f.sampleRate);
    if r.Success? then r.value else ts
  }

  /** The frame at `p` of an aligned buffer, taken in by every track: how the loop goes on. */
  lemma WholeFrameStep(ts: seq<TrackState>, data: seq<u8>, f: Format, channels: int, p: int, limit: int)
    requires FramesOf(f, channels) && AllValid(ts, f.encoding, f.sampleRate) && AllInFrame(ts, channels)
    requires 0 <= p < limit <= |data| < TWO_31 && Aligned(p, limit, f.frameSize)
    ensures var next := NextStates(ts, data, f, p, limit);
      && p + f.frameSize <= limit && |next| == |ts|
      && AllValid(next, f.encoding, f.sampleRate) && AllInFrame(next, channels)
      && (p + f.frameSize < limit ==>
            Aligned(p + f.frameSize, limit, f.frameSize)
            && FramesFrom(SamplesOnly, ts, data, limit, p, f) == FramesFrom(SamplesOnly, next, data, limit, p + f.frameSize, f))
      && (p + f.frameSize == limit ==> FramesFrom(SamplesOnly, ts, data, limit, p, f) == Success(next))
  {
    var fs := f.frameSize;
    UseWholeFrameForAll(ts, data, p, limit, f, channels);
    var next := UseFrameForAll(SamplesOnly, ts, Audio.ByteBuffer(data, p, limit), f.sampleSize, f.encoding, f.sampleRate).value;
    if p + fs < limit {
      FramesFromContinues(SamplesOnly, ts, data, limit, p, f, next);
    } else {
      FramesFromEnds(SamplesOnly, ts, data, limit, p, f, next);
    }
  }

  /** Track `i` after the frame at `p` of an aligned buffer. */
  lemma StepApplied(ts: seq<TrackState>, i: int, data: seq<u8>, f: Format, channels: int, p: int, limit: int)
    requires FramesOf(f, channels) && AllValid(ts, f.encoding, f.sampleRate) && AllInFrame(ts, channels)
    requires 0 <= p && p + f.frameSize <= limit <= |data| < TWO_31 && 0 <= i < |ts|
    ensures var next := NextStates(ts, data, f, p, limit);
      |next| == |ts| && FrameApplied(ts[i], next[i], FrameAt(data, p, f.frameSize), f)
  {
    UseWholeFrameForAll(ts, data, p, limit, f, channels);
    assert FrameAt(data, p, f.frameSize) == data[p..p + f.frameSize];
  }

  lemma StepPeaks(ts: seq<TrackState>, i: int, data: seq<u8>, f: Format, channels: int, p: int, limit: int)
    requires FramesOf(f, channels) && AllValid(ts, f.encoding, f.sampleRate) && AllInFrame(ts, channels)
    requires 0 <= p && p + f.frameSize <= limit <= |data| < TWO_31 && 0 <= i < |ts|
    ensures var next := NextStates(ts, data, f, p, limit);
      |next| == |ts| && FramePeaks(ts[i], next[i], FrameAt(data, p, f.frameSize), f)
  {
    StepApplied(ts, i, data, f, channels, p, limit);
  }

  lemma StepTake(ts: seq<TrackState>, i: int, data: seq<u8>, f: Format, channels: int, p: int, limit: int)
    requires FramesOf(f, channels) && AllValid(ts, f.encoding, f.sampleRate) && AllInFrame(ts, channels)
    requires 0 <= p && p + f.frameSize <= limit <= |data| < TWO_31 && 0 <= i < |ts|
    ensures var next := NextStates(ts, data, f, p, limit);
      |next| == |ts| && FrameTake(ts[i], next[i], FrameAt(data, p, f.frameSize), f)
  {
    StepApplied(ts, i, data, f, channels, p, limit);
  }

  /** An aligned buffer of whole frames is processed without error. */
  lemma {:induction false} SucceedsFrom(ts: seq<TrackState>, data: seq<u8>, f: Format, channels: int, p: int, limit: int)
    requires FramesOf(f, channels) && AllValid(ts, f.encoding, f.sampleRate) && AllInFrame(ts, channels)
    requires 0 <= p < limit <= |data| < TWO_31 && Aligned(p, limit, f.frameSize)
    ensures var r := FramesFrom(SamplesOnly, ts, data, limit, p, f);
      r.Success? && |r.value| == |ts|
    decreases limit - p
  {
    WholeFrameStep(ts, data, f, channels, p, limit);
    if p + f.frameSize < limit {
      SucceedsFrom(NextStates(ts, data, f, p, limit), data, f, channels, p + f.frameSize, limit);
    }
  }

  /** The frame at `p` followed by the frames after it, for track `i`'s peaks. */
  lemma PeaksThrough(ts: seq<TrackState>, i: int, rs: seq<TrackState>, data: seq<u8>, f: Format, channels: int, p: int, limit: int)
    requires FramesOf(f, channels) && AllValid(ts, f.encoding, f.sampleRate) && AllInFrame(ts, channels)
    requires 0 <= p && p + f.frameSize < limit <= |data| < TWO_31 && 0 <= i < |ts| && |rs| == |ts|
    requires PeaksApplied(NextStates(ts, data, f, p, limit)[i], rs[i], data, f, p + f.frameSize, limit)
    ensures PeaksApplied(ts[i], rs[i], data, f, p, limit)
  {
    StepPeaks(ts, i, data, f, channels, p, limit);
    ComposePeaks(ts[i], NextStates(ts, data, f, p, limit)[i], rs[i], data, f, p, limit);
  }

  /** The last frame, for track `i`'s peaks. */
  lemma PeaksLast(ts: seq<TrackState>, i: int, data: seq<u8>, f: Format, channels: int, p: int, limit: int)
    requires FramesOf(f, channels) && AllValid(ts, f.encoding, f.sampleRate) && AllInFrame(ts, channels)
    requires 0 <= p && p + f.frameSize == limit <= |data| < TWO_31 && 0 <= i < |ts|
    ensures var next := NextStates(ts, data, f, p, limit);
      |next| == |ts| && PeaksApplied(ts[i], next[i], data, f, p, limit)
  {
    StepPeaks(ts, i, data, f, channels, p, limit);
    LastPeaks(ts[i], NextStates(ts, data, f, p, limit)[i], data, f, p);
  }

  /** The frame at `p` followed by the frames after it, for track `i`'s take. */
  lemma TakeThrough(ts: seq<TrackState>, i: int, rs: seq<TrackState>, data: seq<u8>, f: Format, channels: int, p: int, limit: int)
    requires FramesOf(f, channels) && AllValid(ts, f.encoding, f.sampleRate) && AllInFrame(ts, channels)
    requires 0 <= p && p + f.frameSize < limit <= |data| < TWO_31 && 0 <= i < |ts| && |rs| == |ts|
    requires TakeApplied(NextStates(ts, data, f, p, limit)[i], rs[i], data, f, p + f.frameSize, limit)
    ensures TakeApplied(ts[i], rs[i], data, f, p, limit)
  {
    StepTake(ts, i, data, f, channels, p, limit);
    ComposeTake(ts[i], NextStates(ts, data, f, p, limit)[i], rs[i], data, f, p, limit);
  }

  /** The last frame, for track `i`'s take. */
  lemma TakeLast(ts: seq<TrackState>, i: int, data: seq<u8>, f: Format, channels: int, p: int, limit: int)
    requires FramesOf(f, channels) && AllValid(ts, f.encoding, f.sampleRate) && AllInFrame(ts, channels)
    requires 0 <= p && p + f.frameSize == limit <= |data| < TWO_31 && 0 <= i < |ts|
    ensures var next := NextStates(ts, data, f, p, limit);
      |next| == |ts| && TakeApplied(ts[i], next[i], data, f, p, limit)
  {
    StepTake(ts, i, data, f, channels, p, limit);
    LastTake(ts[i], NextStates(ts, data, f, p, limit)[i], data, f, p);
  }

  /** From the frame at `p` of an aligned buffer on, track `i`'s peaks take in every remaining frame. */
  lemma {:induction false} PeaksFrom(ts: seq<TrackState>, i: int, data: seq<u8>, f: Format, channels: int, p: int, limit: int)
    requires FramesOf(f, channels) && AllValid(ts, f.encoding, f.sampleRate) && AllInFrame(ts, channels)
    requires 0 <= p < limit <= |data| < TWO_31 && Aligned(p, limit, f.frameSize) && 0 <= i < |ts|
    ensures var r := FramesFrom(SamplesOnly, ts, data, limit, p, f);
      r.Success? && |r.value| == |ts| && PeaksApplied(ts[i], r.value[i], data, f, p, limit)
    decreases limit - p
  {
    WholeFrameStep(ts, data, f, channels, p, limit);
    var next := NextStates(ts, data, f, p, limit);
    if p + f.frameSize < limit {
      PeaksFrom(next, i, data, f, channels, p + f.frameSize, limit);
      PeaksThrough(ts, i, FramesFrom(SamplesOnly, next, data, limit, p + f.frameSize, f).value, data, f, channels, p, limit);
    } else {
      PeaksLast(ts, i, data, f, channels, p, limit);
    }
  }

  /** From the frame at `p` of an aligned buffer on, track `i`'s open take records every remaining frame. */
  lemma {:induction false} TakesFrom(ts: seq<TrackState>, i: int, data: seq<u8>, f: Format, channels: int, p: int, limit: int)
    requires FramesOf(f, channels) && AllValid(ts, f.encoding, f.sampleRate) && AllInFrame(ts, channels)
    requires 0 <= p < limit <= |data| < TWO_31 && Aligned(p, limit, f.frameSize) && 0 <= i < |ts|
    ensures var r := FramesFrom(SamplesOnly, ts, data, limit, p, f);
      r.Success? && |r.value| == |ts| && TakeApplied(ts[i], r.value[i], data, f, p, limit)
    decreases limit - p
  {
    WholeFrameStep(ts, data, f, channels, p, limit);
    var next := NextStates(ts, data, f, p, limit);
    if p + f.frameSize < limit {
      TakesFrom(next, i, data, f, channels, p + f.frameSize, limit);
      TakeThrough(ts, i, FramesFrom(SamplesOnly, next, data, limit, p + f.frameSize, f).value, data, f, channels, p, limit);
    } else {
      TakeLast(ts, i, data, f, channels, p, limit);
    }
  }

  /**
   * A read of `n` whole frames (n >= 1): every track takes in each of the `n` frames exactly
   * once, in order. Its peaks become the larger of their old values and the frames' sample
   * magnitudes, and an open take grows by the track's samples of every frame, left before right.
   */
  lemma WholeFramesProcessed(ts: seq<TrackState>, data: seq<u8>, f: Format, channels: int, n: int)
    requires FramesOf(f, channels) && AllValid(ts, f.encoding, f.sampleRate) && AllInFrame(ts, channels)
    requires 1 <= n && n * f.frameSize <= |data| < TWO_31
    ensures var r := FramesFrom(SamplesOnly, ts, data, n * f.frameSize, 0, f);
      r.Success? && AllFramesApplied(ts, r.value, data, f, 0, n * f.frameSize)
  {
    var limit := n * f.frameSize;
    AlignedWhole(n, f.frameSize);
    MulAtLeast(n, f.frameSize);
    SucceedsFrom(ts, data, f, channels, 0, limit);
    forall i | 0 <= i < |ts|
      ensures FramesApplied(ts[i], FramesFrom(SamplesOnly, ts, data, limit, 0, f).value[i], data, f, 0, limit)
    {
      PeaksFrom(ts, i, data, f, channels, 0, limit);
      TakesFrom(ts, i, data, f, channels, 0, limit);
    }
  }

  /** A read whose byte count is not a whole number of frames fails the alignment `check` at once. */
  lemma MisalignedReadFails(rule: AppendRule, ts: seq<TrackState>, data: seq<u8>, readResult: int, f: Format)
    requires f.Valid() && AllValid(ts, f.encoding, f.sampleRate)
    requires 0 <= readResult <= |data| < TWO_31 && readResult % f.frameSize != 0
    ensures FramesFrom(rule, ts, data, readResult, 0, f) == Failure(MisalignedBuffer)
  {
    PartialFrameIsNotEmpty(readResult, f.frameSize);
    FramesFromMisaligned(rule, ts, data, readResult, 0, f);
  }

  lemma PartialFrameIsNotEmpty(x: int, fs: int)
    requires 0 < fs && 0 <= x && x % fs != 0
    ensures 0 < x
  {
  }

  /** An empty read changes nothing. */
  lemma EmptyReadChangesNothing(rule: AppendRule, ts: seq<TrackState>, data: seq<u8>, f: Format)
    requires f.Valid() && AllValid(ts, f.encoding, f.sampleRate) && |data| < TWO_31
    ensures FramesFrom(rule, ts, data, 0, 0, f) == Success(ts)
  {
  }
}

=== FILE: take_runner.dfy ===
/**
 * The control part of `TakeRecorderRunnable.run`: the take commands polled after every buffer
 * (`NEXT_TAKE`, `FINISH_TAKE`, `STOP_LISTENING`), `startNewTake`/`finishTake` on the tracks, one
 * iteration of the listen loop with its error exits, and `sendCommand`. Reading from the
 * `AudioRecord` is an input (the byte count and the bytes); the temporary files, the media
 * store, the clock and the status messages are left out.
 */
module TakeRunner {
  import opened IntTypes
  import opened Wrappers
  import WavFormat
  import WavWriter
  import Audio
  import ChannelMasks
  import opened TakeRecorder

  /** `TakeRecorderRunnable.Command`. */
  datatype Command = NextTake | FinishTake | StopListening

  /** `TakeRecorderRunnable.Result`: `SUCCESS` or `ERROR`. */
  datatype Outcome = Succeeded | Failed

  /** The writer a new take opens for a track (`TakeInRecording`'s `WavFileWriter`). */
  function FreshTake(track: Track, encoding: int, sampleRate: i32): (w: WavWriter.Writer)
    requires WavFormat.Supported(encoding)
  {
    WavWriter.NewWriter(TakeConfig(track, encoding, sampleRate)).value
  }

  /**
   * A finished take's file, as `TakeInRecording.close` hands it to the media store: `writer.close()`,
   * which back-patches the size fields but writes no header of its own, so a take that never
   * received a frame has none.
   */
  function ClosedFile(w: WavWriter.Writer): seq<u8>
    requires WavWriter.Valid(w) && !w.closed
  {
    WavWriter.Close(w).value.file
  }

  /** The files `finishTake` hands on, one for each track with an open take, in track order. */
  function FinishedFiles(ts: seq<TrackState>, encoding: int, sampleRate: i32): seq<seq<u8>>
    requires AllValid(ts, encoding, sampleRate)
  {
    if ts == [] then []
    else
      assert forall i :: 0 <= i < |ts| - 1 ==> ts[1..][i] == ts[i + 1];
      (if ts[0].take.Some? then [ClosedFile(ts[0].take.value)] else []) + FinishedFiles(ts[1..], encoding, sampleRate)
  }

  /** How many tracks have an open take. */
  function OpenTakes(ts: seq<TrackState>): nat {
    if ts == [] then 0 else (if ts[0].take.Some? then 1 else 0) + OpenTakes(ts[1..])
  }

  /** `finishTake` on every track: each open take is closed and forgotten. */
  function FinishAll(ts: seq<TrackState>): seq<TrackState> {
    seq(|ts|, i requires 0 <= i < |ts| => ts[i].(take := None))
  }

  /** `startNewTake` on every track: any open take is finished, then a fresh one is opened. */
  function StartAll(ts: seq<TrackState>, encoding: int, sampleRate: i32): seq<TrackState>
    requires WavFormat.Supported(encoding)
  {
    seq(|ts|, i requires 0 <= i < |ts| => ts[i].(take := Some(FreshTake(ts[i].track, encoding, sampleRate))))
  }

  /** Every track has an open take exactly while the runnable is recording. */
  predicate TakesIffRecording(ts: seq<TrackState>, isRecording: bool) {
    forall i :: 0 <= i < |ts| ==> (ts[i].take.Some? <==> isRecording)
  }

  /** The tracks after a command, whether the loop records, the finished files, and whether the loop ends. */
  datatype StepResult = StepResult(tracks: seq<TrackState>, isRecording: bool, finished: seq<seq<u8>>, exit: bool)

  /** Whether a command finishes the open takes: `FINISH_TAKE`, or `NEXT_TAKE` while recording. */
  predicate Closes(cmd: Option<Command>, isRecording: bool) {
    cmd == Some(FinishTake) || (cmd == Some(NextTake) && isRecording)
  }

  /**
   * The command step after a buffer: finishing takes clears `isRecording`; `NEXT_TAKE` then opens
   * a take on every track (finishing any still open) and sets it; `STOP_LISTENING` ends the loop
   * unless recording. No command (`poll()` returned null) changes nothing.
   */
  function Step(ts: seq<TrackState>, isRecording: bool, cmd: Option<Command>, encoding: int, sampleRate: i32)
    : (r: StepResult)
    requires WavFormat.Supported(encoding) && AllValid(ts, encoding, sampleRate)
  {
    var closing := Closes(cmd, isRecording);
    var ts1 := if closing then FinishAll(ts) else ts;
    var files1 := if closing then FinishedFiles(ts, encoding, sampleRate) else [];
    var rec1 := if closing then false else isRecording;
    if cmd == Some(NextTake) then
      FinishAllValid(ts, encoding, sampleRate);
      StepResult(StartAll(ts1, encoding, sampleRate), true, files1 + FinishedFiles(ts1, encoding, sampleRate), false)
    else
      StepResult(ts1, rec1, files1, cmd == Some(StopListening) && !rec1)
  }

  /** Finishing keeps every track valid and leaves none with a take. */
  lemma FinishAllValid(ts: seq<TrackState>, encoding: int, sampleRate: i32)
    requires WavFormat.Supported(encoding) && AllValid(ts, encoding, sampleRate)
    ensures var r := FinishAll(ts);
      && AllValid(r, encoding, sampleRate) && SameShapes(ts, r) && TakesIffRecording(r, false)
  {
  }

  /** Starting keeps every track valid and gives each one a take. */
  lemma StartAllValid(ts: seq<TrackState>, encoding: int, sampleRate: i32)
    requires WavFormat.Supported(encoding) && AllValid(ts, encoding, sampleRate)
    ensures var r := StartAll(ts, encoding, sampleRate);
      && AllValid(r, encoding, sampleRate) && SameShapes(ts, r) && TakesIffRecording(r, true)
  {
  }

  /** The parts of the tracks the commands leave alone: the track, its sample indices and its copy buffer. */
  predicate SameShapes(a: seq<TrackState>, b: seq<TrackState>) {
    |a| == |b| && forall i :: 0 <= i < |a| ==> a[i].(take := None) == b[i].(take := None)
  }

  /** A finished track has no open take, so finishing it again hands on nothing. */
  lemma {:induction false} NoOpenTakesNoFiles(ts: seq<TrackState>, encoding: int, sampleRate: i32)
    requires AllValid(ts, encoding, sampleRate) && TakesIffRecording(ts, false)
    ensures FinishedFiles(ts, encoding, sampleRate) == [] && OpenTakes(ts) == 0
  {
    if ts != [] {
      assert ts[0].take.None?;
      NoOpenTakesNoFiles(ts[1..], encoding, sampleRate);
    }
  }

  /** One file is handed on per open take. */
  lemma {:induction false} FinishedFileCount(ts: seq<TrackState>, encoding: int, sampleRate: i32)
    requires WavFormat.Supported(encoding) && AllValid(ts, encoding, sampleRate)
    ensures |FinishedFiles(ts, encoding, sampleRate)| == OpenTakes(ts) <= |ts|
    ensures TakesIffRecording(ts, true) ==> OpenTakes(ts) == |ts|
  {
    if ts != [] {
      FinishedFileCount(ts[1..], encoding, sampleRate);
      if TakesIffRecording(ts, true) {
        assert forall i :: 0 <= i < |ts| - 1 ==> ts[1..][i] == ts[i + 1];
      }
    }
  }

  /** Every command keeps the tracks valid and changes nothing but their takes. */
  lemma StepKeepsTracks(ts: seq<TrackState>, isRecording: bool, cmd: Option<Command>, encoding: int, sampleRate: i32)
    requires WavFormat.Supported(encoding) && AllValid(ts, encoding, sampleRate)
    ensures var r := Step(ts, isRecording, cmd, encoding, sampleRate);
      AllValid(r.tracks, encoding, sampleRate) && SameShapes(ts, r.tracks)
  {
    FinishAllValid(ts, encoding, sampleRate);
    if cmd == Some(NextTake) {
      var ts1 := if Closes(cmd, isRecording) then FinishAll(ts) else ts;
      StartAllValid(ts1, encoding, sampleRate);
    }
  }

  /**
   * After `FINISH_TAKE` or `NEXT_TAKE` every track has a take exactly while recording, whatever
   * held before; the other commands keep that invariant.
   */
  lemma StepTakesIffRecording(ts: seq<TrackState>, isRecording: bool, cmd: Option<Command>, encoding: int, sampleRate: i32)
    requires WavFormat.Supported(encoding) && AllValid(ts, encoding, sampleRate)
    requires cmd == Some(FinishTake) || cmd == Some(NextTake) || TakesIffRecording(ts, isRecording)
    ensures var r := Step(ts, isRecording, cmd, encoding, sampleRate);
      TakesIffRecording(r.tracks, r.isRecording)
  {
    FinishAllValid(ts, encoding, sampleRate);
    if cmd == Some(NextTake) {
      var ts1 := if Closes(cmd, isRecording) then FinishAll(ts) else ts;
      StartAllValid(ts1, encoding, sampleRate);
    }
  }

  /**
   * `FINISH_TAKE` stops recording and hands on the file of every open take, in track order;
   * `NEXT_TAKE` records, on a fresh take for every track, and hands on the files of the takes
   * that were open; the other commands hand on nothing.
   */
  lemma StepTakes(ts: seq<TrackState>, isRecording: bool, cmd: Option<Command>, encoding: int, sampleRate: i32)
    requires WavFormat.Supported(encoding) && AllValid(ts, encoding, sampleRate) && TakesIffRecording(ts, isRecording)
    ensures var r := Step(ts, isRecording, cmd, encoding, sampleRate);
      && (r.isRecording <==> cmd == Some(NextTake) || (isRecording && cmd != Some(FinishTake)))
      && r.finished == (if cmd == Some(FinishTake) || cmd == Some(NextTake) then FinishedFiles(ts, encoding, sampleRate) else [])
      && |r.finished| == (if isRecording && (cmd == Some(FinishTake) || cmd == Some(NextTake)) then |ts| else 0)
      && (cmd == Some(NextTake) ==> forall i :: 0 <= i < |ts| ==>
            r.tracks[i].take == Some(FreshTake(ts[i].track, encoding, sampleRate)))
  {
    FinishAllValid(ts, encoding, sampleRate);
    FinishedFileCount(ts, encoding, sampleRate);
    NoOpenTakesNoFiles(FinishAll(ts), encoding, sampleRate);
    if !isRecording {
      NoOpenTakesNoFiles(ts, encoding, sampleRate);
    }
  }

  /**
   * `STOP_LISTENING` ends the loop exactly when not recording and changes nothing; while recording
   * it is ignored. With no command nothing changes either. No other command ends the loop.
   */
  lemma StepStops(ts: seq<TrackState>, isRecording: bool, cmd: Option<Command>, encoding: int, sampleRate: i32)
    requires WavFormat.Supported(encoding) && AllValid(ts, encoding, sampleRate)
    ensures var r := Step(ts, isRecording, cmd, encoding, sampleRate);
      && (r.exit <==> cmd == Some(StopListening) && !isRecording)
      && (cmd == None || cmd == Some(StopListening) ==>
            r.tracks == ts && r.isRecording == isRecording && r.finished == [])
  {
  }

  /**
   * A fresh take's writer holds nothing and has not written its header; the first write will put
   * the header before the data, which is what `TakeBytes` accounts for.
   */
  lemma FreshTakeIsEmpty(track: Track, encoding: int, sampleRate: i32)
    requires WavFormat.Supported(encoding)
    ensures var w := FreshTake(track, encoding, sampleRate);
      && WavWriter.Valid(w) && !w.closed && w.config == TakeConfig(track, encoding, sampleRate)
      && WavWriter.Contents(w) == [] && !w.preambleWritten
      && TakeBytes(w) == WavWriter.HeaderOf(w.config)
  {
  }

  /**
   * A finished take that has received data, so that its writer holds its header followed by
   * `data`, yields a file the reader accepts: it describes the track's layout and the stream's
   * encoding and rate, and `data` follows the header unchanged.
   */
  lemma FinishedTakeIsReadable(t: TrackState, encoding: int, sampleRate: i32, data: seq<u8>)
    requires TrackValid(t, encoding, sampleRate) && t.take.Some? && t.take.value.preambleWritten
    requires TakeBytes(t.take.value) == WavWriter.HeaderOf(t.take.value.config) + data
    requires WavFormat.HEADER_SIZE + |data| < TWO_31
    ensures var file := ClosedFile(t.take.value);
      && WavFormat.ReadHeader(file).Success?
      && WavFormat.Describes(WavFormat.ReadHeader(file).value, t.track.right.Some?, encoding, sampleRate)
      && file[WavFormat.HEADER_SIZE..] == data
  {
    var w := t.take.value;
    assert WavWriter.AssurePreamble(w) == Success(w);
    assert WavWriter.CloseWithHeader(w) == WavWriter.Close(w);
    WavWriter.ClosedRecordingIsReadable(w, data);
  }

  /**
   * A take finished before any frame reached it has no header: `close` leaves only the two size
   * fields in an otherwise zero file, which the reader rejects.
   */
  lemma UnfedTakeIsUnreadable(t: TrackState, encoding: int, sampleRate: i32)
    requires TrackValid(t, encoding, sampleRate) && t.take.Some? && !t.take.value.preambleWritten
    ensures |ClosedFile(t.take.value)| == WavFormat.HEADER_SIZE
    ensures WavFormat.ReadHeader(ClosedFile(t.take.value)) == Failure(WavFormat.InvalidWavFile)
  {
    var w := t.take.value;
    assert w == WavWriter.NewWriter(w.config).value;
    WavWriter.CloseWithoutDataIsUnreadable(w.config);
  }

  /** Closing takes that have received no frame hands on one unreadable file for each. */
  lemma {:induction false} UnfedFilesUnreadable(ts: seq<TrackState>, encoding: int, sampleRate: i32)
    requires AllValid(ts, encoding, sampleRate)
    requires forall i :: 0 <= i < |ts| ==> ts[i].take.Some? && !ts[i].take.value.preambleWritten
    ensures var files := FinishedFiles(ts, encoding, sampleRate);
      && |files| == |ts|
      && forall k :: 0 <= k < |files| ==> WavFormat.ReadHeader(files[k]) == Failure(WavFormat.InvalidWavFile)
  {
    if ts != [] {
      UnfedTakeIsUnreadable(ts[0], encoding, sampleRate);
      UnfedFilesUnreadable(ts[1..], encoding, sampleRate);
      var rest := FinishedFiles(ts[1..], encoding, sampleRate);
      assert FinishedFiles(ts, encoding, sampleRate) == [ClosedFile(ts[0].take.value)] + rest;
    }
  }

  /**
   * `NEXT_TAKE` followed by `FINISH_TAKE` with no frame in between (a read of zero bytes, say)
   * hands on one file per track, and the reader rejects every one of them.
   */
  lemma TakeFinishedBeforeAnyFrameIsUnreadable(ts: seq<TrackState>, isRecording: bool, encoding: int, sampleRate: i32)
    requires WavFormat.Supported(encoding) && AllValid(ts, encoding, sampleRate)
    ensures var started := Step(ts, isRecording, Some(NextTake), encoding, sampleRate);
      && AllValid(started.tracks, encoding, sampleRate)
      && var finished := Step(started.tracks, true, Some(FinishTake), encoding, sampleRate);
      && |finished.finished| == |ts|
      && forall k :: 0 <= k < |ts| ==> WavFormat.ReadHeader(finished.finished[k]) == Failure(WavFormat.InvalidWavFile)
  {
    StepKeepsTracks(ts, isRecording, Some(NextTake), encoding, sampleRate);
    var started := Step(ts, isRecording, Some(NextTake), encoding, sampleRate);
    var ts1 := if Closes(Some(NextTake), isRecording) then FinishAll(ts) else ts;
    assert started.tracks == StartAll(ts1, encoding, sampleRate);
    forall i | 0 <= i < |started.tracks|
      ensures started.tracks[i].take.Some? && !started.tracks[i].take.value.preambleWritten
    {
      FreshTakeIsEmpty(ts1[i].track, encoding, sampleRate);
    }
    UnfedFilesUnreadable(started.tracks, encoding, sampleRate);
  }

  /**
   * A take opened by `NEXT_TAKE` that then takes in a read of `n` whole frames, finished by the
   * next command, is a readable WAV file whose samples are exactly the track's samples of those
   * frames, left before right.
   */
  lemma RecordedTakeIsReadable(ts: seq<TrackState>, i: int, data: seq<u8>, f: Format, channels: int, n: int)
    requires FramesOf(f, channels) && AllValid(ts, f.encoding, f.sampleRate) && AllInFrame(ts, channels)
    requires 1 <= n && n * f.frameSize <= |data| < TWO_31 && 0 <= i < |ts|
    requires ts[i].take == Some(FreshTake(ts[i].track, f.encoding, f.sampleRate))
    ensures var r := FramesFrom(SamplesOnly, ts, data, n * f.frameSize, 0, f);
      var recorded := Recorded(ts[i].leftIndex, ts[i].rightIndex, data, f, 0, n * f.frameSize);
      && r.Success? && |r.value| == |ts| && r.value[i].take.Some?
      && (WavFormat.HEADER_SIZE + |recorded| < TWO_31 ==>
          var file := ClosedFile(r.value[i].take.value);
          && WavFormat.ReadHeader(file).Success?
          && WavFormat.Describes(WavFormat.ReadHeader(file).value, ts[i].track.right.Some?, f.encoding, f.sampleRate)
          && file[WavFormat.HEADER_SIZE..] == recorded)
  {
    var limit := n * f.frameSize;
    WholeFramesProcessed(ts, data, f, channels, n);
    var u := FramesFrom(SamplesOnly, ts, data, limit, 0, f).value[i];
    assert FramesApplied(ts[i], u, data, f, 0, limit);
    var recorded := Recorded(ts[i].leftIndex, ts[i].rightIndex, data, f, 0, limit);
    MulAtLeast(n, f.frameSize);
    RecordedNotEmpty(ts[i], data, f, channels, limit);
    if WavFormat.HEADER_SIZE + |recorded| < TWO_31 {
      FedTakeIsReadable(ts[i], u, f, recorded);
    }
  }

  /** A fresh take that has grown by some bytes closes into a readable file holding exactly them. */
  lemma FedTakeIsReadable(t: TrackState, u: TrackState, f: Format, recorded: seq<u8>)
    requires f.Valid() && TrackValid(t, f.encoding, f.sampleRate) && TrackValid(u, f.encoding, f.sampleRate) && SameTrack(t, u)
    requires t.take == Some(FreshTake(t.track, f.encoding, f.sampleRate))
    requires TakeBytes(u.take.value) == TakeBytes(t.take.value) + recorded && recorded != []
    requires WavFormat.HEADER_SIZE + |recorded| < TWO_31
    ensures var file := ClosedFile(u.take.value);
      && WavFormat.ReadHeader(file).Success?
      && WavFormat.Describes(WavFormat.ReadHeader(file).value, t.track.right.Some?, f.encoding, f.sampleRate)
      && file[WavFormat.HEADER_SIZE..] == recorded
  {
    FreshTakeIsEmpty(t.track, f.encoding, f.sampleRate);
    GrownTakeHasHeader(t.take.value, u.take.value, recorded);
    FinishedTakeIsReadable(u, f.encoding, f.sampleRate, recorded);
  }

  /** A take that has grown past its anticipated header has written that header. */
  lemma GrownTakeHasHeader(w0: WavWriter.Writer, w1: WavWriter.Writer, grown: seq<u8>)
    requires WavFormat.Supported(w0.config.encoding) && w1.config == w0.config
    requires TakeBytes(w0) == WavWriter.HeaderOf(w0.config)
    requires TakeBytes(w1) == TakeBytes(w0) + grown && grown != []
    ensures w1.preambleWritten
  {
    assert |TakeBytes(w1)| > |WavWriter.HeaderOf(w1.config)|;
  }

  /** A track's samples of at least one whole frame are not empty: they start with its left sample. */
  lemma RecordedNotEmpty(t: TrackState, data: seq<u8>, f: Format, channels: int, limit: int)
    requires FramesOf(f, channels) && InFrame(t, channels)
    requires f.frameSize <= limit <= |data|
    ensures |Recorded(t.leftIndex, t.rightIndex, data, f, 0, limit)| >= f.sampleSize
  {
    var frame := FrameAt(data, 0, f.frameSize);
    assert |frame| == f.frameSize;
    SampleInFrame(t.leftIndex, channels, f.sampleSize);
    Audio.ChannelBytesAt(frame, f.sampleSize, t.leftIndex);
  }

  /**
   * The runnable between loop iterations: its tracks, `isRecording`, the command queue, `stopped`
   * (set by the `finally` block) and `result`.
   */
  datatype Runner = Runner(tracks: seq<TrackState>, isRecording: bool, queue: seq<Command>, stopped: bool, result: Option<Outcome>)

  /** `sendCommand`: `check(!stopped)`, then the command joins the queue. */
  function SendCommand(r: Runner, cmd: Command): (s: Result<Runner, RunError>) {
    if r.stopped then Failure(RunnerStopped) else Success(r.(queue := r.queue + [cmd]))
  }

  /** Why `run` or `sendCommand` ends in an exception. */
  datatype RunError = UnsupportedRecording | RunnerStopped

  /**
   * The start of `run`: an encoding outside the sample size table throws before the listen loop's
   * `try`, so neither `stopped` nor `result` is set; otherwise the tracks get their sample indices.
   */
  function Start(r: Runner, tracks: seq<Track>, mask: ChannelMasks.ChannelMask, encoding: int): (s: Result<Runner, RunError>)
  {
    if Audio.SampleSizeInBytes(encoding).None? then Failure(UnsupportedRecording)
    else Success(r.(tracks := InitTracks(tracks, mask)))
  }

  /** `resetStatusAccumulator` on every track. */
  function ResetPeaks(ts: seq<TrackState>): (r: seq<TrackState>)
    ensures |r| == |ts|
  {
    seq(|ts|, i requires 0 <= i < |ts| => ts[i].(leftPeak := 0, rightPeak := 0))
  }

  /** The loop ends with `result` set; `stopped` is set by the `finally` block. */
  function Finish(r: Runner, outcome: Outcome): Runner {
    r.(stopped := true, result := Some(outcome))
  }

  /**
   * One iteration of the listen loop, given the count `readResult` the non-blocking read returned
   * and the buffer it filled: a negative count ends the loop with `ERROR`, as does an exception
   * while processing (a count beyond the buffer makes `limit` throw, a misaligned buffer fails the
   * `check`, a failed sample access throws); otherwise the peaks are reset, every frame is
   * processed, and the next queued command, if any, is applied. Open takes are not closed when
   * the loop ends. A sample access that fails part-way leaves the tracks as they were before the
   * buffer, where the source has already written the earlier frames to the open takes; after
   * `ERROR` those takes are never closed, so the difference cannot be observed.
   */
  function Iterate(r: Runner, readResult: int, buffer: seq<u8>, f: Format): (s: Runner)
    requires f.Valid() && AllValid(r.tracks, f.encoding, f.sampleRate) && |buffer| < TWO_31
    ensures AllValid(s.tracks, f.encoding, f.sampleRate)
  {
    if readResult < 0 || readResult > |buffer| || f.sampleRate == 0 then Finish(r, Failed)
    else
      var reset := ResetPeaks(r.tracks);
      ResetPeaksValid(r.tracks, f.encoding, f.sampleRate);
      var processed := FramesFrom(SamplesOnly, reset, buffer, readResult, 0, f);
      if processed.Failure? then Finish(r.(tracks := reset), Failed)
      else
        var cmd := if r.queue == [] then None else Some(r.queue[0]);
        var step := Step(processed.value, r.isRecording, cmd, f.encoding, f.sampleRate);
        StepKeepsTracks(processed.value, r.isRecording, cmd, f.encoding, f.sampleRate);
        var next := r.(tracks := step.tracks, isRecording := step.isRecording, queue := if r.queue == [] then [] else r.queue[1..]);
        if step.exit then Finish(next, Succeeded) else next
  }

  /** Resetting the peaks keeps every track valid and changes nothing else. */
  lemma ResetPeaksValid(ts: seq<TrackState>, encoding: int, sampleRate: i32)
    requires WavFormat.Supported(encoding) && AllValid(ts, encoding, sampleRate)
    ensures var r := ResetPeaks(ts);
      && AllValid(r, encoding, sampleRate)
      && forall i :: 0 <= i < |ts| ==> r[i].leftPeak == 0 && r[i].rightPeak == 0 && r[i].(leftPeak := ts[i].leftPeak, rightPeak := ts[i].rightPeak) == ts[i]
  {
  }

  /** `sendCommand` fails exactly once the loop has stopped, and otherwise queues the command last. */
  lemma SendCommandQueues(r: Runner, cmd: Command)
    ensures SendCommand(r, cmd).Failure? <==> r.stopped
    ensures SendCommand(r, cmd).Success? ==>
      var s := SendCommand(r, cmd).value;
      s.queue == r.queue + [cmd] && s.queue[..|r.queue|] == r.queue && s.(queue := r.queue) == r
  {
    if !r.stopped {
      assert (r.queue + [cmd])[..|r.queue|] == r.queue;
    }
  }

  /**
   * An unsupported encoding stops `run` before the loop and leaves the runnable as it was;
   * otherwise every track is located in the mask's frame and is valid for takes of the encoding.
   */
  lemma StartLocatesTracks(r: Runner, tracks: seq<Track>, mask: ChannelMasks.ChannelMask, encoding: int, sampleRate: i32)
    ensures Start(r, tracks, mask, encoding).Failure? <==> !WavFormat.Supported(encoding)
    ensures Start(r, tracks, mask, encoding).Success? ==>
      var s := Start(r, tracks, mask, encoding).value;
      && AllValid(s.tracks, encoding, sampleRate) && |s.tracks| == |tracks|
      && (forall i :: 0 <= i < |tracks| ==> s.tracks[i] == InitTrack(tracks[i], mask))
      && s.(tracks := r.tracks) == r
  {
    if WavFormat.Supported(encoding) {
      InitTracksValid(tracks, mask, encoding, sampleRate);
    }
  }

  /** A failed read ends the loop with `ERROR` and leaves the tracks, their takes included, as they were. */
  lemma NegativeReadFails(r: Runner, readResult: int, buffer: seq<u8>, f: Format)
    requires f.Valid() && AllValid(r.tracks, f.encoding, f.sampleRate) && |buffer| < TWO_31
    requires readResult < 0
    ensures var s := Iterate(r, readResult, buffer, f);
      s.stopped && s.result == Some(Failed) && s.tracks == r.tracks && s.isRecording == r.isRecording
  {
  }

  /** A read that is not a whole number of frames ends the loop with `ERROR`, takes left open. */
  lemma MisalignedReadEndsLoop(r: Runner, readResult: int, buffer: seq<u8>, f: Format)
    requires f.Valid() && AllValid(r.tracks, f.encoding, f.sampleRate) && |buffer| < TWO_31
    requires 0 <= readResult <= |buffer| && readResult % f.frameSize != 0
    ensures var s := Iterate(r, readResult, buffer, f);
      && s.stopped && s.result == Some(Failed) && s.isRecording == r.isRecording
      && forall i :: 0 <= i < |r.tracks| ==> s.tracks[i].take == r.tracks[i].take
  {
    var reset := ResetPeaks(r.tracks);
    assert AllValid(reset, f.encoding, f.sampleRate);
    MisalignedReadFails(SamplesOnly, reset, buffer, readResult, f);
  }

  /**
   * Commands are handled first in, first out: a command sent while others wait is handled after
   * them, and one sent to an idle queue is handled by the next iteration that gets past its read.
   */
  lemma IterateTakesOldestCommand(r: Runner, readResult: int, buffer: seq<u8>, f: Format)
    requires f.Valid() && AllValid(r.tracks, f.encoding, f.sampleRate) && |buffer| < TWO_31
    requires 0 <= readResult <= |buffer| && f.sampleRate != 0
    ensures var s := Iterate(r, readResult, buffer, f);
      var reset := ResetPeaks(r.tracks);
      var processed := FramesFrom(SamplesOnly, reset, buffer, readResult, 0, f);
      processed.Success? ==>
        var cmd := if r.queue == [] then None else Some(r.queue[0]);
        var step := Step(processed.value, r.isRecording, cmd, f.encoding, f.sampleRate);
        && s.queue == (if r.queue == [] then [] else r.queue[1..])
        && s.tracks == step.tracks && s.isRecording == step.isRecording
        && (s.stopped <==> r.stopped || (r.queue != [] && r.queue[0] == StopListening && !r.isRecording))
        && s.result == (if step.exit then Some(Succeeded) else r.result)
  {
    ResetPeaksValid(r.tracks, f.encoding, f.sampleRate);
    var processed := FramesFrom(SamplesOnly, ResetPeaks(r.tracks), buffer, readResult, 0, f);
    if processed.Success? {
      var cmd := if r.queue == [] then None else Some(r.queue[0]);
      StepStops(processed.value, r.isRecording, cmd, f.encoding, f.sampleRate);
    }
  }

  /** A command sent to a waiting queue goes behind the others: what remains after the next iteration keeps it last. */
  lemma SentCommandWaitsItsTurn(r: Runner, cmd: Command, readResult: int, buffer: seq<u8>, f: Format)
    requires !r.stopped && r.queue != []
    requires f.Valid() && AllValid(r.tracks, f.encoding, f.sampleRate) && |buffer| < TWO_31
    ensures var q := SendCommand(r, cmd).value;
      var s := Iterate(q, readResult, buffer, f);
      !s.stopped ==> s.queue == r.queue[1..] + [cmd]
  {
    var q := SendCommand(r, cmd).value;
    assert q.queue[1..] == r.queue[1..] + [cmd];
  }

  /**
   * After a read of whole frames, every track's peaks are the largest sample magnitudes of its
   * channels in that read alone, because the accumulators start from zero for each read.
   */
  lemma IteratePeaksAreThisRead(r: Runner, buffer: seq<u8>, f: Format, channels: int, n: int)
    requires FramesOf(f, channels) && AllValid(r.tracks, f.encoding, f.sampleRate) && AllInFrame(r.tracks, channels)
    requires 1 <= n && n * f.frameSize <= |buffer| < TWO_31 && f.sampleRate != 0 && !r.stopped
    ensures var s := Iterate(r, n * f.frameSize, buffer, f);
      && (s.stopped ==> s.result == Some(Succeeded)) && |s.tracks| == |r.tracks|
      && forall i :: 0 <= i < |r.tracks| ==>
        && s.tracks[i].leftPeak == PeakOver(r.tracks[i].leftIndex, buffer, f, 0, n * f.frameSize)
        && s.tracks[i].rightPeak ==
             (if r.tracks[i].rightIndex.Some? then PeakOver(r.tracks[i].rightIndex.value, buffer, f, 0, n * f.frameSize) else 0)
  {
    var limit := n * f.frameSize;
    var reset := ResetPeaks(r.tracks);
    var processed := ProcessedRead(r.tracks, buffer, f, channels, n);
    var cmd := if r.queue == [] then None else Some(r.queue[0]);
    IterateTakesOldestCommand(r, limit, buffer, f);
    StepKeepsTracks(processed, r.isRecording, cmd, f.encoding, f.sampleRate);
    var s := Iterate(r, limit, buffer, f);
    forall i | 0 <= i < |r.tracks|
      ensures s.tracks[i].leftPeak == processed[i].leftPeak && s.tracks[i].rightPeak == processed[i].rightPeak
    {
      assert s.tracks[i].(take := None) == processed[i].(take := None);
    }
  }

  /** The tracks after a read of `n` whole frames, peaks reset first: each has taken in every frame of it. */
  lemma ProcessedRead(ts: seq<TrackState>, buffer: seq<u8>, f: Format, channels: int, n: int) returns (processed: seq<TrackState>)
    requires FramesOf(f, channels) && AllValid(ts, f.encoding, f.sampleRate) && AllInFrame(ts, channels)
    requires 1 <= n && n * f.frameSize <= |buffer| < TWO_31
    ensures AllValid(ResetPeaks(ts), f.encoding, f.sampleRate)
    ensures var r := FramesFrom(SamplesOnly, ResetPeaks(ts), buffer, n * f.frameSize, 0, f);
      r.Success? && r.value == processed && AllValid(processed, f.encoding, f.sampleRate) && |processed| == |ts|
    ensures forall i :: 0 <= i < |ts| ==>
      && processed[i].leftPeak == PeakOver(ts[i].leftIndex, buffer, f, 0, n * f.frameSize)
      && processed[i].rightPeak ==
           (if ts[i].rightIndex.Some? then PeakOver(ts[i].rightIndex.value, buffer, f, 0, n * f.frameSize) else 0)
      && (ts[i].take.Some? ==>
           && processed[i].take.Some?
           && TakeBytes(processed[i].take.value) == TakeBytes(ts[i].take.value) + Recorded(ts[i].leftIndex, ts[i].rightIndex, buffer, f, 0, n * f.frameSize))
  {
    var limit := n * f.frameSize;
    var reset := ResetPeaks(ts);
    ResetPeaksValid(ts, f.encoding, f.sampleRate);
    assert AllInFrame(reset, channels);
    WholeFramesProcessed(reset, buffer, f, channels, n);
    processed := FramesFrom(SamplesOnly, reset, buffer, limit, 0, f).value;
    forall i | 0 <= i < |ts|
      ensures FramesApplied(reset[i], processed[i], buffer, f, 0, limit)
    {
    }
  }

  /**
   * While recording with no command waiting, a read of whole frames grows every open take by the
   * track's samples of that read, in frame order, and the takes stay open.
   */
  lemma IterateRecordsRead(r: Runner, buffer: seq<u8>, f: Format, channels: int, n: int)
    requires FramesOf(f, channels) && AllValid(r.tracks, f.encoding, f.sampleRate) && AllInFrame(r.tracks, channels)
    requires 1 <= n && n * f.frameSize <= |buffer| < TWO_31 && f.sampleRate != 0 && r.queue == []
    ensures var s := Iterate(r, n * f.frameSize, buffer, f);
      && s.stopped == r.stopped && s.result == r.result && s.isRecording == r.isRecording && |s.tracks| == |r.tracks|
      && forall i :: 0 <= i < |r.tracks| && r.tracks[i].take.Some? ==>
        && s.tracks[i].take.Some?
        && TakeBytes(s.tracks[i].take.value) ==
           TakeBytes(r.tracks[i].take.value) + Recorded(r.tracks[i].leftIndex, r.tracks[i].rightIndex, buffer, f, 0, n * f.frameSize)
  {
    var processed := ProcessedRead(r.tracks, buffer, f, channels, n);
    IterateTakesOldestCommand(r, n * f.frameSize, buffer, f);
    StepStops(processed, r.isRecording, None, f.encoding, f.sampleRate);
  }
}

=== FILE: text.dfy ===
/**
 * The parts of Kotlin's string formatting the model needs: the decimal rendering of a
 * non-negative number and `joinToString`.
 */
module Text {

  predicate IsDigit(ch: char) {
    '0' <= ch <= '9'
  }

  function DigitChar(d: int): (ch: char)
    requires 0 <= d < 10
    ensures IsDigit(ch) && ch as int - '0' as int == d
  {
    (d + '0' as int) as char
  }

  function DigitValue(ch: char): (d: nat)
    requires IsDigit(ch)
    ensures d < 10 && DigitChar(d) == ch
  {
    ch as int - '0' as int
  }

  /** The decimal digits of `n` as `toString()` prints them: no sign, no leading zeros. */
  function Decimal(n: nat): (r: string)
    ensures |r| >= 1
    ensures forall i :: 0 <= i < |r| ==> IsDigit(r[i])
    ensures r[0] == '0' ==> n == 0 && r == "0"
    decreases n
  {
    if n < 10 then [DigitChar(n)] else Decimal(n / 10) + [DigitChar(n % 10)]
  }

  /** The number a string of decimal digits spells. */
  function ParseDecimal(s: string): nat
    requires forall i :: 0 <= i < |s| ==> IsDigit(s[i])
  {
    if s == [] then 0
    else 10 * ParseDecimal(s[..|s| - 1]) + DigitValue(s[|s| - 1])
  }

  /** Reading the digits back gives the number: `Decimal` loses nothing. */
  lemma {:induction false} DecimalRoundTrip(n: nat)
    ensures ParseDecimal(Decimal(n)) == n
    decreases n
  {
    if n >= 10 {
      var r := Decimal(n);
      assert r[..|r| - 1] == Decimal(n / 10);
      DecimalRoundTrip(n / 10);
    }
  }

  /** Different numbers print differently. */
  lemma DecimalInjective(a: nat, b: nat)
    ensures Decimal(a) == Decimal(b) <==> a == b
  {
    DecimalRoundTrip(a);
    DecimalRoundTrip(b);
  }

  /** `joinToString(separator = sep)`. */
  function Join(parts: seq<string>, sep: string): string {
    if parts == [] then ""
    else if |parts| == 1 then parts[0]
    else Join(parts[..|parts| - 1], sep) + sep + parts[|parts| - 1]
  }

  /** `t` occurs in `s` at position `at`. */
  predicate OccursAt(t: string, s: string, at: int) {
    0 <= at && at + |t| <= |s| && s[at..at + |t|] == t
  }

  ghost predicate Occurs(t: string, s: string) {
    exists at :: OccursAt(t, s, at)
  }

  lemma OccursSelf(t: string)
    ensures Occurs(t, t)
  {
    assert OccursAt(t, t, 0);
  }

  lemma OccursInConcat(t: string, a: string, b: string)
    ensures Occurs(t, a) ==> Occurs(t, a + b)
    ensures Occurs(t, b) ==> Occurs(t, a + b)
  {
    if Occurs(t, a) {
      var at :| OccursAt(t, a, at);
      assert (a + b)[at..at + |t|] == a[at..at + |t|];
      assert OccursAt(t, a + b, at);
    }
    if Occurs(t, b) {
      var at :| OccursAt(t, b, at);
      assert (a + b)[|a| + at..|a| + at + |t|] == b[at..at + |t|];
      assert OccursAt(t, a + b, |a| + at);
    }
  }

  /** Every part appears in the joined text. */
  lemma {:induction false} JoinContainsParts(parts: seq<string>, sep: string, i: int)
    requires 0 <= i < |parts|
    ensures Occurs(parts[i], Join(parts, sep))
    decreases |parts|
  {
    var j := Join(parts, sep);
    if |parts| == 1 {
      assert OccursAt(parts[i], j, 0);
    } else {
      var init := parts[..|parts| - 1];
      var last := parts[|parts| - 1];
      if i < |parts| - 1 {
        JoinContainsParts(init, sep, i);
        OccursInConcat(parts[i], Join(init, sep), sep);
        OccursInConcat(parts[i], Join(init, sep) + sep, last);
      } else {
        assert OccursAt(last, Join(init, sep) + sep + last, |Join(init, sep) + sep|);
      }
    }
  }
}

=== FILE: unique_masks.dfy ===
/**
 * `ChannelMask.getUniqueMasksFor` (ChannelMask.kt): the device's masks, largest `Int` first, each
 * kept unless it is a strict subset of a mask kept before it.
 */
module UniqueMasks {
  import opened IntTypes
  import opened BitStrings
  import opened ChannelMasks

  predicate StrictSubset(a: ChannelMask, b: ChannelMask) {
    a != b && IsSubsetOf(a, b)
  }

  /** The masks of a set that are not strict subsets of another of its masks. */
  function Maximal(s: set<ChannelMask>): set<ChannelMask> {
    set m | m in s && forall n :: n in s ==> !StrictSubset(m, n)
  }

  /** The order a sort by `Int` puts masks in: the signed `Int` as written, or its unsigned bit pattern. */
  datatype Order = BySignedValue | ByUnsignedValue

  function Key(o: Order, v: i32): int {
    match o
    case BySignedValue => v
    case ByUnsignedValue => ToU32(v)
  }

  predicate SortedDescending(xs: seq<i32>, o: Order) {
    forall i, j :: 0 <= i < j < |xs| ==> Key(o, xs[i]) >= Key(o, xs[j])
  }

  /** Inserts `x` before the first element whose key is not larger, keeping the sort stable. */
  function Insert(x: i32, xs: seq<i32>, o: Order): (r: seq<i32>)
    ensures multiset(r) == multiset(xs) + multiset{x}
    ensures |r| == |xs| + 1
    ensures r[0] == x || (xs != [] && r[0] == xs[0])
  {
    if xs == [] || Key(o, xs[0]) <= Key(o, x) then [x] + xs
    else
      assert xs == [xs[0]] + xs[1..];
      [xs[0]] + Insert(x, xs[1..], o)
  }

  lemma {:induction false} InsertSorted(x: i32, xs: seq<i32>, o: Order)
    requires SortedDescending(xs, o)
    ensures SortedDescending(Insert(x, xs, o), o)
    decreases |xs|
  {
    if xs != [] && Key(o, xs[0]) > Key(o, x) {
      var rest := Insert(x, xs[1..], o);
      InsertSorted(x, xs[1..], o);
      assert Key(o, xs[0]) >= Key(o, rest[0]);
      assert Insert(x, xs, o) == [xs[0]] + rest;
    }
  }

  /** `sortedByDescending`: a stable sort, largest key first. */
  function SortDescending(xs: seq<i32>, o: Order): (r: seq<i32>)
    ensures multiset(r) == multiset(xs)
    ensures SortedDescending(r, o)
  {
    if xs == [] then []
    else
      assert xs == [xs[0]] + xs[1..];
      var rest := SortDescending(xs[1..], o);
      InsertSorted(xs[0], rest, o);
      Insert(xs[0], rest, o)
  }

  /** `masks.none { objMask != it && objMask.isSubsetOf(it) }`. */
  predicate NoStrictSuperset(m: ChannelMask, kept: set<ChannelMask>) {
    forall k :: k in kept ==> !StrictSubset(m, k)
  }

  /** One pass of the loop: `objMask` is added unless a kept mask strictly contains it. */
  function Step(x: ChannelMask, kept: set<ChannelMask>): set<ChannelMask> {
    if NoStrictSuperset(x, kept) then kept + {x} else kept
  }

  /** The loop of `getUniqueMasksFor` over `ms`, starting from the masks `kept` so far. */
  function Process(ms: seq<ChannelMask>, kept: set<ChannelMask>): set<ChannelMask> {
    if ms == [] then kept
    else Process(ms[1..], Step(ms[0], kept))
  }

  /** `ChannelMask(intMask)` for each `Int`. */
  function Masks(xs: seq<i32>): (r: seq<ChannelMask>)
    ensures |r| == |xs| && forall i :: 0 <= i < |xs| ==> r[i] == ChannelMask(xs[i])
  {
    seq(|xs|, i requires 0 <= i < |xs| => ChannelMask(xs[i]))
  }

  /** `getUniqueMasksFor` as written: sorted by the signed `Int`. */
  function UniqueMasksAsWritten(channelMasks: seq<i32>): set<ChannelMask> {
    Process(Masks(SortDescending(channelMasks, BySignedValue)), {})
  }

  /** `getUniqueMasksFor` sorted by the mask's unsigned bit pattern, so that supersets come first. */
  function UniqueMasks(channelMasks: seq<i32>): set<ChannelMask> {
    Process(Masks(SortDescending(channelMasks, ByUnsignedValue)), {})
  }

  /**
   * Whatever the order, the loop keeps what it had, adds only masks of `ms`, and leaves every
   * mask of `ms` inside some kept mask: a dropped mask is a strict subset of a kept one.
   */
  lemma {:induction false} ProcessCovers(ms: seq<ChannelMask>, kept: set<ChannelMask>)
    ensures kept <= Process(ms, kept)
    ensures Process(ms, kept) <= kept + (set m | m in ms)
    ensures forall i :: 0 <= i < |ms| ==> exists k :: k in Process(ms, kept) && IsSubsetOf(ms[i], k)
  {
    if ms != [] {
      var x := ms[0];
      var next := Step(x, kept);
      ProcessCovers(ms[1..], next);
      var r := Process(ms, kept);
      assert r == Process(ms[1..], next);
      SubsetIsPartialOrder(x, x, x);
      assert exists k :: k in r && IsSubsetOf(x, k);
      forall i | 0 < i < |ms|
        ensures exists k :: k in r && IsSubsetOf(ms[i], k)
      {
        assert ms[i] == ms[1..][i - 1];
      }
    }
  }

  /** A strict subset has the smaller unsigned bit pattern. */
  lemma StrictSubsetSmaller(a: ChannelMask, b: ChannelMask)
    requires StrictSubset(a, b)
    ensures ToU32(a.mask) < ToU32(b.mask)
  {
    SubsetIffBits(a, b);
    BitsDetermineMask(a, b);
    forall i | 0 <= i < WIDTH
      ensures Bits(a)[i] ==> Bits(b)[i]
    {
      assert Bit(a, i) ==> Bit(b, i);
    }
    UnsignedMonotone(Bits(a), Bits(b));
    BitsRoundTrip(a);
    BitsRoundTrip(b);
  }

  predicate UnsignedDescending(ms: seq<ChannelMask>) {
    forall i, j :: 0 <= i < j < |ms| ==> ToU32(ms[i].mask) >= ToU32(ms[j].mask)
  }

  /** `p` lies inside a kept mask. */
  predicate Covers(kept: set<ChannelMask>, p: ChannelMask) {
    exists k :: k in kept && IsSubsetOf(p, k)
  }

  /** Every mask seen so far lies inside a kept mask. */
  predicate Covered(kept: set<ChannelMask>, seen: set<ChannelMask>) {
    forall p {:trigger Covers(kept, p)} :: p in seen ==> Covers(kept, p)
  }

  /** No kept mask is a strict subset of a mask seen so far. */
  predicate KeptMaximal(kept: set<ChannelMask>, seen: set<ChannelMask>) {
    forall k, p :: k in kept && p in seen ==> !StrictSubset(k, p)
  }

  /** The kept masks are at least as large as those still to come. */
  predicate KeptAbove(ms: seq<ChannelMask>, kept: set<ChannelMask>) {
    forall k, i :: k in kept && 0 <= i < |ms| ==> ToU32(k.mask) >= ToU32(ms[i].mask)
  }

  /** What the loop keeps true when supersets come first. */
  predicate Invariant(ms: seq<ChannelMask>, kept: set<ChannelMask>, seen: set<ChannelMask>) {
    Covered(kept, seen) && KeptMaximal(kept, seen) && KeptAbove(ms, kept)
  }

  /** A set's maximal masks are exactly those of its masks that cover it without being strictly inside it. */
  lemma MaximalOfInvariant(kept: set<ChannelMask>, seen: set<ChannelMask>)
    requires kept <= seen && Covered(kept, seen) && KeptMaximal(kept, seen)
    ensures kept == Maximal(seen)
  {
    forall m | m in Maximal(seen)
      ensures m in kept
    {
      assert Covers(kept, m);
      var k :| k in kept && IsSubsetOf(m, k);
    }
  }

  lemma CoveredStep(x: ChannelMask, kept: set<ChannelMask>, seen: set<ChannelMask>)
    requires Covered(kept, seen)
    ensures Covered(Step(x, kept), seen + {x})
  {
    var kept' := Step(x, kept);
    forall p | p in seen + {x}
      ensures Covers(kept', p)
    {
      if p == x {
        SubsetIsPartialOrder(x, x, x);
        if !NoStrictSuperset(x, kept) {
          var k :| k in kept && StrictSubset(x, k);
          assert k in kept';
        } else {
          assert x in kept';
        }
      } else {
        assert Covers(kept, p);
        var k :| k in kept && IsSubsetOf(p, k);
        assert k in kept';
      }
    }
  }

  /** A mask seen earlier is never a strict subset of a later one. */
  lemma EarlierNotSmaller(k: ChannelMask, x: ChannelMask)
    requires ToU32(k.mask) >= ToU32(x.mask)
    ensures !StrictSubset(k, x)
  {
    if StrictSubset(k, x) {
      StrictSubsetSmaller(k, x);
    }
  }

  /** A mask that no kept mask strictly contains is not strictly inside anything a kept mask covers. */
  lemma KeptNotInsideCovered(x: ChannelMask, p: ChannelMask, k: ChannelMask)
    requires IsSubsetOf(p, k) && !StrictSubset(x, k)
    ensures !StrictSubset(x, p)
  {
    if StrictSubset(x, p) {
      SubsetIsPartialOrder(x, p, k);
      SubsetIsPartialOrder(p, x, x);
    }
  }

  lemma KeptNotInsideLater(x: ChannelMask, kept: set<ChannelMask>)
    requires forall k :: k in kept ==> ToU32(k.mask) >= ToU32(x.mask)
    ensures forall k :: k in kept ==> !StrictSubset(k, x)
  {
    forall k | k in kept
      ensures !StrictSubset(k, x)
    {
      EarlierNotSmaller(k, x);
    }
  }

  lemma NewKeptNotInsideSeen(x: ChannelMask, kept: set<ChannelMask>, seen: set<ChannelMask>)
    requires Covered(kept, seen) && NoStrictSuperset(x, kept)
    ensures forall p :: p in seen + {x} ==> !StrictSubset(x, p)
  {
    forall p | p in seen
      ensures !StrictSubset(x, p)
    {
      assert Covers(kept, p);
      var k :| k in kept && IsSubsetOf(p, k);
      KeptNotInsideCovered(x, p, k);
    }
  }

  lemma KeptMaximalAdd(x: ChannelMask, kept: set<ChannelMask>, seen: set<ChannelMask>)
    requires KeptMaximal(kept, seen)
    requires forall k :: k in kept ==> !StrictSubset(k, x)
    requires forall p :: p in seen + {x} ==> !StrictSubset(x, p)
    ensures KeptMaximal(kept + {x}, seen + {x})
  {
  }

  lemma KeptMaximalKeep(x: ChannelMask, kept: set<ChannelMask>, seen: set<ChannelMask>)
    requires KeptMaximal(kept, seen)
    requires forall k :: k in kept ==> !StrictSubset(k, x)
    ensures KeptMaximal(kept, seen + {x})
  {
  }

  lemma KeptMaximalStep(x: ChannelMask, kept: set<ChannelMask>, seen: set<ChannelMask>)
    requires KeptMaximal(kept, seen)
    requires forall k :: k in kept ==> !StrictSubset(k, x)
    requires NoStrictSuperset(x, kept) ==> forall p :: p in seen + {x} ==> !StrictSubset(x, p)
    ensures KeptMaximal(Step(x, kept), seen + {x})
  {
    if NoStrictSuperset(x, kept) {
      KeptMaximalAdd(x, kept, seen);
      assert Step(x, kept) == kept + {x};
    } else {
      KeptMaximalKeep(x, kept, seen);
      assert Step(x, kept) == kept;
    }
  }

  lemma KeptAboveStep(ms: seq<ChannelMask>, kept: set<ChannelMask>)
    requires ms != [] && UnsignedDescending(ms) && KeptAbove(ms, kept)
    ensures KeptAbove(ms[1..], Step(ms[0], kept))
  {
    forall k, i | k in Step(ms[0], kept) && 0 <= i < |ms[1..]|
      ensures ToU32(k.mask) >= ToU32(ms[1..][i].mask)
    {
      assert ms[1..][i] == ms[i + 1];
    }
  }

  lemma InvariantStep(ms: seq<ChannelMask>, kept: set<ChannelMask>, seen: set<ChannelMask>)
    requires ms != [] && UnsignedDescending(ms)
    requires Invariant(ms, kept, seen)
    ensures Invariant(ms[1..], Step(ms[0], kept), seen + {ms[0]})
  {
    var x := ms[0];
    CoveredStep(x, kept, seen);
    KeptNotInsideLater(x, kept);
    if NoStrictSuperset(x, kept) {
      NewKeptNotInsideSeen(x, kept, seen);
    }
    KeptMaximalStep(x, kept, seen);
    KeptAboveStep(ms, kept);
  }

  lemma SeenOfSeq(seen: set<ChannelMask>, ms: seq<ChannelMask>)
    requires ms != []
    ensures seen + {ms[0]} + (set m | m in ms[1..]) == seen + (set m | m in ms)
  {
    assert ms == [ms[0]] + ms[1..];
  }

  /**
   * With supersets first, what the loop keeps covers every mask and is strictly inside none:
   * the loop's invariant holds to the end.
   */
  lemma {:induction false} ProcessKeepsMaximal(ms: seq<ChannelMask>, kept: set<ChannelMask>, seen: set<ChannelMask>)
    requires UnsignedDescending(ms)
    requires Invariant(ms, kept, seen)
    ensures Covered(Process(ms, kept), seen + (set m | m in ms))
    ensures KeptMaximal(Process(ms, kept), seen + (set m | m in ms))
    decreases |ms|
  {
    if ms == [] {
      assert seen + (set m | m in ms) == seen;
    } else {
      InvariantStep(ms, kept, seen);
      assert UnsignedDescending(ms[1..]);
      ProcessKeepsMaximal(ms[1..], Step(ms[0], kept), seen + {ms[0]});
      SeenOfSeq(seen, ms);
    }
  }

  /** With supersets first, the loop keeps exactly the maximal masks. */
  lemma ProcessIsMaximal(ms: seq<ChannelMask>)
    requires UnsignedDescending(ms)
    ensures Process(ms, {}) == Maximal(set m | m in ms)
  {
    ProcessKeepsMaximal(ms, {}, {});
    ProcessCovers(ms, {});
    assert {} + (set m | m in ms) == (set m | m in ms);
    MaximalOfInvariant(Process(ms, {}), set m | m in ms);
  }

  lemma MasksOfSorted(xs: seq<i32>, o: Order)
    requires SortedDescending(xs, o)
    requires o == ByUnsignedValue || forall i :: 0 <= i < |xs| ==> xs[i] >= 0
    ensures UnsignedDescending(Masks(xs))
  {
    forall i | 0 <= i < |xs|
      ensures ToU32(Masks(xs)[i].mask) == Key(o, xs[i])
    {
    }
  }

  lemma MasksOfPermutation(xs: seq<i32>, ys: seq<i32>)
    requires multiset(xs) == multiset(ys)
    ensures (set m | m in Masks(xs)) == (set m | m in Masks(ys))
  {
    forall m | m in Masks(xs)
      ensures m in Masks(ys)
    {
      var i :| 0 <= i < |xs| && Masks(xs)[i] == m;
      assert xs[i] in multiset(ys);
      var j :| 0 <= j < |ys| && ys[j] == xs[i];
      assert Masks(ys)[j] == m;
    }
    forall m | m in Masks(ys)
      ensures m in Masks(xs)
    {
      var j :| 0 <= j < |ys| && Masks(ys)[j] == m;
      assert ys[j] in multiset(xs);
      var i :| 0 <= i < |xs| && xs[i] == ys[j];
      assert Masks(xs)[i] == m;
    }
  }

  /** The masks the device reports. */
  function DeviceMasks(channelMasks: seq<i32>): set<ChannelMask> {
    set m | m in Masks(channelMasks)
  }

  /** Sorted by the unsigned pattern, `getUniqueMasksFor` returns exactly the maximal masks of the device. */
  lemma UniqueMasksAreMaximal(channelMasks: seq<i32>)
    ensures UniqueMasks(channelMasks) == Maximal(DeviceMasks(channelMasks))
  {
    var sorted := SortDescending(channelMasks, ByUnsignedValue);
    MasksOfSorted(sorted, ByUnsignedValue);
    MasksOfPermutation(sorted, channelMasks);
    ProcessIsMaximal(Masks(sorted));
  }

  /** As written, every device mask lies inside a returned mask, and only device masks are returned. */
  lemma UniqueMasksAsWrittenCover(channelMasks: seq<i32>)
    ensures UniqueMasksAsWritten(channelMasks) <= DeviceMasks(channelMasks)
    ensures forall m :: m in DeviceMasks(channelMasks) ==>
      exists k :: k in UniqueMasksAsWritten(channelMasks) && IsSubsetOf(m, k)
  {
    var sorted := SortDescending(channelMasks, BySignedValue);
    MasksOfPermutation(sorted, channelMasks);
    ProcessCovers(Masks(sorted), {});
    forall m | m in DeviceMasks(channelMasks)
      ensures exists k :: k in UniqueMasksAsWritten(channelMasks) && IsSubsetOf(m, k)
    {
      var i :| 0 <= i < |Masks(sorted)| && Masks(sorted)[i] == m;
    }
  }

  /** Sequences with the same multiset hold the same elements. */
  lemma SameMembers(a: seq<i32>, b: seq<i32>, x: i32)
    requires multiset(a) == multiset(b) && x in a
    ensures x in b
  {
    assert x in multiset(a);
  }

  /** A permutation of `xs` sorted descending by the signed `Int` starts with `xs`'s largest element. */
  lemma HeadIsLargest(sorted: seq<i32>, xs: seq<i32>, i: int)
    requires multiset(sorted) == multiset(xs) && SortedDescending(sorted, BySignedValue)
    requires 0 <= i < |xs|
    requires forall j :: 0 <= j < |xs| ==> xs[j] <= xs[i]
    ensures sorted != [] && sorted[0] == xs[i]
  {
    SameMembers(xs, sorted, xs[i]);
    var k :| 0 <= k < |sorted| && sorted[k] == xs[i];
    SameMembers(sorted, xs, sorted[0]);
    var j :| 0 <= j < |xs| && xs[j] == sorted[0];
    assert k == 0 || Key(BySignedValue, sorted[0]) >= Key(BySignedValue, sorted[k]);
  }

  /** A signed descending sort starts with the largest `Int`. */
  lemma SortedStartsWithLargest(xs: seq<i32>, i: int)
    requires 0 <= i < |xs|
    requires forall j :: 0 <= j < |xs| ==> xs[j] <= xs[i]
    ensures var sorted := SortDescending(xs, BySignedValue);
      sorted != [] && sorted[0] == xs[i]
  {
    HeadIsLargest(SortDescending(xs, BySignedValue), xs, i);
  }

  /** The loop keeps the first mask it meets. */
  lemma ProcessKeepsFirst(ms: seq<ChannelMask>)
    requires ms != []
    ensures ms[0] in Process(ms, {})
  {
    assert NoStrictSuperset(ms[0], {});
    assert Step(ms[0], {}) == {ms[0]};
    assert Process(ms, {}) == Process(ms[1..], {ms[0]});
    ProcessCovers(ms[1..], {ms[0]});
  }

  /**
   * As written, the mask with the largest `Int` is always returned: the sort puts it first, and
   * the loop meets it while nothing is kept yet.
   */
  lemma LargestMaskKept(channelMasks: seq<i32>, i: int)
    requires 0 <= i < |channelMasks|
    requires forall j :: 0 <= j < |channelMasks| ==> channelMasks[j] <= channelMasks[i]
    ensures ChannelMask(channelMasks[i]) in UniqueMasksAsWritten(channelMasks)
  {
    SortedStartsWithLargest(channelMasks, i);
    ProcessKeepsFirst(Masks(SortDescending(channelMasks, BySignedValue)));
  }

  /** As written, the result is right when no mask uses channel 32 (bit 31, the sign bit). */
  lemma UniqueMasksAsWrittenWithoutSignBit(channelMasks: seq<i32>)
    requires forall i :: 0 <= i < |channelMasks| ==> channelMasks[i] >= 0
    ensures UniqueMasksAsWritten(channelMasks) == Maximal(DeviceMasks(channelMasks))
  {
    var sorted := SortDescending(channelMasks, BySignedValue);
    forall i | 0 <= i < |sorted|
      ensures sorted[i] >= 0
    {
      assert sorted[i] in multiset(channelMasks);
    }
    MasksOfSorted(sorted, BySignedValue);
    MasksOfPermutation(sorted, channelMasks);
    ProcessIsMaximal(Masks(sorted));
  }

  lemma ProcessTwo(a: ChannelMask, b: ChannelMask)
    requires !StrictSubset(b, a)
    ensures Process([a, b], {}) == {a, b}
  {
    assert Step(a, {}) == {a};
    assert [a, b][1..] == [b];
    assert Step(b, {a}) == {a, b};
    assert Process([b], {a, b}) == Process([], {a, b});
  }

  lemma SortTwo(x: i32, y: i32)
    requires x > y
    ensures SortDescending([x, y], BySignedValue) == [x, y]
  {
    assert [x, y][1..] == [y];
    assert [y][1..] == [];
    assert SortDescending([y], BySignedValue) == [y];
  }

  /** The mask of channel 1 is `1`, and the mask of channels 1 and 32 is `0x8000_0001`. */
  lemma CounterexampleMasks()
    ensures Shl1(0).mask == 1
    ensures Or(Shl1(0), Shl1(WIDTH - 1)).mask == 0x8000_0001 - TWO_32
  {
    Shl1Value(0);
    var s := seq(WIDTH, i => i == 0 || i == WIDTH - 1);
    var both := Or(Shl1(0), Shl1(WIDTH - 1));
    OrBits(Shl1(0), Shl1(WIDTH - 1));
    Shl1Bits(0);
    Shl1Bits(WIDTH - 1);
    FromBitsRoundTrip(s);
    forall i | 0 <= i < WIDTH
      ensures Bit(both, i) == Bit(FromBits(s), i)
    {
    }
    SameBits(both, FromBits(s));
    assert s[..WIDTH - 1] == seq(WIDTH - 1, i => i == 0);
    UnsignedOfSingleBit(0, WIDTH - 1);
    Pow2Widths();
    assert Unsigned(s) == 1 + TWO_31;
  }

  /** The mask of channel 1 is a strict subset of the mask of channels 1 and 32. */
  lemma OneInsideOneAnd32()
    ensures StrictSubset(Shl1(0), Or(Shl1(0), Shl1(WIDTH - 1)))
    ensures !StrictSubset(Or(Shl1(0), Shl1(WIDTH - 1)), Shl1(0))
  {
    var one := Shl1(0);
    var oneAnd32 := Or(Shl1(0), Shl1(WIDTH - 1));
    SubsetIffBits(one, oneAnd32);
    SubsetIffBits(oneAnd32, one);
    OrBits(Shl1(0), Shl1(WIDTH - 1));
    Shl1Bits(0);
    Shl1Bits(WIDTH - 1);
    assert Bit(one, WIDTH - 1) != Bit(oneAnd32, WIDTH - 1);
  }

  /**
   * The signed sort puts a mask with channel 32 last, after its own subsets: for the masks of
   * channels {1} (`1`) and {1, 32} (`0x8000_0001`), both are returned although the first is a
   * strict subset of the second.
   */
  lemma UniqueMasksAsWrittenKeepsSubset()
    ensures var r := UniqueMasksAsWritten([1, 0x8000_0001 - TWO_32]);
      && ChannelMask(1) in r && ChannelMask(0x8000_0001 - TWO_32) in r
      && StrictSubset(ChannelMask(1), ChannelMask(0x8000_0001 - TWO_32))
  {
    var xs := [1, 0x8000_0001 - TWO_32];
    CounterexampleMasks();
    OneInsideOneAnd32();
    SortTwo(xs[0], xs[1]);
    assert xs == [xs[0], xs[1]];
    assert Masks(xs) == [ChannelMask(xs[0]), ChannelMask(xs[1])];
    ProcessTwo(ChannelMask(xs[0]), ChannelMask(xs[1]));
  }
}

=== FILE: wav_format.dfy ===
/**
 * wav_files.kt's `WavConstants` and `WavInputStream` header parsing, and the 44-byte header both
 * writer revisions emit: a RIFF/WAVE file with one 16-byte `fmt ` chunk (format tag 0x0001 for
 * integer PCM, 0x0003 for IEEE float, as registered in Appendix A of RFC 2361) followed by the
 * `data` chunk.
 */
module WavFormat {
  import opened IntTypes
  import opened Wrappers
  import opened LittleEndian

  /** The `android.media.AudioFormat` encoding constants the app supports. */
  const ENCODING_PCM_16BIT: int := 2
  const ENCODING_PCM_8BIT: int := 3
  const ENCODING_PCM_FLOAT: int := 4
  const ENCODING_PCM_24BIT_PACKED: int := 21
  const ENCODING_PCM_32BIT: int := 22

  const FORMAT_TAG_PCM: u16 := 0x0001
  const FORMAT_TAG_IEEE_FLOAT: u16 := 0x0003

  /** `WAV_FORMAT_TAG_BY_ANDROID_FORMAT` (identical in both writer revisions). */
  function FormatTag(encoding: int): (r: Option<u16>)
    ensures r.Some? ==> r.value == FORMAT_TAG_PCM || r.value == FORMAT_TAG_IEEE_FLOAT
    ensures r == Some(FORMAT_TAG_IEEE_FLOAT) <==> encoding == ENCODING_PCM_FLOAT
  {
    if encoding == ENCODING_PCM_8BIT || encoding == ENCODING_PCM_16BIT
      || encoding == ENCODING_PCM_24BIT_PACKED || encoding == ENCODING_PCM_32BIT
    then Some(FORMAT_TAG_PCM)
    else if encoding == ENCODING_PCM_FLOAT then Some(FORMAT_TAG_IEEE_FLOAT)
    else None
  }

  /** `ANDROID_ENCODING_TO_BITS_PER_SAMPLE` (the older writer's `BITS_PER_SAMPLE`). */
  function BitsPerSample(encoding: int): (r: Option<u16>)
    ensures r.Some? ==> r.value in {8, 16, 24, 32}
  {
    if encoding == ENCODING_PCM_8BIT then Some(8)
    else if encoding == ENCODING_PCM_16BIT then Some(16)
    else if encoding == ENCODING_PCM_24BIT_PACKED then Some(24)
    else if encoding == ENCODING_PCM_32BIT || encoding == ENCODING_PCM_FLOAT then Some(32)
    else None
  }

  /** The encodings the writers' constructors accept: the keys of the format-tag table. */
  predicate Supported(encoding: int) {
    FormatTag(encoding).Some?
  }

  /** The two tables have the same five keys. */
  lemma TablesAgree(encoding: int)
    ensures Supported(encoding) <==> BitsPerSample(encoding).Some?
    ensures Supported(encoding) <==>
      encoding in {ENCODING_PCM_8BIT, ENCODING_PCM_16BIT, ENCODING_PCM_24BIT_PACKED, ENCODING_PCM_32BIT, ENCODING_PCM_FLOAT}
  {
  }

  /**
   * `computeFrameSize`: `nChannels * ((bits + 7) / 8)` in `UInt` arithmetic, then `toInt()`.
   * The product stays below 2^31 for every `UShort` input, so neither step wraps.
   */
  function ComputeFrameSize(bits: u16, nChannels: u16): (r: int)
    ensures 0 <= r < TWO_31
  {
    nChannels * ((bits + 7) / 8)
  }

  /** The frame size is the channel count times the fewest whole bytes that hold `bits` bits. */
  lemma FrameSizeIsWholeBytes(bits: u16, nChannels: u16)
    ensures var bytes := ComputeFrameSize(bits, 1);
      && ComputeFrameSize(bits, nChannels) == nChannels * bytes
      && 8 * bytes >= bits
      && (bytes == 0 || 8 * (bytes - 1) < bits)
  {
    var bytes := (bits + 7) / 8;
    var r := (bits + 7) % 8;
    assert bits + 7 == 8 * bytes + r && 0 <= r < 8;
  }

  /** `toUShort()`: the low 16 bits. */
  function ToU16(x: int): (r: u16)
    ensures 0 <= x < TWO_16 ==> r == x
  {
    x % TWO_16
  }

  const SIGIL_RIFF: seq<u8> := [0x52, 0x49, 0x46, 0x46]
  const SIGIL_WAVE: seq<u8> := [0x57, 0x41, 0x56, 0x45]
  const SIGIL_FORMAT: seq<u8> := [0x66, 0x6D, 0x74, 0x20]
  const SIGIL_DATA: seq<u8> := [0x64, 0x61, 0x74, 0x61]

  /** The US-ASCII bytes of a string of 7-bit characters (`toByteArray(Charsets.US_ASCII)`). */
  function Ascii(s: string): (r: seq<u8>)
    requires forall i :: 0 <= i < |s| ==> s[i] as int < 0x80
    ensures |r| == |s| && forall i :: 0 <= i < |s| ==> r[i] == s[i] as int
  {
    seq(|s|, i requires 0 <= i < |s| => s[i] as int)
  }

  /** The four sigils are the ASCII spellings of their names. */
  lemma SigilsAreAscii()
    ensures SIGIL_RIFF == Ascii("RIFF") && SIGIL_WAVE == Ascii("WAVE")
    ensures SIGIL_FORMAT == Ascii("fmt ") && SIGIL_DATA == Ascii("data")
  {
  }

  /** The values of the `fmt ` chunk. */
  datatype FormatChunk = FormatChunk(
    formatTag: u16, nChannels: u16, sampleRate: i32, byteRate: i32, blockAlign: u16, bitsPerSample: u16)

  /** Offsets of the header fields. */
  const OFFSET_RIFF_SIZE: nat := 4
  const OFFSET_FORMAT_TAG: nat := 20
  const OFFSET_CHANNELS: nat := 22
  const OFFSET_SAMPLE_RATE: nat := 24
  const OFFSET_BYTE_RATE: nat := 28
  const OFFSET_BLOCK_ALIGN: nat := 32
  const OFFSET_BITS: nat := 34
  const OFFSET_DATA_SIZE: nat := 40
  const HEADER_SIZE: nat := 44

  /**
   * The header `assurePreamble` writes field by field: the sigils, the placeholder sizes 0,
   * the `fmt ` length 16, and the chunk's values little-endian.
   */
  function HeaderBytes(f: FormatChunk): (r: seq<u8>)
    ensures |r| == HEADER_SIZE
  {
    SIGIL_RIFF + EncodeInt(0) + SIGIL_WAVE + SIGIL_FORMAT + EncodeInt(16)
      + EncodeUShort(f.formatTag) + EncodeUShort(f.nChannels)
      + EncodeInt(f.sampleRate) + EncodeInt(f.byteRate)
      + EncodeUShort(f.blockAlign) + EncodeUShort(f.bitsPerSample)
      + SIGIL_DATA + EncodeInt(0)
  }

  /** The older writer's 20-byte literal `"RIFF\0\0\0\0WAVEfmt \u0010\0\0\0"`. */
  const LEGACY_PREAMBLE: seq<u8> :=
    [0x52, 0x49, 0x46, 0x46, 0, 0, 0, 0, 0x57, 0x41, 0x56, 0x45, 0x66, 0x6D, 0x74, 0x20, 0x10, 0, 0, 0]

  /** The older writer's literal `"data\0\0\0\0"`. */
  const LEGACY_DATA_START: seq<u8> := [0x64, 0x61, 0x74, 0x61, 0, 0, 0, 0]

  /**
   * The older writer's literals spell the same bytes the current writer writes field by field,
   * so both revisions' headers are `HeaderBytes` of their `fmt ` values.
   */
  lemma LegacyLiteralsAreFields()
    ensures LEGACY_PREAMBLE == SIGIL_RIFF + EncodeInt(0) + SIGIL_WAVE + SIGIL_FORMAT + EncodeInt(16)
    ensures LEGACY_DATA_START == SIGIL_DATA + EncodeInt(0)
  {
    assert EncodeInt(0) == [0, 0, 0, 0];
    assert EncodeInt(16) == [0x10, 0, 0, 0];
  }

  /** `bs` holds `sigil` at `at`, compared byte by byte like `Arrays.equals`. */
  predicate SigilAt(bs: seq<u8>, at: nat, sigil: seq<u8>) {
    at + |sigil| <= |bs| && forall i :: 0 <= i < |sigil| ==> bs[at + i] == sigil[i]
  }

  /** Four bytes that are the encoding of `v` read back as `v`. */
  lemma ReadsEncodedInt(bs: seq<u8>, at: nat, v: i32)
    requires at + 4 <= |bs|
    requires var e := EncodeInt(v); bs[at] == e[0] && bs[at + 1] == e[1] && bs[at + 2] == e[2] && bs[at + 3] == e[3]
    ensures DecodeIntAt(bs, at) == v
  {
    IntRoundTrip(v);
  }

  /** Two bytes that are the encoding of `v` read back as `v`. */
  lemma ReadsEncodedUShort(bs: seq<u8>, at: nat, v: u16)
    requires at + 2 <= |bs|
    requires var e := EncodeUShort(v); bs[at] == e[0] && bs[at + 1] == e[1]
    ensures DecodeUShortAt(bs, at) == v
  {
  }

  /** Whatever follows it, a header starts with the four sigils at their offsets. */
  lemma HeaderSigils(f: FormatChunk, rest: seq<u8>)
    ensures var bs := HeaderBytes(f) + rest;
      && SigilAt(bs, 0, SIGIL_RIFF) && SigilAt(bs, 8, SIGIL_WAVE) && SigilAt(bs, 12, SIGIL_FORMAT)
      && SigilAt(bs, 36, SIGIL_DATA)
  {
  }

  /** The size fields: the placeholders 0 and the `fmt ` length 16. */
  lemma HeaderSizeFields(f: FormatChunk, rest: seq<u8>)
    ensures var bs := HeaderBytes(f) + rest;
      && DecodeIntAt(bs, OFFSET_RIFF_SIZE) == 0 && DecodeIntAt(bs, 16) == 16
      && DecodeIntAt(bs, OFFSET_DATA_SIZE) == 0
  {
    HeaderRiffSize(f, rest);
    HeaderFormatLength(f, rest);
    HeaderDataSize(f, rest);
  }

  lemma HeaderRiffSize(f: FormatChunk, rest: seq<u8>)
    ensures DecodeIntAt(HeaderBytes(f) + rest, OFFSET_RIFF_SIZE) == 0
  {
    ReadsEncodedInt(HeaderBytes(f) + rest, OFFSET_RIFF_SIZE, 0);
  }

  lemma HeaderFormatLength(f: FormatChunk, rest: seq<u8>)
    ensures DecodeIntAt(HeaderBytes(f) + rest, 16) == 16
  {
    ReadsEncodedInt(HeaderBytes(f) + rest, 16, 16);
  }

  lemma HeaderDataSize(f: FormatChunk, rest: seq<u8>)
    ensures DecodeIntAt(HeaderBytes(f) + rest, OFFSET_DATA_SIZE) == 0
  {
    ReadsEncodedInt(HeaderBytes(f) + rest, OFFSET_DATA_SIZE, 0);
  }

  /** The two-byte `fmt ` values. */
  lemma HeaderShortFields(f: FormatChunk, rest: seq<u8>)
    ensures var bs := HeaderBytes(f) + rest;
      && DecodeUShortAt(bs, OFFSET_FORMAT_TAG) == f.formatTag
      && DecodeUShortAt(bs, OFFSET_CHANNELS) == f.nChannels
      && DecodeUShortAt(bs, OFFSET_BLOCK_ALIGN) == f.blockAlign
      && DecodeUShortAt(bs, OFFSET_BITS) == f.bitsPerSample
  {
    var bs := HeaderBytes(f) + rest;
    ReadsEncodedUShort(bs, OFFSET_FORMAT_TAG, f.formatTag);
    ReadsEncodedUShort(bs, OFFSET_CHANNELS, f.nChannels);
    ReadsEncodedUShort(bs, OFFSET_BLOCK_ALIGN, f.blockAlign);
    ReadsEncodedUShort(bs, OFFSET_BITS, f.bitsPerSample);
  }

  lemma HeaderSampleRate(f: FormatChunk, rest: seq<u8>)
    ensures DecodeIntAt(HeaderBytes(f) + rest, OFFSET_SAMPLE_RATE) == f.sampleRate
  {
    ReadsEncodedInt(HeaderBytes(f) + rest, OFFSET_SAMPLE_RATE, f.sampleRate);
  }

  lemma HeaderByteRate(f: FormatChunk, rest: seq<u8>)
    ensures DecodeIntAt(HeaderBytes(f) + rest, OFFSET_BYTE_RATE) == f.byteRate
  {
    ReadsEncodedInt(HeaderBytes(f) + rest, OFFSET_BYTE_RATE, f.byteRate);
  }

  /** Each field sits at its documented offset and reads back as written, whatever follows the header. */
  lemma HeaderLayout(f: FormatChunk, rest: seq<u8>)
    ensures var bs := HeaderBytes(f) + rest;
      && SigilAt(bs, 0, SIGIL_RIFF) && SigilAt(bs, 8, SIGIL_WAVE) && SigilAt(bs, 12, SIGIL_FORMAT)
      && SigilAt(bs, 36, SIGIL_DATA)
      && DecodeIntAt(bs, OFFSET_RIFF_SIZE) == 0 && DecodeIntAt(bs, 16) == 16
      && DecodeUShortAt(bs, OFFSET_FORMAT_TAG) == f.formatTag
      && DecodeUShortAt(bs, OFFSET_CHANNELS) == f.nChannels
      && DecodeIntAt(bs, OFFSET_SAMPLE_RATE) == f.sampleRate
      && DecodeIntAt(bs, OFFSET_BYTE_RATE) == f.byteRate
      && DecodeUShortAt(bs, OFFSET_BLOCK_ALIGN) == f.blockAlign
      && DecodeUShortAt(bs, OFFSET_BITS) == f.bitsPerSample
      && DecodeIntAt(bs, OFFSET_DATA_SIZE) == 0
  {
    HeaderSigils(f, rest);
    HeaderSizeFields(f, rest);
    HeaderShortFields(f, rest);
    HeaderSampleRate(f, rest);
    HeaderByteRate(f, rest);
  }

  /** The two `WavFileWriter` revisions: WavFileWriter.kt (older) and wav_files.kt (current). */
  datatype Revision = Legacy | Current

  /** The channel count both revisions write: 2 for a stereo track, else 1. */
  function ChannelCount(stereo: bool): u16 {
    if stereo then 2 else 1
  }

  /**
   * The `fmt ` values of wav_files.kt: block align is `computeFrameSize(bits, nChannels)` and the
   * byte rate `sampleRate * blockAlign` in wrapping `Int` arithmetic.
   */
  function CurrentFormat(stereo: bool, encoding: int, sampleRate: i32): (f: FormatChunk)
    requires Supported(encoding)
    ensures f.blockAlign == ComputeFrameSize(f.bitsPerSample, f.nChannels)
    ensures f.nChannels == ChannelCount(stereo)
  {
    TablesAgree(encoding);
    var bits := BitsPerSample(encoding).value;
    var nChannels := ChannelCount(stereo);
    var blockAlign := ToU16(ComputeFrameSize(bits, nChannels));
    FormatChunk(FormatTag(encoding).value, nChannels, sampleRate, WrapI32(sampleRate * blockAlign), blockAlign, bits)
  }

  /**
   * The `fmt ` values of the older WavFileWriter.kt: block align is `(bits + 7) / 8`, the size of
   * ONE sample, whatever the channel count.
   */
  function LegacyFormat(stereo: bool, encoding: int, sampleRate: i32): (f: FormatChunk)
    requires Supported(encoding)
    ensures f.nChannels == ChannelCount(stereo)
    ensures f.blockAlign == ComputeFrameSize(f.bitsPerSample, 1)
  {
    TablesAgree(encoding);
    var bits := BitsPerSample(encoding).value;
    var blockAlign := (bits + 7) / 8;
    FormatChunk(FormatTag(encoding).value, ChannelCount(stereo), sampleRate, WrapI32(sampleRate * blockAlign), blockAlign, bits)
  }

  function FormatFor(rev: Revision, stereo: bool, encoding: int, sampleRate: i32): FormatChunk
    requires Supported(encoding)
  {
    match rev
    case Legacy => LegacyFormat(stereo, encoding, sampleRate)
    case Current => CurrentFormat(stereo, encoding, sampleRate)
  }

  /**
   * The header a writer of revision `rev` emits. The older writer writes literals where the
   * current one writes fields (`LegacyLiteralsAreFields`); only the `fmt ` values differ.
   */
  function Header(rev: Revision, stereo: bool, encoding: int, sampleRate: i32): (r: seq<u8>)
    requires Supported(encoding)
    ensures |r| == HEADER_SIZE
  {
    HeaderBytes(FormatFor(rev, stereo, encoding, sampleRate))
  }

  /** The revisions agree on mono headers and disagree on every stereo header, in block align. */
  lemma RevisionsDifferOnlyForStereo(stereo: bool, encoding: int, sampleRate: i32)
    requires Supported(encoding)
    ensures Header(Legacy, stereo, encoding, sampleRate) == Header(Current, stereo, encoding, sampleRate) <==> !stereo
  {
    var l := LegacyFormat(stereo, encoding, sampleRate);
    var c := CurrentFormat(stereo, encoding, sampleRate);
    if stereo {
      HeaderShortFields(l, []);
      HeaderShortFields(c, []);
      assert HeaderBytes(l) + [] == HeaderBytes(l);
      assert HeaderBytes(c) + [] == HeaderBytes(c);
      assert DecodeUShortAt(HeaderBytes(l), OFFSET_BLOCK_ALIGN) != DecodeUShortAt(HeaderBytes(c), OFFSET_BLOCK_ALIGN);
    } else {
      assert l == c;
    }
  }

  // ---------------------------------------------------------------------------------------------
  // WavInputStream

  /**
   * `UnsupportedWavFileException` and its subclass `InvalidWavFileException` (a wrong sigil, an
   * early end of the stream, an impossible header size or block align).
   */
  datatype WavError = InvalidWavFile | UnsupportedWavFile

  /** What the reader learns from the header; `dataStart` is where the sample bytes begin. */
  datatype WavInfo = WavInfo(
    nChannels: u16, encoding: int, sampleSizeInBytes: int, sampleRate: u32, frameSizeInBytes: int,
    dataStart: nat)

  /** `readAndCheckSigil`: an early end of the stream or different bytes are invalid. */
  function CheckSigil(bs: seq<u8>, at: nat, sigil: seq<u8>): (r: Result<nat, WavError>)
    ensures r.Success? <==> SigilAt(bs, at, sigil)
    ensures r.Success? ==> r.value == at + |sigil|
    ensures r.Failure? ==> r.error == InvalidWavFile
  {
    if SigilAt(bs, at, sigil) then Success(at + |sigil|) else Failure(InvalidWavFile)
  }

  /** `forceSkip(n)`: running out of bytes is invalid. */
  function Skip(bs: seq<u8>, at: nat, n: int): (r: Result<nat, WavError>)
    requires at <= |bs|
    ensures r.Success? <==> at + n <= |bs|
    ensures r.Success? ==> r.value == if n > 0 then at + n else at
    ensures r.Failure? ==> r.error == InvalidWavFile
  {
    if n <= 0 then Success(at)
    else if at + n <= |bs| then Success(at + n)
    else Failure(InvalidWavFile)
  }

  /** `readLEInt` (the `eofIfMinus1` of a missing byte is invalid). */
  function ReadInt(bs: seq<u8>, at: nat): (r: Result<i32, WavError>)
    ensures r.Success? <==> at + 4 <= |bs|
    ensures r.Success? ==> r.value == DecodeIntAt(bs, at)
    ensures r.Failure? ==> r.error == InvalidWavFile
  {
    if at + 4 <= |bs| then Success(DecodeIntAt(bs, at)) else Failure(InvalidWavFile)
  }

  /** `readLEUShort`. */
  function ReadUShort(bs: seq<u8>, at: nat): (r: Result<u16, WavError>)
    ensures r.Success? <==> at + 2 <= |bs|
    ensures r.Success? ==> r.value == DecodeUShortAt(bs, at)
    ensures r.Failure? ==> r.error == InvalidWavFile
  {
    if at + 2 <= |bs| then Success(DecodeUShortAt(bs, at)) else Failure(InvalidWavFile)
  }

  /** The `when (bitsPerSample)` that picks the encoding, given whether the tag says integers. */
  function EncodingOf(bits: u16, integers: bool): (r: Result<int, WavError>)
    ensures r.Success? <==> bits in {8, 16, 24, 32} && (integers || bits == 32)
    ensures r.Failure? ==> r.error == UnsupportedWavFile
  {
    if bits == 8 then (if integers then Success(ENCODING_PCM_8BIT) else Failure(UnsupportedWavFile))
    else if bits == 16 then (if integers then Success(ENCODING_PCM_16BIT) else Failure(UnsupportedWavFile))
    else if bits == 24 then (if integers then Success(ENCODING_PCM_24BIT_PACKED) else Failure(UnsupportedWavFile))
    else if bits == 32 then Success(if integers then ENCODING_PCM_32BIT else ENCODING_PCM_FLOAT)
    else Failure(UnsupportedWavFile)
  }

  /** The `init` block of `WavInputStream` over the stream's bytes, in the source's order of checks. */
  function ReadHeader(bs: seq<u8>): Result<WavInfo, WavError> {
    var at :- CheckSigil(bs, 0, SIGIL_RIFF);
    var at :- Skip(bs, at, 4);
    var at :- CheckSigil(bs, at, SIGIL_WAVE);
    var at :- CheckSigil(bs, at, SIGIL_FORMAT);
    var headerSize :- ReadInt(bs, at);
    if headerSize < 16 then Failure(InvalidWavFile)
    else
      var formatTag :- ReadUShort(bs, at + 4);
      var nChannels :- ReadUShort(bs, at + 6);
      var sampleRate :- ReadInt(bs, at + 8);
      var bytesPerSecond :- ReadInt(bs, at + 12);
      var frameSize :- ReadUShort(bs, at + 16);
      var bits :- ReadUShort(bs, at + 18);
      var at :- Skip(bs, at + 20, headerSize - 16);
      var at :- CheckSigil(bs, at, SIGIL_DATA);
      var dataStart :- Skip(bs, at, 4);
      if formatTag != FORMAT_TAG_PCM && formatTag != FORMAT_TAG_IEEE_FLOAT then Failure(UnsupportedWavFile)
      else
        var encoding :- EncodingOf(bits, formatTag == FORMAT_TAG_PCM);
        TablesAgree(encoding);
        var sampleSize := BitsPerSample(encoding).value / 8;
        if ComputeFrameSize(bits, nChannels) != frameSize then Failure(InvalidWavFile)
        else Success(WavInfo(nChannels, encoding, sampleSize, ToU32(sampleRate), frameSize, dataStart))
  }

  /** The header's structure: the sigils in order with a `fmt ` chunk of at least 16 bytes. */
  predicate WellFramed(bs: seq<u8>) {
    && |bs| >= 20
    && SigilAt(bs, 0, SIGIL_RIFF) && SigilAt(bs, 8, SIGIL_WAVE) && SigilAt(bs, 12, SIGIL_FORMAT)
    && var headerSize := DecodeIntAt(bs, 16);
    && headerSize >= 16
    && |bs| >= 28 + headerSize
    && SigilAt(bs, 20 + headerSize, SIGIL_DATA)
  }

  /** The format the `fmt ` chunk declares is one the reader supports. */
  predicate SupportedFormat(bs: seq<u8>)
    requires WellFramed(bs)
  {
    var tag := DecodeUShortAt(bs, OFFSET_FORMAT_TAG);
    var bits := DecodeUShortAt(bs, OFFSET_BITS);
    && (tag == FORMAT_TAG_PCM || tag == FORMAT_TAG_IEEE_FLOAT)
    && bits in {8, 16, 24, 32}
    && (tag == FORMAT_TAG_IEEE_FLOAT ==> bits == 32)
  }

  /** The declared block align is the one the channel count and sample size imply. */
  predicate ConsistentBlockAlign(bs: seq<u8>)
    requires WellFramed(bs)
  {
    ComputeFrameSize(DecodeUShortAt(bs, OFFSET_BITS), DecodeUShortAt(bs, OFFSET_CHANNELS))
      == DecodeUShortAt(bs, OFFSET_BLOCK_ALIGN)
  }

  /**
   * The reader's verdict: a structural fault is `InvalidWavFile`; otherwise an unsupported tag or
   * depth is `UnsupportedWavFile`; otherwise a wrong block align is `InvalidWavFile`; otherwise it
   * accepts, reporting the declared values.
   */
  lemma ReadHeaderVerdict(bs: seq<u8>)
    ensures !WellFramed(bs) ==> ReadHeader(bs) == Failure(InvalidWavFile)
    ensures WellFramed(bs) && !SupportedFormat(bs) ==> ReadHeader(bs) == Failure(UnsupportedWavFile)
    ensures WellFramed(bs) && SupportedFormat(bs) && !ConsistentBlockAlign(bs) ==>
      ReadHeader(bs) == Failure(InvalidWavFile)
    ensures WellFramed(bs) && SupportedFormat(bs) && ConsistentBlockAlign(bs) ==>
      && ReadHeader(bs).Success?
      && var info := ReadHeader(bs).value;
      && info.nChannels == DecodeUShortAt(bs, OFFSET_CHANNELS)
      && info.sampleRate == ToU32(DecodeIntAt(bs, OFFSET_SAMPLE_RATE))
      && info.frameSizeInBytes == DecodeUShortAt(bs, OFFSET_BLOCK_ALIGN)
      && info.sampleSizeInBytes * 8 == DecodeUShortAt(bs, OFFSET_BITS)
      && (info.encoding == ENCODING_PCM_FLOAT <==> DecodeUShortAt(bs, OFFSET_FORMAT_TAG) == FORMAT_TAG_IEEE_FLOAT)
      && BitsPerSample(info.encoding) == Some(DecodeUShortAt(bs, OFFSET_BITS))
      && Success(info.encoding) == EncodingOf(DecodeUShortAt(bs, OFFSET_BITS), DecodeUShortAt(bs, OFFSET_FORMAT_TAG) == FORMAT_TAG_PCM)
      && info.dataStart == 28 + DecodeIntAt(bs, 16)
  {
  }

  /** The reader maps a supported encoding's tag and depth back to that encoding. */
  lemma EncodingRoundTrip(encoding: int)
    requires Supported(encoding)
    ensures EncodingOf(BitsPerSample(encoding).value, FormatTag(encoding).value == FORMAT_TAG_PCM) == Success(encoding)
  {
    TablesAgree(encoding);
  }

  /** Whether byte `i` lies outside the two size fields that `close` back-patches. */
  predicate OutsideSizeFields(i: int) {
    0 <= i && !(OFFSET_RIFF_SIZE <= i < OFFSET_RIFF_SIZE + 4) && !(OFFSET_DATA_SIZE <= i < OFFSET_DATA_SIZE + 4)
  }

  /**
   * The reader skips both size fields: two files that differ only there (and whose `fmt ` chunk
   * is 16 bytes long) read the same.
   */
  lemma ReadHeaderIgnoresSizeFields(a: seq<u8>, b: seq<u8>)
    requires |a| == |b| && |a| >= HEADER_SIZE
    requires forall i :: OutsideSizeFields(i) && i < |a| ==> a[i] == b[i]
    requires DecodeIntAt(a, 16) == 16
    ensures ReadHeader(a) == ReadHeader(b)
  {
    assert a[16] == b[16] && a[17] == b[17] && a[18] == b[18] && a[19] == b[19];
    assert a[20] == b[20] && a[21] == b[21] && a[22] == b[22] && a[23] == b[23];
    assert a[24] == b[24] && a[25] == b[25] && a[26] == b[26] && a[27] == b[27];
    assert a[28] == b[28] && a[29] == b[29] && a[30] == b[30] && a[31] == b[31];
    assert a[32] == b[32] && a[33] == b[33] && a[34] == b[34] && a[35] == b[35];
    assert SigilAt(a, 0, SIGIL_RIFF) == SigilAt(b, 0, SIGIL_RIFF);
    assert SigilAt(a, 8, SIGIL_WAVE) == SigilAt(b, 8, SIGIL_WAVE);
    assert SigilAt(a, 12, SIGIL_FORMAT) == SigilAt(b, 12, SIGIL_FORMAT);
    assert SigilAt(a, 36, SIGIL_DATA) == SigilAt(b, 36, SIGIL_DATA);
    ReadHeaderVerdict(a);
    ReadHeaderVerdict(b);
  }

  /** What the reader reports about a file whose header a writer made for these settings. */
  predicate Describes(info: WavInfo, stereo: bool, encoding: int, sampleRate: i32)
    requires Supported(encoding)
  {
    TablesAgree(encoding);
    var bits := BitsPerSample(encoding).value;
    && info.nChannels == ChannelCount(stereo)
    && info.encoding == encoding
    && info.sampleSizeInBytes == bits / 8
    && info.sampleRate == ToU32(sampleRate)
    && info.frameSizeInBytes == ComputeFrameSize(bits, ChannelCount(stereo))
    && info.dataStart == HEADER_SIZE
  }

  /** A written header is well framed, and its `fmt ` fields read back as the chunk's values. */
  lemma WrittenHeaderFields(f: FormatChunk, rest: seq<u8>)
    requires f.formatTag == FORMAT_TAG_PCM || f.formatTag == FORMAT_TAG_IEEE_FLOAT
    requires EncodingOf(f.bitsPerSample, f.formatTag == FORMAT_TAG_PCM).Success?
    ensures var bs := HeaderBytes(f) + rest;
      && WellFramed(bs) && SupportedFormat(bs)
      && DecodeUShortAt(bs, OFFSET_FORMAT_TAG) == f.formatTag
      && DecodeUShortAt(bs, OFFSET_CHANNELS) == f.nChannels
      && DecodeIntAt(bs, OFFSET_SAMPLE_RATE) == f.sampleRate
      && DecodeUShortAt(bs, OFFSET_BLOCK_ALIGN) == f.blockAlign
      && DecodeUShortAt(bs, OFFSET_BITS) == f.bitsPerSample
      && DecodeIntAt(bs, 16) == 16
  {
    HeaderLayout(f, rest);
  }

  /**
   * The reader's verdict on a header a writer made from a chunk of a supported tag and depth:
   * it accepts exactly when the block align is `computeFrameSize`'s, reporting the chunk's values,
   * and otherwise calls the file invalid.
   */
  lemma WrittenHeaderVerdict(f: FormatChunk, rest: seq<u8>)
    requires f.formatTag == FORMAT_TAG_PCM || f.formatTag == FORMAT_TAG_IEEE_FLOAT
    requires EncodingOf(f.bitsPerSample, f.formatTag == FORMAT_TAG_PCM).Success?
    ensures var r := ReadHeader(HeaderBytes(f) + rest);
      && (r.Success? <==> f.blockAlign == ComputeFrameSize(f.bitsPerSample, f.nChannels))
      && (r.Failure? ==> r.error == InvalidWavFile)
      && (r.Success? ==>
            && r.value.nChannels == f.nChannels
            && Success(r.value.encoding) == EncodingOf(f.bitsPerSample, f.formatTag == FORMAT_TAG_PCM)
            && r.value.sampleSizeInBytes * 8 == f.bitsPerSample
            && r.value.sampleRate == ToU32(f.sampleRate)
            && r.value.frameSizeInBytes == f.blockAlign
            && r.value.dataStart == HEADER_SIZE)
  {
    WrittenHeaderFields(f, rest);
    ReadHeaderVerdict(HeaderBytes(f) + rest);
  }

  /**
   * The reader accepts every header the current writer emits, whatever follows it, and recovers
   * channel count, encoding (tag 3 back to float), sample rate and frame size.
   */
  lemma CurrentHeaderRoundTrip(stereo: bool, encoding: int, sampleRate: i32, rest: seq<u8>)
    requires Supported(encoding)
    ensures var r := ReadHeader(Header(Current, stereo, encoding, sampleRate) + rest);
      r.Success? && Describes(r.value, stereo, encoding, sampleRate)
  {
    var f := CurrentFormat(stereo, encoding, sampleRate);
    EncodingRoundTrip(encoding);
    WrittenHeaderVerdict(f, rest);
  }

  /**
   * The reader rejects every stereo header of the older writer as invalid: its block align is
   * one sample where `computeFrameSize` expects two.
   */
  lemma LegacyStereoHeaderRejected(encoding: int, sampleRate: i32, rest: seq<u8>)
    requires Supported(encoding)
    ensures ReadHeader(Header(Legacy, true, encoding, sampleRate) + rest) == Failure(InvalidWavFile)
  {
    var f := LegacyFormat(true, encoding, sampleRate);
    EncodingRoundTrip(encoding);
    WrittenHeaderVerdict(f, rest);
  }

  /** Mono headers of the older writer are the current writer's, and are accepted. */
  lemma LegacyMonoHeaderAccepted(encoding: int, sampleRate: i32, rest: seq<u8>)
    requires Supported(encoding)
    ensures var r := ReadHeader(Header(Legacy, false, encoding, sampleRate) + rest);
      r.Success? && Describes(r.value, false, encoding, sampleRate)
  {
    RevisionsDifferOnlyForStereo(false, encoding, sampleRate);
    CurrentHeaderRoundTrip(false, encoding, sampleRate, rest);
  }
}

=== FILE: wav_writer.dfy ===
/**
 * `WavFileWriter` (both revisions share this part): the header written before the first sample,
 * a 4096-byte write buffer flushed when at most 4096 / 80 bytes remain free, and `close`, which
 * flushes and back-patches the two chunk sizes. The file is a byte sequence; a write past its end
 * extends it with zero bytes, as `RandomAccessFile.seek` followed by `write` does on the usual
 * file systems.
 */
module WavWriter {
  import opened IntTypes
  import opened Wrappers
  import opened LittleEndian
  import opened WavFormat

  const BUFFER_CAPACITY: nat := 4096
  const FLUSH_THRESHOLD: nat := BUFFER_CAPACITY / 80

  /** The constructor arguments: the channel layout and the `AudioFormat`'s encoding and rate. */
  datatype Config = Config(revision: Revision, stereo: bool, encoding: int, sampleRate: i32)

  /**
   * A writer: the bytes in the file so far, the bytes still in the write buffer, and the two
   * flags of the source.
   */
  datatype Writer = Writer(config: Config, file: seq<u8>, buffer: seq<u8>, preambleWritten: bool, closed: bool)

  /** `require` in the constructor and `check(!closed)` fail with these. */
  datatype WriterError = UnsupportedEncoding | WriterClosed

  /** The bytes the writer has accepted, whether already in the file or still buffered. */
  function Contents(w: Writer): seq<u8> {
    w.file + w.buffer
  }

  function HeaderOf(c: Config): (r: seq<u8>)
    requires Supported(c.encoding)
  {
    Header(c.revision, c.stereo, c.encoding, c.sampleRate)
  }

  /**
   * What holds between the writer's operations: the buffer always has more than the flush
   * threshold free, nothing is written or buffered before the header, and a closed writer has
   * flushed.
   */
  predicate Valid(w: Writer) {
    && Supported(w.config.encoding)
    && |w.buffer| < BUFFER_CAPACITY - FLUSH_THRESHOLD
    && (!w.preambleWritten ==> w.buffer == [] && (!w.closed ==> w.file == []))
    && (w.closed ==> w.buffer == [])
  }

  /** The constructor: only encodings with a WAV format tag are accepted. */
  function NewWriter(config: Config): (r: Result<Writer, WriterError>)
    ensures r.Success? <==> Supported(config.encoding)
    ensures r.Failure? ==> r.error == UnsupportedEncoding
    ensures r.Success? ==>
      Valid(r.value) && r.value.config == config && Contents(r.value) == [] && !r.value.closed && !r.value.preambleWritten
  {
    if Supported(config.encoding) then Success(Writer(config, [], [], false, false))
    else Failure(UnsupportedEncoding)
  }

  /** `assurePreamble`: fails once closed; writes the header exactly once. */
  function AssurePreamble(w: Writer): (r: Result<Writer, WriterError>)
    requires Valid(w)
    ensures r.Success? <==> !w.closed
    ensures r.Failure? ==> r.error == WriterClosed
    ensures r.Success? ==> Valid(r.value) && r.value.config == w.config
    ensures r.Success? ==> r.value.preambleWritten && !r.value.closed
    ensures r.Success? ==> Contents(r.value) == if w.preambleWritten then Contents(w) else HeaderOf(w.config)
  {
    if w.closed then Failure(WriterClosed)
    else if w.preambleWritten then Success(w)
    else Success(w.(file := w.file + HeaderOf(w.config), preambleWritten := true))
  }

  /** An open writer that has written its header: the state in which data is buffered. */
  predicate Writing(w: Writer) {
    Valid(w) && w.preambleWritten && !w.closed
  }

  /**
   * `writeBuffer.put` of data that fits, then `flushBuffer` once no more than the threshold is
   * free.
   */
  function Put(w: Writer, data: seq<u8>): (r: Writer)
    requires Writing(w) && |data| <= BUFFER_CAPACITY - |w.buffer|
    ensures Writing(r) && r.config == w.config
    ensures Contents(r) == Contents(w) + data
    ensures BUFFER_CAPACITY - |w.buffer| - |data| <= FLUSH_THRESHOLD ==> r.buffer == [] && r.file == Contents(w) + data
    ensures BUFFER_CAPACITY - |w.buffer| - |data| > FLUSH_THRESHOLD ==> r.file == w.file
  {
    var buffer := w.buffer + data;
    assert w.file + buffer == Contents(w) + data;
    if BUFFER_CAPACITY - |buffer| <= FLUSH_THRESHOLD then w.(file := w.file + buffer, buffer := [])
    else w.(buffer := buffer)
  }

  /**
   * The body of `writeSampleData` after `assurePreamble`: data that does not fit is split where
   * the buffer is full, and both parts are written in turn.
   */
  function WriteBuffered(w: Writer, data: seq<u8>): (r: Writer)
    requires Writing(w)
    ensures Writing(r) && r.config == w.config
    ensures Contents(r) == Contents(w) + data
    decreases |data|
  {
    var remaining := BUFFER_CAPACITY - |w.buffer|;
    if |data| <= remaining then Put(w, data)
    else
      var first := WriteBuffered(w, data[..remaining]);
      assert data[..remaining] + data[remaining..] == data;
      WriteBuffered(first, data[remaining..])
  }

  /**
   * `writeSampleData`: fails once closed; otherwise the header is written if it was not yet, and
   * the data is appended to what the writer holds.
   */
  function WriteSampleData(w: Writer, data: seq<u8>): (r: Result<Writer, WriterError>)
    requires Valid(w)
    ensures r.Success? <==> !w.closed
    ensures r.Failure? ==> r.error == WriterClosed
    ensures r.Success? ==> Writing(r.value) && r.value.config == w.config
    ensures r.Success? ==>
      Contents(r.value) == (if w.preambleWritten then Contents(w) else HeaderOf(w.config)) + data
  {
    var p :- AssurePreamble(w);
    Success(WriteBuffered(p, data))
  }

  /** After every write, the file itself holds everything but less than one buffer's worth. */
  lemma FileLagsByLessThanABuffer(w: Writer, data: seq<u8>)
    requires Valid(w) && !w.closed
    ensures var r := WriteSampleData(w, data).value;
      && Contents(r)[..|r.file|] == r.file
      && |Contents(r)| - |r.file| < BUFFER_CAPACITY - FLUSH_THRESHOLD
  {
    var r := WriteSampleData(w, data).value;
    assert Contents(r)[..|r.file|] == r.file;
  }

  /** `seek(pos)` then `write(bytes)`: overwrites in place, extending the file (with zeros over any gap). */
  function WriteAt(file: seq<u8>, pos: nat, bytes: seq<u8>): (r: seq<u8>)
    ensures |r| == if pos + |bytes| <= |file| then |file| else pos + |bytes|
    ensures forall i :: pos <= i < pos + |bytes| ==> r[i] == bytes[i - pos]
    ensures forall i :: 0 <= i < |r| && !(pos <= i < pos + |bytes|) ==> r[i] == if i < |file| then file[i] else 0
  {
    if pos + |bytes| <= |file| then file[..pos] + bytes + file[pos + |bytes|..]
    else if pos <= |file| then file[..pos] + bytes
    else file + seq(pos - |file|, i => 0) + bytes
  }

  /** `fileSize.toInt() - k` in `Int` arithmetic. */
  function SizeField(fileSize: nat, k: int): i32 {
    WrapI32(WrapI32(fileSize) - k)
  }

  /** Truncating to `Int` before subtracting wraps to the same value as subtracting first. */
  lemma SizeFieldWraps(fileSize: nat, k: int)
    ensures SizeField(fileSize, k) == WrapI32(fileSize - k)
    ensures fileSize < TWO_31 && 0 <= k <= fileSize ==> SizeField(fileSize, k) == fileSize - k
  {
    var a := WrapI32(fileSize);
    assert (a - fileSize) % TWO_32 == 0;
    WrapCongruent(a - k, fileSize - k);
  }

  /** `close` as written: fails once closed, else flushes and back-patches both size fields. */
  function Close(w: Writer): (r: Result<Writer, WriterError>)
    requires Valid(w)
    ensures r.Success? <==> !w.closed
    ensures r.Failure? ==> r.error == WriterClosed
    ensures r.Success? ==> Valid(r.value) && r.value.closed && r.value.config == w.config
    ensures r.Success? ==> r.value.preambleWritten == w.preambleWritten
  {
    if w.closed then Failure(WriterClosed)
    else
      var flushed := Contents(w);
      var fileSize := |flushed|;
      var patched := WriteAt(flushed, OFFSET_RIFF_SIZE, EncodeInt(SizeField(fileSize, 8)));
      var file := WriteAt(patched, OFFSET_DATA_SIZE, EncodeInt(SizeField(fileSize, 44)));
      Success(w.(file := file, buffer := [], closed := true))
  }

  /**
   * Closing a writer that has written its header keeps the file's length and every byte except
   * the two size fields, which then read back as the file size minus 8 and minus 44 (modulo 2^32).
   */
  lemma CloseBackpatches(w: Writer)
    requires Valid(w) && !w.closed && w.preambleWritten
    requires |Contents(w)| >= HEADER_SIZE
    ensures var r := Close(w).value; var f := Contents(w);
      && |r.file| == |f|
      && (forall i :: OutsideSizeFields(i) && i < |f| ==> r.file[i] == f[i])
      && DecodeIntAt(r.file, OFFSET_RIFF_SIZE) == WrapI32(|f| - 8)
      && DecodeIntAt(r.file, OFFSET_DATA_SIZE) == WrapI32(|f| - 44)
  {
    var f := Contents(w);
    var r := Close(w).value;
    var riff := EncodeInt(SizeField(|f|, 8));
    var data := EncodeInt(SizeField(|f|, 44));
    var patched := WriteAt(f, OFFSET_RIFF_SIZE, riff);
    assert r.file == WriteAt(patched, OFFSET_DATA_SIZE, data);
    SizeFieldWraps(|f|, 8);
    SizeFieldWraps(|f|, 44);
    ReadsEncodedInt(r.file, OFFSET_RIFF_SIZE, SizeField(|f|, 8));
    ReadsEncodedInt(r.file, OFFSET_DATA_SIZE, SizeField(|f|, 44));
  }

  /** A writer closes once: the second `close` fails its `check`. */
  lemma CloseTwiceFails(w: Writer)
    requires Valid(w) && !w.closed
    ensures Close(Close(w).value) == Failure(WriterClosed)
    ensures WriteSampleData(Close(w).value, []) == Failure(WriterClosed)
  {
  }

  /** Consecutive writes hold the same bytes as one write of the concatenated data. */
  lemma WritesConcatenate(w: Writer, a: seq<u8>, b: seq<u8>)
    requires Valid(w) && !w.closed
    ensures Contents(WriteSampleData(WriteSampleData(w, a).value, b).value) == Contents(WriteSampleData(w, a + b).value)
  {
    var h := if w.preambleWritten then Contents(w) else HeaderOf(w.config);
    assert h + a + b == h + (a + b);
  }

  /**
   * Closing a writer that never received data, as written: the file is only the two size
   * fields at their offsets with zeros around them, so it does not start with `RIFF` and the
   * reader rejects it.
   */
  lemma CloseWithoutDataIsUnreadable(config: Config)
    requires Supported(config.encoding)
    ensures var file := Close(NewWriter(config).value).value.file;
      && |file| == HEADER_SIZE
      && file[0] == 0
      && DecodeIntAt(file, OFFSET_RIFF_SIZE) == -8
      && DecodeIntAt(file, OFFSET_DATA_SIZE) == -44
      && ReadHeader(file) == Failure(InvalidWavFile)
  {
    var w := NewWriter(config).value;
    var file := Close(w).value.file;
    assert SizeField(0, 8) == -8 && SizeField(0, 44) == -44;
    var patched := WriteAt([], OFFSET_RIFF_SIZE, EncodeInt(-8));
    assert file == WriteAt(patched, OFFSET_DATA_SIZE, EncodeInt(-44));
    assert patched[0] == 0;
    assert file[0] == patched[0];
    ReadsEncodedInt(file, OFFSET_RIFF_SIZE, -8);
    ReadsEncodedInt(file, OFFSET_DATA_SIZE, -44);
    assert file[0 + 0] != SIGIL_RIFF[0];
  }

  /** `close` preceded by `assurePreamble`, so that a file without data still gets its header. */
  function CloseWithHeader(w: Writer): (r: Result<Writer, WriterError>)
    requires Valid(w)
    ensures r.Success? <==> !w.closed
    ensures r.Failure? ==> r.error == WriterClosed
    ensures r.Success? ==> Valid(r.value) && r.value.closed && r.value.preambleWritten && r.value.config == w.config
  {
    var p :- AssurePreamble(w);
    Close(p)
  }

  /**
   * Every recording of the current writer closed with `CloseWithHeader` reads back: the reader
   * accepts the header and describes the writer's settings, the samples follow the header
   * unchanged, and the size fields count the bytes after offset 8 and the sample bytes.
   */
  lemma ClosedRecordingIsReadable(w: Writer, data: seq<u8>)
    requires Valid(w) && !w.closed && w.config.revision == Current
    requires Contents(AssurePreamble(w).value) == HeaderOf(w.config) + data
    requires HEADER_SIZE + |data| < TWO_31
    ensures var file := CloseWithHeader(w).value.file;
      && ReadHeader(file).Success?
      && Describes(ReadHeader(file).value, w.config.stereo, w.config.encoding, w.config.sampleRate)
      && file[HEADER_SIZE..] == data
      && DecodeIntAt(file, OFFSET_RIFF_SIZE) == |data| + 36
      && DecodeIntAt(file, OFFSET_DATA_SIZE) == |data|
  {
    var c := w.config;
    var p := AssurePreamble(w).value;
    var f := Contents(p);
    var file := CloseWithHeader(w).value.file;
    assert file == Close(p).value.file;
    ClosedHeaderReadsAsWritten(p, c.revision, data);
    CurrentHeaderRoundTrip(c.stereo, c.encoding, c.sampleRate, data);
    ClosedDataAndSizes(p, data);
  }

  /** After `close`, the reader sees the same header as in the bytes before back-patching. */
  lemma ClosedHeaderReadsAsWritten(p: Writer, rev: Revision, data: seq<u8>)
    requires Writing(p) && p.config.revision == rev && Contents(p) == HeaderOf(p.config) + data
    ensures ReadHeader(Close(p).value.file) == ReadHeader(HeaderOf(p.config) + data)
  {
    var c := p.config;
    var f := Contents(p);
    CloseBackpatches(p);
    var fmt := FormatFor(c.revision, c.stereo, c.encoding, c.sampleRate);
    assert f == HeaderBytes(fmt) + data;
    HeaderFormatLength(fmt, data);
    ReadHeaderIgnoresSizeFields(f, Close(p).value.file);
  }

  /** After `close`, the data follows the header unchanged and the size fields count it. */
  lemma ClosedDataAndSizes(p: Writer, data: seq<u8>)
    requires Writing(p) && Contents(p) == HeaderOf(p.config) + data
    requires HEADER_SIZE + |data| < TWO_31
    ensures var file := Close(p).value.file;
      && file[HEADER_SIZE..] == data
      && DecodeIntAt(file, OFFSET_RIFF_SIZE) == |data| + 36
      && DecodeIntAt(file, OFFSET_DATA_SIZE) == |data|
  {
    var f := Contents(p);
    var file := Close(p).value.file;
    CloseBackpatches(p);
    assert forall i :: 0 <= i < |data| ==> file[HEADER_SIZE + i] == f[HEADER_SIZE + i] == data[i];
  }

  /**
   * Every stereo recording of the older writer is rejected by the reader, whatever it holds, because
   * of the block align in its header.
   */
  lemma LegacyStereoRecordingIsRejected(w: Writer, data: seq<u8>)
    requires Valid(w) && !w.closed && w.config.revision == Legacy && w.config.stereo
    requires Contents(AssurePreamble(w).value) == HeaderOf(w.config) + data
    ensures ReadHeader(CloseWithHeader(w).value.file) == Failure(InvalidWavFile)
  {
    var c := w.config;
    var p := AssurePreamble(w).value;
    assert CloseWithHeader(w).value.file == Close(p).value.file;
    ClosedHeaderReadsAsWritten(p, c.revision, data);
    LegacyStereoHeaderRejected(c.encoding, c.sampleRate, data);
  }
}

=== FILE: wrappers.dfy ===
/** Option and Result, used for the source's nullable values and thrown exceptions. */
module Wrappers {

  datatype Option<+T> = None | Some(value: T) {
    function GetOr(default: T): T {
      match this
      case Some(v) => v
      case None => default
    }
  }

  /** `Failure` carries the exception the source would throw. */
  datatype Result<+R, +E> = Success(value: R) | Failure(error: E) {
    predicate IsFailure() {
      Failure?
    }

    function PropagateFailure<U>(): Result<U, E>
      requires Failure?
    {
      Failure(error)
    }

    function Extract(): R
      requires Success?
    {
      value
    }
  }
}
